=== FILE: README.md ===
# Personal-finance dashboard: a Dafny model of its decision logic

This project models the decision logic of a personal-finance dashboard. The dashboard has two parts: a TypeScript front end and a small Python "AI service". The model covers the pure, sequential logic in both parts:

- the dashboard's totals, thresholds and insight cards;
- its list-state handlers;
- its form validators;
- its lookup and colour helpers;
- the AI service's cleaning, summaries, recommendations, anomaly scoring, weekly forecast and model store.

Each source file has its own Dafny module.

| module | models |
|---|---|
| `HomeOverview` | components/dashboard/home-overview.tsx: current-month filter, income/expense totals, cash flow, debt total, guarded budget percentage, expenses by category |
| `BudgetCards` | components/dashboard/budget-cards.tsx: good/warning/danger status, unclamped remaining amount, the built-in table |
| `BudgetInsights`, `DebtInsights`, `ShowFilter` | components/dashboard/budget-insights.tsx and debt-insights.tsx: which insight cards are built and shown, in which order |
| `GoalCards`, `GoalOverview` | components/dashboard/goal-cards.tsx and goal-overview.tsx: the clamped per-goal progress and the unclamped aggregate progress with their two zero guards |
| `TransactionsView` | components/dashboard/transactions-view.tsx: search/type/account filter, selection state, header checkbox, signed totals |
| `ChartsView` | components/dashboard/charts-view.tsx: the widget list (visible filter and sort, toggle, remove, add), grid classes, counts |
| `AccountsList` | components/dashboard/accounts-list.tsx: visibility and favourite toggles, balance masking |
| `ExpenseBreakdown` | components/dashboard/expense-breakdown.tsx: total, recomputed percentages, slice angles, large-arc flag, label side |
| `CategoryColor` | lib/categoryColor.ts |
| `I18n` | lib/contexts/language-context.tsx: the English and Spanish tables, `t` with fallback to the key, the stored-language rule |
| `EmailPattern`, `Signup`, `Signin`, `Contact` | the shared email pattern and the three forms' validation, submission and error clearing |
| `DataProcessor` | ai-service/utils/data_processor.py: field defaults, date-format fallback, cleaning, financial summary, weekly patterns |
| `Recommender` | ai-service/models/recommender.py: analysis, health score, the five rule generators, priority score, prioritisation |
| `AnomalyDetector` | ai-service/models/anomaly_detector.py: routing, the few-expense fallback, category, frequency and timing rules, risk score, de-duplication |
| `Predictor` | ai-service/models/predictor.py: routing, per-category estimates and their clamps, the weekday adjustment, fallback and default forecasts |
| `ModelStorage` | ai-service/data/model_storage.py: the FIFO model cache, structure validation, load/delete cache behaviour, trained categories, backup retention |
| `Wrappers`, `Numeric`, `Text`, `Seqs`, `Sorting`, `Grouping` | shared vocabulary: `Option`, sums, means and clamps, JavaScript/Python string helpers, order-preserving filter and map, stable sort by key, group-by in first-appearance order (JavaScript `Map`) and in key order (pandas `groupby`) |

## Modelling choices

- Money, ratios and percentages are `real`; nothing is rounded.
- The JavaScript and Python defaults are explicit:
  - `Number(x ?? 0)` reads an absent field as 0;
  - `Number(x || 0)` also reads NaN and 0 as 0;
  - Python's `float(x) if x else 0.0` reads every falsy value as 0.
- Where IEEE arithmetic decides a branch, the model spells out the outcome. Examples: the budget status for a zero budget, and the anomaly concentration share for a zero total.
- Python dictionaries keep insertion order. They are sequences of key/value pairs, so the FIFO cache evicts the first-inserted user.
- Things the code only receives from outside are parameters:
  - the clock (`now`, today's weekday);
  - `strptime`;
  - the regression fit, `polyfit` slope and standard deviation;
  - the IsolationForest, z-score and weekday-deviation findings;
  - the file system (model files, metadata files, the backup listing with modification times).
- Timestamps are whole seconds since the epoch, naive as in the Python code. The weekday and the hour are derived from them.
- pandas `groupby(...)` yields its groups in ascending key order (Python's `<` on strings, `<` on weekday numbers); pandas `.unique()` and a JavaScript `Map` keep the order of first appearance.

Where the repository's written description and its code differ, the model follows the code:

- `getBudgetStatus` has no guard against a zero budget (components/dashboard/budget-cards.tsx:73-78).
  - A zero budget with positive spending is "danger" (an infinite share).
  - A zero budget with no spending is "good".
- The budget insights' success card (below 50 %) and warning card (above 90 %) exclude each other (components/dashboard/budget-insights.tsx:18-34).
- `hasDebt` is `totalDebt > 0`, so a negative total counts as no debt (components/dashboard/debt-insights.tsx:12-14).
- For an empty transaction frame, the recommender's analysis holds only the health score and two totals (ai-service/models/recommender.py:92-93). The generators then read every other field through its `.get` default, so "has a budget" is false.

## Model

| member | source | states |
|---|---|---|
| AccountsList.ToggleVisibility | components/dashboard/accounts-list.tsx:47-51 | the list keeps its length; exactly the accounts with the id get `isVisible` negated, every other field and every other account stays as it was |
| AccountsList.ToggleFavorite | components/dashboard/accounts-list.tsx:53-57 | the same frame condition, with `isFavorite` the only field flipped |
| AccountsList.TogglesAreInvolutions | components/dashboard/accounts-list.tsx:47-57 | applying either toggle twice with the same id gives back the original list |
| AccountsList.TogglesCommute | components/dashboard/accounts-list.tsx:47-57 | a visibility toggle and a favourite toggle commute, whatever the two ids |
| AccountsList.UnknownIdChangesNothing | components/dashboard/accounts-list.tsx:47-57 | an id no account carries leaves the list unchanged under both toggles |
| AccountsList.BalanceShown | components/dashboard/accounts-list.tsx:119 | the balance is shown exactly when `isVisible`; otherwise the six-bullet mask |
| AccountsList.ToggleSwitchesMask | components/dashboard/accounts-list.tsx:47-119 | toggling an account's visibility switches its cell between the amount and the mask |
| BudgetCards.JsDiv | components/dashboard/budget-cards.tsx:74 | JavaScript division: a finite quotient for a non-zero divisor, otherwise +Infinity, -Infinity or NaN according to the sign of the dividend |
| BudgetCards.Color | components/dashboard/budget-cards.tsx:75-77 | the red colour is used exactly for danger |
| BudgetCards.GetBudgetStatus | components/dashboard/budget-cards.tsx:73-78 | with a positive budget: danger iff spent ≥ 0.9·budget, warning iff 0.7·budget ≤ spent < 0.9·budget, good iff spent < 0.7·budget; with a zero budget (no guard in the code): danger iff spent > 0 and never warning |
| BudgetCards.ThresholdOnRatio | components/dashboard/budget-cards.tsx:74-76 | for a positive budget, the percentage test `spent/budget·100 ≥ 100f` is the linear test `spent ≥ f·budget` |
| BudgetCards.StatusMonotoneInSpent | components/dashboard/budget-cards.tsx:73-78 | for a fixed positive budget, more spending never gives a less severe status |
| BudgetCards.StatusDependsOnlyOnRatio | components/dashboard/budget-cards.tsx:74-102 | scaling spent and budget by the same positive factor leaves the status unchanged |
| BudgetCards.CardOf | components/dashboard/budget-cards.tsx:100-125 | remaining = budget − spent, unclamped, negative exactly when spent > budget; the alert icon is drawn exactly for danger, i.e. at a percentage of at least 90 |
| BudgetCards.Cards | components/dashboard/budget-cards.tsx:100-103 | one card per budget row, in order |
| BudgetCards.BuiltInStatuses | components/dashboard/budget-cards.tsx:12-100 | on the built-in table Home Decor is the only warning, the other four are good, and no card shows the alert |
| BudgetInsights.Insights | components/dashboard/budget-insights.tsx:18-43 | the info card is always shown and comes last; success is shown iff the share used is below 50, warning iff it is above 90; so there are one or two cards, in the order success, warning, info |
| BudgetInsights.MiddleBandShowsOnlyInfo | components/dashboard/budget-insights.tsx:21-29 | for any share in [50, 90], both ends included, only the info card remains |
| ShowFilter.Shown | components/dashboard/budget-insights.tsx:43 | `.filter(i => i.show)` keeps only candidates whose flag is set and is no longer than the candidate list |
| ShowFilter.ShownOfThree | components/dashboard/debt-insights.tsx:17-44 | on a three-candidate list each candidate is kept exactly when its flag is set, in candidate order |
| DebtInsights.Insights | components/dashboard/debt-insights.tsx:12-44 | always exactly two cards: success iff there is no debt (a missing total reads 0), otherwise warning carrying the backend advice unchanged; then the info card, whose text reports the total only when there is debt |
| DebtInsights.NonPositiveTotalIsNoDebt | components/dashboard/debt-insights.tsx:12-14 | a missing, zero or negative total gives the success card |
| CategoryColor.CategoryColor | lib/categoryColor.ts:1-16 | each of the five named categories gets its own class; the result is grey exactly for strings that are none of the five |
| CategoryColor.NamedColorsDistinct | lib/categoryColor.ts:2-12 | distinct named categories get distinct colours |
| CategoryColor.CapitalisedIsGray | lib/categoryColor.ts:2-14 | matching is case-sensitive: "Rental" is grey |
| GoalCards.GoalPct | components/dashboard/goal-cards.tsx:24-27 | the bar value lies in [0, 100]; it is 0 when nothing is saved; it is exactly current/target·100 for target ≥ 1 and 0 ≤ current ≤ target; it is 100 once current ≥ target ≥ 1; below a target of 1 it divides by 1 |
| GoalCards.GoalPctMonotone | components/dashboard/goal-cards.tsx:24-27 | for a fixed target, more saved money never shows less progress |
| GoalCards.ZeroTargetIsFull | components/dashboard/goal-cards.tsx:26 | 50 saved towards a target of 0 shows 100, not an infinity |
| GoalOverview.ProgressPct | components/dashboard/goal-overview.tsx:14 | 0 when the total target is not positive; otherwise unclamped: above 100 exactly when saved exceeds target, and 100 exactly when they are equal |
| GoalOverview.Compute | components/dashboard/goal-overview.tsx:6-14 | the loading placeholder is shown exactly while the query loads; otherwise the totals are the sums of each goal's amounts with falsy amounts read as 0 (all 0 without data), the progress is 0 without a positive target and otherwise the current total as a percentage of the target total (above 100 exactly when the current total exceeds the target), and the count is `meta.total` when given and the list length otherwise |
| GoalOverview.AddingGoalAddsTarget | components/dashboard/goal-overview.tsx:12 | one more goal adds its target when the target is a truthy number and nothing when it is missing, 0 or NaN |
| GoalOverview.CardAndOverviewGuardsDiffer | components/dashboard/goal-overview.tsx:14 | a single goal with target 0 and 50 saved is at 100 % on its card and at 0 % in the overview |
| GoalOverview.EmptyListHasNoProgress | components/dashboard/goal-overview.tsx:7-14 | an empty goal list has zero progress |
| HomeOverview.SameMonthIgnoresDayAndTime | components/dashboard/home-overview.tsx:18-20 | two valid dates are in the same month iff their years and months agree; moving either to any other day or time of day changes nothing |
| HomeOverview.MonthTx | components/dashboard/home-overview.tsx:27-33 | every kept transaction is dated (date, else createdAt, else now) in the current month, every such transaction is kept, nothing else is added, and the list does not grow |
| HomeOverview.MonthTxSnoc | components/dashboard/home-overview.tsx:29-31 | `.filter` one transaction at a time: the empty list gives nothing, and one more transaction is appended, once and last, exactly when it falls in the month |
| HomeOverview.MonthTxAppend | components/dashboard/home-overview.tsx:29-31 | the month's transactions of a list split in two are those of each part, so the kept transactions stay in list order |
| HomeOverview.UndatedIsCurrentMonth | components/dashboard/home-overview.tsx:28-31 | a transaction with neither `date` nor `createdAt` is always in the current month |
| HomeOverview.TotalOfKindAppend | components/dashboard/home-overview.tsx:35-49 | one more transaction adds its amount (missing reads 0) to the income or expense total only when its lower-cased type is that kind; saving, debt, payment or investment rows change neither total |
| HomeOverview.KindIsCaseInsensitive | components/dashboard/home-overview.tsx:38-46 | the type is compared lower-cased, and `type` wins over `transactionType` |
| HomeOverview.TotalDebtAppend | components/dashboard/home-overview.tsx:55-58 | each debt adds its amount, a missing amount 0, with no month filter |
| HomeOverview.BudgetPct | components/dashboard/home-overview.tsx:61-64 | 0 with no summary or a non-positive budget; otherwise spent/budget·100 up to the budget and 100 beyond it, so never above 100 |
| HomeOverview.ExpensePairs | components/dashboard/home-overview.tsx:69-73 | one pair per expense transaction, in order: its category (missing → "Otros") and its amount (missing → 0); the pairs add up to the expense total |
| HomeOverview.ToSlices | components/dashboard/home-overview.tsx:75 | one `{label, value}` slice per map entry, in order, with the same total |
| HomeOverview.Pie | components/dashboard/home-overview.tsx:68-75 | `Array.from` of the accumulated `Map`: labels exactly the keys met, each once, in order of first appearance; each value the sum of its key's values; the slices sum to all values |
| HomeOverview.ExpensesByCategory | components/dashboard/home-overview.tsx:67-76 | the labels are exactly the expense categories (missing → "Otros"), each once, in order of first appearance; each value is the sum of its category's expenses, and the slices sum to the month's expense total |
| HomeOverview.Compute | components/dashboard/home-overview.tsx:22-76 | income and expense are the totals of that type over the month's transactions, cash flow is their difference and may be negative; the debt figure totals every debt; the budget percentage is that of the summary and at most 100; the pie is the month's expenses by category and sums to the expense total |
| TransactionsView.FilteredTransactions | components/dashboard/transactions-view.tsx:124-132 | a row is shown iff its description or category contains the query case-insensitively, the type filter is "all" or equal, and the account filter is "all" or equals the lower-cased account; nothing else is shown |
| TransactionsView.EmptyQueryKeepsEveryRow | components/dashboard/transactions-view.tsx:124-132 | an empty query with both filters at "all" shows every row |
| TransactionsView.FilterKeepsOrder | components/dashboard/transactions-view.tsx:124 | filtering a table split in two filters each part separately, so the shown rows keep table order |
| TransactionsView.SelectAll | components/dashboard/transactions-view.tsx:134-140 | checking selects exactly the filtered ids in order; unchecking empties the selection |
| TransactionsView.SelectTransaction | components/dashboard/transactions-view.tsx:142-148 | checking appends the id even if already selected and keeps the rest; unchecking removes every occurrence of the id and only it |
| TransactionsView.DeselectKeepsOrder | components/dashboard/transactions-view.tsx:146 | unchecking commutes with splitting the selection, so the remaining ids keep their order |
| TransactionsView.SelectAllChecksHeader | components/dashboard/transactions-view.tsx:134-301 | after select-all the header box is checked iff it was a check and some row is shown |
| TransactionsView.TotalIncome | components/dashboard/transactions-view.tsx:150 | the income total is never negative |
| TransactionsView.TotalExpenses | components/dashboard/transactions-view.tsx:152 | the expense total, a sum of magnitudes, is never negative |
| TransactionsView.IncomeStep | components/dashboard/transactions-view.tsx:150 | one more row adds its amount to income exactly when the amount is positive |
| TransactionsView.ExpenseStep | components/dashboard/transactions-view.tsx:152 | one more row adds its magnitude to expenses exactly when the amount is negative; a zero amount counts in neither |
| TransactionsView.NetIsSignedSum | components/dashboard/transactions-view.tsx:150-154 | the net amount, income − expenses, equals the plain sum of the signed amounts |
| ChartsView.DefaultsAreNumberedAndVisible | components/dashboard/charts-view.tsx:42-51 | the defaults are eight widgets with ids "1".."8", all visible, at positions 1..8 |
| ChartsView.VisibleCharts | components/dashboard/charts-view.tsx:60 | exactly the visible widgets, in ascending position, a permutation of the filtered list in which widgets of equal position keep list order (a stable sort) |
| ChartsView.ToggleChartVisibility | components/dashboard/charts-view.tsx:62-64 | `visible` is flipped on the widgets with that id only; every other field and widget is unchanged, and the length is kept |
| ChartsView.ToggleTwiceIsIdentity | components/dashboard/charts-view.tsx:62-64 | toggling the same id twice restores the list |
| ChartsView.RemoveChart | components/dashboard/charts-view.tsx:66-68 | every widget with that id is dropped, every other widget kept; an absent id changes nothing |
| ChartsView.RemoveKeepsOrder | components/dashboard/charts-view.tsx:67 | removal from a split list removes from each part, so the kept widgets stay in order |
| ChartsView.AddChart | components/dashboard/charts-view.tsx:70-77 | exactly one widget is appended at the end, with the caller's fields, the clock-derived id and position old length + 1; the old widgets are untouched |
| ChartsView.RemoveThenAddDuplicatesPosition | components/dashboard/charts-view.tsx:66-77 | positions are not kept unique: when the last widget sits at position n, removing another widget and adding one puts two widgets at position n |
| ChartsView.DefaultsRemoveThenAdd | components/dashboard/charts-view.tsx:42-77 | on the defaults, removing widget "3" and adding one leaves two widgets at position 8 |
| ChartsView.GridClass | components/dashboard/charts-view.tsx:102-113 | medium and large get their two- and three-column classes; small and any unknown size get "col-span-1" |
| ChartsView.Stats | components/dashboard/charts-view.tsx:115-119 | the hidden count is total − visible, is never negative, and equals the number of hidden widgets |
| ChartsView.VisiblePlusHidden | components/dashboard/charts-view.tsx:60-118 | visible and hidden widgets together account for every widget |
| ExpenseBreakdown.SegmentsFrom | components/dashboard/expense-breakdown.tsx:14-27 | each segment copies its item and takes its percentage; the first starts at the angle of the running percentage, each starts where the previous ended, and the last ends at the angle of the running percentage plus all the percentages |
| ExpenseBreakdown.SumFrom | components/dashboard/expense-breakdown.tsx:19 | accumulating the percentages front to back gives their sum |
| ExpenseBreakdown.Segments | components/dashboard/expense-breakdown.tsx:11-27 | with a non-zero total: one segment per item, each percentage recomputed as amount/total·100 (overriding the stated field), the first starting at 0, contiguous, the last ending at 360; a zero total gives no segments |
| ExpenseBreakdown.Shares | components/dashboard/expense-breakdown.tsx:16 | each value's share of the total, in percent |
| ExpenseBreakdown.SumOfShares | components/dashboard/expense-breakdown.tsx:11-16 | the shares of the values sum to the share of their sum |
| ExpenseBreakdown.OneHundredPercent | components/dashboard/expense-breakdown.tsx:11-16 | the total is 100 % of itself |
| ExpenseBreakdown.PercentagesTotalHundred | components/dashboard/expense-breakdown.tsx:11-27 | with a non-zero total the percentages sum to exactly 100 |
| ExpenseBreakdown.RentalShareIsNotStatedShare | components/dashboard/expense-breakdown.tsx:3-16 | on the built-in data the rental segment's recomputed percentage exceeds its stated 35 |
| ExpenseBreakdown.LargeArcFlag | components/dashboard/expense-breakdown.tsx:33 | the flag is "1" exactly when the segment spans more than 180 degrees, "0" otherwise |
| ExpenseBreakdown.LargeArcIffOverHalf | components/dashboard/expense-breakdown.tsx:16-33 | a segment is drawn with the large arc exactly when its percentage exceeds 50 |
| ExpenseBreakdown.LabelAlign | components/dashboard/expense-breakdown.tsx:97-107 | right for 90 < mid < 270, left for mid < 90 or mid > 270, centred exactly at 90 and 270 |
| Text.Lower | components/dashboard/transactions-view.tsx:126-129 | lower-casing keeps the length and maps each character on its own |
| Text.Strip | ai-service/utils/data_processor.py:138 | `str.strip()`: the result has no whitespace at either end, and is empty exactly when the input is all whitespace |
| Text.StripFixed | ai-service/utils/data_processor.py:138 | a string with no whitespace at either end is its own strip |
| Text.StripLowerIdempotent | ai-service/utils/data_processor.py:138 | lower-casing and stripping a second time changes nothing |
| Text.StrLessIrreflexive | ai-service/utils/data_processor.py:169 | no string sorts before itself under Python's `<` |
| Text.StrLessTransitive | ai-service/utils/data_processor.py:169 | Python's string `<` is transitive |
| Text.StrLessTotal | ai-service/utils/data_processor.py:169 | of two different strings one sorts before the other, so a sort by category is determined |
| Text.ContainsIffOccurs | components/dashboard/transactions-view.tsx:126-127 | `includes` holds exactly when the query occurs at some offset |
| Text.Split | ai-service/data/model_storage.py:65 | `str.split('_')`: no piece contains the separator; the first piece is the text up to the first separator; a string without it gives itself; one with it gives at least two pieces |
| Text.Join | ai-service/data/model_storage.py:65 | `sep.join(parts)` starts with the first part and is that part alone when there is one |
| Text.JoinSplit | ai-service/data/model_storage.py:65 | joining the pieces of a split with the separator gives the string back, so the pieces are its separator-free runs in order |
| Text.SplitJoined | ai-service/data/model_storage.py:65 | splitting `a + "_" + b` gives back `a` and `b` |
| EmailPattern.IsValidEmail | app/signup/page.tsx:18-19 | an accepted address has no whitespace and exactly one '@' with something before it |
| EmailPattern.ValidIffMatches | app/signup/page.tsx:18-19 | the structural check (no whitespace, one '@', a non-empty local part, a '.' strictly inside the domain) accepts exactly the strings `/^[^\s@]+@[^\s@]+\.[^\s@]+$/` matches |
| EmailPattern.UntrimmedSpaceIsInvalid | app/signup/page.tsx:35-37 | " a@b.co" is rejected while "a@b.co" is accepted |
| Signup.Validate | app/signup/page.tsx:31-40 | a blank name, password or unchecked terms box each yields its own message; the e-mail yields "requerido" iff blank and "no válido" iff non-blank but rejected by the pattern, never both; nothing else has an entry |
| Signup.Submit | app/signup/page.tsx:41-45 | the new error map replaces the old one, and registration proceeds exactly when it is empty |
| Signup.SubmitIffComplete | app/signup/page.tsx:31-45 | registration proceeds iff name and password are non-blank, the e-mail matches the pattern and the terms are accepted |
| Signup.PaddedAddressIsMalformed | app/signup/page.tsx:35-37 | the untrimmed " a@b.co" is reported as invalid, not as missing |
| Signup.HandleChange | app/signup/page.tsx:21-29 | the changed input takes its new value (the checkbox its `checked` state) and its error becomes ""; every other input and error is unchanged |
| Signup.ChangeHidesOnlyItsMessage | app/signup/page.tsx:21-29 | editing an input hides that input's message and leaves every other message as shown or hidden as before |
| Signin.ClientErrors | app/signin/page.tsx:33-37 | a blank address gives "requerido", a non-blank one the pattern rejects gives "no válido", never both; a blank password gives its own error; the general error is never set here |
| Signin.GeneralMessage | app/signin/page.tsx:55-56 | the backend message when present and non-empty, otherwise 'Credenciales incorrectas.'; never empty |
| Signin.HandleSubmit | app/signin/page.tsx:28-61 | the request is made iff there is no client error; otherwise the client errors are shown and nothing is stored; a success stores the token and redirects with no error; a failure shows only the general message |
| Signin.RequestIffFieldsValid | app/signin/page.tsx:14-42 | the request is made exactly for an address the shared pattern accepts and a non-blank password |
| Signin.GeneralExcludesFieldErrors | app/signin/page.tsx:31-57 | the general error never appears next to a field error, and a rejected sign-in always shows a non-empty message |
| Contact.Validate | components/Contact/index.tsx:26-40 | a blank name or message each sets its own message; the e-mail error is "obligatorio" iff blank, "no es válido" iff non-blank and rejected by the shared pattern, and empty otherwise |
| Contact.HandleSubmit | components/Contact/index.tsx:25-47 | `hasError` is raised iff some error string is non-empty, and the data is logged iff it is not |
| Contact.LoggedIffValid | components/Contact/index.tsx:20-46 | the data is logged exactly for a non-blank name and message and an address the pattern accepts |
| Contact.HandleChange | components/Contact/index.tsx:13-18 | the named input takes the new value and its error is cleared |
| Contact.ChangeIsLocal | components/Contact/index.tsx:13-18 | a change touches only its own input: every other input keeps its value and its error |
| I18n.NavigationKeysMatch | lib/contexts/language-context.tsx:15-203 | the English and Spanish "Navigation" sections list the same keys in the same order |
| I18n.NavigationTranslatesEn | lib/contexts/language-context.tsx:15-23 | every English "Navigation" value is non-empty and differs from its key |
| I18n.NavigationTranslatesEs | lib/contexts/language-context.tsx:195-203 | every Spanish "Navigation" value is non-empty and differs from its key |
| I18n.DashboardKeysMatch | lib/contexts/language-context.tsx:24-216 | the English and Spanish "Dashboard" sections list the same keys in the same order |
| I18n.DashboardTranslatesEn | lib/contexts/language-context.tsx:24-36 | every English "Dashboard" value is non-empty and differs from its key |
| I18n.DashboardTranslatesEs | lib/contexts/language-context.tsx:204-216 | every Spanish "Dashboard" value is non-empty and differs from its key |
| I18n.SettingsKeysMatch | lib/contexts/language-context.tsx:37-243 | the English and Spanish "Settings" sections list the same keys in the same order |
| I18n.SettingsTranslatesEn | lib/contexts/language-context.tsx:37-63 | every English "Settings" value is non-empty and differs from its key |
| I18n.SettingsTranslatesEs | lib/contexts/language-context.tsx:217-243 | every Spanish "Settings" value is non-empty and differs from its key |
| I18n.CommonKeysMatch | lib/contexts/language-context.tsx:64-266 | the English and Spanish "Common" sections list the same keys in the same order |
| I18n.CommonTranslatesEn | lib/contexts/language-context.tsx:64-86 | every English "Common" value is non-empty and differs from its key |
| I18n.CommonTranslatesEs | lib/contexts/language-context.tsx:244-266 | every Spanish "Common" value is non-empty and differs from its key |
| I18n.AccountsKeysMatch | lib/contexts/language-context.tsx:87-286 | the English and Spanish "Accounts" sections list the same keys in the same order |
| I18n.AccountsTranslatesEn | lib/contexts/language-context.tsx:87-106 | every English "Accounts" value is non-empty and differs from its key |
| I18n.AccountsTranslatesEs | lib/contexts/language-context.tsx:267-286 | every Spanish "Accounts" value is non-empty and differs from its key |
| I18n.TransactionsKeysMatch | lib/contexts/language-context.tsx:107-306 | the English and Spanish "Transactions" sections list the same keys in the same order |
| I18n.TransactionsTranslatesEn | lib/contexts/language-context.tsx:107-126 | every English "Transactions" value is non-empty and differs from its key |
| I18n.TransactionsTranslatesEs | lib/contexts/language-context.tsx:287-306 | every Spanish "Transactions" value is non-empty and differs from its key |
| I18n.BudgetKeysMatch | lib/contexts/language-context.tsx:127-322 | the English and Spanish "Budget" sections list the same keys in the same order |
| I18n.BudgetTranslatesEn | lib/contexts/language-context.tsx:127-142 | every English "Budget" value is non-empty and differs from its key |
| I18n.BudgetTranslatesEs | lib/contexts/language-context.tsx:307-322 | every Spanish "Budget" value is non-empty and differs from its key |
| I18n.ChartsKeysMatch | lib/contexts/language-context.tsx:143-333 | the English and Spanish "Charts" sections list the same keys in the same order |
| I18n.ChartsTranslatesEn | lib/contexts/language-context.tsx:143-153 | every English "Charts" value is non-empty and differs from its key |
| I18n.ChartsTranslatesEs | lib/contexts/language-context.tsx:323-333 | every Spanish "Charts" value is non-empty and differs from its key |
| I18n.AiReportKeysMatch | lib/contexts/language-context.tsx:154-345 | the English and Spanish "AI Report" sections list the same keys in the same order |
| I18n.AiReportTranslatesEn | lib/contexts/language-context.tsx:154-165 | every English "AI Report" value is non-empty and differs from its key |
| I18n.AiReportTranslatesEs | lib/contexts/language-context.tsx:334-345 | every Spanish "AI Report" value is non-empty and differs from its key |
| I18n.CategoriesKeysMatch | lib/contexts/language-context.tsx:166-357 | the English and Spanish "Categories" sections list the same keys in the same order |
| I18n.CategoriesTranslatesEn | lib/contexts/language-context.tsx:166-177 | every English "Categories" value is non-empty and differs from its key |
| I18n.CategoriesTranslatesEs | lib/contexts/language-context.tsx:346-357 | every Spanish "Categories" value is non-empty and differs from its key |
| I18n.TimePeriodsKeysMatch | lib/contexts/language-context.tsx:178-365 | the English and Spanish "Time periods" sections list the same keys in the same order |
| I18n.TimePeriodsTranslatesEn | lib/contexts/language-context.tsx:178-185 | every English "Time periods" value is non-empty and differs from its key |
| I18n.TimePeriodsTranslatesEs | lib/contexts/language-context.tsx:358-365 | every Spanish "Time periods" value is non-empty and differs from its key |
| I18n.StatusKeysMatch | lib/contexts/language-context.tsx:186-372 | the English and Spanish "Status" sections list the same keys in the same order |
| I18n.StatusTranslatesEn | lib/contexts/language-context.tsx:186-192 | every English "Status" value is non-empty and differs from its key |
| I18n.StatusTranslatesEs | lib/contexts/language-context.tsx:366-372 | every Spanish "Status" value is non-empty and differs from its key |
| I18n.Lookup | lib/contexts/language-context.tsx:396 | a key has a value exactly when the table lists it, and the value found is the one stored with it |
| I18n.Translate | lib/contexts/language-context.tsx:395-397 | the entry, or the key itself when the entry is missing or empty: an absent key comes back unchanged; a present key with a non-empty value gives that value |
| I18n.T | lib/contexts/language-context.tsx:395-397 | `t(key)` gives the current language's entry when present and non-empty, the key otherwise |
| I18n.EchoIffAbsentIn | lib/contexts/language-context.tsx:396 | over entries whose values are all real translations, the key comes back exactly when it is absent |
| I18n.TableKeysAgree | lib/contexts/language-context.tsx:13-374 | the whole English and Spanish tables list the same keys |
| I18n.TableFacts | lib/contexts/language-context.tsx:13-374 | every value of either table is non-empty and differs from its key, and neither table has "nav.debts", "settings.profileInformation" or "categories.phone" |
| I18n.SameKeys | lib/contexts/language-context.tsx:13-374 | the two tables `t` reads list the same keys, in the same order |
| I18n.TranslationsTranslate | lib/contexts/language-context.tsx:13-374 | every value `t` can return from a table is a real translation |
| I18n.TranslationsLack | lib/contexts/language-context.tsx:13-374 | neither table has an entry for the three keys the dashboard asks for without defining them |
| I18n.EchoIffAbsent | lib/contexts/language-context.tsx:395-397 | `t` echoes its argument exactly when the current table has no entry for it |
| I18n.FallbackIndependentOfLanguage | lib/contexts/language-context.tsx:13-397 | whether `t` falls back to the key never depends on the language |
| I18n.MissingKeysEcho | lib/contexts/language-context.tsx:395-397 | "nav.debts", "settings.profileInformation" and "categories.phone" are shown as the raw key in either language |
| I18n.AdoptStored | lib/contexts/language-context.tsx:379-389 | the initial language is Spanish and a stored value is adopted only when it is exactly "en" or "es"; so English results iff "en" is stored |
| DataProcessor.DayOfWeek | ai-service/utils/data_processor.py:132 | pandas `dayofweek` of a naive timestamp lies in 0..6 |
| DataProcessor.KnownWeekdays | ai-service/utils/data_processor.py:132 | the weekday is anchored on the calendar: 1970-01-01 is 3 (Thursday), 1970-01-05 and 2024-01-01 are 0 (Monday), 2000-01-01 is 5 (Saturday), the second before the epoch is 2 (Wednesday) |
| DataProcessor.DayOfWeekAdvances | ai-service/utils/data_processor.py:132 | a day later is the next weekday, Sunday wrapping to Monday |
| DataProcessor.DaysAgo | ai-service/utils/data_processor.py:135 | `(now - date).days` is the number of whole days elapsed, rounded toward minus infinity |
| DataProcessor.FirstParse | ai-service/utils/data_processor.py:105-111 | the result is the value of the first format `strptime` accepts, every earlier format having failed; none exactly when every format fails |
| DataProcessor.FirstParseShift | ai-service/utils/data_processor.py:107-111 | skipping a first format that fails finds what the search from the next format finds |
| DataProcessor.ParseDate | ai-service/utils/data_processor.py:101-117 | the value of the first of the four formats (`%Y-%m-%d`, `%Y-%m-%dT%H:%M:%S`, `%Y-%m-%dT%H:%M:%S.%f`, `%d/%m/%Y`) that accepts the string; `now` when none does |
| DataProcessor.FirstParseIsFirst | ai-service/utils/data_processor.py:107-111 | the search returns the value of the one format that parses with every earlier format failing |
| DataProcessor.OrDefault | ai-service/utils/data_processor.py:39 | `x or d` on an optional string: the value when present and non-empty, `d` otherwise |
| DataProcessor.ToTxRow | ai-service/utils/data_processor.py:36-42 | a falsy amount becomes 0.0, a falsy category "other", a falsy description ""; category and type are lower-cased; a truthy date is parsed by `_parse_date`, a falsy one is `now` |
| DataProcessor.ProcessTransactions | ai-service/utils/data_processor.py:27-54 | a transaction without a type makes `.lower()` raise and the whole result empty; otherwise every transaction is converted and the frame cleaned |
| DataProcessor.Derive | ai-service/utils/data_processor.py:129-138 | a kept expense's amount becomes its absolute value and is positive, other types keep theirs; the category is the lower-cased, stripped category; the weekday is the row date's `dayofweek` and the age the whole days since the date |
| DataProcessor.CleanedCategoryIsNormal | ai-service/utils/data_processor.py:138 | a cleaned category is already lower-case and stripped: normalising it again changes nothing |
| DataProcessor.DeriveAll | ai-service/utils/data_processor.py:129-138 | the derived columns are computed row by row |
| DataProcessor.Clean | ai-service/utils/data_processor.py:119-140 | after cleaning every expense amount is positive and every weekday in 0..6; rows are never added |
| DataProcessor.KeptRowSurvives | ai-service/utils/data_processor.py:126 | every row except a non-positive expense, of any type and whatever its amount, comes out derived |
| DataProcessor.CleanedRowHasSource | ai-service/utils/data_processor.py:126 | every cleaned row comes from a kept input row |
| DataProcessor.CleanAppend | ai-service/utils/data_processor.py:126-138 | cleaning a frame split in two cleans each part, so row order is preserved |
| DataProcessor.ProcessDebts | ai-service/utils/data_processor.py:78-99 | one row per debt with its amount, a falsy interest rate read as 0.0 and a falsy due date left empty; a debt without an amount makes `float(None)` raise and the whole result empty |
| DataProcessor.SpendingTrend | ai-service/utils/data_processor.py:179-185 | with positive older spending: increasing iff recent > 1.2·older, decreasing iff recent < 0.8·older; stable otherwise and whenever older ≤ 0 |
| DataProcessor.CategoryPairs | ai-service/utils/data_processor.py:169 | the (category, amount) pairs of the rows add up to the rows' total |
| DataProcessor.RecentPlusOlder | ai-service/utils/data_processor.py:175-177 | the rows dated at or after the cutoff and those dated before split every total |
| DataProcessor.Cutoff | ai-service/utils/data_processor.py:175 | the cutoff lies exactly thirty days before `now` |
| DataProcessor.RecentTotal | ai-service/utils/data_processor.py:176-177 | the thirty-day spending plus the earlier spending is the expense total |
| DataProcessor.TotalIsSum | ai-service/utils/data_processor.py:163-164 | a column's `sum()` is the sum of the amounts |
| DataProcessor.AverageAmount | ai-service/utils/data_processor.py:172 | 0 with no rows, otherwise a value which, times the row count, gives the total |
| DataProcessor.PositiveMean | ai-service/utils/data_processor.py:172 | the mean of positive amounts is positive |
| DataProcessor.Expenses | ai-service/utils/data_processor.py:161 | exactly the expense rows, and nothing when there are none |
| DataProcessor.Summarize | ai-service/utils/data_processor.py:146-197 | an empty frame gives all zeros and an empty breakdown; otherwise income is the sum of the income rows and expenses the sum of the expense rows, net = income − expenses, the breakdown is exactly the per-category sums of the expense rows (unique categories in ascending order, no other bucket), the count is the row count, the mean is the expenses' mean, the thirty-day figure is the total of the expenses dated on or after `now` minus 30 days, and the trend follows the 1.2/0.8 rule on that figure against the earlier spending |
| DataProcessor.FrameSummary | ai-service/utils/data_processor.py:160-172 | for a non-empty frame: income is the sum of the income rows, net = income − expenses, the breakdown is exactly the per-category sums of the expense rows with unique categories in ascending order, summing to the expense total, and the mean is the expenses' mean |
| DataProcessor.BreakdownSumsEachCategory | ai-service/utils/data_processor.py:168-169 | each breakdown entry is the sum of that category's expenses, and every expense category has an entry |
| DataProcessor.AverageExpenseIsPositive | ai-service/utils/data_processor.py:126-172 | once non-positive expenses are dropped, the mean expense is positive whenever there is one |
| DataProcessor.DayName | ai-service/utils/data_processor.py:217-218 | exactly the indices 0..6 have a name, and they are "monday" to "sunday" in that order |
| DataProcessor.DayNamesDistinct | ai-service/utils/data_processor.py:217-218 | different weekdays have different names, so a name identifies its weekday |
| DataProcessor.NameDays | ai-service/utils/data_processor.py:220 | every output key is a day name, and when every group key is a weekday each group is kept, named and given its mean |
| DataProcessor.WeeklyPatterns | ai-service/utils/data_processor.py:203-222 | no expenses gives an empty pattern, and every key is one of the seven day names |
| DataProcessor.DailyMeans | ai-service/utils/data_processor.py:214-220 | every key of the grouped means is a day name |
| DataProcessor.WeeklyPatternIsDailyMean | ai-service/utils/data_processor.py:209-222 | with cleaned weekdays, each weekday that has an expense gets exactly one entry, under its name, holding the mean of that weekday's expenses, and the entries come Monday first as the sorted groups do |
| Numeric.OrZero | components/dashboard/home-overview.tsx:39 | `Number(x ?? 0)`: an absent field counts as 0, a present one as itself |
| Numeric.FalsyOrZero | components/dashboard/goal-overview.tsx:12 | a falsy value is replaced by 0 before `Number`: a missing field or NaN counts as 0, a number as itself |
| Numeric.Clamp | components/dashboard/goal-cards.tsx:24-27 | `Math.min(hi, Math.max(lo, x))` lies in [lo, hi], is `x` inside it and the nearer bound outside it |
| Grouping.Add | components/dashboard/home-overview.tsx:72-73 | `map.set(k, (map.get(k) ?? 0) + v)`: the bucket of `k` gains `v` and one more count, or a new bucket opens at the end; keys stay unique, other buckets are untouched, and the grand total grows by `v` |
| Grouping.GroupBy | components/dashboard/home-overview.tsx:68-75 | one bucket per distinct key, holding the sum and count of the values paired with that key; the keys are exactly the input keys, and the buckets together sum to the input's total |
| Grouping.GroupByFirstAppearance | components/dashboard/home-overview.tsx:68-75 | the `Map` buckets hold exactly the input keys, in the order in which each key is first met |
| Grouping.FirstAppearanceStep | components/dashboard/home-overview.tsx:73 | meeting one more key keeps first-appearance order: a known key changes nothing, a new one goes last |
| Grouping.FirstAtPrefix | components/dashboard/home-overview.tsx:73 | a key's first occurrence does not move when values are appended |
| Grouping.SortedGroupBy | ai-service/utils/data_processor.py:169 | pandas `groupby(key)` under a strict order: one bucket per distinct key with that key's sum and count, the buckets together summing to the input total, in ascending key order |
| Grouping.GroupByText | ai-service/utils/data_processor.py:169 | `groupby('category')`: the groups of every category, in ascending string order, with their sums and counts |
| Grouping.GroupByNumber | ai-service/utils/data_processor.py:214 | `groupby('day_of_week')`: the groups of every weekday, in strictly ascending weekday order, with their sums and counts |
| Grouping.InsertBucket | ai-service/utils/data_processor.py:169 | inserting a new bucket into the sorted groups adds exactly that bucket and its total |
| Grouping.InsertAscending | ai-service/utils/data_processor.py:169 | inserting a bucket of a new key keeps the groups in ascending key order |
| Grouping.InsertedGrouping | ai-service/utils/data_processor.py:169 | inserting the first value of a new key in sorted position still groups the input |
| Grouping.PermutedGrouping | ai-service/utils/data_processor.py:169 | any rearrangement of a grouping with unique keys is still a grouping of the same input |
| Grouping.GroupingKeys | ai-service/utils/data_processor.py:169 | a grouping's keys are exactly the input's keys |
| Grouping.SameKeysAscending | ai-service/utils/data_processor.py:169 | buckets with the same key sequence as sorted buckets are sorted too |
| Grouping.TotalsCons | ai-service/utils/data_processor.py:169 | the grand total of buckets is the first bucket's total plus the rest's |
| Grouping.StrLessIsStrictOrder | ai-service/utils/data_processor.py:169 | Python's string `<` is a strict total order, so `groupby` on strings has one sorted result |
| Grouping.IntLessIsStrictOrder | ai-service/utils/data_processor.py:214 | `<` on weekday numbers is a strict total order |
| Grouping.SumWhereAtMostTotal | ai-service/models/anomaly_detector.py:219-222 | with non-negative values, one group's total never exceeds the grand total |
| Grouping.Unique | ai-service/models/predictor.py:45 | pandas `unique()`: every listed value occurs in the input, every input value is listed, and none is listed twice |
| Grouping.UniqueFirstAppearance | ai-service/models/predictor.py:45 | the listed values keep the order of their first appearance in the input |
| Grouping.GroupMeansNonNegative | ai-service/models/predictor.py:210 | non-negative values give every group a non-negative mean |
| Grouping.GroupTotalsNonNegative | ai-service/models/predictor.py:217 | non-negative values give non-negative group totals |
| Recommender.RawHealthScore | ai-service/models/recommender.py:165-187 | the unclamped score lies in [2, 11]: 11 for the best savings, debt and balance bands and 2 for the worst |
| Recommender.HealthScore | ai-service/models/recommender.py:161-189 | the score lies in [1, 10]; it equals the raw score up to 10 and is cut to 10 above, so the lower clamp never acts |
| Recommender.HealthScoreMonotone | ai-service/models/recommender.py:165-189 | more savings, a lower debt ratio or a better balance never lower the health score |
| Recommender.Percentages | ai-service/models/recommender.py:114-117 | the shares have exactly the grouped categories as keys, and with unique categories each share is the category total over the expense total, in percent |
| Recommender.Ratio | ai-service/models/recommender.py:107-108 | a ratio against a non-positive income is 0; against a positive income it times the income gives back the amount |
| Recommender.CategoryShares | ai-service/models/recommender.py:112-119 | no shares at all when the expense total is not positive |
| Recommender.CategoryShareIsGroupedSum | ai-service/models/recommender.py:113-117 | with a positive total, a category has a share iff it has an expense, and the share is that category's summed expenses over the total, in percent |
| Recommender.Assemble | ai-service/models/recommender.py:106-124 | net income is income minus expenses, each ratio is its amount over a positive income and 0 otherwise, and the health score, kept within [1, 10], is the scoring rule on those figures |
| Recommender.Analyze | ai-service/models/recommender.py:85-155 | no transactions give the neutral analysis (score 5, zeros); otherwise income, savings and expenses are the sums of their rows, net = income − expenses, both ratios are 0 without positive income, the health score is the scoring rule on these figures and lies in [1, 10], the shares are each category's share of the expenses, the budget and debt flags follow their inputs, and the trend is the thirty-day rule |
| Recommender.AnalysisAgreesWithSummary | ai-service/models/recommender.py:85-110 | for a non-empty frame the analysis' income, expenses and net agree with the financial summary's |
| Recommender.SavingsRecs | ai-service/models/recommender.py:194-251 | a savings increase iff the rate is below 10 % with a positive net income; an emergency fund iff savings are below three months of expenses, naming exactly the shortfall; automatic savings iff the rate and the net income are positive; each type at most once, with priority high, high and medium respectively |
| Recommender.LimitRecs | ai-service/models/recommender.py:267-282 | one medium-priority expense reduction per watched category, and a category is flagged iff its share is above its limit |
| Recommender.ExpenseRecs | ai-service/models/recommender.py:257-310 | a category is flagged iff its share exceeds its limit; the trend advice iff expenses are increasing; the small-expenses advice iff expenses total more than 0; reductions are medium, the trend advice high and the small-expenses advice low priority, and the last two appear at most once |
| Recommender.CategoryLimitRule | ai-service/models/recommender.py:23-28 | entertainment, food, transportation and housing are flagged exactly above 15, 25, 20 and 30 % of the expenses |
| Recommender.DebtRecs | ai-service/models/recommender.py:316-370 | nothing without debts or with a zero total; otherwise a reduction iff the ratio is above 40 %, the payment strategy iff the total is positive, with a monthly payment of one twentieth of the debt, and consolidation iff the ratio is above 30 %; each type at most once, with priority high, medium and medium respectively |
| Recommender.ReductionImpliesConsolidation | ai-service/models/recommender.py:330-368 | whenever a debt reduction is advised, consolidation is advised too |
| Recommender.BudgetRecs | ai-service/models/recommender.py:376-428 | budget creation iff there is no budget and positive income; the 50/30/20 rule iff income is positive; a review iff a budget exists; each type at most once, with priority high, medium and low respectively |
| Recommender.CreationExcludesReview | ai-service/models/recommender.py:386-416 | creating a budget and reviewing one are never advised together |
| Recommender.InvestmentRecs | ai-service/models/recommender.py:434-470 | starting to invest iff the score is at least 7, the debt ratio below 30 % and the savings rate above 15 %; diversification iff the savings rate is above 20 %; both are low priority and each appears at most once |
| Recommender.AllRecs | ai-service/models/recommender.py:47-65 | the five generators together produce at most 17 recommendations, each carrying the fixed priority of its type |
| Recommender.CountPriority | ai-service/models/recommender.py:480-482 | a priority count never exceeds the number of recommendations |
| Recommender.PriorityScore | ai-service/models/recommender.py:476-494 | with s = 3·high + 2·medium + low: a health score below 4 gives min(10, s + 5), one above 8 gives min(10, max(1, s − 2)), and one in [4, 8] gives min(10, s); the result lies in [0, 10] |
| Recommender.PriorityScoreMonotone | ai-service/models/recommender.py:480-494 | one more recommendation never lowers the priority score |
| Recommender.RankOf | ai-service/models/recommender.py:503-506 | high ranks 0, medium 1 and every other priority 2 |
| Recommender.Prioritize | ai-service/models/recommender.py:499-510 | at most eight recommendations, sorted by rank, drawn from the input, keeping each rank's recommendations in their original order |
| Recommender.DroppedAreLeastUrgent | ai-service/models/recommender.py:504-510 | a recommendation is left out only when eight recommendations at least as urgent are kept |
| Recommender.GenerateRecommendations | ai-service/models/recommender.py:31-79 | the list is the prioritisation of every generated recommendation (at most eight, sorted by rank, counted in the total), the priority score is computed on the whole generated list before truncation, and the health score is the analysis' score |
| Recommender.GeneratedDroppedAreLeastUrgent | ai-service/models/recommender.py:499-510 | a generated recommendation missing from the response was cut by the limit: eight were kept, each at least as urgent as it |
| Recommender.NoTransactionsNoAdvice | ai-service/models/recommender.py:92-93 | with no transactions there are no recommendations, a priority score of 0 and a health score of 5 |
| Recommender.FallbackAdvisesNothing | ai-service/models/recommender.py:92-93 | the neutral analysis triggers none of the five generators |
| AnomalyDetector.HighExpenses | ai-service/models/anomaly_detector.py:375-383 | one medium-severity `high_expense` finding per flagged expense, carrying that expense's amount |
| AnomalyDetector.StatisticalDetection | ai-service/models/anomaly_detector.py:362-390 | no expenses give the empty answer; otherwise one finding per expense strictly above three times the mean, all medium, with a risk of 2 per finding and the count as total |
| AnomalyDetector.TotalAbove | ai-service/models/anomaly_detector.py:373 | rows each above `t` total more than their count times `t` |
| AnomalyDetector.FilterTotalAtMost | ai-service/models/anomaly_detector.py:373 | with non-negative amounts, a subset of the rows never totals more than all of them |
| AnomalyDetector.FallbackFlagsAtMostOne | ai-service/models/anomaly_detector.py:26-27 | with one to four positive expenses, at most one is above three times the mean, and none with three or fewer |
| AnomalyDetector.FallbackRiskAtMostTwo | ai-service/models/anomaly_detector.py:362-390 | the few-expense fallback reports at most one finding, none for three expenses or fewer, so its risk is at most 2 |
| AnomalyDetector.FlaggedFew | ai-service/models/anomaly_detector.py:371-373 | of positive expenses, fewer than a third can lie above three times their mean |
| AnomalyDetector.CategoryFindings | ai-service/models/anomaly_detector.py:221-247 | every finding is a concentration or a high-average finding, and each group a rule flags gets that rule's finding |
| AnomalyDetector.FindingSource | ai-service/models/anomaly_detector.py:221-247 | conversely, every finding is the finding of some group that its rule flags |
| AnomalyDetector.CategoryAnomalies | ai-service/models/anomaly_detector.py:207-249 | nothing with fewer than two categories; otherwise the per-group findings against the expense total and three times the overall mean |
| AnomalyDetector.AtMostOneConcentration | ai-service/models/anomaly_detector.py:219-225 | with non-negative totals no two different groups can each exceed 60 % of the whole |
| AnomalyDetector.GroupTotalsNonNegative | ai-service/models/anomaly_detector.py:213 | non-negative expenses give non-negative category totals |
| AnomalyDetector.OneConcentrationAmong | ai-service/models/anomaly_detector.py:221-234 | over category groups of non-negative totals the findings hold at most one distinct concentration finding |
| AnomalyDetector.OneConcentrationFinding | ai-service/models/anomaly_detector.py:221-234 | with non-negative expenses any two concentration findings are the same finding, so at most one category is reported as concentrated |
| AnomalyDetector.FrequencyFinding | ai-service/models/anomaly_detector.py:190-199 | a single low-severity finding iff more than ten expenses are at most seven days old (the caller applies the three-day guard) |
| AnomalyDetector.CalendarDay | ai-service/models/anomaly_detector.py:159 | the calendar day of a timestamp is the whole day containing it |
| AnomalyDetector.ExpenseDays | ai-service/models/anomaly_detector.py:159-162 | the set of days holding an expense: every expense's day, and nothing else |
| AnomalyDetector.FrequencyAnomalies | ai-service/models/anomaly_detector.py:153-199 | fewer than three distinct expense days give no frequency finding at all; otherwise the heavy days followed by the frequency finding |
| AnomalyDetector.OneDayNoFrequencyFinding | ai-service/models/anomaly_detector.py:164-165 | expenses all on one day, however many, give no frequency finding |
| AnomalyDetector.OneDayKeepsOtherDetectors | ai-service/models/anomaly_detector.py:30-46 | with every expense on one day only the frequency findings disappear: the amount, category and weekday findings are still collected, in order |
| AnomalyDetector.Hour | ai-service/models/anomaly_detector.py:287 | the hour of a timestamp lies in 0..23 |
| AnomalyDetector.TimingFinding | ai-service/models/anomaly_detector.py:285-297 | a single low-severity finding iff more than 30 % of the expenses are booked from 22:00 to 05:59 |
| AnomalyDetector.OlderExpenseKeepsFrequency | ai-service/models/anomaly_detector.py:191-192 | an expense more than a week old never changes the frequency finding |
| AnomalyDetector.NightWindow | ai-service/models/anomaly_detector.py:286-288 | an expense is nocturnal iff it is booked from 79 200 s into the day or before 21 600 s (06:00) |
| AnomalyDetector.Weight | ai-service/models/anomaly_detector.py:312-317 | every severity weighs between 0.3 and 1 |
| AnomalyDetector.TotalWeight | ai-service/models/anomaly_detector.py:314-317 | the total weight lies between 0.3 and 1 per anomaly |
| AnomalyDetector.RiskScore | ai-service/models/anomaly_detector.py:305-335 | the score lies in [0, 10]; it is 0 with no anomalies or no expenses; it never exceeds the capped total weight and is at least 0.56 of it; with ten or more expenses and at most half of them anomalous it is the capped total weight |
| AnomalyDetector.MoreAnomaliesCanLowerRisk | ai-service/models/anomaly_detector.py:323-329 | five high findings over ten expenses score 5, and a sixth, low, finding lowers the score |
| AnomalyDetector.SeverityRank | ai-service/models/anomaly_detector.py:345-346 | high ranks 0, medium 1 and every other severity 2 |
| AnomalyDetector.KeysOf | ai-service/models/anomaly_detector.py:350 | one de-duplication key per anomaly, in order |
| AnomalyDetector.FirstPerKey | ai-service/models/anomaly_detector.py:341-354 | the kept anomalies have pairwise different keys, every input key is kept, and each kept anomaly is the first of its key in the input |
| AnomalyDetector.FirstPerKeySorted | ai-service/models/anomaly_detector.py:346-354 | keeping the first of each key preserves the severity order |
| AnomalyDetector.Deduplicate | ai-service/models/anomaly_detector.py:337-356 | at most ten anomalies, sorted by severity, with pairwise different keys, each one of the inputs and each the first of its key in the severity-sorted input |
| AnomalyDetector.TakeKeepsFirst | ai-service/models/anomaly_detector.py:356 | cutting the de-duplicated list to ten keeps only first-of-key anomalies |
| AnomalyDetector.DroppedKeysAreLeastUrgent | ai-service/models/anomaly_detector.py:337-356 | an anomaly whose key survives is represented by one at least as severe; one whose key is dropped was cut by the limit: ten were kept, each at least as severe as it |
| AnomalyDetector.DroppedFromTake | ai-service/models/anomaly_detector.py:348-356 | a key present after the `seen` loop but missing after the cut means ten were kept, none less severe than it |
| AnomalyDetector.FirstIsMostUrgent | ai-service/models/anomaly_detector.py:345-354 | the first anomaly of a key in the severity-sorted list is the most severe of that key |
| AnomalyDetector.UniqueFromInput | ai-service/models/anomaly_detector.py:346-354 | every anomaly kept after the sort is one of the input anomalies |
| AnomalyDetector.DeduplicateKeepsEveryKey | ai-service/models/anomaly_detector.py:348-356 | with at most ten distinct keys, every input key survives de-duplication |
| AnomalyDetector.DetectAnomalies | ai-service/models/anomaly_detector.py:16-59 | no rows give the empty answer; fewer than five expenses go to the fallback; otherwise the listed anomalies are the de-duplication of every finding (with the three-day guard on the frequency findings), their count is the total, and the risk in [0, 10] is scored over every finding before de-duplication |
| AnomalyDetector.DuplicatesWeighTwice | ai-service/models/anomaly_detector.py:49-52 | a high finding reported twice is listed at most once but weighs 2 in the risk |
| Predictor.Categories | ai-service/models/predictor.py:45 | `unique()`: a category is listed iff some expense row carries it |
| Predictor.CategoriesInFirstAppearance | ai-service/models/predictor.py:45 | the categories come in the order in which the expense rows first show them, each once |
| Predictor.CategoriesOfExpenses | ai-service/models/predictor.py:45 | a category is listed iff some expense has it, and no category is listed twice |
| Predictor.CapDaily | ai-service/models/predictor.py:142-144 | every day ends up at most the cap and at least the smaller of 0 and the cap, and a day already within [0, cap] is unchanged |
| Predictor.MlEstimate | ai-service/models/predictor.py:139-155 | for a non-negative historical mean the estimate lies between 0 and three times that mean; the confidence lies in [0.3, 0.9] and equals the R² score when the score is in that range |
| Predictor.MlEstimateWithinCap | ai-service/models/predictor.py:142-146 | when every daily prediction lies within the cap, the estimate is their plain mean |
| Predictor.Tail | ai-service/models/predictor.py:165 | the last `n` elements, or all of them when there are fewer |
| Predictor.StatisticalEstimate | ai-service/models/predictor.py:161-193 | confidence at least 0.2; fewer than three rows give their mean at confidence 0.3; otherwise the amount is non-negative, and equals the recent mean when the slope is 0 and that mean is non-negative |
| Predictor.TrendConfidence | ai-service/models/predictor.py:182-183 | at least 0.2; at most 0.7 for a positive mean and non-negative spread; exactly 0.7 − std/mean while the spread is at most half the mean |
| Predictor.StatisticalConfidenceAtMostSeventy | ai-service/models/predictor.py:176-188 | for positive amounts the trend estimate is never trusted above 0.7 |
| Predictor.PredictCategory | ai-service/models/predictor.py:81-91 | fewer than five rows, or a fit that raises, give the trend estimate; otherwise the confidence lies in [0.3, 0.9] and, for a non-negative mean, the amount lies between 0 and three times the mean |
| Predictor.AverageOfOne | ai-service/models/predictor.py:57 | the mean of a single expense is its amount |
| Predictor.EstimateFor | ai-service/models/predictor.py:48-60 | a category seen once predicts 70 % of its amount at confidence 0.3; two or more rows go, sorted by date, to the category predictor |
| Predictor.CategoryEstimates | ai-service/models/predictor.py:47-60 | one estimate per category, in category order, each of confidence at least 0.2 and computed from that category's expenses |
| Predictor.DayMean | ai-service/models/predictor.py:210-214 | a weekday has a mean only when some expense fell on it, and non-negative expenses give a non-negative mean |
| Predictor.DayMeanNonNegative | ai-service/models/predictor.py:210 | non-negative expenses give a non-negative weekday mean |
| Predictor.DayMeanSource | ai-service/models/predictor.py:210-213 | a weekday with a group had an expense on it |
| Predictor.Soften | ai-service/models/predictor.py:214-218 | the softened factor is at least 0.7 for a non-negative weekday mean and exactly 1 when the weekday mean equals the overall mean |
| Predictor.DayMultiplier | ai-service/models/predictor.py:206-218 | the factor is 1 when no expense fell on today's weekday, and at least 0.7 for non-negative expenses |
| Predictor.NoExpenseNoDayMean | ai-service/models/predictor.py:213 | without an expense on today's weekday there is no weekday mean |
| Predictor.Scale | ai-service/models/predictor.py:218-222 | an adjusted forecast is never negative, a factor of 1 leaves a non-negative forecast alone, and a positive factor keeps a positive forecast positive |
| Predictor.ScaleMonotone | ai-service/models/predictor.py:218-222 | scaling by a non-negative factor keeps the order of two forecasts |
| Predictor.SeasonalAdjust | ai-service/models/predictor.py:200-224 | the categories and their order are kept, every entry is its own forecast times the one softened weekday factor, floored at 0, and so never negative |
| Predictor.UnmatchedWeekdayKeepsForecast | ai-service/models/predictor.py:213-222 | with no expense on today's weekday, non-negative forecasts pass through unchanged |
| Predictor.AdjustmentKeepsSignAndRanking | ai-service/models/predictor.py:213-222 | over non-negative expenses a positive forecast stays positive and the ranking of two categories is kept |
| Predictor.Fallback | ai-service/models/predictor.py:230-246 | no expenses give no forecast; otherwise one entry per expense category, in ascending category order as `groupby` yields them, at confidence 0.4, marked as the fallback, with the total the sum of the entries |
| Predictor.SameCategories | ai-service/models/predictor.py:236 | entries keyed like the sorted category groups hold exactly the expense categories, in ascending order |
| Predictor.FallbackIsEightyPercentOfMean | ai-service/models/predictor.py:236-239 | each fallback entry is 80 % of the mean of its category's expenses |
| Predictor.OverallConfidence | ai-service/models/predictor.py:63 | the mean of the category confidences, 0.3 when there are none, and at least 0.2 when every category confidence is |
| Predictor.CombineEntry | ai-service/models/predictor.py:66-68 | entry `i` of the combined prediction is estimate `i` under its own category, scaled by the weekday factor |
| Predictor.Combine | ai-service/models/predictor.py:62-75 | the entries are the weekday-adjusted estimates, one per category in order, each non-negative, summing to the total; the confidence is the mean of the category confidences, 0.3 without any; the model is `ml_prediction` iff there are more than ten expenses, `statistical_estimation` otherwise |
| Predictor.Forecast | ai-service/models/predictor.py:40-75 | one non-negative entry per expense category, summing to the total; the confidence is the mean of the category confidences (0.3 without categories) and at least 0.2; the model type follows the ten-expense rule |
| Predictor.ForecastIsAdjustedEstimate | ai-service/models/predictor.py:45-61 | each forecast entry is its category's estimate scaled by today's weekday multiplier |
| Predictor.EstimateConfidenceAtMostNine | ai-service/models/predictor.py:47-60 | for positive amounts no category estimate is trusted above 0.9 |
| Predictor.CombineConfidenceAtMostNine | ai-service/models/predictor.py:63 | category confidences of at most 0.9 give an overall confidence of at most 0.9 |
| Predictor.ForecastConfidenceBounds | ai-service/models/predictor.py:44-63 | with positive expenses the overall confidence lies between 0.2 and 0.9 |
| Predictor.PredictWeekly | ai-service/models/predictor.py:25-75 | no rows give no forecast, fewer than three expenses the fallback, and three or more the full forecast; the total is always the sum of the category entries |
| ModelStorage.KeyIndex | ai-service/data/model_storage.py:88-90 | the position of a present key, and no earlier entry has that key |
| ModelStorage.Get | ai-service/data/model_storage.py:88-90 | a lookup succeeds iff the key is present, and then yields that key's value |
| ModelStorage.Put | ai-service/data/model_storage.py:348 | storing a key gives it the new value; a present key keeps its place, a new one goes last; keys stay distinct and other keys keep their values |
| ModelStorage.Remove | ai-service/data/model_storage.py:158-159 | deleting a present key removes exactly that entry; keys stay distinct and other keys keep their values |
| ModelStorage.DropFirst | ai-service/data/model_storage.py:343-344 | dropping the first-inserted entry loses exactly its key |
| ModelStorage.UpdateCache | ai-service/data/model_storage.py:336-348 | the user is cached with the new model; a full cache first loses its first-inserted user, whoever that is; every other user keeps its entry; the insertion order is kept, a new user going last; the cache never grows past ten |
| ModelStorage.FullCacheRefreshShrinks | ai-service/data/model_storage.py:342-348 | refreshing a user already in a full cache still evicts the oldest entry, so the cache shrinks to nine |
| ModelStorage.FullCacheEvictsInOrder | ai-service/data/model_storage.py:342-348 | a new user entering a full cache leaves it full, goes last, and makes the second-oldest entry the next to be evicted |
| ModelStorage.RoomyCacheKeepsEveryone | ai-service/data/model_storage.py:342-348 | below the limit, caching one user changes no other user's entry |
| ModelStorage.FirstMissing | ai-service/data/model_storage.py:316-319 | the first missing key is one of the required keys and is absent; there is none iff every required key is present |
| ModelStorage.ValidateModel | ai-service/data/model_storage.py:309-330 | a model is valid iff `models`, `scalers`, `user_id` and `saved_at` are present and `models` and `scalers` are dictionaries |
| ModelStorage.SavedModel | ai-service/data/model_storage.py:45-51 | what saving writes always passes validation |
| ModelStorage.LoadUserModels | ai-service/data/model_storage.py:82-114 | a cached model comes back as is, cache untouched; otherwise a model comes back iff its file exists and validates, and then it is the file's content and is cached; a failed load leaves the cache alone |
| ModelStorage.CacheHitSkipsValidation | ai-service/data/model_storage.py:88-90 | a cached model is returned even when it would fail validation |
| ModelStorage.LoadTwice | ai-service/data/model_storage.py:82-110 | loading twice returns the same model, and a successful first load leaves nothing for the second to change in the cache |
| ModelStorage.DeleteUserModels | ai-service/data/model_storage.py:135-162 | the answer is true iff the user had a model file or a metadata file; both are gone afterwards, other users' files stay, and only this user leaves the cache |
| ModelStorage.LoadAfterDelete | ai-service/data/model_storage.py:144-159 | after a deletion, loading the user finds nothing |
| ModelStorage.SecondField | ai-service/data/model_storage.py:65 | the second `_`-separated field of a key: the longest `_`-free run right after the first `_` |
| ModelStorage.CategoriesTrained | ai-service/data/model_storage.py:65 | exactly the second fields of the model keys holding `_`; none of them holds `_` |
| ModelStorage.CategoryOfModelKey | ai-service/data/model_storage.py:65 | a predictor key `user_category` gives back its category when neither part holds `_` |
| ModelStorage.Ranked | ai-service/data/model_storage.py:290-298 | a rearrangement of exactly the user's backups in the listing, newest first |
| ModelStorage.BackupsToRemove | ai-service/data/model_storage.py:301 | the user's backups beyond the newest five, each from the listing |
| ModelStorage.BackupsKept | ai-service/data/model_storage.py:298-301 | the five newest of the user's backups, or all of them when there are fewer: every backup not kept is no newer than any kept one |
| ModelStorage.KeptAreNewest | ai-service/data/model_storage.py:297-303 | the kept and the removed backups together are the ranking and a rearrangement of the user's backups, and every kept backup is at least as recent as every removed one |
| ModelStorage.CleanupOldBackups | ai-service/data/model_storage.py:284-303 | a file survives iff it is not among the removed backups; other users' files always survive; with five backups or fewer the directory is unchanged |
| Seqs.Filter | ai-service/models/anomaly_detector.py:24 | a boolean-mask selection keeps exactly the rows that pass, each from the input, and keeps all rows when all pass and none when none do |
| Seqs.FilterAppend | ai-service/models/anomaly_detector.py:24 | selecting from a frame split in two selects from each part, so the selection keeps the rows' order |
| Sorting.SortBy | ai-service/models/anomaly_detector.py:345-346 | the stable sort by severity is a sorted permutation of the input in which the elements of each rank keep their original order |
| Sorting.Insert | ai-service/models/anomaly_detector.py:346 | inserting into a sorted sequence keeps it sorted, adds exactly one element, and puts it ahead of the elements sharing its key |
| Sorting.Take | ai-service/models/recommender.py:510 | `xs[:n]` is the prefix of length min(n, len(xs)), the whole list when it is short enough |
| Sorting.TakeOfSorted | ai-service/models/recommender.py:504-510 | a prefix of a stable sort stays sorted, holds nothing the input does not, and takes each key's elements from the front of that key's run |
| Signin.ValidIsNotBlank | app/signin/page.tsx:33-37 | an address the pattern accepts is never blank, so "requerido" and "no válido" never apply together |

## Left out

- Rendering: JSX, styling, icons, dialogs, SVG path geometry (`polarToCartesian`), the chart components and the hard-coded mock screens. The geometry is left out, not the angle partition and the label-side rule.
- Network plumbing: the HTTP hooks, the API client, the AI client files and the service's HTTP entry point (`main.py`). The entry point passes plain lists for empty budgets and debts. That sends the recommender's analysis into its `except` branch. The recommender is modelled on its own inputs instead.
- The react-query cache keys. `useBudgetSummary` reads `['budgetSummary']` while the mutations invalidate `['budgets','summary']`. This is a caching issue, not decision logic.
- The server-side budget, debt and transaction summaries. Only their shapes are visible.
- BudgetInsights.Insights: takes the used percentage as a number parameter. The component reads `usedPercent` while the summary type supplies `percentageUsed`.
- Machine learning and statistics: IsolationForest, StandardScaler, LinearRegression, `polyfit`, standard deviations and z-scores. These are floating-point library calls. Their results are parameters, constrained only by the clamps the code applies to them.
- Predictor.PredictCategory: the fitted models and scalers that `_ml_prediction` caches in `self.models` and `self.scalers` are not modelled, because they change only the fit, which is a parameter. Neither are `save_model` and `load_model`.
- The `except` branches that catch library failures inside the generators and detectors. The modelled exception paths are:
  - a missing debt amount;
  - the risk score's division by zero expenses;
  - a fit that raises in the predictor.
- Formatting: `toLocaleString`, `toFixed`, Python `round` and f-string messages. Recommendations and anomalies keep only their type, priority or severity, category, date and amount.
- AnomalyDetector.Key: the de-duplication key is the triple (type, category, date) rather than the `_`-joined string. Two different triples whose joined strings coincide (a category holding `_`, say) are kept apart here.
- AnomalyDetector.DetectAnomalies: the amount, daily and weekday detectors are parameters, so their findings are only collected and scored.
- Python's `list.sort` and `sorted` are stable, as `Sorting.SortBy` is. pandas `sort_values('date')` is not guaranteed stable. The model uses the stable sort for it too, which only fixes an order the code leaves open.
- The model store's file side: pickling, JSON, directory creation, the backup copy itself, `list_user_models`, `cleanup_old_models`, `get_storage_stats`, `export_user_model`, `import_user_model` and `get_user_metadata`. These are file-system I/O around the modelled cache and selection logic. As written the module cannot even be imported: it annotates with `List` (ai-service/data/model_storage.py:168) without importing it (line 9).
- ModelStorage.DeleteUserModels: the backup `delete_user_models` takes before deleting is not modelled, because it is file I/O.
- ModelStorage.CategoryOfModelKey: the round trip is stated only for user ids and categories without `_`. With one, the code's `split('_')[1]` yields a different field, for example "fast" for the category "fast_food".
- Recommender.AllRecs: states only the bound on the number of recommendations and their priorities. What each generator emits is stated by that generator's own member.
- Text.Lower: maps only the ASCII and Latin-1 capitals. JavaScript `toLowerCase` and Python `str.lower` map every cased Unicode letter (Greek, Cyrillic, the Kelvin sign), and `İ` even grows in length. Searches and category or type normalisation are modelled only for text in those two ranges.
- HomeOverview.MonthTx: the page reads the clock twice, `new Date()` for the month and `Date.now()` for an undated transaction. The model uses one instant `now` for both; `UndatedIsCurrentMonth` relies on that, and it can fail only if the two reads straddle a month boundary.
- ExpenseBreakdown.Segments: returns `None` for a zero total, where the component would compute NaN percentages.
- I18n.Lookup: returns the first entry with a key, whereas a JavaScript object literal keeps the last. The two tables have no repeated key, so the results agree.
- The type files and DTOs. They are used only as datatype declarations.

=== FILE: accounts_list.dfy ===
/** The accounts list: per-account visibility and favourite toggles and the masked balance. */
module AccountsList {

  datatype Account = Account(
    id: int, name: string, kind: string, balance: real,
    isActive: bool, isVisible: bool, isFavorite: bool, hasIncome: bool, hasExpense: bool)

  /** The two accounts the list starts from. */
  function InitialAccounts(): seq<Account> {
    [ Account(1, "Work", "Current Account", 5941.0, false, true, false, true, true),
      Account(2, "Personal", "Savings Account", 152124.4, true, true, true, true, false) ]
  }

  /** Flips `isVisible` on the accounts with that id; every other field and account is unchanged. */
  function ToggleVisibility(accounts: seq<Account>, id: int): (r: seq<Account>)
    ensures |r| == |accounts|
    ensures forall i :: 0 <= i < |accounts| && accounts[i].id == id ==> r[i] == accounts[i].(isVisible := !accounts[i].isVisible)
    ensures forall i :: 0 <= i < |accounts| && accounts[i].id != id ==> r[i] == accounts[i]
  {
    seq(|accounts|, i requires 0 <= i < |accounts| =>
      if accounts[i].id == id then accounts[i].(isVisible := !accounts[i].isVisible) else accounts[i])
  }

  /** Flips `isFavorite` on the accounts with that id; every other field and account is unchanged. */
  function ToggleFavorite(accounts: seq<Account>, id: int): (r: seq<Account>)
    ensures |r| == |accounts|
    ensures forall i :: 0 <= i < |accounts| && accounts[i].id == id ==> r[i] == accounts[i].(isFavorite := !accounts[i].isFavorite)
    ensures forall i :: 0 <= i < |accounts| && accounts[i].id != id ==> r[i] == accounts[i]
  {
    seq(|accounts|, i requires 0 <= i < |accounts| =>
      if accounts[i].id == id then accounts[i].(isFavorite := !accounts[i].isFavorite) else accounts[i])
  }

  /** Each toggle undoes itself. */
  lemma TogglesAreInvolutions(accounts: seq<Account>, id: int)
    ensures ToggleVisibility(ToggleVisibility(accounts, id), id) == accounts
    ensures ToggleFavorite(ToggleFavorite(accounts, id), id) == accounts
  {
  }

  /** The two toggles commute, for any two ids. */
  lemma TogglesCommute(accounts: seq<Account>, id1: int, id2: int)
    ensures ToggleVisibility(ToggleFavorite(accounts, id2), id1) == ToggleFavorite(ToggleVisibility(accounts, id1), id2)
  {
  }

  /** An id no account carries leaves the list as it is. */
  lemma UnknownIdChangesNothing(accounts: seq<Account>, id: int)
    requires forall i :: 0 <= i < |accounts| ==> accounts[i].id != id
    ensures ToggleVisibility(accounts, id) == accounts && ToggleFavorite(accounts, id) == accounts
  {
  }

  /** The six-bullet mask shown in place of a hidden balance. */
  const Mask: string := "\U{2022}\U{2022}\U{2022}\U{2022}\U{2022}\U{2022}"

  datatype BalanceText = Amount(value: real) | Masked(text: string)

  /** The balance cell: the amount when the account is visible, the mask otherwise. */
  function BalanceShown(a: Account): (r: BalanceText)
    ensures r.Amount? <==> a.isVisible
    ensures r.Amount? ==> r.value == a.balance
    ensures r.Masked? ==> r.text == Mask && |r.text| == 6
  {
    if a.isVisible then Amount(a.balance) else Masked(Mask)
  }

  /** Toggling visibility switches the cell between the amount and the mask. */
  lemma ToggleSwitchesMask(accounts: seq<Account>, i: nat)
    requires i < |accounts|
    ensures BalanceShown(ToggleVisibility(accounts, accounts[i].id)[i]).Masked? <==> BalanceShown(accounts[i]).Amount?
  {
  }
}

=== FILE: anomaly_detector.dfy ===
/** The anomaly detector: routing between the empty answer, the small-sample fallback and
    the full analysis; the category, frequency and night-time rules; the risk score; and
    the severity-ordered de-duplication. The IsolationForest, z-score and standard-deviation
    detectors are library statistics: their findings arrive as parameters. */
module AnomalyDetector {
  import opened Wrappers
  import opened Numeric
  import opened Seqs
  import Grouping
  import Sorting
  import opened DataProcessor

  /** One anomaly: its `type`, its `severity`, and the category, date and amount it
      carries when it carries them. */
  datatype Anomaly = Anomaly(kind: string, severity: string, category: Option<string>, date: Option<Stamp>, amount: Option<real>)

  /** What `detect_anomalies` returns (the analysis date aside). */
  datatype Response = Response(anomalies: seq<Anomaly>, riskScore: real, total: nat)

  /** `_no_anomalies_response`. */
  const NoAnomalies: Response := Response([], 0.0, 0)

  /** The findings of the statistical detectors: IsolationForest or z-score outliers by
      amount, days far above the daily mean, and weekdays far above the weekday mean. */
  datatype Statistics = Statistics(amountOutliers: seq<Anomaly>, heavyDays: seq<Anomaly>, heavyWeekdays: seq<Anomaly>)

  // ---------------------------------------------------------------- small-sample fallback

  /** Rows whose amount is above `t`. */
  function Above(t: real): Row -> bool {
    (r: Row) => r.amount > t
  }

  function HighExpense(t: Row): Anomaly {
    Anomaly("high_expense", "medium", Some(t.category), None, Some(t.amount))
  }

  function HighExpenses(rows: seq<Row>): (r: seq<Anomaly>)
    ensures |r| == |rows|
    ensures forall i :: 0 <= i < |rows| ==> r[i].kind == "high_expense" && r[i].severity == "medium" && r[i].amount == Some(rows[i].amount)
  {
    seq(|rows|, i requires 0 <= i < |rows| => HighExpense(rows[i]))
  }

  /** `mean_amount * 3`. */
  function FallbackThreshold(expenses: seq<Row>): real {
    3.0 * AverageAmount(expenses)
  }

  /** `_statistical_anomaly_detection`: every expense strictly above three times the mean,
      at medium severity, with a risk of 2 per finding; nothing for no expenses. */
  function StatisticalDetection(expenses: seq<Row>): (r: Response)
    ensures |expenses| == 0 ==> r == NoAnomalies
    ensures r.total == |r.anomalies| && r.riskScore == 2.0 * |r.anomalies| as real
    ensures |expenses| > 0 ==> |r.anomalies| == |Filter(expenses, Above(FallbackThreshold(expenses)))|
    ensures forall i :: 0 <= i < |r.anomalies| ==> r.anomalies[i].severity == "medium"
  {
    if |expenses| == 0 then NoAnomalies
    else
      var flagged := HighExpenses(Filter(expenses, Above(FallbackThreshold(expenses))));
      Response(flagged, 2.0 * |flagged| as real, |flagged|)
  }

  /** With every amount above `t`, the total is above `|rows|·t` when there is a row. */
  lemma {:induction false} TotalAbove(rows: seq<Row>, t: real)
    requires forall i :: 0 <= i < |rows| ==> rows[i].amount > t
    ensures |rows| > 0 ==> TotalAmount(rows) > Times(|rows|, t)
  {
    if |rows| > 1 {
      TotalAbove(rows[..|rows| - 1], t);
    }
  }

  /** Keeping some rows of non-negative amounts never raises the total. */
  lemma {:induction false} FilterTotalAtMost(rows: seq<Row>, p: Row -> bool)
    requires forall i :: 0 <= i < |rows| ==> rows[i].amount >= 0.0
    ensures TotalAmount(Filter(rows, p)) <= TotalAmount(rows)
  {
    if |rows| > 0 {
      var n := |rows|;
      var init := rows[..n - 1];
      var x := rows[n - 1];
      assert rows == init + [x];
      FilterTotalAtMost(init, p);
      var f := Filter(init, p);
      FilterSnoc(init, x, p);
      TotalSnoc(init, x);
      if p(x) {
        TotalSnoc(f, x);
        assert Filter(rows, p) == f + [x];
      } else {
        assert Filter(rows, p) == f;
      }
    }
  }

  /** With positive amounts, an expense above three times the mean needs at least four
      expenses, and with fewer than five at most one can be. */
  lemma FallbackFlagsAtMostOne(expenses: seq<Row>)
    requires 0 < |expenses| < 5
    requires forall i :: 0 <= i < |expenses| ==> expenses[i].amount > 0.0
    ensures |Filter(expenses, Above(FallbackThreshold(expenses)))| <= 1
    ensures |expenses| <= 3 ==> Filter(expenses, Above(FallbackThreshold(expenses))) == []
  {
    PositiveMean(expenses);
    FlaggedFew(expenses, AverageAmount(expenses), FallbackThreshold(expenses));
  }

  /** So the fallback reports at most one expense, none at all for three expenses or
      fewer, and its risk stays at most 2. */
  lemma FallbackRiskAtMostTwo(expenses: seq<Row>)
    requires 0 < |expenses| < 5
    requires forall i :: 0 <= i < |expenses| ==> expenses[i].amount > 0.0
    ensures |StatisticalDetection(expenses).anomalies| <= 1
    ensures |expenses| <= 3 ==> StatisticalDetection(expenses).anomalies == []
    ensures StatisticalDetection(expenses).riskScore <= 2.0
  {
    FallbackFlagsAtMostOne(expenses);
  }

  /** Expenses of positive mean `mean` above three times it: fewer than a third of them. */
  lemma FlaggedFew(expenses: seq<Row>, mean: real, t: real)
    requires forall i :: 0 <= i < |expenses| ==> expenses[i].amount > 0.0
    requires mean > 0.0 && Times(|expenses|, mean) == TotalAmount(expenses) && t == 3.0 * mean
    ensures |Filter(expenses, Above(t))| == 0 || 3 * |Filter(expenses, Above(t))| < |expenses|
  {
    var flagged := Filter(expenses, Above(t));
    assert forall i :: 0 <= i < |flagged| ==> flagged[i].amount > t;
    TotalAbove(flagged, t);
    FilterTotalAtMost(expenses, Above(t));
    if |flagged| > 0 && 3 * |flagged| >= |expenses| {
      TripleCovers(|flagged|, |expenses|, mean, t);
    }
  }

  /** `k` copies of `3x` cover `n` copies of a positive `x` once `3k >= n`. */
  lemma TripleCovers(k: nat, n: nat, x: real, t: real)
    requires x > 0.0 && 3 * k >= n && t == 3.0 * x
    ensures Times(k, t) >= Times(n, x)
  {
    TimesTriple(k, x);
    TimesMonotone(3 * k, n, x);
  }

  // ---------------------------------------------------------------- category rule

  /** A share of the total above 60 %, `(sum / total) * 100 > 60`, as IEEE floats compute
      it: a zero total gives an infinite share for a positive sum and `NaN` otherwise. */
  predicate Concentrated(sum: real, total: real) {
    if total != 0.0 then sum / total * 100.0 > 60.0 else sum > 0.0
  }

  /** The groups above 60 % of `total`. */
  function ConcentratedIn(total: real): Grouping.Bucket<string> -> bool {
    (b: Grouping.Bucket<string>) => Concentrated(b.total, total)
  }

  /** The groups whose mean exceeds three times `overallMean`: `row['mean'] > overall_mean * 3`. */
  function AboveThreeTimes(overallMean: real): Grouping.Bucket<string> -> bool {
    (b: Grouping.Bucket<string>) => b.count > 0 && b.Mean() > overallMean * 3.0
  }

  function ConcentrationOf(b: Grouping.Bucket<string>): Anomaly {
    Anomaly("category_concentration", "high", Some(b.key), None, Some(b.total))
  }

  function HighAverageOf(b: Grouping.Bucket<string>): Anomaly {
    Anomaly("high_average_category", "medium", Some(b.key), None, None)
  }

  /** The loop over the category groups: a concentration finding for each group the first
      rule flags, then a high-average finding for each group the second rule flags. Every
      finding comes from a group its rule flags. */
  function CategoryFindings(bs: seq<Grouping.Bucket<string>>, concentrated: Grouping.Bucket<string> -> bool,
                            highAverage: Grouping.Bucket<string> -> bool): (r: seq<Anomaly>)
    ensures forall i :: 0 <= i < |r| ==> r[i].kind in {"category_concentration", "high_average_category"}
    ensures forall j :: 0 <= j < |bs| && concentrated(bs[j]) ==> ConcentrationOf(bs[j]) in r
    ensures forall j :: 0 <= j < |bs| && highAverage(bs[j]) ==> HighAverageOf(bs[j]) in r
  {
    if |bs| == 0 then []
    else
      var n := |bs|;
      var prev := CategoryFindings(bs[..n - 1], concentrated, highAverage);
      assert forall j :: 0 <= j < n - 1 ==> bs[..n - 1][j] == bs[j];
      var b := bs[n - 1];
      prev + (if concentrated(b) then [ConcentrationOf(b)] else [])
           + (if highAverage(b) then [HighAverageOf(b)] else [])
  }

  /** Every finding comes from a group its rule flags. */
  lemma {:induction false} FindingSource(bs: seq<Grouping.Bucket<string>>, concentrated: Grouping.Bucket<string> -> bool,
                                         highAverage: Grouping.Bucket<string> -> bool, i: nat)
    requires i < |CategoryFindings(bs, concentrated, highAverage)|
    ensures exists j :: 0 <= j < |bs| && FlaggedBy(CategoryFindings(bs, concentrated, highAverage)[i], bs[j], concentrated, highAverage)
  {
    var n := |bs|;
    var prev := CategoryFindings(bs[..n - 1], concentrated, highAverage);
    var r := CategoryFindings(bs, concentrated, highAverage);
    if i < |prev| {
      FindingSource(bs[..n - 1], concentrated, highAverage, i);
      var j :| 0 <= j < n - 1 && FlaggedBy(prev[i], bs[..n - 1][j], concentrated, highAverage);
      assert r[i] == prev[i];
      assert FlaggedBy(r[i], bs[j], concentrated, highAverage);
    } else {
      assert FlaggedBy(r[i], bs[n - 1], concentrated, highAverage);
    }
  }

  /** `x` is the finding one of the two rules makes for group `b`. */
  predicate FlaggedBy(x: Anomaly, b: Grouping.Bucket<string>, concentrated: Grouping.Bucket<string> -> bool,
                      highAverage: Grouping.Bucket<string> -> bool) {
    (x == ConcentrationOf(b) && concentrated(b)) || (x == HighAverageOf(b) && highAverage(b))
  }

  /** `_detect_category_anomalies`: nothing with fewer than two categories; otherwise the
      findings of the two rules over the category groups, against the grand total and the
      overall mean expense. */
  function CategoryAnomalies(expenses: seq<Row>): (r: seq<Anomaly>)
    ensures |Grouping.GroupByText(CategoryPairs(expenses))| < 2 ==> r == []
    ensures |Grouping.GroupByText(CategoryPairs(expenses))| >= 2 ==>
              var bs := Grouping.GroupByText(CategoryPairs(expenses));
              r == CategoryFindings(bs, ConcentratedIn(TotalAmount(expenses)), AboveThreeTimes(AverageAmount(expenses)))
  {
    var bs := Grouping.GroupByText(CategoryPairs(expenses));
    if |bs| < 2 then []
    else CategoryFindings(bs, ConcentratedIn(Grouping.Totals(bs)), AboveThreeTimes(AverageAmount(expenses)))
  }

  /** Two different groups of non-negative totals together take no more than the whole. */
  lemma {:induction false} TwoBucketsAtMostTotal(bs: seq<Grouping.Bucket<string>>, i: nat, j: nat)
    requires i < j < |bs|
    requires forall k :: 0 <= k < |bs| ==> bs[k].total >= 0.0
    ensures bs[i].total + bs[j].total <= Grouping.Totals(bs)
  {
    var n := |bs|;
    var init := bs[..n - 1];
    if j < n - 1 {
      TwoBucketsAtMostTotal(init, i, j);
    } else {
      OneBucketAtMostTotal(init, i);
    }
  }

  lemma {:induction false} OneBucketAtMostTotal(bs: seq<Grouping.Bucket<string>>, i: nat)
    requires i < |bs|
    requires forall k :: 0 <= k < |bs| ==> bs[k].total >= 0.0
    ensures bs[i].total <= Grouping.Totals(bs)
  {
    var n := |bs|;
    if i < n - 1 {
      OneBucketAtMostTotal(bs[..n - 1], i);
    } else {
      TotalsNonNegative(bs[..n - 1]);
    }
  }

  lemma {:induction false} TotalsNonNegative(bs: seq<Grouping.Bucket<string>>)
    requires forall k :: 0 <= k < |bs| ==> bs[k].total >= 0.0
    ensures Grouping.Totals(bs) >= 0.0
  {
    if |bs| > 0 {
      TotalsNonNegative(bs[..|bs| - 1]);
    }
  }

  /** With non-negative totals, more than 60 % each is too much for two groups: at most one
      category is ever reported as concentrated. */
  lemma AtMostOneConcentration(bs: seq<Grouping.Bucket<string>>, total: real)
    requires forall i :: 0 <= i < |bs| ==> bs[i].total >= 0.0
    requires total == Grouping.Totals(bs)
    ensures forall i, j :: 0 <= i < |bs| && 0 <= j < |bs| && Concentrated(bs[i].total, total) && Concentrated(bs[j].total, total) ==> i == j
  {
    forall i, j | 0 <= i < |bs| && 0 <= j < |bs| && Concentrated(bs[i].total, total) && Concentrated(bs[j].total, total)
      ensures i == j
    {
      if i != j {
        var lo := if i < j then i else j;
        var hi := if i < j then j else i;
        TwoBucketsAtMostTotal(bs, lo, hi);
        OneBucketAtMostTotal(bs, i);
        if total != 0.0 {
          assert total > 0.0;
          RatioAgainst(bs[i].total, total, 0.6);
          RatioAgainst(bs[j].total, total, 0.6);
        }
      }
    }
  }

  /** The expenses' grouped totals are non-negative when the amounts are. */
  lemma GroupTotalsNonNegative(expenses: seq<Row>)
    requires forall i :: 0 <= i < |expenses| ==> expenses[i].amount >= 0.0
    ensures forall k :: 0 <= k < |Grouping.GroupByText(CategoryPairs(expenses))| ==> Grouping.GroupByText(CategoryPairs(expenses))[k].total >= 0.0
  {
    var ps := CategoryPairs(expenses);
    var bs := Grouping.GroupByText(ps);
    forall k | 0 <= k < |bs|
      ensures bs[k].total >= 0.0
    {
      Grouping.BucketTotalNonNegative(ps, bs[k]);
    }
  }

  /** With non-negative amounts the category rule reports at most one concentration: two
      concentration findings are the same finding. */
  lemma OneConcentrationFinding(expenses: seq<Row>, i: nat, k: nat)
    requires forall e :: 0 <= e < |expenses| ==> expenses[e].amount >= 0.0
    requires i < |CategoryAnomalies(expenses)| && k < |CategoryAnomalies(expenses)|
    requires CategoryAnomalies(expenses)[i].kind == "category_concentration"
    requires CategoryAnomalies(expenses)[k].kind == "category_concentration"
    ensures CategoryAnomalies(expenses)[i] == CategoryAnomalies(expenses)[k]
  {
    var bs := Grouping.GroupByText(CategoryPairs(expenses));
    assert |bs| >= 2;
    GroupTotalsNonNegative(expenses);
    OneConcentrationAmong(bs, AboveThreeTimes(AverageAmount(expenses)), i, k);
  }

  /** Over groups of non-negative totals, two concentration findings are the same one. */
  lemma OneConcentrationAmong(bs: seq<Grouping.Bucket<string>>, h: Grouping.Bucket<string> -> bool, i: nat, k: nat)
    requires forall j :: 0 <= j < |bs| ==> bs[j].total >= 0.0
    requires i < |CategoryFindings(bs, ConcentratedIn(Grouping.Totals(bs)), h)|
    requires k < |CategoryFindings(bs, ConcentratedIn(Grouping.Totals(bs)), h)|
    requires CategoryFindings(bs, ConcentratedIn(Grouping.Totals(bs)), h)[i].kind == "category_concentration"
    requires CategoryFindings(bs, ConcentratedIn(Grouping.Totals(bs)), h)[k].kind == "category_concentration"
    ensures CategoryFindings(bs, ConcentratedIn(Grouping.Totals(bs)), h)[i]
            == CategoryFindings(bs, ConcentratedIn(Grouping.Totals(bs)), h)[k]
  {
    var total := Grouping.Totals(bs);
    var c := ConcentratedIn(total);
    var r := CategoryFindings(bs, c, h);
    AtMostOneConcentration(bs, total);
    FindingSource(bs, c, h, i);
    FindingSource(bs, c, h, k);
    var a :| 0 <= a < |bs| && FlaggedBy(r[i], bs[a], c, h);
    var b :| 0 <= b < |bs| && FlaggedBy(r[k], bs[b], c, h);
    assert r[i] == ConcentrationOf(bs[a]) && Concentrated(bs[a].total, total);
    assert r[k] == ConcentrationOf(bs[b]) && Concentrated(bs[b].total, total);
    assert a == b;
  }

  // ---------------------------------------------------------------- frequency and timing

  /** Rows at most `d` days old. */
  function WithinDays(d: int): Row -> bool {
    (r: Row) => r.daysAgo <= d
  }

  /** The frequency rule `_detect_frequency_anomalies` computes itself: more than ten
      expenses in the last seven days is a low-severity finding. */
  function FrequencyFinding(expenses: seq<Row>): (r: seq<Anomaly>)
    ensures |r| <= 1
    ensures |r| == 1 <==> |Filter(expenses, WithinDays(7))| > 10
    ensures |r| == 1 ==> r[0].severity == "low"
  {
    if |Filter(expenses, WithinDays(7))| > 10 then [Anomaly("high_transaction_frequency", "low", None, None, None)] else []
  }

  /** `dt.hour` of a naive timestamp. */
  function Hour(t: Stamp): (h: int)
    ensures 0 <= h < 24
  {
    (t % SecondsPerDay) / 3600
  }

  /** Rows booked from 22:00 to 05:59. */
  function AtNight(): Row -> bool {
    (r: Row) => Hour(r.date) >= 22 || Hour(r.date) <= 5
  }

  /** The night-time rule of `_detect_temporal_anomalies`: more than 30 % of the expenses
      booked from 22:00 to 05:59 is a low-severity finding. */
  function TimingFinding(expenses: seq<Row>): (r: seq<Anomaly>)
    ensures |r| <= 1
    ensures |r| == 1 <==> |Filter(expenses, AtNight())| as real > |expenses| as real * 0.3
    ensures |r| == 1 ==> r[0].severity == "low"
  {
    var night := Filter(expenses, AtNight());
    if |night| as real > |expenses| as real * 0.3 then [Anomaly("unusual_timing", "low", None, None, None)] else []
  }

  /** `dt.date` of a naive timestamp: its calendar day, counted from 1970-01-01. */
  function CalendarDay(t: Stamp): (d: int)
    ensures d * SecondsPerDay <= t < (d + 1) * SecondsPerDay
  {
    t / SecondsPerDay
  }

  /** The calendar days that carry an expense: the rows of `daily_spending`. */
  function ExpenseDays(expenses: seq<Row>): (r: set<int>)
    ensures forall i :: 0 <= i < |expenses| ==> CalendarDay(expenses[i].date) in r
    ensures forall d :: d in r ==> exists i :: 0 <= i < |expenses| && CalendarDay(expenses[i].date) == d
  {
    set i | 0 <= i < |expenses| :: CalendarDay(expenses[i].date)
  }

  /** `_detect_frequency_anomalies`: nothing at all when the expenses fall on fewer than
      three calendar days; otherwise the heavy-day findings (computed outside) followed by
      the frequency rule. */
  function FrequencyAnomalies(expenses: seq<Row>, heavyDays: seq<Anomaly>): (r: seq<Anomaly>)
    ensures |ExpenseDays(expenses)| < 3 ==> r == []
    ensures |ExpenseDays(expenses)| >= 3 ==> r == heavyDays + FrequencyFinding(expenses)
  {
    if |ExpenseDays(expenses)| < 3 then [] else heavyDays + FrequencyFinding(expenses)
  }

  /** Expenses booked on one single day, however many, raise no frequency finding: the
      detector needs three distinct days before it looks at anything. */
  lemma OneDayNoFrequencyFinding(expenses: seq<Row>, heavyDays: seq<Anomaly>)
    requires forall i :: 0 <= i < |expenses| ==> CalendarDay(expenses[i].date) == CalendarDay(expenses[0].date)
    ensures FrequencyAnomalies(expenses, heavyDays) == []
  {
    var days := ExpenseDays(expenses);
    if |expenses| > 0 {
      var d := CalendarDay(expenses[0].date);
      assert days == {d};
    } else {
      assert days == {};
    }
  }

  /** Expenses more than a week old never trigger the frequency rule. */
  lemma OlderExpenseKeepsFrequency(expenses: seq<Row>, x: Row)
    requires x.daysAgo > 7
    ensures FrequencyFinding(expenses + [x]) == FrequencyFinding(expenses)
  {
    FilterSnoc(expenses, x, WithinDays(7));
  }

  /** The night window by seconds into the day: from 79 200 s (22:00) on, or before
      21 600 s (06:00). */
  lemma NightWindow(r: Row)
    ensures AtNight()(r) <==> r.date % SecondsPerDay >= 79200 || r.date % SecondsPerDay < 21600
  {
  }

  // ---------------------------------------------------------------- risk score

  /** `severity_weights.get(severity, 0.3)`. */
  function Weight(a: Anomaly): (w: real)
    ensures 0.3 <= w <= 1.0
  {
    if a.severity == "high" then 1.0 else if a.severity == "medium" then 0.6 else 0.3
  }

  function TotalWeight(anomalies: seq<Anomaly>): (w: real)
    ensures |anomalies| as real * 0.3 <= w <= |anomalies| as real
  {
    if |anomalies| == 0 then 0.0 else TotalWeight(anomalies[..|anomalies| - 1]) + Weight(anomalies[|anomalies| - 1])
  }

  /** `_calculate_risk_score` (before rounding): the severity weights summed and capped at
      10, scaled by 0.7 for fewer than ten expenses and by 0.8 when anomalies outnumber half
      the expenses. No anomalies give 0, and so does the division by zero expenses, caught
      by the `except`. */
  function RiskScore(anomalies: seq<Anomaly>, expenseCount: nat): (r: real)
    ensures 0.0 <= r <= 10.0
    ensures anomalies == [] || expenseCount == 0 ==> r == 0.0
    ensures r <= Min(10.0, TotalWeight(anomalies))
    ensures r >= 0.56 * Min(10.0, TotalWeight(anomalies)) || expenseCount == 0
    ensures expenseCount >= 10 && 2 * |anomalies| <= expenseCount ==> r == Min(10.0, TotalWeight(anomalies))
  {
    if |anomalies| == 0 || expenseCount == 0 then 0.0
    else
      var base := Min(10.0, TotalWeight(anomalies));
      var scaled := if expenseCount < 10 then base * 0.7 else base;
      RatioAgainst(|anomalies| as real, expenseCount as real, 0.5);
      if |anomalies| as real / expenseCount as real > 0.5 then scaled * 0.8 else scaled
  }

  /** One more anomaly can lower the risk: it can tip the anomaly ratio over one half. With
      ten expenses, five high findings score 5, and a sixth, low, finding scores 4.24. */
  lemma MoreAnomaliesCanLowerRisk(h: Anomaly, l: Anomaly)
    requires h.severity == "high" && l.severity == "low"
    ensures RiskScore([h, h, h, h, h], 10) == 5.0
    ensures RiskScore([h, h, h, h, h, l], 10) < RiskScore([h, h, h, h, h], 10)
  {
    assert [h][..0] == [];
    assert TotalWeight([h]) == 1.0;
    assert [h, h][..1] == [h];
    assert TotalWeight([h, h]) == 2.0;
    assert [h, h, h][..2] == [h, h];
    assert TotalWeight([h, h, h]) == 3.0;
    assert [h, h, h, h][..3] == [h, h, h];
    assert TotalWeight([h, h, h, h]) == 4.0;
    assert [h, h, h, h, h][..4] == [h, h, h, h];
    assert TotalWeight([h, h, h, h, h]) == 5.0;
    assert [h, h, h, h, h, l][..5] == [h, h, h, h, h];
    assert TotalWeight([h, h, h, h, h, l]) == 5.3;
  }

  // ---------------------------------------------------------------- de-duplication

  /** `severity_order.get(severity, 2)`. */
  function SeverityRank(a: Anomaly): (k: real)
    ensures a.severity == "high" <==> k == 0.0
    ensures a.severity == "medium" <==> k == 1.0
    ensures a.severity != "high" && a.severity != "medium" <==> k == 2.0
  {
    if a.severity == "high" then 0.0 else if a.severity == "medium" then 1.0 else 2.0
  }

  /** The de-duplication key: type, category and date, an absent field reading as empty. */
  function Key(a: Anomaly): (string, string, Option<Stamp>) {
    (a.kind, a.category.GetOr(""), a.date)
  }

  function KeysOf(s: seq<Anomaly>): (r: seq<(string, string, Option<Stamp>)>)
    ensures |r| == |s| && forall i :: 0 <= i < |s| ==> r[i] == Key(s[i])
  {
    seq(|s|, i requires 0 <= i < |s| => Key(s[i]))
  }

  /** `s[k]` is the first element of `s` with its key. */
  predicate FirstOfKey(s: seq<Anomaly>, k: int) {
    0 <= k < |s| && forall j :: 0 <= j < k ==> Key(s[j]) != Key(s[k])
  }

  /** `x` is the first element of `s` with its key. */
  ghost predicate IsFirstOfKey(s: seq<Anomaly>, x: Anomaly) {
    exists k :: FirstOfKey(s, k) && s[k] == x
  }

  /** The `seen`-set loop: the first anomaly of each key, in order. */
  function FirstPerKey(s: seq<Anomaly>): (r: seq<Anomaly>)
    ensures |r| <= |s|
    ensures forall i, j :: 0 <= i < j < |r| ==> Key(r[i]) != Key(r[j])
    ensures forall i :: 0 <= i < |s| ==> Key(s[i]) in KeysOf(r)
    ensures forall i :: 0 <= i < |r| ==> IsFirstOfKey(s, r[i])
  {
    if |s| == 0 then []
    else
      var prev := FirstPerKey(s[..|s| - 1]);
      var r := if Key(s[|s| - 1]) in KeysOf(prev) then prev else prev + [s[|s| - 1]];
      FirstPerKeyStep(s, s[..|s| - 1], prev, r);
      r
  }

  /** The loop body: an anomaly whose key was not seen yet is appended. */
  lemma FirstPerKeyStep(s: seq<Anomaly>, p: seq<Anomaly>, prev: seq<Anomaly>, r: seq<Anomaly>)
    requires |s| > 0 && p == s[..|s| - 1]
    requires forall i, j :: 0 <= i < j < |prev| ==> Key(prev[i]) != Key(prev[j])
    requires forall i :: 0 <= i < |p| ==> Key(p[i]) in KeysOf(prev)
    requires forall i :: 0 <= i < |prev| ==> IsFirstOfKey(p, prev[i])
    requires |prev| <= |p|
    requires r == if Key(s[|s| - 1]) in KeysOf(prev) then prev else prev + [s[|s| - 1]]
    ensures |r| <= |s|
    ensures forall i, j :: 0 <= i < j < |r| ==> Key(r[i]) != Key(r[j])
    ensures forall i :: 0 <= i < |s| ==> Key(s[i]) in KeysOf(r)
    ensures forall i :: 0 <= i < |r| ==> IsFirstOfKey(s, r[i])
  {
    var n := |s|;
    forall j | 0 <= j < n - 1
      ensures Key(s[j]) in KeysOf(prev)
    {
      assert p[j] == s[j];
    }
    forall i | 0 <= i < |prev|
      ensures IsFirstOfKey(s, prev[i])
    {
      var k :| FirstOfKey(p, k) && p[k] == prev[i];
      FirstOfKeyPrefix(s, k);
    }
    if Key(s[n - 1]) !in KeysOf(prev) {
      assert KeysOf(r) == KeysOf(prev) + [Key(s[n - 1])];
      assert FirstOfKey(s, n - 1);
      forall i | 0 <= i < |r|
        ensures IsFirstOfKey(s, r[i])
      {
        if i == |prev| {
          assert r[i] == s[n - 1];
        } else {
          assert r[i] == prev[i];
        }
      }
    }
  }

  /** A first-of-key position in a prefix is one in the whole sequence. */
  lemma FirstOfKeyPrefix(s: seq<Anomaly>, k: int)
    requires |s| > 0 && FirstOfKey(s[..|s| - 1], k)
    ensures FirstOfKey(s, k) && s[..|s| - 1][k] == s[k]
  {
  }

  /** Every element kept is at or after some element of `s`'s order; so a sorted input
      stays sorted. */
  lemma {:induction false} FirstPerKeySorted(s: seq<Anomaly>)
    requires Sorting.SortedBy(s, SeverityRank)
    ensures Sorting.SortedBy(FirstPerKey(s), SeverityRank)
  {
    if |s| > 0 {
      var n := |s|;
      var init := s[..n - 1];
      var x := s[n - 1];
      assert Sorting.SortedBy(init, SeverityRank) by {
        forall i, j | 0 <= i < j < |init|
          ensures SeverityRank(init[i]) <= SeverityRank(init[j])
        {
          assert init[i] == s[i] && init[j] == s[j];
        }
      }
      FirstPerKeySorted(init);
      var prev := FirstPerKey(init);
      if Key(x) in KeysOf(prev) {
        assert FirstPerKey(s) == prev;
      } else {
        forall i | 0 <= i < |prev|
          ensures SeverityRank(prev[i]) <= SeverityRank(x)
        {
          var k :| FirstOfKey(init, k) && init[k] == prev[i];
          assert init[k] == s[k];
        }
        Sorting.SortedSnoc(prev, x, SeverityRank);
        assert FirstPerKey(s) == prev + [x];
      }
    }
  }

  /** `_deduplicate_anomalies`: a stable sort by severity, the first anomaly of each key,
      and at most ten of them. */
  function Deduplicate(anomalies: seq<Anomaly>): (r: seq<Anomaly>)
    ensures |r| <= 10
    ensures Sorting.SortedBy(r, SeverityRank)
    ensures forall i, j :: 0 <= i < j < |r| ==> Key(r[i]) != Key(r[j])
    ensures forall i :: 0 <= i < |r| ==> r[i] in anomalies
    ensures forall i :: 0 <= i < |r| ==> IsFirstOfKey(Sorting.SortBy(anomalies, SeverityRank), r[i])
  {
    var unique := FirstPerKey(Sorting.SortBy(anomalies, SeverityRank));
    FirstPerKeySorted(Sorting.SortBy(anomalies, SeverityRank));
    UniqueFromInput(anomalies);
    TakeKeepsFirst(Sorting.SortBy(anomalies, SeverityRank), unique, 10);
    Sorting.Take(unique, 10)
  }

  /** The first anomaly of each key, after sorting, is one of the input anomalies. */
  lemma UniqueFromInput(anomalies: seq<Anomaly>)
    ensures forall i :: 0 <= i < |FirstPerKey(Sorting.SortBy(anomalies, SeverityRank))| ==>
              FirstPerKey(Sorting.SortBy(anomalies, SeverityRank))[i] in anomalies
  {
    var sorted := Sorting.SortBy(anomalies, SeverityRank);
    var unique := FirstPerKey(sorted);
    forall i | 0 <= i < |unique|
      ensures unique[i] in anomalies
    {
      var k :| FirstOfKey(sorted, k) && sorted[k] == unique[i];
      assert sorted[k] in multiset(anomalies);
    }
  }

  /** When there are at most ten distinct keys nothing is lost: every key of the input
      survives de-duplication. */
  lemma DeduplicateKeepsEveryKey(anomalies: seq<Anomaly>, i: nat)
    requires i < |anomalies|
    requires |FirstPerKey(Sorting.SortBy(anomalies, SeverityRank))| <= 10
    ensures Key(anomalies[i]) in KeysOf(Deduplicate(anomalies))
  {
    var sorted := Sorting.SortBy(anomalies, SeverityRank);
    var unique := FirstPerKey(sorted);
    assert Deduplicate(anomalies) == Sorting.Take(unique, 10);
    assert anomalies[i] in multiset(sorted);
    var k :| 0 <= k < |sorted| && sorted[k] == anomalies[i];
  }

  /** A prefix of first-of-key anomalies holds first-of-key anomalies only. */
  lemma TakeKeepsFirst(s: seq<Anomaly>, u: seq<Anomaly>, n: nat)
    requires forall i :: 0 <= i < |u| ==> exists k :: FirstOfKey(s, k) && s[k] == u[i]
    ensures forall i :: 0 <= i < |Sorting.Take(u, n)| ==> IsFirstOfKey(s, Sorting.Take(u, n)[i])
  {
    var t := Sorting.Take(u, n);
    forall i | 0 <= i < |t|
      ensures IsFirstOfKey(s, t[i])
    {
      assert t[i] == u[i];
      var k :| FirstOfKey(s, k) && s[k] == u[i];
      assert FirstOfKey(s, k) && s[k] == t[i];
    }
  }

  /** Which anomalies survive: the kept one of each key is at least as urgent as every
      anomaly of that key, and a key is dropped only when ten anomalies, each at least as
      urgent as it, were kept instead. */
  lemma DroppedKeysAreLeastUrgent(anomalies: seq<Anomaly>, a: Anomaly)
    requires a in anomalies
    ensures var r := Deduplicate(anomalies);
            && (forall i :: 0 <= i < |r| && Key(r[i]) == Key(a) ==> SeverityRank(r[i]) <= SeverityRank(a))
            && (Key(a) !in KeysOf(r) ==>
                  |r| == 10 && forall i :: 0 <= i < |r| ==> SeverityRank(r[i]) <= SeverityRank(a))
  {
    var sorted := Sorting.SortBy(anomalies, SeverityRank);
    var unique := FirstPerKey(sorted);
    var r := Deduplicate(anomalies);
    assert r == Sorting.Take(unique, 10);
    assert a in multiset(sorted);
    var p :| 0 <= p < |sorted| && sorted[p] == a;
    forall i | 0 <= i < |r| && Key(r[i]) == Key(a)
      ensures SeverityRank(r[i]) <= SeverityRank(a)
    {
      FirstIsMostUrgent(sorted, r[i], p);
    }
    if Key(a) !in KeysOf(r) {
      FirstPerKeySorted(sorted);
      DroppedFromTake(sorted, unique, p);
    }
  }

  /** A key cut off by the ten-item limit lost to ten kept anomalies at least as urgent. */
  lemma DroppedFromTake(sorted: seq<Anomaly>, unique: seq<Anomaly>, p: nat)
    requires Sorting.SortedBy(sorted, SeverityRank) && Sorting.SortedBy(unique, SeverityRank)
    requires forall i :: 0 <= i < |unique| ==> IsFirstOfKey(sorted, unique[i])
    requires p < |sorted| && Key(sorted[p]) in KeysOf(unique)
    requires Key(sorted[p]) !in KeysOf(Sorting.Take(unique, 10))
    ensures |Sorting.Take(unique, 10)| == 10
    ensures forall i :: 0 <= i < 10 ==> SeverityRank(Sorting.Take(unique, 10)[i]) <= SeverityRank(sorted[p])
  {
    var r := Sorting.Take(unique, 10);
    var m :| 0 <= m < |unique| && KeysOf(unique)[m] == Key(sorted[p]);
    assert forall j :: 0 <= j < |r| ==> KeysOf(r)[j] == KeysOf(unique)[j];
    assert m >= |r|;
    FirstIsMostUrgent(sorted, unique[m], p);
    forall i | 0 <= i < |r|
      ensures SeverityRank(r[i]) <= SeverityRank(sorted[p])
    {
      assert r[i] == unique[i];
    }
  }

  /** In a severity-sorted list, the first anomaly of a key is at least as urgent as every
      anomaly of that key. */
  lemma FirstIsMostUrgent(sorted: seq<Anomaly>, x: Anomaly, p: nat)
    requires Sorting.SortedBy(sorted, SeverityRank)
    requires IsFirstOfKey(sorted, x)
    requires p < |sorted| && Key(sorted[p]) == Key(x)
    ensures SeverityRank(x) <= SeverityRank(sorted[p])
  {
    var k :| FirstOfKey(sorted, k) && sorted[k] == x;
    assert k <= p;
  }

  // ---------------------------------------------------------------- routing

  /** `detect_anomalies`: no rows give the empty answer; fewer than five expenses go to the
      fallback; otherwise the findings of every detector are scored together, before the
      de-duplication that yields the list returned. */
  function DetectAnomalies(rows: seq<Row>, stats: Statistics): (r: Response)
    ensures |rows| == 0 ==> r == NoAnomalies
    ensures |rows| > 0 && |Expenses(rows)| < 5 ==> r == StatisticalDetection(Expenses(rows))
    ensures r.total == |r.anomalies|
    ensures |Expenses(rows)| >= 5 ==> 0.0 <= r.riskScore <= 10.0 && |r.anomalies| <= 10
    ensures |Expenses(rows)| >= 5 ==> r.riskScore == RiskScore(AllFindings(Expenses(rows), stats), |Expenses(rows)|)
    ensures |Expenses(rows)| >= 5 ==> r.anomalies == Deduplicate(AllFindings(Expenses(rows), stats))
  {
    if |rows| == 0 then NoAnomalies
    else
      var expenses := Expenses(rows);
      if |expenses| < 5 then StatisticalDetection(expenses)
      else
        var all := AllFindings(expenses, stats);
        var unique := Deduplicate(all);
        Response(unique, RiskScore(all, |expenses|), |unique|)
  }

  /** The four detectors' findings, in the order they are collected. */
  function AllFindings(expenses: seq<Row>, stats: Statistics): seq<Anomaly> {
    stats.amountOutliers
    + FrequencyAnomalies(expenses, stats.heavyDays)
    + CategoryAnomalies(expenses)
    + (stats.heavyWeekdays + TimingFinding(expenses))
  }

  /** The three-day guard belongs to the frequency detector alone: with every expense on one
      day the amount, category and weekday detectors still report what they find. */
  lemma OneDayKeepsOtherDetectors(expenses: seq<Row>, stats: Statistics)
    requires forall i :: 0 <= i < |expenses| ==> CalendarDay(expenses[i].date) == CalendarDay(expenses[0].date)
    ensures AllFindings(expenses, stats)
              == stats.amountOutliers + CategoryAnomalies(expenses) + (stats.heavyWeekdays + TimingFinding(expenses))
  {
    var frequency := FrequencyAnomalies(expenses, stats.heavyDays);
    OneDayNoFrequencyFinding(expenses, stats.heavyDays);
    assert frequency == [];
    var category := CategoryAnomalies(expenses);
    var weekday := stats.heavyWeekdays + TimingFinding(expenses);
    assert AllFindings(expenses, stats) == stats.amountOutliers + frequency + category + weekday;
    assert stats.amountOutliers + frequency == stats.amountOutliers;
  }

  /** The risk is taken over every finding, duplicates included: a high finding reported
      twice is listed once but weighs twice. */
  lemma DuplicatesWeighTwice(a: Anomaly)
    requires a.severity == "high"
    ensures |Deduplicate([a, a])| <= 1
    ensures RiskScore([a, a], 10) == 2.0
  {
    HighTwice(a);
  }

  lemma HighTwice(a: Anomaly)
    requires a.severity == "high"
    ensures TotalWeight([a, a]) == 2.0
  {
    assert [a, a][..1] == [a];
    assert [a][..0] == [];
  }
}

=== FILE: budget_cards.dfy ===
/** The budget cards: each card's status (good / warning / danger) from the share of the
    budget already spent, its unclamped remaining amount and its alert icon. The cards are
    drawn from a built-in table of five budgets. */
module BudgetCards {

  /** A JavaScript number as far as a division can produce one: finite, an infinity, or `NaN`. */
  datatype JsNumber = Finite(v: real) | PosInfinity | NegInfinity | NotANumber

  /** IEEE division `a / b`: a zero divisor yields an infinity of the dividend's sign, or `NaN` for `0 / 0`. */
  function JsDiv(a: real, b: real): (r: JsNumber)
    ensures b != 0.0 ==> r == Finite(a / b)
    ensures b == 0.0 ==> (r == PosInfinity <==> a > 0.0) && (r == NegInfinity <==> a < 0.0) && (r == NotANumber <==> a == 0.0)
  {
    if b != 0.0 then Finite(a / b)
    else if a > 0.0 then PosInfinity
    else if a < 0.0 then NegInfinity
    else NotANumber
  }

  /** `x * 100`, which leaves the infinities and `NaN` as they are. */
  function Times100(x: JsNumber): JsNumber {
    if x.Finite? then Finite(x.v * 100.0) else x
  }

  /** `x >= t`: true for +Infinity, false for -Infinity and for `NaN`. */
  predicate AtLeast(x: JsNumber, t: real) {
    x == PosInfinity || (x.Finite? && x.v >= t)
  }

  /** The share of the budget spent, in percent: `(spent / budget) * 100`. */
  function Percentage(spent: real, budget: real): JsNumber {
    Times100(JsDiv(spent, budget))
  }

  datatype Status = Good | Warning | Danger

  /** Severity order of the statuses. */
  function Rank(s: Status): nat {
    match s
    case Good => 0
    case Warning => 1
    case Danger => 2
  }

  /** The Tailwind text colour the status is shown in. */
  function Color(s: Status): (c: string)
    ensures s == Danger <==> c == "text-red-600"
  {
    match s
    case Danger => "text-red-600"
    case Warning => "text-yellow-600"
    case Good => "text-green-600"
  }

  /** `getBudgetStatus`: at least 90 % spent is danger, at least 70 % a warning, anything
      else good. There is no guard against a zero budget: then any positive spending is
      +Infinity percent (danger) and zero or negative spending is `NaN` or -Infinity (good).
      For a positive budget the thresholds sit exactly at 90 % and 70 % of the budget. */
  function GetBudgetStatus(spent: real, budget: real): (r: Status)
    ensures budget > 0.0 ==> (r == Danger <==> spent >= 0.9 * budget)
    ensures budget > 0.0 ==> (r == Warning <==> 0.7 * budget <= spent < 0.9 * budget)
    ensures budget > 0.0 ==> (r == Good <==> spent < 0.7 * budget)
    ensures budget == 0.0 ==> (r == Danger <==> spent > 0.0) && r != Warning
  {
    var percentage := Percentage(spent, budget);
    if budget > 0.0 then
      ThresholdOnRatio(spent, budget, 0.9);
      ThresholdOnRatio(spent, budget, 0.7);
      if AtLeast(percentage, 90.0) then Danger
      else if AtLeast(percentage, 70.0) then Warning
      else Good
    else if AtLeast(percentage, 90.0) then Danger
    else if AtLeast(percentage, 70.0) then Warning
    else Good
  }

  /** `spent / budget * 100 >= 100·f` is the same test as `spent >= f·budget`. */
  lemma ThresholdOnRatio(spent: real, budget: real, f: real)
    requires budget > 0.0
    ensures spent / budget * 100.0 >= f * 100.0 <==> spent >= f * budget
  {
    var q := spent / budget;
    assert q * budget == spent;
    if q >= f {
      assert q * budget >= f * budget;
    }
    if spent >= f * budget {
      assert q * budget >= f * budget;
    }
  }

  /** For a fixed positive budget, spending more never lowers the severity. */
  lemma StatusMonotoneInSpent(spent1: real, spent2: real, budget: real)
    requires budget > 0.0 && spent1 <= spent2
    ensures Rank(GetBudgetStatus(spent1, budget)) <= Rank(GetBudgetStatus(spent2, budget))
  {
  }

  /** The status depends only on the ratio: scaling spending and budget alike by the same
      positive factor `k` changes nothing. */
  lemma StatusDependsOnlyOnRatio(spent: real, budget: real, k: real, scaledSpent: real, scaledBudget: real)
    requires budget > 0.0 && k > 0.0
    requires scaledSpent == k * spent && scaledBudget == k * budget
    ensures GetBudgetStatus(scaledSpent, scaledBudget) == GetBudgetStatus(spent, budget)
  {
    ScaleCompare(spent, 0.9 * budget, k);
    ScaleCompare(spent, 0.7 * budget, k);
    assert k * (0.9 * budget) == 0.9 * scaledBudget;
    assert k * (0.7 * budget) == 0.7 * scaledBudget;
    assert scaledBudget > 0.0;
  }

  lemma ScaleCompare(a: real, b: real, k: real)
    requires k > 0.0
    ensures a >= b <==> k * a >= k * b
  {
    assert k * a - k * b == k * (a - b);
  }

  /** One row of the built-in budget table (icons and colours left aside). */
  datatype BudgetRow = BudgetRow(id: int, name: string, budget: real, spent: real, items: int)

  /** What one card shows: the remaining amount, the progress value, the status and
      whether the alert triangle is drawn. */
  datatype Card = Card(remaining: real, percentage: JsNumber, status: Status, showAlert: bool)

  /** One card: `remaining` is `budget - spent` with no clamp, and the alert icon is drawn
      exactly for a danger status. */
  function CardOf(row: BudgetRow): (c: Card)
    ensures c.remaining < 0.0 <==> row.spent > row.budget
    ensures c.remaining + row.spent == row.budget
    ensures c.showAlert <==> c.status == Danger
    ensures c.status == GetBudgetStatus(row.spent, row.budget)
    ensures row.budget > 0.0 ==> c.percentage.Finite? && (c.percentage.v >= 90.0 <==> c.showAlert)
  {
    var status := GetBudgetStatus(row.spent, row.budget);
    if row.budget > 0.0 then
      ThresholdOnRatio(row.spent, row.budget, 0.9);
      Card(row.budget - row.spent, Percentage(row.spent, row.budget), status, status == Danger)
    else
      Card(row.budget - row.spent, Percentage(row.spent, row.budget), status, status == Danger)
  }

  /** The five budgets every user sees; the page ignores the budgets it is handed. */
  function BuiltInBudgets(): seq<BudgetRow> {
    [ BudgetRow(1, "Shopping", 2500.0, 270.0, 2),
      BudgetRow(2, "Home Decor", 3800.0, 3300.0, 3),
      BudgetRow(3, "Garden", 1500.0, 160.0, 2),
      BudgetRow(4, "Car", 2500.0, 120.0, 1),
      BudgetRow(5, "YouTube", 5000.0, 1100.0, 2) ]
  }

  function Cards(rows: seq<BudgetRow>): (r: seq<Card>)
    ensures |r| == |rows| && forall i :: 0 <= i < |rows| ==> r[i] == CardOf(rows[i])
  {
    if |rows| == 0 then [] else [CardOf(rows[0])] + Cards(rows[1..])
  }

  /** Home Decor (3300 of 3800, about 86.8 %) is the only warning; the other four are good
      and none shows an alert. */
  lemma BuiltInStatuses()
    ensures forall c :: c in Cards(BuiltInBudgets()) ==> !c.showAlert
    ensures seq(5, i requires 0 <= i < 5 => Cards(BuiltInBudgets())[i].status) == [Good, Warning, Good, Good, Good]
  {
    var cs := Cards(BuiltInBudgets());
    assert cs[0].status == Good;
    assert cs[1].status == Warning;
    assert cs[2].status == Good;
    assert cs[3].status == Good;
    assert cs[4].status == Good;
  }
}

=== FILE: budget_insights.dfy ===
/** The budget insight cards: three candidate cards, each with a show flag decided by the
    share of the budget used, filtered down to the ones that show, in candidate order. */
module BudgetInsights {
  import opened ShowFilter

  datatype Kind = Success | Warning | Info

  /** What a card says; the percentage is the one the summary reports. */
  datatype Description = SpentShare(percentageUsed: real) | NearLimit(percentageUsed: real)

  datatype Insight = Insight(kind: Kind, title: string, description: Description)

  /** Candidate order: success, warning, info. */
  function Position(k: Kind): nat {
    match k
    case Success => 0
    case Warning => 1
    case Info => 2
  }

  function Kinds(cs: seq<Insight>): (r: seq<Kind>)
    ensures |r| == |cs| && forall i :: 0 <= i < |cs| ==> r[i] == cs[i].kind
  {
    seq(|cs|, i requires 0 <= i < |cs| => cs[i].kind)
  }

  /** The card list before filtering, each card paired with its `show` flag. */
  function Candidates(percentageUsed: real): seq<(Insight, bool)> {
    [ (Insight(Success, "Great progress!", SpentShare(percentageUsed)), percentageUsed < 50.0),
      (Insight(Warning, "Budget alert", NearLimit(percentageUsed)), percentageUsed > 90.0),
      (Insight(Info, "Spending trend", SpentShare(percentageUsed)), true) ]
  }

  /** The cards shown for a given usage percentage: "info" always, "success" exactly below
      50 %, "warning" exactly above 90 %, so the two never appear together; the cards keep
      the order success, warning, info. */
  function Insights(percentageUsed: real): (r: seq<Insight>)
    ensures Info in Kinds(r) && r[|r| - 1].kind == Info
    ensures Success in Kinds(r) <==> percentageUsed < 50.0
    ensures Warning in Kinds(r) <==> percentageUsed > 90.0
    ensures 1 <= |r| <= 2
    ensures forall i, j :: 0 <= i < j < |r| ==> Position(r[i].kind) < Position(r[j].kind)
  {
    var cs := Candidates(percentageUsed);
    var r := Shown(cs);
    ShownOfThree(cs[0], cs[1], cs[2]);
    assert Kinds(r)[|r| - 1] == Info;
    assert percentageUsed < 50.0 ==> Kinds(r) == [Success, Info];
    assert percentageUsed > 90.0 ==> Kinds(r) == [Warning, Info];
    assert 50.0 <= percentageUsed <= 90.0 ==> Kinds(r) == [Info];
    r
  }

  /** Anywhere in `[50, 90]`, both ends included, only the info card remains. */
  lemma MiddleBandShowsOnlyInfo(percentageUsed: real)
    requires 50.0 <= percentageUsed <= 90.0
    ensures Kinds(Insights(percentageUsed)) == [Info]
  {
    var r := Insights(percentageUsed);
    assert Kinds(r)[0] == Info;
  }
}

=== FILE: category_color.dfy ===
/** The badge colour of a transaction category: five named categories, grey for the rest. */
module CategoryColor {

  /** The five categories with a colour of their own. */
  predicate IsNamedCategory(cat: string) {
    cat == "rental" || cat == "shopping" || cat == "entertainment" || cat == "food" || cat == "transportation"
  }

  /** The `switch` on the exact category string; any other string, including a differently
      capitalised one, falls to grey. */
  function CategoryColor(cat: string): (r: string)
    ensures cat == "rental" ==> r == "bg-orange-400"
    ensures cat == "shopping" ==> r == "bg-pink-400"
    ensures cat == "entertainment" ==> r == "bg-purple-400"
    ensures cat == "food" ==> r == "bg-blue-400"
    ensures cat == "transportation" ==> r == "bg-yellow-400"
    ensures r == "bg-gray-400" <==> !IsNamedCategory(cat)
  {
    match cat
    case "rental" => "bg-orange-400"
    case "shopping" => "bg-pink-400"
    case "entertainment" => "bg-purple-400"
    case "food" => "bg-blue-400"
    case "transportation" => "bg-yellow-400"
    case _ => "bg-gray-400"
  }

  /** Distinct named categories get distinct colours. */
  lemma NamedColorsDistinct(a: string, b: string)
    requires IsNamedCategory(a) && IsNamedCategory(b) && a != b
    ensures CategoryColor(a) != CategoryColor(b)
  {
  }

  /** Matching is case-sensitive. */
  lemma CapitalisedIsGray()
    ensures CategoryColor("Rental") == "bg-gray-400"
  {
  }
}

=== FILE: charts_view.dfy ===
/** The charts page: a list of chart widgets that can be shown or hidden, removed and
    appended, the visible ones laid out in ascending position. */
module ChartsView {
  import opened Seqs
  import opened Sorting

  datatype Widget = Widget(id: string, kind: string, title: string, size: string, visible: bool, position: int)

  /** The eight widgets a new page starts with: ids "1".."8", all visible, positions 1..8. */
  function DefaultCharts(): seq<Widget> {
    [ Widget("1", "expenses-pie", "Monthly Expenses Breakdown", "medium", true, 1),
      Widget("2", "income-vs-expenses", "Income vs Expenses", "medium", true, 2),
      Widget("3", "monthly-trend", "6-Month Spending Trend", "large", true, 3),
      Widget("4", "budget-progress", "Budget Progress", "medium", true, 4),
      Widget("5", "category-breakdown", "Category Analysis", "medium", true, 5),
      Widget("6", "account-balance", "Account Balances", "small", true, 6),
      Widget("7", "cash-flow", "Cash Flow Analysis", "large", true, 7),
      Widget("8", "savings-goal", "Savings Goal Progress", "small", true, 8) ]
  }

  lemma DefaultsAreNumberedAndVisible()
    ensures |DefaultCharts()| == 8
    ensures forall i :: 0 <= i < 8 ==> DefaultCharts()[i].visible && DefaultCharts()[i].position == i + 1
    ensures forall i :: 0 <= i < 8 ==> DefaultCharts()[i].id == [('1' as int + i) as char]
  {
  }

  predicate IsVisible(w: Widget) { w.visible }

  function PositionKey(w: Widget): real { w.position as real }

  /** `charts.filter(c => c.visible).sort((a, b) => a.position - b.position)`: the visible
      widgets in ascending position, widgets of equal position kept in list order. */
  function VisibleCharts(charts: seq<Widget>): (r: seq<Widget>)
    ensures forall i :: 0 <= i < |r| ==> r[i].visible && r[i] in charts
    ensures forall i :: 0 <= i < |charts| && charts[i].visible ==> charts[i] in r
    ensures forall i, j :: 0 <= i < j < |r| ==> r[i].position <= r[j].position
    ensures multiset(r) == multiset(Filter(charts, IsVisible))
    ensures forall v :: Where(r, PositionKey, v) == Where(Filter(charts, IsVisible), PositionKey, v)
  {
    var shown := Filter(charts, IsVisible);
    var r := SortBy(shown, PositionKey);
    SameElements(r, shown);
    r
  }

  lemma SameElements<T>(a: seq<T>, b: seq<T>)
    requires multiset(a) == multiset(b)
    ensures forall i :: 0 <= i < |a| ==> a[i] in b
    ensures forall i :: 0 <= i < |b| ==> b[i] in a
  {
    forall i | 0 <= i < |a|
      ensures a[i] in b
    {
      assert a[i] in multiset(b);
    }
    forall i | 0 <= i < |b|
      ensures b[i] in a
    {
      assert b[i] in multiset(a);
    }
  }

  /** Flips `visible` on the widgets with that id; every other field and widget is unchanged. */
  function ToggleChartVisibility(charts: seq<Widget>, id: string): (r: seq<Widget>)
    ensures |r| == |charts|
    ensures forall i :: 0 <= i < |charts| && charts[i].id == id ==> r[i] == charts[i].(visible := !charts[i].visible)
    ensures forall i :: 0 <= i < |charts| && charts[i].id != id ==> r[i] == charts[i]
  {
    seq(|charts|, i requires 0 <= i < |charts| =>
      if charts[i].id == id then charts[i].(visible := !charts[i].visible) else charts[i])
  }

  /** Toggling the same id twice restores the list. */
  lemma ToggleTwiceIsIdentity(charts: seq<Widget>, id: string)
    ensures ToggleChartVisibility(ToggleChartVisibility(charts, id), id) == charts
  {
  }

  /** The filter condition `chart => chart.id !== id`. */
  function OtherId(id: string): Widget -> bool {
    (w: Widget) => w.id != id
  }

  /** Drops every widget with that id and keeps the rest in order. */
  function RemoveChart(charts: seq<Widget>, id: string): (r: seq<Widget>)
    ensures forall i :: 0 <= i < |r| ==> r[i].id != id && r[i] in charts
    ensures forall i :: 0 <= i < |charts| && charts[i].id != id ==> charts[i] in r
    ensures (forall i :: 0 <= i < |charts| ==> charts[i].id != id) ==> r == charts
  {
    Filter(charts, OtherId(id))
  }

  /** Removal keeps list order: removing from a split list removes from each part. */
  lemma RemoveKeepsOrder(a: seq<Widget>, b: seq<Widget>, id: string)
    ensures RemoveChart(a + b, id) == RemoveChart(a, id) + RemoveChart(b, id)
  {
    FilterAppend(a, b, OtherId(id));
  }

  /** Appends one widget with the caller's fields, the clock-derived `newId` and
      position one past the current length. */
  function AddChart(charts: seq<Widget>, newId: string, kind: string, title: string, size: string, visible: bool): (r: seq<Widget>)
    ensures |r| == |charts| + 1 && r[..|charts|] == charts
    ensures r[|charts|] == Widget(newId, kind, title, size, visible, |charts| + 1)
  {
    charts + [Widget(newId, kind, title, size, visible, |charts| + 1)]
  }

  /** Positions are not kept unique: when the last widget sits at position `|charts|`,
      removing one other widget and then adding one gives the new widget that same
      position. */
  lemma RemoveThenAddDuplicatesPosition(a: seq<Widget>, w: Widget, b: seq<Widget>, newId: string,
                                        kind: string, title: string, size: string, visible: bool)
    requires |b| > 0 && b[|b| - 1].position == |a| + 1 + |b|
    requires forall i :: 0 <= i < |a| ==> a[i].id != w.id
    requires forall i :: 0 <= i < |b| ==> b[i].id != w.id
    ensures var r := AddChart(RemoveChart(a + [w] + b, w.id), newId, kind, title, size, visible);
      |r| == |a| + 1 + |b| && r[|r| - 2].position == r[|r| - 1].position == |a| + 1 + |b|
  {
    var keep := OtherId(w.id);
    assert Filter(a, keep) == a;
    assert Filter(b, keep) == b;
    FilterSnoc(a, w, keep);
    assert Filter(a + [w], keep) == a;
    FilterAppend(a + [w], b, keep);
    var removed := RemoveChart(a + [w] + b, w.id);
    assert removed == a + b;
    assert removed[|removed| - 1] == b[|b| - 1];
  }

  /** On the defaults: removing widget "3" and adding one leaves two widgets at position 8. */
  lemma DefaultsRemoveThenAdd(newId: string)
    ensures var r := AddChart(RemoveChart(DefaultCharts(), "3"), newId, "cash-flow", "New", "small", true);
      |r| == 8 && r[6].position == 8 && r[7].position == 8
  {
    var d := DefaultCharts();
    assert d == d[..2] + [d[2]] + d[3..];
    RemoveThenAddDuplicatesPosition(d[..2], d[2], d[3..], newId, "cash-flow", "New", "small", true);
  }

  /** The column classes of a widget size; an unknown size gets a single column. */
  function GridClass(size: string): (r: string)
    ensures size != "medium" && size != "large" ==> r == "col-span-1"
    ensures size == "medium" ==> r == "col-span-1 md:col-span-2"
    ensures size == "large" ==> r == "col-span-1 md:col-span-2 lg:col-span-3"
  {
    if size == "small" then "col-span-1"
    else if size == "medium" then "col-span-1 md:col-span-2"
    else if size == "large" then "col-span-1 md:col-span-2 lg:col-span-3"
    else "col-span-1"
  }

  datatype ChartStats = ChartStats(totalCharts: int, visibleCharts: int, hiddenCharts: int)

  /** The header counters: the hidden count is the total minus the visible count, never
      negative, and counts exactly the hidden widgets. */
  function Stats(charts: seq<Widget>): (s: ChartStats)
    ensures s.totalCharts == |charts|
    ensures s.visibleCharts == |Filter(charts, IsVisible)|
    ensures 0 <= s.hiddenCharts == |charts| - s.visibleCharts
    ensures s.hiddenCharts == |Filter(charts, w => !IsVisible(w))|
  {
    var visible := |VisibleCharts(charts)|;
    VisiblePlusHidden(charts);
    ChartStats(|charts|, visible, |charts| - visible)
  }

  lemma {:induction false} VisiblePlusHidden(charts: seq<Widget>)
    ensures |Filter(charts, IsVisible)| + |Filter(charts, w => !IsVisible(w))| == |charts|
    decreases |charts|
  {
    if |charts| > 0 {
      var n := |charts|;
      assert charts == charts[..n - 1] + [charts[n - 1]];
      VisiblePlusHidden(charts[..n - 1]);
      FilterSnoc(charts[..n - 1], charts[n - 1], IsVisible);
      FilterSnoc(charts[..n - 1], charts[n - 1], w => !IsVisible(w));
    }
  }
}

=== FILE: contact.dfy ===
/** The contact form: required name, e-mail and message, the same e-mail pattern as the
    sign-in and sign-up pages, and the data logged only when no error was found. */
module Contact {
  import opened Text
  import opened EmailPattern

  datatype Field = Name | Email | Message

  datatype Form = Form(name: string, email: string, message: string)

  /** The `errors` state: one string per input, `""` meaning no error. */
  datatype Errors = Errors(name: string, email: string, message: string)

  const NoErrors := Errors("", "", "")

  const NameRequired := "El nombre es obligatorio."
  const EmailRequired := "El correo electr\U{00F3}nico es obligatorio."
  const EmailInvalid := "El correo electr\U{00F3}nico no es v\U{00E1}lido."
  const MessageRequired := "La descripci\U{00F3}n es obligatoria."

  /** `newErrors` as `handleSubmit` fills it in. */
  function Validate(form: Form): (r: Errors)
    ensures r.name != "" <==> IsBlank(form.name)
    ensures r.name != "" ==> r.name == NameRequired
    ensures r.email == EmailRequired <==> IsBlank(form.email)
    ensures r.email == EmailInvalid <==> !IsBlank(form.email) && !IsValidEmail(form.email)
    ensures r.email == "" <==> !IsBlank(form.email) && IsValidEmail(form.email)
    ensures r.message != "" <==> IsBlank(form.message)
    ensures r.message != "" ==> r.message == MessageRequired
  {
    Errors(
      if IsBlank(form.name) then NameRequired else "",
      if IsBlank(form.email) then EmailRequired
      else if !IsValidEmail(form.email) then EmailInvalid
      else "",
      if IsBlank(form.message) then MessageRequired else "")
  }

  /** `handleSubmit`: the new errors, the `hasError` flag, and whether the data was logged.
      The flag is raised exactly when some error string is set. */
  function HandleSubmit(form: Form): (r: (Errors, bool, bool))
    ensures r.0 == Validate(form)
    ensures r.1 <==> r.0.name != "" || r.0.email != "" || r.0.message != ""
    ensures r.2 <==> !r.1
  {
    var errors := NoErrors;
    var hasError := false;
    var errors := if IsBlank(form.name) then errors.(name := NameRequired) else errors;
    var hasError := hasError || IsBlank(form.name);
    var errors := if IsBlank(form.email) then errors.(email := EmailRequired)
                  else if !IsValidEmail(form.email) then errors.(email := EmailInvalid)
                  else errors;
    var hasError := hasError || IsBlank(form.email) || !IsValidEmail(form.email);
    var errors := if IsBlank(form.message) then errors.(message := MessageRequired) else errors;
    var hasError := hasError || IsBlank(form.message);
    (errors, hasError, !hasError)
  }

  /** The data is logged exactly for a non-blank name and message and a valid address. */
  lemma LoggedIffValid(form: Form)
    ensures HandleSubmit(form).2 <==> !IsBlank(form.name) && IsValidEmail(form.email) && !IsBlank(form.message)
  {
    if IsValidEmail(form.email) {
      assert !IsJsSpace(form.email[0]);
    }
  }

  /** `handleChange`: the input named by the event takes the new value and its error is
      cleared; the other inputs and errors are left alone. */
  function HandleChange(form: Form, errors: Errors, field: Field, value: string): (r: (Form, Errors))
    ensures field == Name ==> r.0 == form.(name := value) && r.1 == errors.(name := "")
    ensures field == Email ==> r.0 == form.(email := value) && r.1 == errors.(email := "")
    ensures field == Message ==> r.0 == form.(message := value) && r.1 == errors.(message := "")
  {
    match field
    case Name => (form.(name := value), errors.(name := ""))
    case Email => (form.(email := value), errors.(email := ""))
    case Message => (form.(message := value), errors.(message := ""))
  }

  /** The value of one input and the error of one input, selected by field. */
  function ValueOf(form: Form, f: Field): string {
    match f
    case Name => form.name
    case Email => form.email
    case Message => form.message
  }

  function ErrorOf(errors: Errors, f: Field): string {
    match f
    case Name => errors.name
    case Email => errors.email
    case Message => errors.message
  }

  /** A change touches only its own input: that input reads the new value with no error,
      and every other input keeps its value and its error. */
  lemma ChangeIsLocal(form: Form, errors: Errors, field: Field, value: string, other: Field)
    ensures ValueOf(HandleChange(form, errors, field, value).0, field) == value
    ensures ErrorOf(HandleChange(form, errors, field, value).1, field) == ""
    ensures other != field ==>
              ValueOf(HandleChange(form, errors, field, value).0, other) == ValueOf(form, other)
              && ErrorOf(HandleChange(form, errors, field, value).1, other) == ErrorOf(errors, other)
  {
  }
}

=== FILE: data_processor.dfy ===
/** The AI service's data preparation: raw transactions and debts turned into cleaned rows
    (field defaults, date parsing, expense filtering, derived time columns), the financial
    summary, and the weekday spending pattern. Dates are naive `datetime`s, held as whole
    seconds since 1970-01-01 00:00; `now` and `strptime` are parameters. */
module DataProcessor {
  import opened Wrappers
  import opened Numeric
  import opened Text
  import Grouping
  import opened Seqs

  /** A naive `datetime`: seconds since 1970-01-01 00:00. */
  type Stamp = int

  const SecondsPerDay: int := 86400

  /** pandas `dt.dayofweek` (Monday is 0). 1970-01-01 was a Thursday, and `/` rounds toward
      minus infinity here, as Python's `//` does. */
  function DayOfWeek(t: Stamp): (d: int)
    ensures 0 <= d < 7
  {
    (t / SecondsPerDay + 3) % 7
  }

  /** A day later is the next weekday, Sunday wrapping round to Monday. */
  lemma DayOfWeekAdvances(t: Stamp)
    ensures DayOfWeek(t + SecondsPerDay) == (DayOfWeek(t) + 1) % 7
  {
    assert (t + SecondsPerDay) / SecondsPerDay == t / SecondsPerDay + 1;
  }

  /** Calendar anchors: 1969-12-31 was a Wednesday, 1970-01-01 a Thursday, 1970-01-05 a
      Monday, 2000-01-01 a Saturday and 2024-01-01 a Monday. */
  lemma KnownWeekdays()
    ensures DayOfWeek(-1) == 2
    ensures DayOfWeek(0) == 3
    ensures DayOfWeek(4 * SecondsPerDay) == 0
    ensures DayOfWeek(10957 * SecondsPerDay) == 5
    ensures DayOfWeek(19723 * SecondsPerDay + 12 * 3600) == 0
  {
  }

  /** `(now - t).days`: whole days elapsed, rounded toward minus infinity. */
  function DaysAgo(now: Stamp, t: Stamp): (d: int)
    ensures d * SecondsPerDay <= now - t < (d + 1) * SecondsPerDay
  {
    (now - t) / SecondsPerDay
  }

  /** The formats `_parse_date` tries, in this order. */
  datatype Format = IsoDate | IsoDateTime | IsoDateTimeFraction | DayMonthYear

  const Formats: seq<Format> := [IsoDate, IsoDateTime, IsoDateTimeFraction, DayMonthYear]

  /** The first format of `fs` that `strptime` accepts, with its result. */
  function FirstParse(s: string, strptime: (string, Format) -> Option<Stamp>, fs: seq<Format>): (r: Option<Stamp>)
    ensures r.None? <==> forall i :: 0 <= i < |fs| ==> strptime(s, fs[i]).None?
    ensures r.Some? ==> exists i :: 0 <= i < |fs| && strptime(s, fs[i]) == r
                          && forall j :: 0 <= j < i ==> strptime(s, fs[j]).None?
  {
    if |fs| == 0 then None
    else if strptime(s, fs[0]).Some? then strptime(s, fs[0])
    else
      var r := FirstParse(s, strptime, fs[1..]);
      FirstParseShift(s, strptime, fs, r);
      r
  }

  /** A search that skips a first format which fails finds what the search from the
      second format finds. */
  lemma FirstParseShift(s: string, strptime: (string, Format) -> Option<Stamp>, fs: seq<Format>, r: Option<Stamp>)
    requires |fs| > 0 && strptime(s, fs[0]).None?
    requires r.Some? ==> exists i :: 0 <= i < |fs[1..]| && strptime(s, fs[1..][i]) == r
                           && forall j :: 0 <= j < i ==> strptime(s, fs[1..][j]).None?
    ensures r.Some? ==> exists i :: 0 <= i < |fs| && strptime(s, fs[i]) == r
                          && forall j :: 0 <= j < i ==> strptime(s, fs[j]).None?
  {
    if r.Some? {
      var i :| 0 <= i < |fs[1..]| && strptime(s, fs[1..][i]) == r
               && forall j :: 0 <= j < i ==> strptime(s, fs[1..][j]).None?;
      assert strptime(s, fs[i + 1]) == r;
      forall j | 0 <= j < i + 1
        ensures strptime(s, fs[j]).None?
      {
        if j > 0 {
          assert fs[j] == fs[1..][j - 1];
        }
      }
    }
  }

  /** `_parse_date`: the first of the four formats that parses, otherwise `now`. */
  function ParseDate(s: string, strptime: (string, Format) -> Option<Stamp>, now: Stamp): (t: Stamp)
    ensures strptime(s, IsoDate).Some? ==> t == strptime(s, IsoDate).value
    ensures strptime(s, IsoDate).None? && strptime(s, IsoDateTime).Some? ==> t == strptime(s, IsoDateTime).value
    ensures (forall f :: strptime(s, f).None?) ==> t == now
    ensures forall i :: FirstToParse(s, strptime, Formats, i) ==> t == strptime(s, Formats[i]).value
  {
    var r := FirstParse(s, strptime, Formats);
    assert Formats[0] == IsoDate && Formats[1] == IsoDateTime;
    FirstParseIsFirst(s, strptime, Formats);
    r.GetOr(now)
  }

  /** Format `i` parses `s` and every earlier one fails. */
  predicate FirstToParse(s: string, strptime: (string, Format) -> Option<Stamp>, fs: seq<Format>, i: int) {
    0 <= i < |fs| && strptime(s, fs[i]).Some? && forall j :: 0 <= j < i ==> strptime(s, fs[j]).None?
  }

  /** Only one format can be the first that parses, so the search returns its value. */
  lemma FirstParseIsFirst(s: string, strptime: (string, Format) -> Option<Stamp>, fs: seq<Format>)
    ensures forall i :: FirstToParse(s, strptime, fs, i) ==> FirstParse(s, strptime, fs) == strptime(s, fs[i])
  {
    forall i | FirstToParse(s, strptime, fs, i)
      ensures FirstParse(s, strptime, fs) == strptime(s, fs[i])
    {
      var r := FirstParse(s, strptime, fs);
      var k :| 0 <= k < |fs| && strptime(s, fs[k]) == r && forall j :: 0 <= j < k ==> strptime(s, fs[j]).None?;
      assert k == i;
    }
  }

  /** A transaction as the service receives it; every field may be absent. */
  datatype TxIn = TxIn(amount: Option<real>, category: Option<string>, description: Option<string>,
                       kind: Option<string>, date: Option<string>)

  /** A transaction row after `process_transactions`, before cleaning. */
  datatype TxRow = TxRow(amount: real, category: string, description: string, kind: string, date: Stamp)

  /** A cleaned row, with the time columns the detectors read. */
  datatype Row = Row(amount: real, category: string, description: string, kind: string, date: Stamp,
                     dayOfWeek: int, daysAgo: int)

  /** Python's `x or d` on an optional string: an absent or empty value gives `d`. */
  function OrDefault(x: Option<string>, d: string): (r: string)
    ensures x.Some? && x.value != "" ==> r == x.value
    ensures x.None? || x.value == "" ==> r == d
  {
    if x.Some? && x.value != "" then x.value else d
  }

  /** One `trans_dict`: a falsy amount is 0.0, a falsy category is "other", category and type
      are lower-cased, and a falsy date is `now`. The caller guarantees a type. */
  function ToTxRow(t: TxIn, strptime: (string, Format) -> Option<Stamp>, now: Stamp): (r: TxRow)
    requires t.kind.Some?
    ensures r.amount == OrZero(t.amount)
    ensures t.category.None? || t.category.value == "" ==> r.category == "other"
    ensures t.category.Some? && t.category.value != "" ==> r.category == Lower(t.category.value)
    ensures r.kind == Lower(t.kind.value)
    ensures t.date.None? || t.date.value == "" ==> r.date == now
    ensures t.date.Some? && t.date.value != "" ==> r.date == ParseDate(t.date.value, strptime, now)
    ensures r.description == OrDefault(t.description, "")
  {
    TxRow(OrZero(t.amount),
          if t.category.Some? && t.category.value != "" then Lower(t.category.value) else "other",
          OrDefault(t.description, ""),
          Lower(t.kind.value),
          if t.date.Some? && t.date.value != "" then ParseDate(t.date.value, strptime, now) else now)
  }

  predicate HasKind(t: TxIn) {
    t.kind.Some?
  }

  /** `process_transactions`. An empty input, or one with a transaction lacking its type
      (whose `.lower()` raises and lands in the `except`), gives the empty frame. */
  function ProcessTransactions(ts: seq<TxIn>, strptime: (string, Format) -> Option<Stamp>, now: Stamp): (r: seq<Row>)
    ensures (exists i :: 0 <= i < |ts| && !HasKind(ts[i])) ==> r == []
    ensures (forall i :: 0 <= i < |ts| ==> HasKind(ts[i])) ==>
              r == Clean(seq(|ts|, i requires 0 <= i < |ts| => ToTxRow(ts[i], strptime, now)), now)
  {
    if |ts| == 0 || exists i :: 0 <= i < |ts| && !HasKind(ts[i]) then []
    else Clean(seq(|ts|, i requires 0 <= i < |ts| => ToTxRow(ts[i], strptime, now)), now)
  }

  /** The rows `_clean_transaction_data` keeps: every row except an expense with a zero or
      negative amount. */
  predicate Keep(t: TxRow) {
    !(t.kind == "expense" && t.amount <= 0.0)
  }

  /** The columns cleaning adds or rewrites for a kept row: the absolute amount of an
      expense, the stripped lower-cased category, the weekday and the age in days. */
  function Derive(t: TxRow, now: Stamp): (r: Row)
    ensures r.kind == t.kind && r.date == t.date && r.description == t.description
    ensures t.kind == "expense" ==> r.amount == Abs(t.amount)
    ensures t.kind != "expense" ==> r.amount == t.amount
    ensures Keep(t) && r.kind == "expense" ==> r.amount > 0.0
    ensures r.category == Strip(Lower(t.category))
    ensures r.dayOfWeek == DayOfWeek(t.date)
    ensures 0 <= r.dayOfWeek < 7
    ensures r.daysAgo * SecondsPerDay <= now - r.date < (r.daysAgo + 1) * SecondsPerDay
  {
    Row(if t.kind == "expense" then Abs(t.amount) else t.amount,
        Strip(Lower(t.category)), t.description, t.kind, t.date, DayOfWeek(t.date), DaysAgo(now, t.date))
  }

  /** A cleaned category is already normal: lower-casing and stripping it again changes nothing. */
  lemma CleanedCategoryIsNormal(t: TxRow, now: Stamp)
    ensures var c := Derive(t, now).category; Strip(Lower(c)) == c
  {
    StripLowerIdempotent(t.category);
  }

  function DeriveAll(rows: seq<TxRow>, now: Stamp): (r: seq<Row>)
    ensures |r| == |rows| && forall i :: 0 <= i < |rows| ==> r[i] == Derive(rows[i], now)
  {
    Map(rows, (t: TxRow) => Derive(t, now))
  }


  /** `_clean_transaction_data`: drops the non-positive expenses, keeps every other row
      whatever its amount, and derives the time columns, in the original order. */
  function Clean(rows: seq<TxRow>, now: Stamp): (r: seq<Row>)
    ensures |r| <= |rows|
    ensures forall i :: 0 <= i < |r| ==> r[i].kind != "expense" || r[i].amount > 0.0
    ensures forall i :: 0 <= i < |r| ==> 0 <= r[i].dayOfWeek < 7
  {
    var kept := Filter(rows, Keep);
    var r := DeriveAll(kept, now);
    assert forall i :: 0 <= i < |r| ==> Keep(kept[i]) && r[i] == Derive(kept[i], now);
    r
  }

  /** Every row cleaning keeps comes out, derived. */
  lemma KeptRowSurvives(rows: seq<TxRow>, now: Stamp, i: nat)
    requires i < |rows| && Keep(rows[i])
    ensures Derive(rows[i], now) in Clean(rows, now)
  {
    var kept := Filter(rows, Keep);
    assert rows[i] in kept;
    var j :| 0 <= j < |kept| && kept[j] == rows[i];
    assert Clean(rows, now)[j] == Derive(rows[i], now);
  }

  /** Every cleaned row comes from a row of the input that was kept. */
  lemma CleanedRowHasSource(rows: seq<TxRow>, now: Stamp, i: nat)
    requires i < |Clean(rows, now)|
    ensures exists j :: 0 <= j < |rows| && Keep(rows[j]) && Clean(rows, now)[i] == Derive(rows[j], now)
  {
    var kept := Filter(rows, Keep);
    assert kept[i] in rows && Keep(kept[i]);
    var j :| 0 <= j < |rows| && rows[j] == kept[i];
  }

  /** Cleaning works row by row, so it keeps the relative order of the rows it keeps. */
  lemma CleanAppend(a: seq<TxRow>, b: seq<TxRow>, now: Stamp)
    ensures Clean(a + b, now) == Clean(a, now) + Clean(b, now)
  {
    FilterAppend(a, b, Keep);
    var ka := Filter(a, Keep);
    var kb := Filter(b, Keep);
    DeriveAllAppend(ka, kb, now);
  }

  lemma DeriveAllAppend(a: seq<TxRow>, b: seq<TxRow>, now: Stamp)
    ensures DeriveAll(a + b, now) == DeriveAll(a, now) + DeriveAll(b, now)
  {
    MapAppend(a, b, (t: TxRow) => Derive(t, now));
  }


  /** A debt as the service receives it. */
  datatype DebtIn = DebtIn(kind: string, amount: Option<real>, dueDate: Option<string>,
                           interestRate: Option<real>, description: Option<string>)

  datatype DebtRow = DebtRow(kind: string, amount: real, dueDate: Option<Stamp>, interestRate: real, description: string)

  predicate HasAmount(d: DebtIn) {
    d.amount.Some?
  }

  function ToDebtRow(d: DebtIn, strptime: (string, Format) -> Option<Stamp>, now: Stamp): DebtRow
    requires HasAmount(d)
  {
    DebtRow(d.kind, d.amount.value,
            if d.dueDate.Some? && d.dueDate.value != "" then Some(ParseDate(d.dueDate.value, strptime, now)) else None,
            OrZero(d.interestRate), OrDefault(d.description, ""))
  }

  /** `process_debts`: one row per debt, a falsy interest rate read as 0.0 and a falsy due
      date left empty; a debt without an amount makes `float(None)` raise, which empties
      the whole frame. */
  function ProcessDebts(ds: seq<DebtIn>, strptime: (string, Format) -> Option<Stamp>, now: Stamp): (r: seq<DebtRow>)
    ensures (exists i :: 0 <= i < |ds| && !HasAmount(ds[i])) ==> r == []
    ensures (forall i :: 0 <= i < |ds| ==> HasAmount(ds[i])) ==> |r| == |ds|
    ensures |r| == |ds| ==> forall i :: 0 <= i < |ds| ==>
              r[i].amount == ds[i].amount.value
              && (ds[i].interestRate.None? ==> r[i].interestRate == 0.0)
              && (ds[i].interestRate.Some? ==> r[i].interestRate == ds[i].interestRate.value)
              && (r[i].dueDate.None? <==> ds[i].dueDate.None? || ds[i].dueDate.value == "")
  {
    if |ds| == 0 || exists i :: 0 <= i < |ds| && !HasAmount(ds[i]) then []
    else seq(|ds|, i requires 0 <= i < |ds| => ToDebtRow(ds[i], strptime, now))
  }

  /** `spending_trend`: with earlier spending, "increasing" above 1.2 times it and
      "decreasing" below 0.8 times it; "stable" otherwise and whenever there is none. */
  datatype Trend = Increasing | Decreasing | Stable

  function SpendingTrend(recent: real, older: real): (t: Trend)
    ensures older <= 0.0 ==> t == Stable
    ensures older > 0.0 ==> (t == Increasing <==> recent > 1.2 * older)
    ensures older > 0.0 ==> (t == Decreasing <==> recent < 0.8 * older)
  {
    if older > 0.0 then
      var ratio := recent / older;
      RatioAgainst(recent, older, 1.2);
      RatioAgainst(recent, older, 0.8);
      if ratio > 1.2 then Increasing
      else if ratio < 0.8 then Decreasing
      else Stable
    else Stable
  }

  function OfKind(k: string): Row -> bool {
    (r: Row) => r.kind == k
  }

  /** Rows dated at or after `cutoff`. */
  function Since(cutoff: Stamp): Row -> bool {
    (r: Row) => r.date >= cutoff
  }

  /** Rows dated before `cutoff`. */
  function Before(cutoff: Stamp): Row -> bool {
    (r: Row) => r.date < cutoff
  }

  /** `df['amount'].sum()`. */
  function TotalAmount(rows: seq<Row>): real {
    if |rows| == 0 then 0.0 else TotalAmount(rows[..|rows| - 1]) + rows[|rows| - 1].amount
  }

  function Amounts(rows: seq<Row>): (r: seq<real>)
    ensures |r| == |rows| && forall i :: 0 <= i < |rows| ==> r[i] == rows[i].amount
  {
    seq(|rows|, i requires 0 <= i < |rows| => rows[i].amount)
  }

  /** The (category, amount) pairs the breakdown groups. */
  function CategoryPairs(rows: seq<Row>): (r: seq<(string, real)>)
    ensures |r| == |rows| && forall i :: 0 <= i < |rows| ==> r[i] == (rows[i].category, rows[i].amount)
    ensures Grouping.SumValues(r) == TotalAmount(rows)
  {
    if |rows| == 0 then []
    else
      var n := |rows|;
      var prev := CategoryPairs(rows[..n - 1]);
      assert (prev + [(rows[n - 1].category, rows[n - 1].amount)])[..n - 1] == prev;
      prev + [(rows[n - 1].category, rows[n - 1].amount)]
  }

  /** The rows dated in the last thirty days and the earlier ones split every total. */
  lemma {:induction false} RecentPlusOlder(rows: seq<Row>, cutoff: Stamp)
    ensures TotalAmount(Filter(rows, Since(cutoff))) + TotalAmount(Filter(rows, Before(cutoff))) == TotalAmount(rows)
  {
    if |rows| > 0 {
      var n := |rows|;
      var init := rows[..n - 1];
      var x := rows[n - 1];
      assert rows == init + [x];
      RecentPlusOlder(init, cutoff);
      var recent := Filter(init, Since(cutoff));
      var older := Filter(init, Before(cutoff));
      FilterSnoc(init, x, Since(cutoff));
      FilterSnoc(init, x, Before(cutoff));
      TotalSnoc(recent, x);
      TotalSnoc(older, x);
      TotalSnoc(init, x);
      if x.date >= cutoff {
        assert Filter(rows, Since(cutoff)) == recent + [x];
        assert Filter(rows, Before(cutoff)) == older;
      } else {
        assert Filter(rows, Since(cutoff)) == recent;
        assert Filter(rows, Before(cutoff)) == older + [x];
      }
    }
  }

  /** `now - timedelta(days=30)`. */
  function Cutoff(now: Stamp): (c: Stamp)
    ensures now - c == 30 * SecondsPerDay
  {
    now - 30 * SecondsPerDay
  }

  /** The expenses dated in the thirty days up to `now`; the rest of the total is the
      expenses dated before. */
  function RecentTotal(expenses: seq<Row>, now: Stamp): (r: real)
    ensures r + TotalAmount(Filter(expenses, Before(Cutoff(now)))) == TotalAmount(expenses)
  {
    RecentPlusOlder(expenses, Cutoff(now));
    TotalAmount(Filter(expenses, Since(Cutoff(now))))
  }

  /** The trend of the last thirty days against the earlier expenses, the rule both the
      summary and the recommender apply. */
  function ThirtyDayTrend(expenses: seq<Row>, now: Stamp): Trend {
    SpendingTrend(RecentTotal(expenses, now), TotalAmount(expenses) - RecentTotal(expenses, now))
  }

  lemma TotalSnoc(rows: seq<Row>, x: Row)
    ensures TotalAmount(rows + [x]) == TotalAmount(rows) + x.amount
  {
    assert (rows + [x])[..|rows|] == rows;
  }

  lemma {:induction false} TotalIsSum(rows: seq<Row>)
    ensures TotalAmount(rows) == Sum(Amounts(rows))
  {
    if |rows| > 0 {
      var n := |rows|;
      assert Amounts(rows)[..n - 1] == Amounts(rows[..n - 1]);
      TotalIsSum(rows[..n - 1]);
    }
  }

  /** The mean amount of `rows`, 0.0 for none (the summary's `if len(expenses) > 0 else 0`). */
  function AverageAmount(rows: seq<Row>): (r: real)
    ensures |rows| == 0 ==> r == 0.0
    ensures |rows| > 0 ==> Times(|rows|, r) == TotalAmount(rows)
  {
    if |rows| == 0 then 0.0
    else
      TotalIsSum(rows);
      MeanTimes(Amounts(rows));
      Mean(Amounts(rows))
  }

  /** The mean of positive amounts is positive. */
  lemma PositiveMean(rows: seq<Row>)
    requires |rows| > 0 && forall i :: 0 <= i < |rows| ==> rows[i].amount > 0.0
    ensures AverageAmount(rows) > 0.0
  {
    TotalIsSum(rows);
    PositiveSum(Amounts(rows));
  }

  /** The expense rows, in order. */
  function Expenses(rows: seq<Row>): (r: seq<Row>)
    ensures forall i :: 0 <= i < |r| ==> r[i].kind == "expense" && r[i] in rows
    ensures forall i :: 0 <= i < |rows| && rows[i].kind == "expense" ==> rows[i] in r
    ensures (forall i :: 0 <= i < |rows| ==> rows[i].kind != "expense") ==> r == []
  {
    Filter(rows, OfKind("expense"))
  }

  /** The result of `generate_financial_summary`. An empty frame has neither the thirty-day
      spending nor a trend. */
  datatype Summary = Summary(
    totalIncome: real,
    totalExpenses: real,
    netBalance: real,
    categoriesBreakdown: seq<Grouping.Bucket<string>>,
    transactionCount: nat,
    averageExpense: real,
    recentExpenses30d: Option<real>,
    spendingTrend: Option<Trend>)

  /** `generate_financial_summary`: income and expense totals, the net balance, per-category
      expense sums, the mean expense, and the trend of the last thirty days against the
      earlier ones. */
  function Summarize(rows: seq<Row>, now: Stamp): (s: Summary)
    ensures |rows| == 0 ==> s == Summary(0.0, 0.0, 0.0, [], 0, 0.0, None, None)
    ensures s.totalIncome == TotalAmount(Filter(rows, OfKind("income")))
    ensures s.totalExpenses == TotalAmount(Expenses(rows))
    ensures s.netBalance == s.totalIncome - s.totalExpenses
    ensures s.transactionCount == |rows|
    ensures Grouping.Totals(s.categoriesBreakdown) == s.totalExpenses
    ensures Grouping.UniqueKeys(s.categoriesBreakdown)
    ensures Grouping.Ascending(s.categoriesBreakdown, StrLess)
    ensures |rows| > 0 ==> s.averageExpense == AverageAmount(Expenses(rows))
    ensures |rows| > 0 ==> s.recentExpenses30d.Some? && s.spendingTrend.Some?
    ensures |rows| > 0 ==> s.recentExpenses30d == Some(RecentTotal(Expenses(rows), now))
    ensures |rows| > 0 ==> s.spendingTrend == Some(ThirtyDayTrend(Expenses(rows), now))
    ensures Grouping.IsGrouping(s.categoriesBreakdown, CategoryPairs(Expenses(rows)))
    ensures |rows| > 0 ==>
              var recent, trend := s.recentExpenses30d.value, s.spendingTrend.value;
              && (s.totalExpenses - recent <= 0.0 ==> trend == Stable)
              && (s.totalExpenses - recent > 0.0 ==>
                    (trend == Increasing <==> recent > 1.2 * (s.totalExpenses - recent))
                    && (trend == Decreasing <==> recent < 0.8 * (s.totalExpenses - recent)))
  {
    if |rows| == 0 then Summary(0.0, 0.0, 0.0, [], 0, 0.0, None, None)
    else
      var expenses := Expenses(rows);
      var totalExpenses := TotalAmount(expenses);
      var recent := RecentTotal(expenses, now);
      var trend := SpendingTrend(recent, totalExpenses - recent);
      FrameSummary(rows, expenses, totalExpenses, Some(recent), Some(trend))
  }

  /** The totals, the breakdown and the mean expense of a non-empty frame, with the
      thirty-day figures computed by the caller. */
  function FrameSummary(rows: seq<Row>, expenses: seq<Row>, totalExpenses: real,
                        recent: Option<real>, trend: Option<Trend>): (s: Summary)
    requires expenses == Expenses(rows) && totalExpenses == TotalAmount(expenses)
    ensures s.totalIncome == TotalAmount(Filter(rows, OfKind("income")))
    ensures s.netBalance == s.totalIncome - s.totalExpenses
    ensures s.totalExpenses == totalExpenses
    ensures s.transactionCount == |rows|
    ensures Grouping.Totals(s.categoriesBreakdown) == s.totalExpenses
    ensures Grouping.UniqueKeys(s.categoriesBreakdown)
    ensures Grouping.Ascending(s.categoriesBreakdown, StrLess)
    ensures s.averageExpense == AverageAmount(expenses)
    ensures s.recentExpenses30d == recent && s.spendingTrend == trend
    ensures Grouping.IsGrouping(s.categoriesBreakdown, CategoryPairs(expenses))
  {
    var totalIncome := TotalAmount(Filter(rows, OfKind("income")));
    var breakdown := Grouping.GroupByText(CategoryPairs(expenses));
    Summary(totalIncome, totalExpenses, totalIncome - totalExpenses, breakdown, |rows|, AverageAmount(expenses),
            recent, trend)
  }

  /** Each breakdown entry is the sum of that category's expenses, and every expense's
      category has an entry. */
  lemma BreakdownSumsEachCategory(rows: seq<Row>, now: Stamp)
    requires |rows| > 0
    ensures var s := Summarize(rows, now);
            var ps := CategoryPairs(Expenses(rows));
            (forall i :: 0 <= i < |s.categoriesBreakdown| ==>
               s.categoriesBreakdown[i].total == Grouping.SumWhere(ps, s.categoriesBreakdown[i].key))
            && (forall i :: 0 <= i < |ps| ==> ps[i].0 in Grouping.KeysOf(s.categoriesBreakdown))
  {
  }

  /** After cleaning every expense is positive, so the mean expense is positive whenever
      there is an expense. */
  lemma AverageExpenseIsPositive(rows: seq<Row>, now: Stamp)
    requires forall i :: 0 <= i < |rows| ==> rows[i].kind != "expense" || rows[i].amount > 0.0
    requires exists i :: 0 <= i < |rows| && rows[i].kind == "expense"
    ensures Summarize(rows, now).averageExpense > 0.0
  {
    var expenses := Expenses(rows);
    var i :| 0 <= i < |rows| && rows[i].kind == "expense";
    assert rows[i] in expenses;
    forall j | 0 <= j < |expenses|
      ensures expenses[j].amount > 0.0
    {
      assert expenses[j] in rows;
    }
    PositiveMean(expenses);
  }

  lemma {:induction false} PositiveSum(xs: seq<real>)
    requires |xs| > 0 && forall i :: 0 <= i < |xs| ==> xs[i] > 0.0
    ensures Sum(xs) > 0.0
  {
    if |xs| > 1 {
      PositiveSum(xs[..|xs| - 1]);
    } else {
      assert xs[..0] == [];
    }
  }

  /** The weekday names from Monday to Sunday. */
  const WeekdayNames: seq<string> := ["monday", "tuesday", "wednesday", "thursday", "friday", "saturday", "sunday"]

  /** `day_names`: the weekday number `d` (Monday is 0) under its English name. */
  function DayName(d: int): (r: Option<string>)
    ensures r.Some? <==> 0 <= d < 7
    ensures 0 <= d < 7 ==> r == Some(WeekdayNames[d])
  {
    if d == 0 then Some("monday")
    else if d == 1 then Some("tuesday")
    else if d == 2 then Some("wednesday")
    else if d == 3 then Some("thursday")
    else if d == 4 then Some("friday")
    else if d == 5 then Some("saturday")
    else if d == 6 then Some("sunday")
    else None
  }

  /** Different weekdays get different names, so a name identifies its weekday. */
  lemma DayNamesDistinct(a: int, b: int)
    requires DayName(a).Some? && DayName(a) == DayName(b)
    ensures a == b
  {
  }

  /** One of the seven names `day_names` hands out. */
  ghost predicate IsDayName(s: string) {
    exists d :: 0 <= d < 7 && DayName(d) == Some(s)
  }

  /** The (weekday, amount) pairs the weekly pattern groups. */
  function DayPairs(rows: seq<Row>): (r: seq<(int, real)>)
    ensures |r| == |rows| && forall i :: 0 <= i < |rows| ==> r[i] == (rows[i].dayOfWeek, rows[i].amount)
  {
    seq(|rows|, i requires 0 <= i < |rows| => (rows[i].dayOfWeek, rows[i].amount))
  }

  /** The named days of the grouped buckets, keeping the buckets whose key has a name. */
  function NameDays(bs: seq<Grouping.Bucket<int>>): (r: seq<(string, real)>)
    requires forall i :: 0 <= i < |bs| ==> bs[i].count > 0
    ensures |r| <= |bs|
    ensures forall i :: 0 <= i < |r| ==> IsDayName(r[i].0)
    ensures (forall i :: 0 <= i < |bs| ==> 0 <= bs[i].key < 7) ==>
              |r| == |bs| && forall i :: 0 <= i < |bs| ==> r[i] == (DayName(bs[i].key).value, bs[i].Mean())
  {
    if |bs| == 0 then []
    else
      var n := |bs|;
      var prev := NameDays(bs[..n - 1]);
      assert forall j :: 0 <= j < n - 1 ==> bs[..n - 1][j] == bs[j];
      var name := DayName(bs[n - 1].key);
      if name.Some? then
        assert IsDayName(name.value);
        prev + [(name.value, bs[n - 1].Mean())]
      else prev
  }

  /** `get_weekly_patterns`: the mean expense of each weekday that has expenses, under the
      day's name; nothing at all when there are no expenses. */
  function WeeklyPatterns(rows: seq<Row>): (r: seq<(string, real)>)
    ensures (forall i :: 0 <= i < |rows| ==> rows[i].kind != "expense") ==> r == []
    ensures forall i :: 0 <= i < |r| ==> IsDayName(r[i].0)
  {
    var expenses := Expenses(rows);
    if |expenses| == 0 then [] else DailyMeans(DayPairs(expenses))
  }

  /** The named mean of each weekday group of `(weekday, amount)` pairs. */
  function DailyMeans(ps: seq<(int, real)>): (r: seq<(string, real)>)
    ensures forall i :: 0 <= i < |r| ==> IsDayName(r[i].0)
  {
    NameDays(Grouping.GroupByNumber(ps))
  }

  /** Cleaned rows always carry a weekday in 0..6, so every weekday that has an expense
      gets one entry, under its name, holding the mean of that weekday's expenses. */
  lemma WeeklyPatternIsDailyMean(rows: seq<Row>, e: nat)
    requires forall i :: 0 <= i < |rows| ==> 0 <= rows[i].dayOfWeek < 7
    requires e < |rows| && rows[e].kind == "expense"
    ensures var ps := DayPairs(Expenses(rows));
            var bs := Grouping.GroupByNumber(ps);
            var r := WeeklyPatterns(rows);
            |r| == |bs|
            && (forall i :: 0 <= i < |bs| ==>
                  DayName(bs[i].key) == Some(r[i].0)
                  && r[i].1 == Grouping.SumWhere(ps, bs[i].key) / Grouping.CountWhere(ps, bs[i].key) as real)
            && (forall i, j :: 0 <= i < j < |bs| ==> bs[i].key < bs[j].key)
  {
    var expenses := Expenses(rows);
    assert rows[e] in expenses;
    var ps := DayPairs(expenses);
    assert WeeklyPatterns(rows) == DailyMeans(ps);
    PairsAreWeekdays(rows);
    DailyMeansOfWeekdays(ps);
  }

  /** The weekday of every expense pair lies in 0..6. */
  lemma PairsAreWeekdays(rows: seq<Row>)
    requires forall i :: 0 <= i < |rows| ==> 0 <= rows[i].dayOfWeek < 7
    ensures var ps := DayPairs(Expenses(rows));
            forall k :: 0 <= k < |ps| ==> 0 <= ps[k].0 < 7
  {
    var expenses := Expenses(rows);
    forall k | 0 <= k < |expenses|
      ensures 0 <= expenses[k].dayOfWeek < 7
    {
      assert expenses[k] in rows;
    }
  }

  /** Grouping pairs keyed by weekdays names every group and gives it its mean. */
  lemma DailyMeansOfWeekdays(ps: seq<(int, real)>)
    requires forall k :: 0 <= k < |ps| ==> 0 <= ps[k].0 < 7
    ensures var bs := Grouping.GroupByNumber(ps);
            var r := DailyMeans(ps);
            |r| == |bs|
            && forall i :: 0 <= i < |bs| ==>
                 DayName(bs[i].key) == Some(r[i].0)
                 && r[i].1 == Grouping.SumWhere(ps, bs[i].key) / Grouping.CountWhere(ps, bs[i].key) as real
  {
    GroupKeysAreWeekdays(ps);
    var bs := Grouping.GroupByNumber(ps);
    assert |NameDays(bs)| == |bs|;
    NamedMeans(ps, bs, NameDays(bs));
  }

  /** Each group key is the weekday of some pair. */
  lemma GroupKeysAreWeekdays(ps: seq<(int, real)>)
    requires forall k :: 0 <= k < |ps| ==> 0 <= ps[k].0 < 7
    ensures var bs := Grouping.GroupByNumber(ps);
            forall j :: 0 <= j < |bs| ==> 0 <= bs[j].key < 7
  {
    var bs := Grouping.GroupByNumber(ps);
    forall j | 0 <= j < |bs|
      ensures 0 <= bs[j].key < 7
    {
      assert bs[j].key in Grouping.PairKeys(ps);
      var k :| 0 <= k < |ps| && Grouping.PairKeys(ps)[k] == bs[j].key;
    }
  }

  /** Naming the groups of a weekday grouping pairs each name with the group's mean. */
  lemma NamedMeans(ps: seq<(int, real)>, bs: seq<Grouping.Bucket<int>>, r: seq<(string, real)>)
    requires Grouping.IsGrouping(bs, ps)
    requires forall j :: 0 <= j < |bs| ==> 0 <= bs[j].key < 7
    requires |r| == |bs| && forall i :: 0 <= i < |bs| ==> r[i] == (DayName(bs[i].key).value, bs[i].Mean())
    ensures forall i :: 0 <= i < |bs| ==>
              DayName(bs[i].key) == Some(r[i].0)
              && r[i].1 == Grouping.SumWhere(ps, bs[i].key) / Grouping.CountWhere(ps, bs[i].key) as real
  {
    forall j | 0 <= j < |bs|
      ensures r[j].1 == Grouping.SumWhere(ps, bs[j].key) / Grouping.CountWhere(ps, bs[j].key) as real
    {
      MeanOfGroup(bs[j], ps);
    }
  }

  /** A bucket of a grouping holds the mean of the values paired with its key. */
  lemma MeanOfGroup(b: Grouping.Bucket<int>, ps: seq<(int, real)>)
    requires b.total == Grouping.SumWhere(ps, b.key) && b.count == Grouping.CountWhere(ps, b.key) && b.count > 0
    ensures b.Mean() == Grouping.SumWhere(ps, b.key) / Grouping.CountWhere(ps, b.key) as real
  {
  }
}

=== FILE: debt_insights.dfy ===
/** The debt insight cards: whether the user has debt decides between a "no debts" card
    and the backend's prioritisation advice, followed by an always-present summary card. */
module DebtInsights {
  import opened Wrappers
  import opened ShowFilter

  datatype Kind = Success | Warning | Info

  /** What a card says: a fixed message, the backend's advice verbatim (possibly absent),
      or the total debt. */
  datatype Description = NoDebtsMessage | Advice(text: Option<string>) | TotalDebtIs(amount: real) | KeepUpMessage

  datatype Insight = Insight(kind: Kind, title: string, description: Description)

  /** `const { totalDebt = 0 } = data; totalDebt > 0`: a missing total is zero, and zero
      or negative debt is no debt. */
  predicate HasDebt(totalDebt: Option<real>) {
    totalDebt.GetOr(0.0) > 0.0
  }

  /** The shown cards: exactly two, the first "success" when there is no debt and otherwise
      "warning" carrying the advice unchanged, the second the "info" card whose text
      reports the total only when there is debt. */
  function Insights(totalDebt: Option<real>, advice: Option<string>): (r: seq<Insight>)
    ensures |r| == 2
    ensures r[0].kind == Success <==> !HasDebt(totalDebt)
    ensures r[0].kind == Warning <==> HasDebt(totalDebt)
    ensures HasDebt(totalDebt) ==> r[0].description == Advice(advice)
    ensures r[1].kind == Info
    ensures HasDebt(totalDebt) ==> r[1].description == TotalDebtIs(totalDebt.value)
    ensures !HasDebt(totalDebt) ==> r[1].description == KeepUpMessage
  {
    var hasDebt := HasDebt(totalDebt);
    var candidates := [
      (Insight(Success, "Sin deudas activas", NoDebtsMessage), !hasDebt),
      (Insight(Warning, "Consejo de priorización", Advice(advice)), hasDebt),
      (Insight(Info, "Resumen general", if hasDebt then TotalDebtIs(totalDebt.GetOr(0.0)) else KeepUpMessage), true)
    ];
    ShownOfThree(candidates[0], candidates[1], candidates[2]);
    Shown(candidates)
  }

  /** A missing or non-positive total counts as no debt. */
  lemma NonPositiveTotalIsNoDebt(totalDebt: Option<real>)
    requires totalDebt.None? || totalDebt.value <= 0.0
    ensures Insights(totalDebt, None)[0].kind == Success
  {
  }
}

=== FILE: email_pattern.dfy ===
/** The e-mail test `/^[^\s@]+@[^\s@]+\.[^\s@]+$/` shared by the sign-up, sign-in and
    contact forms: a direct structural check, and the pattern's own reading as three
    non-empty runs of ordinary characters joined by '@' and '.'. */
module EmailPattern {
  import opened Text

  /** `[^\s@]`: a character the pattern's runs may contain. */
  predicate Plain(c: char) {
    !IsJsSpace(c) && c != '@'
  }

  /** `[^\s@]+`: a non-empty run of plain characters. */
  predicate Run(s: string) {
    |s| >= 1 && forall i :: 0 <= i < |s| ==> Plain(s[i])
  }

  /** What the regular expression accepts: `s` splits, at an '@' and a later '.', into
      three runs of plain characters. */
  predicate MatchesPattern(s: string) {
    exists at, dot :: 0 <= at < dot < |s| && s[at] == '@' && s[dot] == '.'
      && Run(s[..at]) && Run(s[at + 1..dot]) && Run(s[dot + 1..])
  }

  /** The domain part after the '@' has a '.' with at least one character on each side. */
  predicate HasInnerDot(d: string) {
    |d| >= 3 && '.' in d[1..|d| - 1]
  }

  /** `isValidEmail` / `validateEmail`: no whitespace anywhere, exactly one '@', something
      before it, and after it a '.' that is neither the first nor the last character. */
  function IsValidEmail(s: string): (b: bool)
    ensures b ==> forall i :: 0 <= i < |s| ==> !IsJsSpace(s[i])
    ensures b ==> '@' in s && 0 < IndexOf(s, '@') && '@' !in s[IndexOf(s, '@') + 1..]
  {
    (forall i :: 0 <= i < |s| ==> !IsJsSpace(s[i]))
    && '@' in s
    && var at := IndexOf(s, '@');
       0 < at && '@' !in s[at + 1..] && HasInnerDot(s[at + 1..])
  }

  /** The structural check accepts exactly the strings the regular expression matches. */
  lemma ValidIffMatches(s: string)
    ensures IsValidEmail(s) <==> MatchesPattern(s)
  {
    if IsValidEmail(s) {
      ValidMatches(s);
    }
    if MatchesPattern(s) {
      var at, dot :| 0 <= at < dot < |s| && s[at] == '@' && s[dot] == '.'
        && Run(s[..at]) && Run(s[at + 1..dot]) && Run(s[dot + 1..]);
      MatchIsValid(s, at, dot);
    }
  }

  lemma ValidMatches(s: string)
    requires IsValidEmail(s)
    ensures MatchesPattern(s)
  {
    var at := IndexOf(s, '@');
    var d := s[at + 1..];
    var k :| 0 <= k < |d[1..|d| - 1]| && d[1..|d| - 1][k] == '.';
    var dot := at + 2 + k;
    assert s[dot] == '.';
    forall i | 0 <= i < |s| && i != at
      ensures Plain(s[i])
    {
      if i < at {
        assert s[i] == s[..at][i];
      } else {
        assert s[i] == d[i - at - 1];
      }
    }
    assert Run(s[..at]);
    assert Run(s[at + 1..dot]);
    assert Run(s[dot + 1..]);
  }

  lemma MatchIsValid(s: string, at: int, dot: int)
    requires 0 <= at < dot < |s| && s[at] == '@' && s[dot] == '.'
    requires Run(s[..at]) && Run(s[at + 1..dot]) && Run(s[dot + 1..])
    ensures IsValidEmail(s)
  {
    PlainAround(s, at, dot);
    IndexOfIsFirst(s, '@', at);
    var d := s[at + 1..];
    assert d[1..|d| - 1][dot - at - 2] == '.';
  }

  /** Every character of a match other than the '@' is plain. */
  lemma PlainAround(s: string, at: int, dot: int)
    requires 0 <= at < dot < |s| && s[at] == '@' && s[dot] == '.'
    requires Run(s[..at]) && Run(s[at + 1..dot]) && Run(s[dot + 1..])
    ensures forall i :: 0 <= i < |s| && i != at ==> Plain(s[i])
    ensures '@' !in s[..at] && '@' !in s[at + 1..]
  {
    forall i | 0 <= i < |s| && i != at
      ensures Plain(s[i])
    {
      if i < at {
        assert s[i] == s[..at][i];
      } else if i < dot {
        assert s[i] == s[at + 1..dot][i - at - 1];
      } else if i > dot {
        assert s[i] == s[dot + 1..][i - dot - 1];
      }
    }
  }

  /** The first occurrence of `c` is at `k` when `s[k] == c` and no earlier character is `c`. */
  lemma {:induction false} IndexOfIsFirst(s: string, c: char, k: int)
    requires 0 <= k < |s| && s[k] == c && c !in s[..k]
    ensures c in s && IndexOf(s, c) == k
    decreases k
  {
    assert s[k] in s;
    if k > 0 {
      assert s[0] == s[..k][0];
      assert s[1..][k - 1] == c;
      assert s[1..][..k - 1] == s[..k][1..];
      IndexOfIsFirst(s[1..], c, k - 1);
    }
  }

  /** A leading space is not trimmed before the test, so it makes the address invalid,
      while the same address without it is valid. */
  lemma UntrimmedSpaceIsInvalid()
    ensures !IsValidEmail(" a@b.co")
    ensures IsValidEmail("a@b.co")
  {
    assert IsJsSpace(" a@b.co"[0]);
    ShortAddressIsValid();
  }

  lemma ShortAddressIsValid()
    ensures IsValidEmail("a@b.co")
  {
    var s := "a@b.co";
    assert s[..1] == "a" && s[2..3] == "b" && s[4..] == "co";
    MatchIsValid(s, 1, 3);
  }
}

=== FILE: expense_breakdown.dfy ===
/** The expense pie of the dashboard: each item's share of the total, the cumulative
    start and end angles of its segment, the large-arc flag of its path and the side its
    label is aligned to. The drawing itself (trigonometry and SVG path text) is not part
    of this model. */
module ExpenseBreakdown {
  import opened Wrappers
  import opened Numeric

  datatype Item = Item(category: string, amount: real, color: string, percentage: real)

  datatype Segment = Segment(category: string, amount: real, color: string, percentage: real,
                             startAngle: real, endAngle: real)

  /** The built-in items; their `percentage` fields are overridden when the segments are built. */
  function ExpenseData(): seq<Item> {
    [ Item("rental", 1500.0, "#ef4444", 35.0),
      Item("entertainment", 304.33, "#14b8a6", 15.0),
      Item("shopping", 1161.13, "#3b82f6", 25.0),
      Item("travel", 1251.66, "#10b981", 25.0) ]
  }

  function AmountsOf(items: seq<Item>): (r: seq<real>)
    ensures |r| == |items| && forall i :: 0 <= i < |items| ==> r[i] == items[i].amount
  {
    seq(|items|, i requires 0 <= i < |items| => items[i].amount)
  }

  /** `expenseData.reduce((sum, item) => sum + item.amount, 0)`. */
  function Total(items: seq<Item>): real {
    Sum(AmountsOf(items))
  }

  /** `(value / total) * 100`: a value's share of the total, in percent. */
  function Share(x: real, total: real): real
    requires total != 0.0
  {
    x / total * 100.0
  }

  /** `(percentage / 100) * 360`: the angle a running percentage has reached. */
  function Angle(percentage: real): real {
    percentage / 100.0 * 360.0
  }

  /** The segments from a running percentage `cumulative` on, given each item's
      percentage: each segment starts where the previous one ended, and the last one ends
      at the angle of `cumulative` plus the sum of the percentages. */
  function SegmentsFrom(items: seq<Item>, pcts: seq<real>, cumulative: real): (r: seq<Segment>)
    requires |pcts| == |items|
    ensures |r| == |items|
    ensures forall i :: 0 <= i < |items| ==>
      r[i].percentage == pcts[i] && r[i].category == items[i].category
      && r[i].amount == items[i].amount && r[i].color == items[i].color
    ensures |r| > 0 ==> r[0].startAngle == Angle(cumulative)
    ensures forall i :: 0 <= i < |r| - 1 ==> r[i].endAngle == r[i + 1].startAngle
    ensures |r| > 0 ==> r[|r| - 1].endAngle == Angle(cumulative + SumFrom(pcts))
    decreases |items|
  {
    if |items| == 0 then []
    else
      var item := items[0];
      var percentage := pcts[0];
      var rest := SegmentsFrom(items[1..], pcts[1..], cumulative + percentage);
      var seg := Segment(item.category, item.amount, item.color, percentage,
                         Angle(cumulative), Angle(cumulative + percentage));
      ConsSegment(items, pcts, seg, rest);
      [seg] + rest
  }

  /** The sum of `xs` taken from the front, the way the running percentage accumulates. */
  function SumFrom(xs: seq<real>): (r: real)
    ensures r == Sum(xs)
  {
    if |xs| == 0 then 0.0
    else
      SumAppend([xs[0]], xs[1..]);
      assert [xs[0]] + xs[1..] == xs;
      assert Sum([xs[0]]) == xs[0] by { assert [xs[0]][..0] == []; }
      xs[0] + SumFrom(xs[1..])
  }

  /** Putting the first item's segment in front of the segments of the others. */
  lemma ConsSegment(items: seq<Item>, pcts: seq<real>, seg: Segment, rest: seq<Segment>)
    requires |items| > 0 && |pcts| == |items| && |rest| == |items| - 1
    requires seg.percentage == pcts[0] && seg.category == items[0].category
      && seg.amount == items[0].amount && seg.color == items[0].color
    requires forall i :: 0 <= i < |rest| ==>
      rest[i].percentage == pcts[1..][i] && rest[i].category == items[1..][i].category
      && rest[i].amount == items[1..][i].amount && rest[i].color == items[1..][i].color
    requires |rest| > 0 ==> rest[0].startAngle == seg.endAngle
    requires forall i :: 0 <= i < |rest| - 1 ==> rest[i].endAngle == rest[i + 1].startAngle
    ensures forall i :: 0 <= i < |items| ==>
      ([seg] + rest)[i].percentage == pcts[i] && ([seg] + rest)[i].category == items[i].category
      && ([seg] + rest)[i].amount == items[i].amount && ([seg] + rest)[i].color == items[i].color
    ensures forall i :: 0 <= i < |rest| ==> ([seg] + rest)[i].endAngle == ([seg] + rest)[i + 1].startAngle
  {
    var r := [seg] + rest;
    forall i | 0 <= i < |items|
      ensures r[i].percentage == pcts[i] && r[i].category == items[i].category
        && r[i].amount == items[i].amount && r[i].color == items[i].color
    {
      if i > 0 {
        assert r[i] == rest[i - 1] && items[i] == items[1..][i - 1] && pcts[i] == pcts[1..][i - 1];
      }
    }
    forall i | 0 <= i < |rest|
      ensures r[i].endAngle == r[i + 1].startAngle
    {
      assert r[i + 1] == rest[i];
      if i > 0 {
        assert r[i] == rest[i - 1];
      }
    }
  }

  /** The segments of the pie, or `None` when the amounts sum to zero (every percentage and
      angle would then be `NaN`). With a non-zero total each percentage is the item's share
      of the total, the first segment starts at 0, the segments are contiguous, the
      percentages sum to 100 and the last segment ends at 360. */
  function Segments(items: seq<Item>): (r: Option<seq<Segment>>)
    ensures r.None? <==> Total(items) == 0.0
    ensures r.Some? ==> |r.value| == |items|
    ensures r.Some? ==> forall i :: 0 <= i < |items| ==>
      r.value[i].percentage == Share(items[i].amount, Total(items)) && r.value[i].category == items[i].category
    ensures r.Some? && |items| > 0 ==> r.value[0].startAngle == 0.0 && r.value[|items| - 1].endAngle == 360.0
    ensures r.Some? ==> forall i :: 0 <= i < |items| - 1 ==> r.value[i].endAngle == r.value[i + 1].startAngle
  {
    var total := Total(items);
    if total == 0.0 then None
    else
      var pcts := Shares(AmountsOf(items), total);
      SumOfShares(AmountsOf(items), total);
      OneHundredPercent(total);
      Some(SegmentsFrom(items, pcts, 0.0))
  }

  function Percentages(ss: seq<Segment>): (r: seq<real>)
    ensures |r| == |ss| && forall i :: 0 <= i < |ss| ==> r[i] == ss[i].percentage
  {
    seq(|ss|, i requires 0 <= i < |ss| => ss[i].percentage)
  }

  /** Each value's share of `total`, in percent. */
  function Shares(xs: seq<real>, total: real): (r: seq<real>)
    requires total != 0.0
    ensures |r| == |xs| && forall i :: 0 <= i < |xs| ==> r[i] == Share(xs[i], total)
  {
    seq(|xs|, i requires 0 <= i < |xs| => Share(xs[i], total))
  }

  /** The shares of the values add up to the share of their sum. */
  lemma {:induction false} SumOfShares(xs: seq<real>, total: real)
    requires total != 0.0
    ensures Sum(Shares(xs, total)) == Share(Sum(xs), total)
    decreases |xs|
  {
    if |xs| > 0 {
      var n := |xs|;
      SumOfShares(xs[..n - 1], total);
      assert Shares(xs, total)[..n - 1] == Shares(xs[..n - 1], total);
      var s := Sum(xs[..n - 1]);
      assert (s + xs[n - 1]) / total == s / total + xs[n - 1] / total;
    }
  }

  lemma OneHundredPercent(total: real)
    requires total != 0.0
    ensures Share(total, total) == 100.0
  {
    assert total / total == 1.0;
  }

  /** With a non-zero total the percentages sum to exactly 100. */
  lemma PercentagesTotalHundred(items: seq<Item>)
    requires Total(items) != 0.0
    ensures Sum(Percentages(Segments(items).value)) == 100.0
  {
    var total := Total(items);
    var shares := Shares(AmountsOf(items), total);
    assert Percentages(Segments(items).value) == shares;
    SumOfShares(AmountsOf(items), total);
    OneHundredPercent(total);
  }

  /** The built-in rental item is recomputed to about 35.6 %, not its stated 35. */
  lemma RentalShareIsNotStatedShare()
    ensures Segments(ExpenseData()).Some?
    ensures Segments(ExpenseData()).value[0].percentage > ExpenseData()[0].percentage
  {
    var items := ExpenseData();
    assert AmountsOf(items) == [1500.0, 304.33, 1161.13, 1251.66];
    SumSnoc([], 1500.0);
    assert [] + [1500.0] == [1500.0];
    SumSnoc([1500.0], 304.33);
    assert [1500.0] + [304.33] == [1500.0, 304.33];
    SumSnoc([1500.0, 304.33], 1161.13);
    assert [1500.0, 304.33] + [1161.13] == [1500.0, 304.33, 1161.13];
    SumSnoc([1500.0, 304.33, 1161.13], 1251.66);
    assert [1500.0, 304.33, 1161.13] + [1251.66] == [1500.0, 304.33, 1161.13, 1251.66];
    assert Total(items) == 4217.12;
  }

  /** `endAngle - startAngle <= 180 ? "0" : "1"`. */
  function LargeArcFlag(startAngle: real, endAngle: real): (r: string)
    ensures r == "1" <==> endAngle - startAngle > 180.0
    ensures r == "0" || r == "1"
  {
    if endAngle - startAngle <= 180.0 then "0" else "1"
  }

  /** A segment spans more than half the circle exactly when it is more than half the total. */
  lemma LargeArcIffOverHalf(s: Segment, total: real)
    requires total > 0.0
    requires s.endAngle - s.startAngle == s.percentage / 100.0 * 360.0
    ensures LargeArcFlag(s.startAngle, s.endAngle) == "1" <==> s.percentage > 50.0
  {
  }

  datatype TextAlign = Left | Center | Right

  /** Labels left of the vertical axis align right, those right of it align left, and a
      label exactly on the axis (90 or 270 degrees) stays centred. */
  function LabelAlign(startAngle: real, endAngle: real): (r: TextAlign)
    ensures var mid := (startAngle + endAngle) / 2.0;
      && (r == Right <==> 90.0 < mid < 270.0)
      && (r == Left <==> mid < 90.0 || mid > 270.0)
      && (r == Center <==> mid == 90.0 || mid == 270.0)
  {
    var midAngle := (startAngle + endAngle) / 2.0;
    if midAngle > 90.0 && midAngle < 270.0 then Right
    else if midAngle > 270.0 || midAngle < 90.0 then Left
    else Center
  }
}

=== FILE: goal_cards.dfy ===
/** One savings goal's card: the progress bar value, clamped to `[0, 100]` and guarded
    against small targets by dividing by at least 1. */
module GoalCards {
  import opened Numeric

  /** `Math.min(100, Math.max(0, current / Math.max(1, target) * 100))`. */
  function GoalPct(currentAmount: real, targetAmount: real): (r: real)
    ensures 0.0 <= r <= 100.0
    ensures currentAmount <= 0.0 ==> r == 0.0
    ensures targetAmount >= 1.0 && 0.0 <= currentAmount <= targetAmount ==> r == currentAmount / targetAmount * 100.0
    ensures currentAmount >= targetAmount && targetAmount >= 1.0 ==> r == 100.0
    ensures targetAmount < 1.0 ==> r == Clamp(currentAmount * 100.0, 0.0, 100.0)
  {
    var denominator := Max(1.0, targetAmount);
    var raw := currentAmount / denominator * 100.0;
    RatioVersusOne(currentAmount, denominator);
    SignOfRatio(currentAmount, denominator);
    Min(100.0, Max(0.0, raw))
  }

  /** The ratio of a value to a positive denominator has the value's sign. */
  lemma SignOfRatio(a: real, b: real)
    requires b > 0.0
    ensures a <= 0.0 <==> a / b <= 0.0
  {
    assert a / b * b == a;
  }

  /** For a fixed target, more saved money never shows less progress. */
  lemma GoalPctMonotone(current1: real, current2: real, targetAmount: real)
    requires current1 <= current2
    ensures GoalPct(current1, targetAmount) <= GoalPct(current2, targetAmount)
  {
    var d := Max(1.0, targetAmount);
    assert current1 / d <= current2 / d by {
      assert current2 / d - current1 / d == (current2 - current1) / d;
      SignOfRatio(current1 - current2, d);
    }
  }

  /** A zero target does not divide by zero: 50 saved towards 0 shows a full bar. */
  lemma ZeroTargetIsFull()
    ensures GoalPct(50.0, 0.0) == 100.0
  {
  }
}

=== FILE: goal_overview.dfy ===
/** The goals overview: the summed targets and savings of every goal, the aggregate
    progress percentage and the goal count. Unlike a goal card, the aggregate guards
    only against a non-positive total and is not clamped. */
module GoalOverview {
  import opened Wrappers
  import opened Numeric
  import GoalCards

  /** The two amounts of a goal as the page reads them. */
  datatype GoalAmounts = GoalAmounts(targetAmount: JsField, currentAmount: JsField)

  datatype Overview = Overview(totalTarget: real, totalCurrent: real, progressPct: real, totalCount: int)

  /** What the component renders: the loading placeholder, or the overview cards. */
  datatype View = Loading | Shown(overview: Overview)

  function Targets(goals: seq<GoalAmounts>): (r: seq<real>)
    ensures |r| == |goals| && forall i :: 0 <= i < |goals| ==> r[i] == FalsyOrZero(goals[i].targetAmount)
  {
    seq(|goals|, i requires 0 <= i < |goals| => FalsyOrZero(goals[i].targetAmount))
  }

  function Currents(goals: seq<GoalAmounts>): (r: seq<real>)
    ensures |r| == |goals| && forall i :: 0 <= i < |goals| ==> r[i] == FalsyOrZero(goals[i].currentAmount)
  {
    seq(|goals|, i requires 0 <= i < |goals| => FalsyOrZero(goals[i].currentAmount))
  }

  /** `totalTarget > 0 ? totalCurrent / totalTarget * 100 : 0`. */
  function ProgressPct(totalCurrent: real, totalTarget: real): (r: real)
    ensures totalTarget <= 0.0 ==> r == 0.0
    ensures totalTarget > 0.0 ==> (r > 100.0 <==> totalCurrent > totalTarget)
    ensures totalTarget > 0.0 ==> (r == 100.0 <==> totalCurrent == totalTarget)
    ensures totalTarget > 0.0 ==> r * totalTarget == totalCurrent * 100.0
  {
    if totalTarget > 0.0 then
      RatioVersusOne(totalCurrent, totalTarget);
      totalCurrent / totalTarget * 100.0
    else 0.0
  }

  /** The overview of the goal list (`data.data`, absent when there is no data) and the
      server's optional `meta.total`, or the placeholder while the query is loading: the
      totals sum each goal's amounts with every falsy amount read as zero, and the count is
      `meta.total` when given, the list length otherwise. */
  function Compute(isLoading: bool, goals: Option<seq<GoalAmounts>>, metaTotal: Option<int>): (v: View)
    ensures v.Loading? <==> isLoading
    ensures v.Shown? && goals.None? ==>
              v.overview.totalTarget == 0.0 && v.overview.totalCurrent == 0.0 && v.overview.progressPct == 0.0
    ensures v.Shown? && goals.Some? ==>
              v.overview.totalTarget == Sum(Targets(goals.value)) && v.overview.totalCurrent == Sum(Currents(goals.value))
    ensures v.Shown? && v.overview.totalTarget <= 0.0 ==> v.overview.progressPct == 0.0
    ensures v.Shown? ==> v.overview.progressPct == ProgressPct(v.overview.totalCurrent, v.overview.totalTarget)
    ensures v.Shown? && v.overview.totalTarget > 0.0 ==>
              (v.overview.progressPct > 100.0 <==> v.overview.totalCurrent > v.overview.totalTarget)
    ensures v.Shown? && metaTotal.Some? ==> v.overview.totalCount == metaTotal.value
    ensures v.Shown? && metaTotal.None? ==> v.overview.totalCount == |goals.GetOr([])|
  {
    var gs := goals.GetOr([]);
    if isLoading then Loading
    else
      var totalTarget := Sum(Targets(gs));
      var totalCurrent := Sum(Currents(gs));
      Shown(Overview(totalTarget, totalCurrent, ProgressPct(totalCurrent, totalTarget), metaTotal.GetOr(|gs|)))
  }

  /** One more goal adds its target when that target is truthy, and nothing otherwise:
      a missing, zero or `NaN` target contributes zero. */
  lemma {:induction false} AddingGoalAddsTarget(goals: seq<GoalAmounts>, g: GoalAmounts)
    ensures Sum(Targets(goals + [g])) == Sum(Targets(goals)) + (if g.targetAmount.Num? then g.targetAmount.v else 0.0)
  {
    assert Targets(goals + [g]) == Targets(goals) + [FalsyOrZero(g.targetAmount)];
    SumAppend(Targets(goals), [FalsyOrZero(g.targetAmount)]);
    assert Sum([FalsyOrZero(g.targetAmount)]) == FalsyOrZero(g.targetAmount) by {
      assert [FalsyOrZero(g.targetAmount)][..0] == [];
    }
  }

  /** The two guards differ: a single goal of target 0 with 50 saved is at 100 % on its
      card but at 0 % in the overview. */
  lemma CardAndOverviewGuardsDiffer()
    ensures GoalCards.GoalPct(50.0, 0.0) == 100.0
    ensures Compute(false, Some([GoalAmounts(Num(0.0), Num(50.0))]), None).overview.progressPct == 0.0
  {
    var gs := [GoalAmounts(Num(0.0), Num(50.0))];
    assert Targets(gs) == [0.0];
    assert [0.0][..0] == [];
  }

  /** An empty goal list has zero totals and zero progress. */
  lemma EmptyListHasNoProgress(metaTotal: Option<int>)
    ensures Compute(false, Some([]), metaTotal).overview.progressPct == 0.0
  {
    assert Targets([]) == [];
  }
}

=== FILE: grouping.dfy ===
/** Group-by-key accumulation. `GroupBy` is the JavaScript `Map` filled with
    `map.set(k, (map.get(k) ?? 0) + v)`, whose buckets appear in the order in which their key
    is first met (the order of pandas `unique()` too). `SortedGroupBy` is pandas
    `groupby(key)[col].agg(sum, count, mean)`, whose buckets come in ascending key order. */
module Grouping {
  import opened Numeric
  import Text

  datatype Bucket<K> = Bucket(key: K, total: real, count: nat) {
    /** The group mean: `total / count`. */
    function Mean(): real
      requires count > 0
    {
      total / count as real
    }
  }

  function KeysOf<K>(bs: seq<Bucket<K>>): (r: seq<K>)
    ensures |r| == |bs| && forall i :: 0 <= i < |bs| ==> r[i] == bs[i].key
  {
    seq(|bs|, i requires 0 <= i < |bs| => bs[i].key)
  }

  function PairKeys<K, V>(ps: seq<(K, V)>): (r: seq<K>)
    ensures |r| == |ps| && forall i :: 0 <= i < |ps| ==> r[i] == ps[i].0
  {
    seq(|ps|, i requires 0 <= i < |ps| => ps[i].0)
  }

  predicate UniqueKeys<K(==)>(bs: seq<Bucket<K>>) {
    forall i, j :: 0 <= i < j < |bs| ==> bs[i].key != bs[j].key
  }

  /** Sum of the bucket totals. */
  function Totals<K>(bs: seq<Bucket<K>>): real {
    if |bs| == 0 then 0.0 else Totals(bs[..|bs| - 1]) + bs[|bs| - 1].total
  }

  /** Sum of every value of the input pairs. */
  function SumValues<K>(ps: seq<(K, real)>): real {
    if |ps| == 0 then 0.0 else SumValues(ps[..|ps| - 1]) + ps[|ps| - 1].1
  }

  /** Sum of the values paired with key `k`. */
  function SumWhere<K(==)>(ps: seq<(K, real)>, k: K): real {
    if |ps| == 0 then 0.0
    else SumWhere(ps[..|ps| - 1], k) + (if ps[|ps| - 1].0 == k then ps[|ps| - 1].1 else 0.0)
  }

  /** Number of pairs with key `k`. */
  function CountWhere<K(==)>(ps: seq<(K, real)>, k: K): nat {
    if |ps| == 0 then 0
    else CountWhere(ps[..|ps| - 1], k) + (if ps[|ps| - 1].0 == k then 1 else 0)
  }

  lemma {:induction false} AbsentKey<K>(ps: seq<(K, real)>, k: K)
    requires k !in PairKeys(ps)
    ensures SumWhere(ps, k) == 0.0 && CountWhere(ps, k) == 0
  {
    if |ps| > 0 {
      assert PairKeys(ps[..|ps| - 1]) == PairKeys(ps)[..|ps| - 1];
      AbsentKey(ps[..|ps| - 1], k);
    }
  }

  lemma {:induction false} PresentKey<K>(ps: seq<(K, real)>, k: K)
    requires k in PairKeys(ps)
    ensures CountWhere(ps, k) > 0
  {
    var n := |ps|;
    if ps[n - 1].0 != k {
      assert PairKeys(ps[..n - 1]) == PairKeys(ps)[..n - 1];
      PresentKey(ps[..n - 1], k);
    }
  }

  lemma {:induction false} TotalsUpdate<K>(bs: seq<Bucket<K>>, i: nat, b: Bucket<K>)
    requires i < |bs|
    ensures Totals(bs[i := b]) == Totals(bs) - bs[i].total + b.total
  {
    var n := |bs|;
    if i < n - 1 {
      assert bs[i := b][..n - 1] == bs[..n - 1][i := b];
      TotalsUpdate(bs[..n - 1], i, b);
    } else {
      assert bs[i := b][..n - 1] == bs[..n - 1];
    }
  }

  function IndexOfKey<K(==)>(bs: seq<Bucket<K>>, k: K): (i: nat)
    requires k in KeysOf(bs)
    ensures i < |bs| && bs[i].key == k
  {
    if bs[0].key == k then 0
    else
      assert KeysOf(bs[1..]) == KeysOf(bs)[1..];
      1 + IndexOfKey(bs[1..], k)
  }

  /** One step of the accumulation: add `v` to the bucket of `k`, opening a new
      bucket at the end when `k` has not been seen. */
  function Add<K(==)>(bs: seq<Bucket<K>>, k: K, v: real): (r: seq<Bucket<K>>)
    requires UniqueKeys(bs)
    ensures UniqueKeys(r)
    ensures Totals(r) == Totals(bs) + v
    ensures KeysOf(r) == if k in KeysOf(bs) then KeysOf(bs) else KeysOf(bs) + [k]
    ensures forall j :: 0 <= j < |bs| && bs[j].key != k ==> r[j] == bs[j]
    ensures forall j :: 0 <= j < |r| && r[j].key == k ==>
      (if k in KeysOf(bs) then r[j].total == bs[j].total + v && r[j].count == bs[j].count + 1
       else j == |bs| && r[j] == Bucket(k, v, 1))
  {
    if k in KeysOf(bs) then
      var i := IndexOfKey(bs, k);
      TotalsUpdate(bs, i, Bucket(k, bs[i].total + v, bs[i].count + 1));
      bs[i := Bucket(k, bs[i].total + v, bs[i].count + 1)]
    else
      assert (bs + [Bucket(k, v, 1)])[..|bs|] == bs;
      bs + [Bucket(k, v, 1)]
  }

  /** `r` groups `ps`: its keys are distinct and are exactly the keys of `ps`, and each
      bucket holds the sum and the number of the values paired with its key. */
  ghost predicate IsGrouping<K>(r: seq<Bucket<K>>, ps: seq<(K, real)>) {
    && UniqueKeys(r)
    && (forall i :: 0 <= i < |ps| ==> ps[i].0 in KeysOf(r))
    && (forall i :: 0 <= i < |r| ==> r[i].key in PairKeys(ps))
    && (forall i :: 0 <= i < |r| ==>
          r[i].total == SumWhere(ps, r[i].key) && r[i].count == CountWhere(ps, r[i].key) && r[i].count > 0)
  }

  /** The grouped sums of `ps`: one bucket per distinct key, holding the sum and the
      number of the values paired with that key; together the buckets account for
      every input value exactly once. */
  function GroupBy<K(==)>(ps: seq<(K, real)>): (r: seq<Bucket<K>>)
    ensures IsGrouping(r, ps)
    ensures Totals(r) == SumValues(ps)
    ensures forall i :: 0 <= i < |r| ==> r[i].count > 0
  {
    if |ps| == 0 then []
    else
      var n := |ps|;
      var prev := GroupBy(ps[..n - 1]);
      assert ps == ps[..n - 1] + [ps[n - 1]];
      GroupStep(ps[..n - 1], prev, ps[n - 1].0, ps[n - 1].1);
      Add(prev, ps[n - 1].0, ps[n - 1].1)
  }

  /** Where `k` first occurs in `ks`. */
  function FirstAt<K(==)>(ks: seq<K>, k: K): (i: nat)
    requires k in ks
    ensures i < |ks| && ks[i] == k && k !in ks[..i]
  {
    if ks[0] == k then 0 else 1 + FirstAt(ks[1..], k)
  }

  /** A key's first occurrence does not move when elements are appended. */
  lemma {:induction false} FirstAtPrefix<K>(ks: seq<K>, n: nat, k: K)
    requires n <= |ks| && k in ks[..n]
    ensures FirstAt(ks, k) == FirstAt(ks[..n], k)
  {
    var i, j := FirstAt(ks, k), FirstAt(ks[..n], k);
    assert ks[..n][..j] == ks[..j];
  }

  /** `keys` lists the keys of `ks`, each after every key met earlier in `ks`. */
  ghost predicate FirstAppearanceOrder<K>(keys: seq<K>, ks: seq<K>) {
    && (forall i :: 0 <= i < |keys| ==> keys[i] in ks)
    && (forall i :: 0 <= i < |ks| ==> ks[i] in keys)
    && (forall i, j :: 0 <= i < j < |keys| ==> FirstAt(ks, keys[i]) < FirstAt(ks, keys[j]))
  }

  /** Meeting one more key keeps the order: a known key changes nothing, a new one goes last. */
  lemma FirstAppearanceStep<K>(ks: seq<K>, prev: seq<K>, keys: seq<K>)
    requires |ks| > 0 && FirstAppearanceOrder(prev, ks[..|ks| - 1])
    requires keys == if ks[|ks| - 1] in prev then prev else prev + [ks[|ks| - 1]]
    ensures FirstAppearanceOrder(keys, ks)
  {
    var n := |ks|;
    var last := ks[n - 1];
    FirstAtsKept(ks, prev);
    forall i | 0 <= i < n
      ensures ks[i] in keys
    {
      if i < n - 1 {
        assert ks[..n - 1][i] == ks[i];
      }
    }
    if last !in prev {
      assert last !in ks[..n - 1];
      NewKeyLast(ks, prev, keys);
    }
  }

  /** The keys met before the last element keep their first positions, all before it. */
  lemma FirstAtsKept<K>(ks: seq<K>, prev: seq<K>)
    requires |ks| > 0 && FirstAppearanceOrder(prev, ks[..|ks| - 1])
    ensures forall i :: 0 <= i < |prev| ==>
              prev[i] in ks && FirstAt(ks, prev[i]) == FirstAt(ks[..|ks| - 1], prev[i]) < |ks| - 1
  {
    forall i | 0 <= i < |prev|
      ensures prev[i] in ks && FirstAt(ks, prev[i]) == FirstAt(ks[..|ks| - 1], prev[i])
    {
      FirstAtPrefix(ks, |ks| - 1, prev[i]);
    }
  }

  /** A key met for the first time at the end goes after every earlier key. */
  lemma NewKeyLast<K>(ks: seq<K>, prev: seq<K>, keys: seq<K>)
    requires |ks| > 0 && keys == prev + [ks[|ks| - 1]] && ks[|ks| - 1] !in ks[..|ks| - 1]
    requires forall i :: 0 <= i < |prev| ==> prev[i] in ks && FirstAt(ks, prev[i]) < |ks| - 1
    requires forall i, j :: 0 <= i < j < |prev| ==> FirstAt(ks, prev[i]) < FirstAt(ks, prev[j])
    ensures forall i, j :: 0 <= i < j < |keys| ==> FirstAt(ks, keys[i]) < FirstAt(ks, keys[j])
  {
    assert FirstAt(ks, ks[|ks| - 1]) == |ks| - 1;
    forall i, j | 0 <= i < j < |keys|
      ensures FirstAt(ks, keys[i]) < FirstAt(ks, keys[j])
    {
      assert keys[i] == prev[i];
      if j < |prev| {
        assert keys[j] == prev[j];
      }
    }
  }

  /** pandas `unique()`: the distinct elements of `s`, each kept where it first occurs. */
  function Unique<K(==)>(s: seq<K>): (r: seq<K>)
    ensures forall i :: 0 <= i < |r| ==> r[i] in s
    ensures forall i :: 0 <= i < |s| ==> s[i] in r
    ensures forall i, j :: 0 <= i < j < |r| ==> r[i] != r[j]
  {
    if |s| == 0 then []
    else
      var n := |s|;
      var u := Unique(s[..n - 1]);
      assert s == s[..n - 1] + [s[n - 1]];
      if s[n - 1] in u then u else u + [s[n - 1]]
  }

  /** `unique()` lists the elements in the order in which they are first met. */
  lemma {:induction false} UniqueFirstAppearance<K>(s: seq<K>)
    ensures FirstAppearanceOrder(Unique(s), s)
  {
    if |s| > 0 {
      var n := |s|;
      UniqueFirstAppearance(s[..n - 1]);
      FirstAppearanceStep(s, Unique(s[..n - 1]), Unique(s));
    }
  }

  /** The buckets of `GroupBy` come in the order in which their keys are first met, as the
      entries of a JavaScript `Map` do. */
  lemma {:induction false} GroupByFirstAppearance<K>(ps: seq<(K, real)>)
    ensures FirstAppearanceOrder(KeysOf(GroupBy(ps)), PairKeys(ps))
  {
    if |ps| > 0 {
      var n := |ps|;
      var prev := GroupBy(ps[..n - 1]);
      GroupByFirstAppearance(ps[..n - 1]);
      assert GroupBy(ps) == Add(prev, ps[n - 1].0, ps[n - 1].1);
      assert PairKeys(ps[..n - 1]) == PairKeys(ps)[..n - 1];
      FirstAppearanceStep(PairKeys(ps), KeysOf(prev), KeysOf(GroupBy(ps)));
    }
  }

  lemma GroupStep<K>(ps: seq<(K, real)>, prev: seq<Bucket<K>>, k: K, v: real)
    requires IsGrouping(prev, ps) && Totals(prev) == SumValues(ps)
    ensures IsGrouping(Add(prev, k, v), ps + [(k, v)])
    ensures Totals(Add(prev, k, v)) == SumValues(ps + [(k, v)])
  {
    assert (ps + [(k, v)])[..|ps|] == ps;
    GroupStepKeys(ps, prev, k, v);
    GroupStepSums(ps, prev, k, v);
  }

  lemma GroupStepKeys<K>(ps: seq<(K, real)>, prev: seq<Bucket<K>>, k: K, v: real)
    requires IsGrouping(prev, ps)
    ensures forall i :: 0 <= i < |ps| + 1 ==> (ps + [(k, v)])[i].0 in KeysOf(Add(prev, k, v))
    ensures forall i :: 0 <= i < |Add(prev, k, v)| ==> Add(prev, k, v)[i].key in PairKeys(ps + [(k, v)])
  {
    var ps' := ps + [(k, v)];
    var r := Add(prev, k, v);
    assert PairKeys(ps') == PairKeys(ps) + [k];
    forall i | 0 <= i < |ps'|
      ensures ps'[i].0 in KeysOf(r)
    {
      if i < |ps| {
        assert ps[i].0 in KeysOf(prev);
      }
    }
  }

  lemma GroupStepSums<K>(ps: seq<(K, real)>, prev: seq<Bucket<K>>, k: K, v: real)
    requires IsGrouping(prev, ps)
    ensures forall i :: 0 <= i < |Add(prev, k, v)| ==>
              var b := Add(prev, k, v)[i];
              b.total == SumWhere(ps + [(k, v)], b.key) && b.count == CountWhere(ps + [(k, v)], b.key) && b.count > 0
  {
    var ps' := ps + [(k, v)];
    var r := Add(prev, k, v);
    assert ps'[..|ps|] == ps;
    if k !in PairKeys(ps) {
      AbsentKey(ps, k);
    }
    forall i | 0 <= i < |r|
      ensures r[i].total == SumWhere(ps', r[i].key) && r[i].count == CountWhere(ps', r[i].key) && r[i].count > 0
    {
      if r[i].key != k {
        assert i < |prev| && r[i] == prev[i];
      } else if k in KeysOf(prev) {
        assert prev[i].key == k;
      }
    }
  }

  /** A grouping has a bucket for exactly the keys that occur in the pairs. */
  lemma GroupingKeys<K>(r: seq<Bucket<K>>, ps: seq<(K, real)>)
    requires IsGrouping(r, ps)
    ensures forall k :: k in KeysOf(r) <==> k in PairKeys(ps)
  {
    forall k | k in PairKeys(ps)
      ensures k in KeysOf(r)
    {
      var i :| 0 <= i < |ps| && PairKeys(ps)[i] == k;
    }
  }

  /** The grouped totals of non-negative values are non-negative. */
  lemma {:induction false} SumWhereNonNegative<K>(ps: seq<(K, real)>, k: K)
    requires forall i :: 0 <= i < |ps| ==> ps[i].1 >= 0.0
    ensures SumWhere(ps, k) >= 0.0
  {
    if |ps| > 0 {
      SumWhereNonNegative(ps[..|ps| - 1], k);
    }
  }

  /** Non-negative values give every group a non-negative mean. */
  lemma GroupMeansNonNegative<K>(ps: seq<(K, real)>)
    requires forall i :: 0 <= i < |ps| ==> ps[i].1 >= 0.0
    ensures forall i :: 0 <= i < |GroupBy(ps)| ==> GroupBy(ps)[i].Mean() >= 0.0
  {
    var bs := GroupBy(ps);
    forall i | 0 <= i < |bs|
      ensures bs[i].Mean() >= 0.0
    {
      BucketTotalNonNegative(ps, bs[i]);
      MeanSign(bs[i].total, bs[i].count as real);
    }
  }

  lemma MeanSign(a: real, b: real)
    requires a >= 0.0 && b > 0.0
    ensures a / b >= 0.0
  {
  }

  lemma GroupTotalsNonNegative<K>(ps: seq<(K, real)>)
    requires forall i :: 0 <= i < |ps| ==> ps[i].1 >= 0.0
    ensures forall k :: 0 <= k < |GroupBy(ps)| ==> GroupBy(ps)[k].total >= 0.0
  {
    var bs := GroupBy(ps);
    forall k | 0 <= k < |bs|
      ensures bs[k].total >= 0.0
    {
      BucketTotalNonNegative(ps, bs[k]);
    }
  }

  lemma BucketTotalNonNegative<K>(ps: seq<(K, real)>, b: Bucket<K>)
    requires forall i :: 0 <= i < |ps| ==> ps[i].1 >= 0.0
    requires b.total == SumWhere(ps, b.key)
    ensures b.total >= 0.0
  {
    SumWhereNonNegative(ps, b.key);
  }

  /** A group's total never exceeds the sum of all non-negative values. */
  lemma {:induction false} SumWhereAtMostTotal<K>(ps: seq<(K, real)>, k: K)
    requires forall i :: 0 <= i < |ps| ==> ps[i].1 >= 0.0
    ensures SumWhere(ps, k) <= SumValues(ps)
  {
    if |ps| > 0 {
      SumWhereAtMostTotal(ps[..|ps| - 1], k);
    }
  }

  /** `lt` orders keys strictly and totally: irreflexive, transitive, and any two distinct
      keys are related one way or the other. */
  ghost predicate StrictOrder<K(!new)>(lt: (K, K) -> bool) {
    && (forall a :: !lt(a, a))
    && (forall a, b, c :: lt(a, b) && lt(b, c) ==> lt(a, c))
    && (forall a, b :: a != b ==> lt(a, b) || lt(b, a))
  }

  /** The bucket keys strictly increase under `lt`. */
  ghost predicate Ascending<K>(bs: seq<Bucket<K>>, lt: (K, K) -> bool) {
    forall i, j :: 0 <= i < j < |bs| ==> lt(bs[i].key, bs[j].key)
  }

  /** Python's `<` on integers. */
  predicate IntLess(a: int, b: int) {
    a < b
  }

  lemma IntLessIsStrictOrder()
    ensures StrictOrder(IntLess)
  {
  }

  lemma StrLessIsStrictOrder()
    ensures StrictOrder(Text.StrLess)
  {
    forall a | true
      ensures !Text.StrLess(a, a)
    {
      Text.StrLessIrreflexive(a);
    }
    forall a, b, c | Text.StrLess(a, b) && Text.StrLess(b, c)
      ensures Text.StrLess(a, c)
    {
      Text.StrLessTransitive(a, b, c);
    }
    forall a, b | a != b
      ensures Text.StrLess(a, b) || Text.StrLess(b, a)
    {
      Text.StrLessTotal(a, b);
    }
  }

  lemma {:induction false} TotalsCons<K>(b: Bucket<K>, bs: seq<Bucket<K>>)
    ensures Totals([b] + bs) == b.total + Totals(bs)
    decreases |bs|
  {
    var n := |bs|;
    if n == 0 {
      assert ([b] + bs)[..0] == [];
    } else {
      assert ([b] + bs)[..n] == [b] + bs[..n - 1];
      TotalsCons(b, bs[..n - 1]);
    }
  }

  /** `b` placed before the first bucket whose key `lt` puts after its own. */
  function InsertBucket<K>(bs: seq<Bucket<K>>, b: Bucket<K>, lt: (K, K) -> bool): (r: seq<Bucket<K>>)
    ensures multiset(r) == multiset(bs) + multiset{b}
    ensures Totals(r) == Totals(bs) + b.total
  {
    if |bs| == 0 then
      assert [b][..0] == [];
      [b]
    else if lt(b.key, bs[0].key) then
      TotalsCons(b, bs);
      [b] + bs
    else
      var rest := InsertBucket(bs[1..], b, lt);
      assert bs == [bs[0]] + bs[1..];
      TotalsCons(bs[0], rest);
      TotalsCons(bs[0], bs[1..]);
      [bs[0]] + rest
  }

  /** Inserting a bucket with a new key into ascending buckets keeps them ascending. */
  lemma {:induction false} InsertAscending<K(!new)>(bs: seq<Bucket<K>>, b: Bucket<K>, lt: (K, K) -> bool)
    requires StrictOrder(lt) && Ascending(bs, lt)
    requires forall i :: 0 <= i < |bs| ==> bs[i].key != b.key
    ensures Ascending(InsertBucket(bs, b, lt), lt)
  {
    if |bs| > 0 {
      if lt(b.key, bs[0].key) {
        forall j | 0 <= j < |bs|
          ensures lt(b.key, bs[j].key)
        {
          if j > 0 {
            assert lt(bs[0].key, bs[j].key);
          }
        }
        AscendingCons(b, bs, lt);
      } else {
        assert lt(bs[0].key, b.key);
        assert Ascending(bs[1..], lt);
        InsertAscending(bs[1..], b, lt);
        var rest := InsertBucket(bs[1..], b, lt);
        forall j | 0 <= j < |rest|
          ensures lt(bs[0].key, rest[j].key)
        {
          assert rest[j] in multiset(rest);
          if rest[j] != b {
            assert rest[j] in bs[1..];
          }
        }
        AscendingCons(bs[0], rest, lt);
      }
    }
  }

  /** A bucket whose key precedes every key of ascending buckets can go in front. */
  lemma AscendingCons<K>(x: Bucket<K>, bs: seq<Bucket<K>>, lt: (K, K) -> bool)
    requires Ascending(bs, lt)
    requires forall j :: 0 <= j < |bs| ==> lt(x.key, bs[j].key)
    ensures Ascending([x] + bs, lt)
  {
    var r := [x] + bs;
    forall i, j | 0 <= i < j < |r|
      ensures lt(r[i].key, r[j].key)
    {
      assert r[j] == bs[j - 1];
      if i > 0 {
        assert r[i] == bs[i - 1];
      }
    }
  }

  /** A reordering of a grouping with distinct keys is still a grouping of the same pairs. */
  lemma PermutedGrouping<K>(r: seq<Bucket<K>>, g: seq<Bucket<K>>, ps: seq<(K, real)>)
    requires IsGrouping(g, ps) && multiset(r) == multiset(g) && UniqueKeys(r)
    ensures IsGrouping(r, ps)
  {
    forall i | 0 <= i < |ps|
      ensures ps[i].0 in KeysOf(r)
    {
      var j :| 0 <= j < |g| && KeysOf(g)[j] == ps[i].0;
      assert g[j] in multiset(r);
      var k :| 0 <= k < |r| && r[k] == g[j];
      assert KeysOf(r)[k] == ps[i].0;
    }
    forall i | 0 <= i < |r|
      ensures r[i].key in PairKeys(ps)
      ensures r[i].total == SumWhere(ps, r[i].key) && r[i].count == CountWhere(ps, r[i].key) && r[i].count > 0
    {
      assert r[i] in multiset(g);
      var j :| 0 <= j < |g| && g[j] == r[i];
    }
  }

  /** pandas `groupby(key)`: the grouped sums of `ps` with the buckets in ascending key
      order. Each pair is added to the bucket of its key, or opens a bucket where its key
      falls in the order. */
  function SortedGroupBy<K(==,!new)>(ps: seq<(K, real)>, lt: (K, K) -> bool): (r: seq<Bucket<K>>)
    requires StrictOrder(lt)
    ensures IsGrouping(r, ps)
    ensures Totals(r) == SumValues(ps)
    ensures Ascending(r, lt)
    ensures forall i :: 0 <= i < |r| ==> r[i].count > 0
  {
    if |ps| == 0 then []
    else
      var n := |ps|;
      var prev := SortedGroupBy(ps[..n - 1], lt);
      assert ps == ps[..n - 1] + [ps[n - 1]];
      SortedStep(ps[..n - 1], prev, ps[n - 1].0, ps[n - 1].1, lt);
      SortedAdd(prev, ps[n - 1].0, ps[n - 1].1, lt)
  }

  /** One pair added to sorted buckets: to the bucket of its key, or as a new bucket where
      its key falls in the order. */
  function SortedAdd<K(==)>(bs: seq<Bucket<K>>, k: K, v: real, lt: (K, K) -> bool): seq<Bucket<K>>
    requires UniqueKeys(bs)
  {
    if k in KeysOf(bs) then Add(bs, k, v) else InsertBucket(bs, Bucket(k, v, 1), lt)
  }

  /** Adding a pair to sorted buckets that group `ps` gives sorted buckets that group the
      extended pairs. */
  lemma SortedStep<K(!new)>(ps: seq<(K, real)>, prev: seq<Bucket<K>>, k: K, v: real, lt: (K, K) -> bool)
    requires StrictOrder(lt)
    requires IsGrouping(prev, ps) && Totals(prev) == SumValues(ps) && Ascending(prev, lt)
    ensures IsGrouping(SortedAdd(prev, k, v, lt), ps + [(k, v)])
    ensures Totals(SortedAdd(prev, k, v, lt)) == SumValues(ps + [(k, v)])
    ensures Ascending(SortedAdd(prev, k, v, lt), lt)
  {
    GroupStep(ps, prev, k, v);
    if k in KeysOf(prev) {
      SameKeysAscending(prev, Add(prev, k, v), lt);
    } else {
      InsertAscending(prev, Bucket(k, v, 1), lt);
      InsertedGrouping(prev, k, v, ps + [(k, v)], lt);
    }
  }

  /** Buckets with the keys of ascending buckets, position by position, are ascending. */
  lemma SameKeysAscending<K>(a: seq<Bucket<K>>, b: seq<Bucket<K>>, lt: (K, K) -> bool)
    requires Ascending(a, lt) && KeysOf(b) == KeysOf(a)
    ensures Ascending(b, lt)
  {
    forall i, j | 0 <= i < j < |b|
      ensures lt(b[i].key, b[j].key)
    {
      assert b[i].key == KeysOf(a)[i] && b[j].key == KeysOf(a)[j];
    }
  }

  /** Opening a bucket for a new key in its place in the order groups the extended pairs. */
  lemma InsertedGrouping<K(!new)>(prev: seq<Bucket<K>>, k: K, v: real, ps: seq<(K, real)>, lt: (K, K) -> bool)
    requires StrictOrder(lt) && UniqueKeys(prev) && k !in KeysOf(prev)
    requires IsGrouping(Add(prev, k, v), ps) && Totals(Add(prev, k, v)) == SumValues(ps)
    requires Ascending(InsertBucket(prev, Bucket(k, v, 1), lt), lt)
    ensures IsGrouping(InsertBucket(prev, Bucket(k, v, 1), lt), ps)
    ensures Totals(InsertBucket(prev, Bucket(k, v, 1), lt)) == SumValues(ps)
  {
    var r := InsertBucket(prev, Bucket(k, v, 1), lt);
    var g := Add(prev, k, v);
    assert g == prev + [Bucket(k, v, 1)];
    assert multiset(r) == multiset(g);
    AscendingUnique(r, lt);
    PermutedGrouping(r, g, ps);
  }

  /** Strictly ascending keys are distinct. */
  lemma AscendingUnique<K(!new)>(bs: seq<Bucket<K>>, lt: (K, K) -> bool)
    requires StrictOrder(lt) && Ascending(bs, lt)
    ensures UniqueKeys(bs)
  {
  }

  /** pandas `groupby` over string keys: buckets in Python's string order. */
  function GroupByText(ps: seq<(string, real)>): (r: seq<Bucket<string>>)
    ensures IsGrouping(r, ps)
    ensures Totals(r) == SumValues(ps)
    ensures Ascending(r, Text.StrLess)
    ensures forall i :: 0 <= i < |r| ==> r[i].count > 0
  {
    StrLessIsStrictOrder();
    SortedGroupBy(ps, Text.StrLess)
  }

  /** pandas `groupby` over integer keys: buckets in ascending numeric order. */
  function GroupByNumber(ps: seq<(int, real)>): (r: seq<Bucket<int>>)
    ensures IsGrouping(r, ps)
    ensures Totals(r) == SumValues(ps)
    ensures forall i, j :: 0 <= i < j < |r| ==> r[i].key < r[j].key
    ensures forall i :: 0 <= i < |r| ==> r[i].count > 0
  {
    IntLessIsStrictOrder();
    SortedGroupBy(ps, IntLess)
  }
}

=== FILE: home_overview.dfy ===
/** The dashboard home page: the current month's transactions, income/expense/cash-flow
    totals, outstanding debt, the budget-usage percentage and the per-category expense pie.
    Money is `real`; the backend's records are the raw objects the page receives. */
module HomeOverview {
  import opened Wrappers
  import opened Numeric
  import opened Text
  import Grouping
  import Seqs

  /** What `new Date(x)` produces: an instant read in local calendar terms
      (`getMonth` is 0-based), or an Invalid Date whose fields are all `NaN`. */
  datatype JsDate = Instant(year: int, month: int, day: int, millisOfDay: int) | InvalidDate

  /** A transaction object as returned by the backend; every field may be absent. */
  datatype Tx = Tx(
    date: Option<JsDate>,
    createdAt: Option<JsDate>,
    kind: Option<string>,            // `type`
    transactionType: Option<string>,
    amount: Option<real>,
    category: Option<string>)

  datatype Debt = Debt(amount: Option<real>)

  /** The server-side budget summary; only the two fields the page reads. */
  datatype BudgetSummary = BudgetSummary(totalBudget: Option<real>, totalSpent: Option<real>)

  /** One slice of the expense pie. */
  datatype Slice = Slice(name: string, value: real)  // `{ label, value }`

  datatype Overview = Overview(
    totalIncome: real,
    totalExpense: real,
    cashflow: real,
    totalDebtOutstanding: real,
    budgetPct: real,
    expensesByCategory: seq<Slice>)

  /** `a.getFullYear() === b.getFullYear() && a.getMonth() === b.getMonth()`;
      a `NaN` field never compares equal, so an Invalid Date is in no month. */
  predicate IsSameMonth(a: JsDate, b: JsDate) {
    a.Instant? && b.Instant? && a.year == b.year && a.month == b.month
  }

  /** Equal year and month decide it; day and time of day play no part. */
  lemma SameMonthIgnoresDayAndTime(a: JsDate, b: JsDate)
    requires a.Instant? && b.Instant?
    ensures IsSameMonth(a, b) <==> a.year == b.year && a.month == b.month
    ensures IsSameMonth(a, b) <==> IsSameMonth(Instant(a.year, a.month, 1, 0), Instant(b.year, b.month, 28, 86399999))
  {
  }

  /** `new Date(t.date ?? t.createdAt ?? Date.now())`. */
  function TxDate(t: Tx, now: JsDate): JsDate {
    t.date.GetOr(t.createdAt.GetOr(now))
  }

  /** `String(t.type ?? t.transactionType).toLowerCase()`; both absent reads "undefined". */
  function TxKind(t: Tx): string {
    Lower(t.kind.GetOr(t.transactionType.GetOr("undefined")))
  }

  /** `isSameMonth(new Date(t.date ?? t.createdAt ?? Date.now()), now)`. */
  function InMonth(now: JsDate): Tx -> bool {
    (t: Tx) => IsSameMonth(TxDate(t, now), now)
  }

  /** The transactions dated in the same month as `now`, in their original order. */
  function MonthTx(txs: seq<Tx>, now: JsDate): (r: seq<Tx>)
    ensures |r| <= |txs|
    ensures forall i :: 0 <= i < |r| ==> IsSameMonth(TxDate(r[i], now), now)
    ensures forall i :: 0 <= i < |txs| && IsSameMonth(TxDate(txs[i], now), now) ==> txs[i] in r
    ensures forall t :: t in r ==> t in txs
  {
    Seqs.Filter(txs, InMonth(now))
  }

  /** `.filter` one transaction at a time: nothing from nothing, and one more transaction
      is appended exactly when it falls in the month. Together these fix every kept
      transaction's multiplicity and position. */
  lemma MonthTxSnoc(txs: seq<Tx>, t: Tx, now: JsDate)
    ensures MonthTx([], now) == []
    ensures MonthTx(txs + [t], now) == MonthTx(txs, now) + (if IsSameMonth(TxDate(t, now), now) then [t] else [])
  {
    Seqs.FilterSnoc(txs, t, InMonth(now));
  }

  /** The month's transactions of a list split in two are those of each part, so the
      filter keeps the list's order. */
  lemma MonthTxAppend(a: seq<Tx>, b: seq<Tx>, now: JsDate)
    ensures MonthTx(a + b, now) == MonthTx(a, now) + MonthTx(b, now)
  {
    Seqs.FilterAppend(a, b, InMonth(now));
  }

  /** A transaction carrying neither `date` nor `createdAt` is dated now, so it always
      belongs to the current month. */
  lemma UndatedIsCurrentMonth(txs: seq<Tx>, now: JsDate, i: nat)
    requires now.Instant?
    requires i < |txs| && txs[i].date.None? && txs[i].createdAt.None?
    ensures txs[i] in MonthTx(txs, now)
  {
  }

  /** Sum of `Number(t.amount ?? 0)` over the transactions whose lower-cased type is `kind`. */
  function TotalOfKind(txs: seq<Tx>, kind: string): real {
    if |txs| == 0 then 0.0
    else
      var t := txs[|txs| - 1];
      TotalOfKind(txs[..|txs| - 1], kind) + (if TxKind(t) == kind then OrZero(t.amount) else 0.0)
  }

  /** Rows of any other type (saving, debt, payment, investment, ...) leave the total alone;
      a row of the matching type adds its amount. */
  lemma {:induction false} TotalOfKindAppend(txs: seq<Tx>, t: Tx, kind: string)
    ensures TotalOfKind(txs + [t], kind) == TotalOfKind(txs, kind) + (if TxKind(t) == kind then OrZero(t.amount) else 0.0)
  {
    assert (txs + [t])[..|txs|] == txs;
  }

  /** The type test is case-insensitive and `type` wins over `transactionType`. */
  lemma KindIsCaseInsensitive(amount: real)
    ensures TxKind(Tx(None, None, Some("INCOME"), Some("expense"), Some(amount), None)) == "income"
    ensures TxKind(Tx(None, None, None, Some("Expense"), Some(amount), None)) == "expense"
  {
  }

  /** `Number(d.amount ?? 0)` summed over every debt; there is no month filter. */
  function TotalDebtOutstanding(debts: seq<Debt>): real {
    if |debts| == 0 then 0.0
    else TotalDebtOutstanding(debts[..|debts| - 1]) + OrZero(debts[|debts| - 1].amount)
  }

  /** Each debt contributes its amount, a missing amount zero. */
  lemma {:induction false} TotalDebtAppend(debts: seq<Debt>, d: Debt)
    ensures TotalDebtOutstanding(debts + [d]) == TotalDebtOutstanding(debts) + OrZero(d.amount)
  {
    assert (debts + [d])[..|debts|] == debts;
  }

  /** `totalBudget > 0 ? Math.min(100, totalSpent / totalBudget * 100) : 0`, reading both
      fields with `Number(x ?? 0)` from a summary that may not have loaded. */
  function BudgetPct(summary: Option<BudgetSummary>): (r: real)
    ensures r <= 100.0
    ensures summary.None? ==> r == 0.0
    ensures summary.Some? && OrZero(summary.value.totalBudget) <= 0.0 ==> r == 0.0
    ensures summary.Some? && OrZero(summary.value.totalBudget) > 0.0 ==>
      var b := OrZero(summary.value.totalBudget);
      var s := OrZero(summary.value.totalSpent);
      (s <= b ==> r == s / b * 100.0) && (s >= b ==> r == 100.0)
  {
    var totalBudget := if summary.Some? then OrZero(summary.value.totalBudget) else 0.0;
    var totalSpent := if summary.Some? then OrZero(summary.value.totalSpent) else 0.0;
    if totalBudget > 0.0 then
      var raw := totalSpent / totalBudget * 100.0;
      RatioVersusOne(totalSpent, totalBudget);
      Min(100.0, raw)
    else 0.0
  }

  /** The transactions whose lower-cased type is `kind`. */
  function OfKind(kind: string): Tx -> bool {
    (t: Tx) => TxKind(t) == kind
  }

  /** `(t.category ?? "Otros", Number(t.amount ?? 0))`: what one expense adds to the map. */
  function ExpensePair(t: Tx): (string, real) {
    (t.category.GetOr("Otros"), OrZero(t.amount))
  }

  /** The expense transactions' category/amount pairs, one per expense, in order. */
  function ExpensePairs(txs: seq<Tx>): (r: seq<(string, real)>)
    ensures r == Seqs.Map(Seqs.Filter(txs, OfKind("expense")), ExpensePair)
    ensures Grouping.SumValues(r) == TotalOfKind(txs, "expense")
  {
    if |txs| == 0 then []
    else
      var n := |txs|;
      var t := txs[n - 1];
      var prev := ExpensePairs(txs[..n - 1]);
      Seqs.MapFilterLast(txs, OfKind("expense"), ExpensePair);
      if OfKind("expense")(t) then
        assert (prev + [ExpensePair(t)])[..|prev|] == prev;
        prev + [ExpensePair(t)]
      else prev
  }

  function SliceTotal(ss: seq<Slice>): real {
    if |ss| == 0 then 0.0 else SliceTotal(ss[..|ss| - 1]) + ss[|ss| - 1].value
  }

  function ToSlices(bs: seq<Grouping.Bucket<string>>): (r: seq<Slice>)
    ensures |r| == |bs|
    ensures forall i :: 0 <= i < |bs| ==> r[i] == Slice(bs[i].key, bs[i].total)
    ensures SliceTotal(r) == Grouping.Totals(bs)
  {
    if |bs| == 0 then []
    else
      var n := |bs|;
      var prev := ToSlices(bs[..n - 1]);
      assert (prev + [Slice(bs[n - 1].key, bs[n - 1].total)])[..n - 1] == prev;
      prev + [Slice(bs[n - 1].key, bs[n - 1].total)]
  }

  function Names(ss: seq<Slice>): (r: seq<string>)
    ensures |r| == |ss| && forall i :: 0 <= i < |ss| ==> r[i] == ss[i].name
  {
    seq(|ss|, i requires 0 <= i < |ss| => ss[i].name)
  }

  /** `Array.from(map, ([label, value]) => ({ label, value }))` for the `Map` accumulated
      from `ps`: labels in order of first appearance and pairwise distinct, each slice the sum
      of its label's values, and the slices together summing to all of them. */
  function Pie(ps: seq<(string, real)>): (r: seq<Slice>)
    ensures Grouping.FirstAppearanceOrder(Names(r), Grouping.PairKeys(ps))
    ensures SliceTotal(r) == Grouping.SumValues(ps)
    ensures forall i, j :: 0 <= i < j < |r| ==> r[i].name != r[j].name
    ensures forall i :: 0 <= i < |r| ==> r[i].value == Grouping.SumWhere(ps, r[i].name)
    ensures forall i :: 0 <= i < |ps| ==> ps[i].0 in Names(r)
  {
    var bs := Grouping.GroupBy(ps);
    var r := ToSlices(bs);
    assert Names(r) == Grouping.KeysOf(bs);
    Grouping.GroupByFirstAppearance(ps);
    r
  }

  /** The expense pie: one slice per category (a missing category is "Otros"), labels in
      order of first appearance and pairwise distinct, each slice the sum of that
      category's expenses, and the slices together summing to the expense total. */
  function ExpensesByCategory(monthTx: seq<Tx>): (r: seq<Slice>)
    ensures Grouping.FirstAppearanceOrder(Names(r), Grouping.PairKeys(ExpensePairs(monthTx)))
    ensures SliceTotal(r) == TotalOfKind(monthTx, "expense")
    ensures forall i, j :: 0 <= i < j < |r| ==> r[i].name != r[j].name
    ensures forall i :: 0 <= i < |r| ==> r[i].value == Grouping.SumWhere(ExpensePairs(monthTx), r[i].name)
    ensures forall i :: 0 <= i < |ExpensePairs(monthTx)| ==> ExpensePairs(monthTx)[i].0 in Names(r)
  {
    var ps := ExpensePairs(monthTx);
    var r := Pie(ps);
    assert Grouping.FirstAppearanceOrder(Names(r), Grouping.PairKeys(ps));
    r
  }

  /** The whole page: totals over the current month, debt over all debts. */
  function Compute(txs: seq<Tx>, debts: seq<Debt>, summary: Option<BudgetSummary>, now: JsDate): (o: Overview)
    ensures o.totalIncome == TotalOfKind(MonthTx(txs, now), "income")
    ensures o.totalExpense == TotalOfKind(MonthTx(txs, now), "expense")
    ensures o.totalDebtOutstanding == TotalDebtOutstanding(debts)
    ensures o.budgetPct == BudgetPct(summary)
    ensures o.expensesByCategory == ExpensesByCategory(MonthTx(txs, now))
    ensures o.cashflow == o.totalIncome - o.totalExpense
    ensures o.budgetPct <= 100.0
    ensures SliceTotal(o.expensesByCategory) == o.totalExpense
  {
    var month := MonthTx(txs, now);
    var income := TotalOfKind(month, "income");
    var expense := TotalOfKind(month, "expense");
    Overview(income, expense, income - expense, TotalDebtOutstanding(debts), BudgetPct(summary),
             ExpensesByCategory(month))
  }
}

=== FILE: i18n.dfy ===
/** Interface translations: an English and a Spanish table with the same keys, the `t`
    lookup that falls back to the key itself, and the choice of the initial language.
    Each table is kept, as in the source, as a run of commented sections. */
module I18n {
  import opened Wrappers
  import Grouping

  datatype Language = En | Es

  /** The "Navigation" section. */
  function Navigation(lang: Language): seq<(string, string)> {
    match lang
    case En => [
        ("nav.dashboard", "Dashboard"),
        ("nav.budget", "Budget"),
        ("nav.accounts", "Accounts"),
        ("nav.transactions", "Transactions"),
        ("nav.charts", "Charts"),
        ("nav.aiReport", "AI Report"),
        ("nav.settings", "Settings")
      ]
    case Es => [
        ("nav.dashboard", "Panel"),
        ("nav.budget", "Presupuesto"),
        ("nav.accounts", "Cuentas"),
        ("nav.transactions", "Transacciones"),
        ("nav.charts", "Gr\U{00E1}ficos"),
        ("nav.aiReport", "Reporte IA"),
        ("nav.settings", "Configuraci\U{00F3}n")
      ]
  }

  /** The "Dashboard" section. */
  function Dashboard(lang: Language): seq<(string, string)> {
    match lang
    case En => [
        ("dashboard.title", "Dashboard"),
        ("dashboard.monthlyBudget", "Monthly Budget (Default Account)"),
        ("dashboard.spent", "spent"),
        ("dashboard.used", "used"),
        ("dashboard.recentTransactions", "Recent Transactions"),
        ("dashboard.addTransaction", "Add Transaction"),
        ("dashboard.netWorth", "Net worth"),
        ("dashboard.assets", "Assets"),
        ("dashboard.liabilities", "Liabilities"),
        ("dashboard.spendThisMonth", "Spend This Month"),
        ("dashboard.seeBudget", "See budget")
      ]
    case Es => [
        ("dashboard.title", "Panel de Control"),
        ("dashboard.monthlyBudget", "Presupuesto Mensual (Cuenta Predeterminada)"),
        ("dashboard.spent", "gastado"),
        ("dashboard.used", "usado"),
        ("dashboard.recentTransactions", "Transacciones Recientes"),
        ("dashboard.addTransaction", "Agregar Transacci\U{00F3}n"),
        ("dashboard.netWorth", "Patrimonio neto"),
        ("dashboard.assets", "Activos"),
        ("dashboard.liabilities", "Pasivos"),
        ("dashboard.spendThisMonth", "Gastos Este Mes"),
        ("dashboard.seeBudget", "Ver presupuesto")
      ]
  }

  /** The "Settings" section. */
  function Settings(lang: Language): seq<(string, string)> {
    match lang
    case En => [
        ("settings.title", "Settings"),
        ("settings.subtitle", "Customize your FineWise experience"),
        ("settings.general", "General"),
        ("settings.notifications", "Notifications"),
        ("settings.security", "Security"),
        ("settings.appearance", "Appearance"),
        ("settings.categories", "Categories"),
        ("settings.integrations", "Integrations"),
        ("settings.dataPrivacy", "Data & Privacy"),
        ("settings.profileInfo", "Profile Information"),
        ("settings.firstName", "First Name"),
        ("settings.lastName", "Last Name"),
        ("settings.email", "Email"),
        ("settings.regionalPrefs", "Regional Preferences"),
        ("settings.currency", "Currency"),
        ("settings.language", "Language"),
        ("settings.dateFormat", "Date Format"),
        ("settings.timeZone", "Time Zone"),
        ("settings.defaultSettings", "Default Settings"),
        ("settings.defaultAccount", "Default Account"),
        ("settings.themeDisplay", "Theme & Display"),
        ("settings.theme", "Theme"),
        ("settings.light", "Light"),
        ("settings.dark", "Dark"),
        ("settings.system", "Auto (System)")
      ]
    case Es => [
        ("settings.title", "Configuraci\U{00F3}n"),
        ("settings.subtitle", "Personaliza tu experiencia con FineWise"),
        ("settings.general", "General"),
        ("settings.notifications", "Notificaciones"),
        ("settings.security", "Seguridad"),
        ("settings.appearance", "Apariencia"),
        ("settings.categories", "Categor\U{00ED}as"),
        ("settings.integrations", "Integraciones"),
        ("settings.dataPrivacy", "Datos y Privacidad"),
        ("settings.profileInfo", "Informaci\U{00F3}n del Perfil"),
        ("settings.firstName", "Nombre"),
        ("settings.lastName", "Apellido"),
        ("settings.email", "Correo Electr\U{00F3}nico"),
        ("settings.regionalPrefs", "Preferencias Regionales"),
        ("settings.currency", "Moneda"),
        ("settings.language", "Idioma"),
        ("settings.dateFormat", "Formato de Fecha"),
        ("settings.timeZone", "Zona Horaria"),
        ("settings.defaultSettings", "Configuraci\U{00F3}n Predeterminada"),
        ("settings.defaultAccount", "Cuenta Predeterminada"),
        ("settings.themeDisplay", "Tema y Pantalla"),
        ("settings.theme", "Tema"),
        ("settings.light", "Claro"),
        ("settings.dark", "Oscuro"),
        ("settings.system", "Autom\U{00E1}tico (Sistema)")
      ]
  }

  /** The "Common" section. */
  function Common(lang: Language): seq<(string, string)> {
    match lang
    case En => [
        ("common.save", "Save Changes"),
        ("common.cancel", "Cancel"),
        ("common.edit", "Edit"),
        ("common.delete", "Delete"),
        ("common.add", "Add"),
        ("common.remove", "Remove"),
        ("common.connect", "Connect"),
        ("common.disconnect", "Disconnect"),
        ("common.enable", "Enable"),
        ("common.disable", "Disable"),
        ("common.create", "Create"),
        ("common.update", "Update"),
        ("common.view", "View"),
        ("common.export", "Export"),
        ("common.import", "Import"),
        ("common.search", "Search"),
        ("common.filter", "Filter"),
        ("common.sort", "Sort"),
        ("common.loading", "Loading"),
        ("common.error", "Error"),
        ("common.success", "Success")
      ]
    case Es => [
        ("common.save", "Guardar Cambios"),
        ("common.cancel", "Cancelar"),
        ("common.edit", "Editar"),
        ("common.delete", "Eliminar"),
        ("common.add", "Agregar"),
        ("common.remove", "Quitar"),
        ("common.connect", "Conectar"),
        ("common.disconnect", "Desconectar"),
        ("common.enable", "Habilitar"),
        ("common.disable", "Deshabilitar"),
        ("common.create", "Crear"),
        ("common.update", "Actualizar"),
        ("common.view", "Ver"),
        ("common.export", "Exportar"),
        ("common.import", "Importar"),
        ("common.search", "Buscar"),
        ("common.filter", "Filtrar"),
        ("common.sort", "Ordenar"),
        ("common.loading", "Cargando"),
        ("common.error", "Error"),
        ("common.success", "\U{00C9}xito")
      ]
  }

  /** The "Accounts" section. */
  function Accounts(lang: Language): seq<(string, string)> {
    match lang
    case En => [
        ("accounts.title", "Accounts"),
        ("accounts.subtitle", "Manage all your financial accounts in one place"),
        ("accounts.addAccount", "Add Account"),
        ("accounts.totalBalance", "Total Balance"),
        ("accounts.totalAssets", "Total Assets"),
        ("accounts.totalLiabilities", "Total Liabilities"),
        ("accounts.netWorth", "Net Worth"),
        ("accounts.accountName", "Account Name"),
        ("accounts.accountType", "Account Type"),
        ("accounts.initialBalance", "Initial Balance"),
        ("accounts.setAsDefault", "Set as Default"),
        ("accounts.createAccount", "Create Account"),
        ("accounts.current", "Current"),
        ("accounts.savings", "Savings"),
        ("accounts.checking", "Checking"),
        ("accounts.credit", "Credit Card"),
        ("accounts.investment", "Investment"),
        ("accounts.cash", "Cash")
      ]
    case Es => [
        ("accounts.title", "Cuentas"),
        ("accounts.subtitle", "Gestiona todas tus cuentas financieras en un solo lugar"),
        ("accounts.addAccount", "Agregar Cuenta"),
        ("accounts.totalBalance", "Saldo Total"),
        ("accounts.totalAssets", "Activos Totales"),
        ("accounts.totalLiabilities", "Pasivos Totales"),
        ("accounts.netWorth", "Patrimonio Neto"),
        ("accounts.accountName", "Nombre de la Cuenta"),
        ("accounts.accountType", "Tipo de Cuenta"),
        ("accounts.initialBalance", "Saldo Inicial"),
        ("accounts.setAsDefault", "Establecer como Predeterminada"),
        ("accounts.createAccount", "Crear Cuenta"),
        ("accounts.current", "Corriente"),
        ("accounts.savings", "Ahorros"),
        ("accounts.checking", "Cuenta Corriente"),
        ("accounts.credit", "Tarjeta de Cr\U{00E9}dito"),
        ("accounts.investment", "Inversi\U{00F3}n"),
        ("accounts.cash", "Efectivo")
      ]
  }

  /** The "Transactions" section. */
  function Transactions(lang: Language): seq<(string, string)> {
    match lang
    case En => [
        ("transactions.title", "Transactions"),
        ("transactions.subtitle", "Track and manage all your financial transactions"),
        ("transactions.totalTransactions", "Total Transactions"),
        ("transactions.totalIncome", "Total Income"),
        ("transactions.totalExpenses", "Total Expenses"),
        ("transactions.netAmount", "Net Amount"),
        ("transactions.addTransaction", "Add Transaction"),
        ("transactions.scanReceipt", "Scan Receipt with AI"),
        ("transactions.type", "Type"),
        ("transactions.amount", "Amount"),
        ("transactions.account", "Account"),
        ("transactions.category", "Category"),
        ("transactions.date", "Date"),
        ("transactions.description", "Description"),
        ("transactions.recurring", "Recurring Transaction"),
        ("transactions.expense", "Expense"),
        ("transactions.income", "Income"),
        ("transactions.transfer", "Transfer")
      ]
    case Es => [
        ("transactions.title", "Transacciones"),
        ("transactions.subtitle", "Rastrea y gestiona todas tus transacciones financieras"),
        ("transactions.totalTransactions", "Total de Transacciones"),
        ("transactions.totalIncome", "Ingresos Totales"),
        ("transactions.totalExpenses", "Gastos Totales"),
        ("transactions.netAmount", "Cantidad Neta"),
        ("transactions.addTransaction", "Agregar Transacci\U{00F3}n"),
        ("transactions.scanReceipt", "Escanear Recibo con IA"),
        ("transactions.type", "Tipo"),
        ("transactions.amount", "Cantidad"),
        ("transactions.account", "Cuenta"),
        ("transactions.category", "Categor\U{00ED}a"),
        ("transactions.date", "Fecha"),
        ("transactions.description", "Descripci\U{00F3}n"),
        ("transactions.recurring", "Transacci\U{00F3}n Recurrente"),
        ("transactions.expense", "Gasto"),
        ("transactions.income", "Ingreso"),
        ("transactions.transfer", "Transferencia")
      ]
  }

  /** The "Budget" section. */
  function Budget(lang: Language): seq<(string, string)> {
    match lang
    case En => [
        ("budget.title", "My Budgets"),
        ("budget.subtitle", "Track and manage your spending across different categories"),
        ("budget.totalBudget", "Total Budget"),
        ("budget.totalSpent", "Total Spent"),
        ("budget.remaining", "Remaining"),
        ("budget.budgetUsed", "Budget Used"),
        ("budget.createBudget", "Create New Budget"),
        ("budget.budgetName", "Budget Name"),
        ("budget.budgetAmount", "Budget Amount"),
        ("budget.period", "Period"),
        ("budget.weekly", "Weekly"),
        ("budget.monthly", "Monthly"),
        ("budget.quarterly", "Quarterly"),
        ("budget.yearly", "Yearly")
      ]
    case Es => [
        ("budget.title", "Mis Presupuestos"),
        ("budget.subtitle", "Rastrea y gestiona tus gastos en diferentes categor\U{00ED}as"),
        ("budget.totalBudget", "Presupuesto Total"),
        ("budget.totalSpent", "Total Gastado"),
        ("budget.remaining", "Restante"),
        ("budget.budgetUsed", "Presupuesto Usado"),
        ("budget.createBudget", "Crear Nuevo Presupuesto"),
        ("budget.budgetName", "Nombre del Presupuesto"),
        ("budget.budgetAmount", "Cantidad del Presupuesto"),
        ("budget.period", "Per\U{00ED}odo"),
        ("budget.weekly", "Semanal"),
        ("budget.monthly", "Mensual"),
        ("budget.quarterly", "Trimestral"),
        ("budget.yearly", "Anual")
      ]
  }

  /** The "Charts" section. */
  function Charts(lang: Language): seq<(string, string)> {
    match lang
    case En => [
        ("charts.title", "Analytics Dashboard"),
        ("charts.subtitle", "Visualize your financial data with interactive charts and insights"),
        ("charts.totalCharts", "Total Charts"),
        ("charts.visibleCharts", "Visible Charts"),
        ("charts.hiddenCharts", "Hidden Charts"),
        ("charts.dataPoints", "Data Points"),
        ("charts.addChart", "Add Chart"),
        ("charts.quickAdvice", "Quick Advice"),
        ("charts.manageCharts", "Manage Charts")
      ]
    case Es => [
        ("charts.title", "Panel de An\U{00E1}lisis"),
        ("charts.subtitle", "Visualiza tus datos financieros con gr\U{00E1}ficos interactivos e insights"),
        ("charts.totalCharts", "Total de Gr\U{00E1}ficos"),
        ("charts.visibleCharts", "Gr\U{00E1}ficos Visibles"),
        ("charts.hiddenCharts", "Gr\U{00E1}ficos Ocultos"),
        ("charts.dataPoints", "Puntos de Datos"),
        ("charts.addChart", "Agregar Gr\U{00E1}fico"),
        ("charts.quickAdvice", "Consejos R\U{00E1}pidos"),
        ("charts.manageCharts", "Gestionar Gr\U{00E1}ficos")
      ]
  }

  /** The "AI Report" section. */
  function AiReport(lang: Language): seq<(string, string)> {
    match lang
    case En => [
        ("ai.title", "AI Financial Advisor"),
        ("ai.subtitle", "Get personalized insights and recommendations powered by AI"),
        ("ai.quickAdvice", "Quick Advice"),
        ("ai.aiChat", "AI Chat"),
        ("ai.chatPlaceholder", "Ask me anything about your finances..."),
        ("ai.financialHealth", "Financial Health Score"),
        ("ai.spendingAnalysis", "Spending Analysis"),
        ("ai.savingsOptimization", "Savings Optimization"),
        ("ai.budgetRebalancing", "Budget Rebalancing"),
        ("ai.investmentAdvice", "Investment Advice")
      ]
    case Es => [
        ("ai.title", "Asesor Financiero IA"),
        ("ai.subtitle", "Obt\U{00E9}n insights personalizados y recomendaciones impulsadas por IA"),
        ("ai.quickAdvice", "Consejos R\U{00E1}pidos"),
        ("ai.aiChat", "Chat IA"),
        ("ai.chatPlaceholder", "Preg\U{00FA}ntame cualquier cosa sobre tus finanzas..."),
        ("ai.financialHealth", "Puntuaci\U{00F3}n de Salud Financiera"),
        ("ai.spendingAnalysis", "An\U{00E1}lisis de Gastos"),
        ("ai.savingsOptimization", "Optimizaci\U{00F3}n de Ahorros"),
        ("ai.budgetRebalancing", "Reequilibrio de Presupuesto"),
        ("ai.investmentAdvice", "Consejos de Inversi\U{00F3}n")
      ]
  }

  /** The "Categories" section. */
  function Categories(lang: Language): seq<(string, string)> {
    match lang
    case En => [
        ("categories.rental", "Rental"),
        ("categories.entertainment", "Entertainment"),
        ("categories.shopping", "Shopping"),
        ("categories.travel", "Travel"),
        ("categories.salary", "Salary"),
        ("categories.freelance", "Freelance"),
        ("categories.food", "Food & Dining"),
        ("categories.transportation", "Transportation"),
        ("categories.utilities", "Utilities"),
        ("categories.healthcare", "Healthcare")
      ]
    case Es => [
        ("categories.rental", "Alquiler"),
        ("categories.entertainment", "Entretenimiento"),
        ("categories.shopping", "Compras"),
        ("categories.travel", "Viajes"),
        ("categories.salary", "Salario"),
        ("categories.freelance", "Freelance"),
        ("categories.food", "Comida y Restaurantes"),
        ("categories.transportation", "Transporte"),
        ("categories.utilities", "Servicios P\U{00FA}blicos"),
        ("categories.healthcare", "Salud")
      ]
  }

  /** The "Time periods" section. */
  function TimePeriods(lang: Language): seq<(string, string)> {
    match lang
    case En => [
        ("time.lastWeek", "Last Week"),
        ("time.lastMonth", "Last Month"),
        ("time.last3Months", "Last 3 Months"),
        ("time.last6Months", "Last 6 Months"),
        ("time.lastYear", "Last Year"),
        ("time.allTime", "All Time")
      ]
    case Es => [
        ("time.lastWeek", "\U{00DA}ltima Semana"),
        ("time.lastMonth", "\U{00DA}ltimo Mes"),
        ("time.last3Months", "\U{00DA}ltimos 3 Meses"),
        ("time.last6Months", "\U{00DA}ltimos 6 Meses"),
        ("time.lastYear", "\U{00DA}ltimo A\U{00F1}o"),
        ("time.allTime", "Todo el Tiempo")
      ]
  }

  /** The "Status" section. */
  function Status(lang: Language): seq<(string, string)> {
    match lang
    case En => [
        ("status.active", "Active"),
        ("status.inactive", "Inactive"),
        ("status.connected", "Connected"),
        ("status.disconnected", "Disconnected"),
        ("status.enabled", "Enabled"),
        ("status.disabled", "Disabled")
      ]
    case Es => [
        ("status.active", "Activo"),
        ("status.inactive", "Inactivo"),
        ("status.connected", "Conectado"),
        ("status.disconnected", "Desconectado"),
        ("status.enabled", "Habilitado"),
        ("status.disabled", "Deshabilitado")
      ]
  }

  /** The twelve sections in groups of three, so that facts about the table can be
      assembled a few sections at a time. */
  function Part1(lang: Language): seq<(string, string)> {
    Navigation(lang) + Dashboard(lang) + Settings(lang)
  }

  function Part2(lang: Language): seq<(string, string)> {
    Common(lang) + Accounts(lang) + Transactions(lang)
  }

  function Part3(lang: Language): seq<(string, string)> {
    Budget(lang) + Charts(lang) + AiReport(lang)
  }

  function Part4(lang: Language): seq<(string, string)> {
    Categories(lang) + TimePeriods(lang) + Status(lang)
  }

  /** The whole table of a language, its sections one after the other. */
  function Table(lang: Language): seq<(string, string)> {
    Part1(lang) + Part2(lang) + Part3(lang) + Part4(lang)
  }

  /** The value stored under `key`, if the entries have one for it; the first entry wins. */
  function Lookup(entries: seq<(string, string)>, key: string): (r: Option<string>)
    ensures r.None? <==> key !in Grouping.PairKeys(entries)
    ensures r.Some? ==> (key, r.value) in entries
  {
    if |entries| == 0 then None
    else if entries[0].0 == key then Some(entries[0].1)
    else
      assert Grouping.PairKeys(entries) == [entries[0].0] + Grouping.PairKeys(entries[1..]);
      Lookup(entries[1..], key)
  }

  /** `entries[key] || key`: the stored value when there is a non-empty one, the key itself
      otherwise. */
  function Translate(entries: seq<(string, string)>, key: string): (r: string)
    ensures key !in Grouping.PairKeys(entries) ==> r == key
    ensures key in Grouping.PairKeys(entries) && Lookup(entries, key).value != "" ==> r == Lookup(entries, key).value
  {
    var entry := Lookup(entries, key);
    if entry.Some? && entry.value != "" then entry.value else key
  }

  /** `translations[lang]`, the table `t` reads: `Table(lang)` itself (`TranslationsIsTable`),
      reached through one step of recursion so that the proofs about `t` work from the facts
      proved about the table rather than from its contents. */
  function Translations(lang: Language): seq<(string, string)> {
    Reach(lang, 1)
  }

  function Reach(lang: Language, steps: nat): seq<(string, string)>
    decreases steps
  {
    if steps == 0 then Table(lang) else Reach(lang, steps - 1)
  }

  lemma TranslationsIsTable(lang: Language)
    ensures Translations(lang) == Table(lang)
  {
    assert Translations(lang) == Reach(lang, 1);
    assert Reach(lang, 1) == Reach(lang, 0);
  }

  /** `t(key)` in the given language: the entry of the current table when it is present and
      non-empty, the key otherwise. */
  function T(lang: Language, key: string): (r: string)
    ensures key !in Grouping.PairKeys(Translations(lang)) ==> r == key
    ensures key in Grouping.PairKeys(Translations(lang)) && Lookup(Translations(lang), key).value != "" ==>
              r == Lookup(Translations(lang), key).value
  {
    Translate(Translations(lang), key)
  }

  /** Every value is non-empty and differs from its key. */
  predicate Translates(entries: seq<(string, string)>) {
    forall i :: 0 <= i < |entries| ==> entries[i].1 != "" && entries[i].1 != entries[i].0
  }

  /** None of the keys the dashboard asks for but no table defines. */
  predicate Lacks(entries: seq<(string, string)>) {
    "nav.debts" !in Grouping.PairKeys(entries) &&
    "settings.profileInformation" !in Grouping.PairKeys(entries) &&
    "categories.phone" !in Grouping.PairKeys(entries)
  }

  /** Over entries whose values all translate, the fallback fires exactly for missing keys. */
  lemma EchoIffAbsentIn(entries: seq<(string, string)>, key: string)
    requires Translates(entries)
    ensures Translate(entries, key) == key <==> key !in Grouping.PairKeys(entries)
  {
    var entry := Lookup(entries, key);
    if entry.Some? {
      var i :| 0 <= i < |entries| && entries[i] == (key, entry.value);
    }
  }

  lemma KeysOfThree(x: seq<(string, string)>, y: seq<(string, string)>, z: seq<(string, string)>,
                    x': seq<(string, string)>, y': seq<(string, string)>, z': seq<(string, string)>)
    requires Grouping.PairKeys(x) == Grouping.PairKeys(x') && Grouping.PairKeys(y) == Grouping.PairKeys(y') && Grouping.PairKeys(z) == Grouping.PairKeys(z')
    ensures Grouping.PairKeys(x + y + z) == Grouping.PairKeys(x' + y' + z')
  {
    assert Grouping.PairKeys(x + y + z) == Grouping.PairKeys(x) + Grouping.PairKeys(y) + Grouping.PairKeys(z);
    assert Grouping.PairKeys(x' + y' + z') == Grouping.PairKeys(x') + Grouping.PairKeys(y') + Grouping.PairKeys(z');
  }

  lemma FactsOfThree(x: seq<(string, string)>, y: seq<(string, string)>, z: seq<(string, string)>)
    requires Translates(x) && Translates(y) && Translates(z)
    requires Lacks(x) && Lacks(y) && Lacks(z)
    ensures Translates(x + y + z) && Lacks(x + y + z)
  {
    assert Grouping.PairKeys(x + y + z) == Grouping.PairKeys(x) + Grouping.PairKeys(y) + Grouping.PairKeys(z);
  }

  lemma KeysOfFour(w: seq<(string, string)>, x: seq<(string, string)>, y: seq<(string, string)>, z: seq<(string, string)>,
                   w': seq<(string, string)>, x': seq<(string, string)>, y': seq<(string, string)>, z': seq<(string, string)>)
    requires Grouping.PairKeys(w) == Grouping.PairKeys(w') && Grouping.PairKeys(x) == Grouping.PairKeys(x') && Grouping.PairKeys(y) == Grouping.PairKeys(y') && Grouping.PairKeys(z) == Grouping.PairKeys(z')
    ensures Grouping.PairKeys(w + x + y + z) == Grouping.PairKeys(w' + x' + y' + z')
  {
    assert Grouping.PairKeys(w + x + y + z) == Grouping.PairKeys(w) + Grouping.PairKeys(x) + Grouping.PairKeys(y) + Grouping.PairKeys(z);
    assert Grouping.PairKeys(w' + x' + y' + z') == Grouping.PairKeys(w') + Grouping.PairKeys(x') + Grouping.PairKeys(y') + Grouping.PairKeys(z');
  }

  lemma FactsOfFour(w: seq<(string, string)>, x: seq<(string, string)>, y: seq<(string, string)>, z: seq<(string, string)>)
    requires Translates(w) && Translates(x) && Translates(y) && Translates(z)
    requires Lacks(w) && Lacks(x) && Lacks(y) && Lacks(z)
    ensures Translates(w + x + y + z) && Lacks(w + x + y + z)
  {
    assert Grouping.PairKeys(w + x + y + z) == Grouping.PairKeys(w) + Grouping.PairKeys(x) + Grouping.PairKeys(y) + Grouping.PairKeys(z);
  }

  lemma NavigationKeysMatch()
    ensures Grouping.PairKeys(Navigation(En)) == Grouping.PairKeys(Navigation(Es))
  {
  }

  lemma NavigationTranslatesEn()
    ensures Translates(Navigation(En))
  {
  }

  lemma NavigationTranslatesEs()
    ensures Translates(Navigation(Es))
  {
  }

  lemma NavigationLacksEn()
    ensures Lacks(Navigation(En))
  {
  }

  lemma NavigationLacksEs()
    ensures Lacks(Navigation(Es))
  {
  }

  lemma NavigationKeysAgree(a: Language, b: Language)
    ensures Grouping.PairKeys(Navigation(a)) == Grouping.PairKeys(Navigation(b))
  {
    if a != b {
      NavigationKeysMatch();
    }
  }

  lemma NavigationFacts(lang: Language)
    ensures Translates(Navigation(lang)) && Lacks(Navigation(lang))
  {
    if lang == En {
      NavigationTranslatesEn();
      NavigationLacksEn();
    } else {
      NavigationTranslatesEs();
      NavigationLacksEs();
    }
  }

  lemma DashboardKeysMatch()
    ensures Grouping.PairKeys(Dashboard(En)) == Grouping.PairKeys(Dashboard(Es))
  {
  }

  lemma DashboardTranslatesEn()
    ensures Translates(Dashboard(En))
  {
  }

  lemma DashboardTranslatesEs()
    ensures Translates(Dashboard(Es))
  {
  }

  lemma DashboardLacksEn()
    ensures Lacks(Dashboard(En))
  {
  }

  lemma DashboardLacksEs()
    ensures Lacks(Dashboard(Es))
  {
  }

  lemma DashboardKeysAgree(a: Language, b: Language)
    ensures Grouping.PairKeys(Dashboard(a)) == Grouping.PairKeys(Dashboard(b))
  {
    if a != b {
      DashboardKeysMatch();
    }
  }

  lemma DashboardFacts(lang: Language)
    ensures Translates(Dashboard(lang)) && Lacks(Dashboard(lang))
  {
    if lang == En {
      DashboardTranslatesEn();
      DashboardLacksEn();
    } else {
      DashboardTranslatesEs();
      DashboardLacksEs();
    }
  }

  lemma SettingsKeysMatch()
    ensures Grouping.PairKeys(Settings(En)) == Grouping.PairKeys(Settings(Es))
  {
  }

  lemma SettingsTranslatesEn()
    ensures Translates(Settings(En))
  {
  }

  lemma SettingsTranslatesEs()
    ensures Translates(Settings(Es))
  {
  }

  lemma SettingsLacksEn()
    ensures Lacks(Settings(En))
  {
  }

  lemma SettingsLacksEs()
    ensures Lacks(Settings(Es))
  {
  }

  lemma SettingsKeysAgree(a: Language, b: Language)
    ensures Grouping.PairKeys(Settings(a)) == Grouping.PairKeys(Settings(b))
  {
    if a != b {
      SettingsKeysMatch();
    }
  }

  lemma SettingsFacts(lang: Language)
    ensures Translates(Settings(lang)) && Lacks(Settings(lang))
  {
    if lang == En {
      SettingsTranslatesEn();
      SettingsLacksEn();
    } else {
      SettingsTranslatesEs();
      SettingsLacksEs();
    }
  }

  lemma CommonKeysMatch()
    ensures Grouping.PairKeys(Common(En)) == Grouping.PairKeys(Common(Es))
  {
  }

  lemma CommonTranslatesEn()
    ensures Translates(Common(En))
  {
  }

  lemma CommonTranslatesEs()
    ensures Translates(Common(Es))
  {
  }

  lemma CommonLacksEn()
    ensures Lacks(Common(En))
  {
  }

  lemma CommonLacksEs()
    ensures Lacks(Common(Es))
  {
  }

  lemma CommonKeysAgree(a: Language, b: Language)
    ensures Grouping.PairKeys(Common(a)) == Grouping.PairKeys(Common(b))
  {
    if a != b {
      CommonKeysMatch();
    }
  }

  lemma CommonFacts(lang: Language)
    ensures Translates(Common(lang)) && Lacks(Common(lang))
  {
    if lang == En {
      CommonTranslatesEn();
      CommonLacksEn();
    } else {
      CommonTranslatesEs();
      CommonLacksEs();
    }
  }

  lemma AccountsKeysMatch()
    ensures Grouping.PairKeys(Accounts(En)) == Grouping.PairKeys(Accounts(Es))
  {
  }

  lemma AccountsTranslatesEn()
    ensures Translates(Accounts(En))
  {
  }

  lemma AccountsTranslatesEs()
    ensures Translates(Accounts(Es))
  {
  }

  lemma AccountsLacksEn()
    ensures Lacks(Accounts(En))
  {
  }

  lemma AccountsLacksEs()
    ensures Lacks(Accounts(Es))
  {
  }

  lemma AccountsKeysAgree(a: Language, b: Language)
    ensures Grouping.PairKeys(Accounts(a)) == Grouping.PairKeys(Accounts(b))
  {
    if a != b {
      AccountsKeysMatch();
    }
  }

  lemma AccountsFacts(lang: Language)
    ensures Translates(Accounts(lang)) && Lacks(Accounts(lang))
  {
    if lang == En {
      AccountsTranslatesEn();
      AccountsLacksEn();
    } else {
      AccountsTranslatesEs();
      AccountsLacksEs();
    }
  }

  lemma TransactionsKeysMatch()
    ensures Grouping.PairKeys(Transactions(En)) == Grouping.PairKeys(Transactions(Es))
  {
  }

  lemma TransactionsTranslatesEn()
    ensures Translates(Transactions(En))
  {
  }

  lemma TransactionsTranslatesEs()
    ensures Translates(Transactions(Es))
  {
  }

  lemma TransactionsLacksEn()
    ensures Lacks(Transactions(En))
  {
  }

  lemma TransactionsLacksEs()
    ensures Lacks(Transactions(Es))
  {
  }

  lemma TransactionsKeysAgree(a: Language, b: Language)
    ensures Grouping.PairKeys(Transactions(a)) == Grouping.PairKeys(Transactions(b))
  {
    if a != b {
      TransactionsKeysMatch();
    }
  }

  lemma TransactionsFacts(lang: Language)
    ensures Translates(Transactions(lang)) && Lacks(Transactions(lang))
  {
    if lang == En {
      TransactionsTranslatesEn();
      TransactionsLacksEn();
    } else {
      TransactionsTranslatesEs();
      TransactionsLacksEs();
    }
  }

  lemma BudgetKeysMatch()
    ensures Grouping.PairKeys(Budget(En)) == Grouping.PairKeys(Budget(Es))
  {
  }

  lemma BudgetTranslatesEn()
    ensures Translates(Budget(En))
  {
  }

  lemma BudgetTranslatesEs()
    ensures Translates(Budget(Es))
  {
  }

  lemma BudgetLacksEn()
    ensures Lacks(Budget(En))
  {
  }

  lemma BudgetLacksEs()
    ensures Lacks(Budget(Es))
  {
  }

  lemma BudgetKeysAgree(a: Language, b: Language)
    ensures Grouping.PairKeys(Budget(a)) == Grouping.PairKeys(Budget(b))
  {
    if a != b {
      BudgetKeysMatch();
    }
  }

  lemma BudgetFacts(lang: Language)
    ensures Translates(Budget(lang)) && Lacks(Budget(lang))
  {
    if lang == En {
      BudgetTranslatesEn();
      BudgetLacksEn();
    } else {
      BudgetTranslatesEs();
      BudgetLacksEs();
    }
  }

  lemma ChartsKeysMatch()
    ensures Grouping.PairKeys(Charts(En)) == Grouping.PairKeys(Charts(Es))
  {
  }

  lemma ChartsTranslatesEn()
    ensures Translates(Charts(En))
  {
  }

  lemma ChartsTranslatesEs()
    ensures Translates(Charts(Es))
  {
  }

  lemma ChartsLacksEn()
    ensures Lacks(Charts(En))
  {
  }

  lemma ChartsLacksEs()
    ensures Lacks(Charts(Es))
  {
  }

  lemma ChartsKeysAgree(a: Language, b: Language)
    ensures Grouping.PairKeys(Charts(a)) == Grouping.PairKeys(Charts(b))
  {
    if a != b {
      ChartsKeysMatch();
    }
  }

  lemma ChartsFacts(lang: Language)
    ensures Translates(Charts(lang)) && Lacks(Charts(lang))
  {
    if lang == En {
      ChartsTranslatesEn();
      ChartsLacksEn();
    } else {
      ChartsTranslatesEs();
      ChartsLacksEs();
    }
  }

  lemma AiReportKeysMatch()
    ensures Grouping.PairKeys(AiReport(En)) == Grouping.PairKeys(AiReport(Es))
  {
  }

  lemma AiReportTranslatesEn()
    ensures Translates(AiReport(En))
  {
  }

  lemma AiReportTranslatesEs()
    ensures Translates(AiReport(Es))
  {
  }

  lemma AiReportLacksEn()
    ensures Lacks(AiReport(En))
  {
  }

  lemma AiReportLacksEs()
    ensures Lacks(AiReport(Es))
  {
  }

  lemma AiReportKeysAgree(a: Language, b: Language)
    ensures Grouping.PairKeys(AiReport(a)) == Grouping.PairKeys(AiReport(b))
  {
    if a != b {
      AiReportKeysMatch();
    }
  }

  lemma AiReportFacts(lang: Language)
    ensures Translates(AiReport(lang)) && Lacks(AiReport(lang))
  {
    if lang == En {
      AiReportTranslatesEn();
      AiReportLacksEn();
    } else {
      AiReportTranslatesEs();
      AiReportLacksEs();
    }
  }

  lemma CategoriesKeysMatch()
    ensures Grouping.PairKeys(Categories(En)) == Grouping.PairKeys(Categories(Es))
  {
  }

  lemma CategoriesTranslatesEn()
    ensures Translates(Categories(En))
  {
  }

  lemma CategoriesTranslatesEs()
    ensures Translates(Categories(Es))
  {
  }

  lemma CategoriesLacksEn()
    ensures Lacks(Categories(En))
  {
  }

  lemma CategoriesLacksEs()
    ensures Lacks(Categories(Es))
  {
  }

  lemma CategoriesKeysAgree(a: Language, b: Language)
    ensures Grouping.PairKeys(Categories(a)) == Grouping.PairKeys(Categories(b))
  {
    if a != b {
      CategoriesKeysMatch();
    }
  }

  lemma CategoriesFacts(lang: Language)
    ensures Translates(Categories(lang)) && Lacks(Categories(lang))
  {
    if lang == En {
      CategoriesTranslatesEn();
      CategoriesLacksEn();
    } else {
      CategoriesTranslatesEs();
      CategoriesLacksEs();
    }
  }

  lemma TimePeriodsKeysMatch()
    ensures Grouping.PairKeys(TimePeriods(En)) == Grouping.PairKeys(TimePeriods(Es))
  {
  }

  lemma TimePeriodsTranslatesEn()
    ensures Translates(TimePeriods(En))
  {
  }

  lemma TimePeriodsTranslatesEs()
    ensures Translates(TimePeriods(Es))
  {
  }

  lemma TimePeriodsLacksEn()
    ensures Lacks(TimePeriods(En))
  {
  }

  lemma TimePeriodsLacksEs()
    ensures Lacks(TimePeriods(Es))
  {
  }

  lemma TimePeriodsKeysAgree(a: Language, b: Language)
    ensures Grouping.PairKeys(TimePeriods(a)) == Grouping.PairKeys(TimePeriods(b))
  {
    if a != b {
      TimePeriodsKeysMatch();
    }
  }

  lemma TimePeriodsFacts(lang: Language)
    ensures Translates(TimePeriods(lang)) && Lacks(TimePeriods(lang))
  {
    if lang == En {
      TimePeriodsTranslatesEn();
      TimePeriodsLacksEn();
    } else {
      TimePeriodsTranslatesEs();
      TimePeriodsLacksEs();
    }
  }

  lemma StatusKeysMatch()
    ensures Grouping.PairKeys(Status(En)) == Grouping.PairKeys(Status(Es))
  {
  }

  lemma StatusTranslatesEn()
    ensures Translates(Status(En))
  {
  }

  lemma StatusTranslatesEs()
    ensures Translates(Status(Es))
  {
  }

  lemma StatusLacksEn()
    ensures Lacks(Status(En))
  {
  }

  lemma StatusLacksEs()
    ensures Lacks(Status(Es))
  {
  }

  lemma StatusKeysAgree(a: Language, b: Language)
    ensures Grouping.PairKeys(Status(a)) == Grouping.PairKeys(Status(b))
  {
    if a != b {
      StatusKeysMatch();
    }
  }

  lemma StatusFacts(lang: Language)
    ensures Translates(Status(lang)) && Lacks(Status(lang))
  {
    if lang == En {
      StatusTranslatesEn();
      StatusLacksEn();
    } else {
      StatusTranslatesEs();
      StatusLacksEs();
    }
  }

  lemma Part1Keys(a: Language, b: Language)
    ensures Grouping.PairKeys(Part1(a)) == Grouping.PairKeys(Part1(b))
  {
    NavigationKeysAgree(a, b);
    DashboardKeysAgree(a, b);
    SettingsKeysAgree(a, b);
    KeysOfThree(Navigation(a), Dashboard(a), Settings(a), Navigation(b), Dashboard(b), Settings(b));
  }

  lemma Part1Facts(lang: Language)
    ensures Translates(Part1(lang)) && Lacks(Part1(lang))
  {
    NavigationFacts(lang);
    DashboardFacts(lang);
    SettingsFacts(lang);
    FactsOfThree(Navigation(lang), Dashboard(lang), Settings(lang));
  }

  lemma Part2Keys(a: Language, b: Language)
    ensures Grouping.PairKeys(Part2(a)) == Grouping.PairKeys(Part2(b))
  {
    CommonKeysAgree(a, b);
    AccountsKeysAgree(a, b);
    TransactionsKeysAgree(a, b);
    KeysOfThree(Common(a), Accounts(a), Transactions(a), Common(b), Accounts(b), Transactions(b));
  }

  lemma Part2Facts(lang: Language)
    ensures Translates(Part2(lang)) && Lacks(Part2(lang))
  {
    CommonFacts(lang);
    AccountsFacts(lang);
    TransactionsFacts(lang);
    FactsOfThree(Common(lang), Accounts(lang), Transactions(lang));
  }

  lemma Part3Keys(a: Language, b: Language)
    ensures Grouping.PairKeys(Part3(a)) == Grouping.PairKeys(Part3(b))
  {
    BudgetKeysAgree(a, b);
    ChartsKeysAgree(a, b);
    AiReportKeysAgree(a, b);
    KeysOfThree(Budget(a), Charts(a), AiReport(a), Budget(b), Charts(b), AiReport(b));
  }

  lemma Part3Facts(lang: Language)
    ensures Translates(Part3(lang)) && Lacks(Part3(lang))
  {
    BudgetFacts(lang);
    ChartsFacts(lang);
    AiReportFacts(lang);
    FactsOfThree(Budget(lang), Charts(lang), AiReport(lang));
  }

  lemma Part4Keys(a: Language, b: Language)
    ensures Grouping.PairKeys(Part4(a)) == Grouping.PairKeys(Part4(b))
  {
    CategoriesKeysAgree(a, b);
    TimePeriodsKeysAgree(a, b);
    StatusKeysAgree(a, b);
    KeysOfThree(Categories(a), TimePeriods(a), Status(a), Categories(b), TimePeriods(b), Status(b));
  }

  lemma Part4Facts(lang: Language)
    ensures Translates(Part4(lang)) && Lacks(Part4(lang))
  {
    CategoriesFacts(lang);
    TimePeriodsFacts(lang);
    StatusFacts(lang);
    FactsOfThree(Categories(lang), TimePeriods(lang), Status(lang));
  }

  lemma TableKeysAgree(a: Language, b: Language)
    ensures Grouping.PairKeys(Table(a)) == Grouping.PairKeys(Table(b))
  {
    Part1Keys(a, b);
    Part2Keys(a, b);
    Part3Keys(a, b);
    Part4Keys(a, b);
    KeysOfFour(Part1(a), Part2(a), Part3(a), Part4(a), Part1(b), Part2(b), Part3(b), Part4(b));
  }

  lemma TableFacts(lang: Language)
    ensures Translates(Table(lang)) && Lacks(Table(lang))
  {
    Part1Facts(lang);
    Part2Facts(lang);
    Part3Facts(lang);
    Part4Facts(lang);
    FactsOfFour(Part1(lang), Part2(lang), Part3(lang), Part4(lang));
  }

  /** Both tables list the same keys, in the same order. */
  lemma SameKeys(a: Language, b: Language)
    ensures Grouping.PairKeys(Translations(a)) == Grouping.PairKeys(Translations(b))
  {
    TableKeysAgree(a, b);
    TranslationsIsTable(a);
    TranslationsIsTable(b);
  }

  /** Every value of either table is a real translation: non-empty and not the key. */
  lemma TranslationsTranslate(lang: Language)
    ensures Translates(Translations(lang))
  {
    TableFacts(lang);
    TranslationsIsTable(lang);
  }

  /** Neither table has an entry for "nav.debts", "settings.profileInformation" or
      "categories.phone", keys the dashboard nevertheless asks for. */
  lemma TranslationsLack(lang: Language)
    ensures Lacks(Translations(lang))
  {
    TableFacts(lang);
    TranslationsIsTable(lang);
  }

  /** `t` echoes its argument back exactly when the table has no entry for it. */
  lemma EchoIffAbsent(lang: Language, key: string)
    ensures T(lang, key) == key <==> key !in Grouping.PairKeys(Translations(lang))
  {
    TranslationsTranslate(lang);
    EchoIffAbsentIn(Translations(lang), key);
  }

  /** Whether `t` falls back to the key never depends on the language. */
  lemma FallbackIndependentOfLanguage(a: Language, b: Language, key: string)
    ensures T(a, key) == key <==> T(b, key) == key
  {
    SameKeys(a, b);
    EchoIffAbsent(a, key);
    EchoIffAbsent(b, key);
  }

  /** Those keys are shown as the raw key, in either language. */
  lemma MissingKeysEcho(lang: Language, key: string)
    requires key == "nav.debts" || key == "settings.profileInformation" || key == "categories.phone"
    ensures T(lang, key) == key
  {
    TranslationsLack(lang);
  }

  /** The language before any stored preference is read. */
  const InitialLanguage: Language := Es

  /** A stored preference is adopted only when it is exactly "en" or "es"; anything else,
      an absent value included, leaves Spanish. */
  function AdoptStored(stored: Option<string>): (r: Language)
    ensures r == En <==> stored == Some("en")
    ensures r == Es <==> stored != Some("en")
  {
    if stored.Some? && (stored.value == "en" || stored.value == "es") then
      if stored.value == "en" then En else Es
    else InitialLanguage
  }
}

=== FILE: model_storage.dfy ===
/** The AI service's model store: the in-memory cache of loaded models (a dictionary of at
    most ten users, evicting in insertion order), the structural check of a loaded model,
    the cache behaviour of loading and deleting, the categories recorded in the metadata,
    and the choice of which backups to remove. The files themselves are parameters: the
    model files by user, the metadata files, and the backup directory listing with each
    file's modification time. */
module ModelStorage {
  import opened Wrappers
  import opened Text
  import opened Seqs
  import Sorting
  import Grouping

  /** `cache_limit`. */
  const CacheLimit: nat := 10

  /** The default `keep_count` of the backup cleanup. */
  const KeepBackups: nat := 5

  // ---------------------------------------------------------------- ordered dictionaries

  /** A Python `dict` keyed by strings: its entries in insertion order. */
  type Dict<V> = seq<(string, V)>

  predicate Distinct<V>(d: Dict<V>) {
    forall i, j :: 0 <= i < j < |d| ==> d[i].0 != d[j].0
  }

  /** Where key `k` sits: its first position. */
  function KeyIndex<V>(d: Dict<V>, k: string): (i: nat)
    requires k in Grouping.PairKeys(d)
    ensures i < |d| && d[i].0 == k
    ensures forall j :: 0 <= j < i ==> d[j].0 != k
  {
    if d[0].0 == k then 0
    else
      assert Grouping.PairKeys(d[1..]) == Grouping.PairKeys(d)[1..];
      1 + KeyIndex(d[1..], k)
  }

  /** `d.get(k)`. */
  function Get<V>(d: Dict<V>, k: string): (r: Option<V>)
    ensures r.Some? <==> k in Grouping.PairKeys(d)
    ensures Distinct(d) ==> forall i :: 0 <= i < |d| && d[i].0 == k ==> r == Some(d[i].1)
  {
    if k in Grouping.PairKeys(d) then Some(d[KeyIndex(d, k)].1) else None
  }

  /** `d[k] = v`: a present key keeps its place and takes the new value, a new key goes last. */
  function Put<V>(d: Dict<V>, k: string, v: V): (r: Dict<V>)
    requires Distinct(d)
    ensures Distinct(r)
    ensures Grouping.PairKeys(r) == if k in Grouping.PairKeys(d) then Grouping.PairKeys(d) else Grouping.PairKeys(d) + [k]
    ensures Get(r, k) == Some(v)
    ensures forall j :: j != k ==> Get(r, j) == Get(d, j)
  {
    var r := if k in Grouping.PairKeys(d) then d[KeyIndex(d, k) := (k, v)] else d + [(k, v)];
    PutFacts(d, k, v, r);
    r
  }

  lemma PutFacts<V>(d: Dict<V>, k: string, v: V, r: Dict<V>)
    requires Distinct(d)
    requires r == if k in Grouping.PairKeys(d) then d[KeyIndex(d, k) := (k, v)] else d + [(k, v)]
    ensures Distinct(r)
    ensures Grouping.PairKeys(r) == if k in Grouping.PairKeys(d) then Grouping.PairKeys(d) else Grouping.PairKeys(d) + [k]
    ensures Get(r, k) == Some(v)
    ensures forall j :: j != k ==> Get(r, j) == Get(d, j)
  {
    assert Grouping.PairKeys(r) == if k in Grouping.PairKeys(d) then Grouping.PairKeys(d) else Grouping.PairKeys(d) + [k];
    assert k in Grouping.PairKeys(r);
    forall j | j != k
      ensures Get(r, j) == Get(d, j)
    {
      if j in Grouping.PairKeys(d) {
        var p := KeyIndex(d, j);
        assert r[p] == d[p];
      }
    }
  }

  /** `del d[k]` for a present key; the other entries keep their order. */
  function Remove<V>(d: Dict<V>, k: string): (r: Dict<V>)
    requires Distinct(d) && k in Grouping.PairKeys(d)
    ensures Distinct(r)
    ensures |r| == |d| - 1
    ensures Get(r, k).None?
    ensures forall j :: j != k ==> Get(r, j) == Get(d, j)
  {
    var i := KeyIndex(d, k);
    var r := d[..i] + d[i + 1..];
    RemoveFacts(d, k, i, r);
    r
  }

  lemma RemoveFacts<V>(d: Dict<V>, k: string, i: nat, r: Dict<V>)
    requires Distinct(d) && i < |d| && d[i].0 == k
    requires r == d[..i] + d[i + 1..]
    ensures Distinct(r)
    ensures Get(r, k).None?
    ensures forall j :: j != k ==> Get(r, j) == Get(d, j)
  {
    assert forall p :: 0 <= p < |r| ==> r[p] == if p < i then d[p] else d[p + 1];
    assert k !in Grouping.PairKeys(r);
    forall j | j != k
      ensures Get(r, j) == Get(d, j)
    {
      if j in Grouping.PairKeys(d) {
        var p := KeyIndex(d, j);
        if p < i {
          assert r[p] == d[p];
        } else {
          assert r[p - 1] == d[p];
        }
      }
      if j in Grouping.PairKeys(r) {
        var p := KeyIndex(r, j);
        assert p < i ==> d[p].0 == j;
        assert p >= i ==> d[p + 1].0 == j;
      }
    }
  }

  /** Dropping the first entry of a dictionary loses exactly its key. */
  lemma DropFirst<V>(d: Dict<V>)
    requires Distinct(d) && |d| > 0
    ensures Distinct(d[1..])
    ensures Get(d[1..], d[0].0).None?
    ensures forall j :: j != d[0].0 ==> Get(d[1..], j) == Get(d, j)
  {
    assert Grouping.PairKeys(d[1..]) == Grouping.PairKeys(d)[1..];
  }

  // ---------------------------------------------------------------- the cache

  /** `_update_cache`: when the cache is full its first-inserted entry goes, whichever user
      it belongs to, and then `u` is stored. */
  function UpdateCache<V>(cache: Dict<V>, u: string, data: V): (r: Dict<V>)
    requires Distinct(cache)
    ensures Distinct(r)
    ensures Get(r, u) == Some(data)
    ensures |cache| <= CacheLimit ==> |r| <= CacheLimit
    ensures forall k :: k != u ==>
              Get(r, k) == if |cache| >= CacheLimit && k == cache[0].0 then None else Get(cache, k)
    ensures var kept := if |cache| >= CacheLimit then Grouping.PairKeys(cache)[1..] else Grouping.PairKeys(cache);
            Grouping.PairKeys(r) == if u in kept then kept else kept + [u]
  {
    if |cache| >= CacheLimit then
      DropFirst(cache);
      Put(cache[1..], u, data)
    else
      Put(cache, u, data)
  }

  /** Refreshing a user already in a full cache still evicts the oldest entry, so the cache
      shrinks to nine. */
  lemma FullCacheRefreshShrinks<V>(cache: Dict<V>, u: string, data: V)
    requires Distinct(cache) && |cache| == CacheLimit
    requires u in Grouping.PairKeys(cache) && u != cache[0].0
    ensures |UpdateCache(cache, u, data)| == CacheLimit - 1
  {
    DropFirst(cache);
    var i :| 0 <= i < |cache| && cache[i].0 == u;
    assert Grouping.PairKeys(cache[1..])[i - 1] == u;
  }

  /** The cache is first-in first-out: after a new user fills the place of the oldest entry,
      the cache is full again, the new user is last in line and the second-oldest entry is
      the next to go. */
  lemma FullCacheEvictsInOrder<V>(cache: Dict<V>, u: string, data: V)
    requires Distinct(cache) && |cache| == CacheLimit
    requires u !in Grouping.PairKeys(cache)
    ensures |UpdateCache(cache, u, data)| == CacheLimit
    ensures UpdateCache(cache, u, data)[CacheLimit - 1].0 == u
    ensures UpdateCache(cache, u, data)[0].0 == cache[1].0
  {
    var r := UpdateCache(cache, u, data);
    assert Grouping.PairKeys(r) == Grouping.PairKeys(cache)[1..] + [u];
    assert Grouping.PairKeys(r)[0] == Grouping.PairKeys(cache)[1];
  }

  /** A user not yet cached enters a cache below its limit without evicting anyone. */
  lemma RoomyCacheKeepsEveryone<V>(cache: Dict<V>, u: string, data: V, k: string)
    requires Distinct(cache) && |cache| < CacheLimit
    requires k != u
    ensures Get(UpdateCache(cache, u, data), k) == Get(cache, k)
  {
  }

  // ---------------------------------------------------------------- model data

  /** A value stored under a key of a loaded model: a dictionary (with its keys) or
      anything else. */
  datatype Value = DictValue(keys: seq<string>) | OtherValue

  /** A loaded model file: a dictionary of values. */
  type ModelData = map<string, Value>

  /** The keys `_validate_model_structure` requires, in the order it checks them. */
  const RequiredKeys: seq<string> := ["models", "scalers", "user_id", "saved_at"]

  /** The first of `keys` that `d` lacks. */
  function FirstMissing(d: ModelData, keys: seq<string>): (r: Option<string>)
    ensures r.Some? ==> r.value in keys && r.value !in d
    ensures r.None? <==> forall i :: 0 <= i < |keys| ==> keys[i] in d
  {
    if |keys| == 0 then None
    else if keys[0] !in d then Some(keys[0])
    else FirstMissing(d, keys[1..])
  }

  /** `_validate_model_structure`: the four required keys are present and both `models`
      and `scalers` are dictionaries. */
  function ValidateModel(d: ModelData): (ok: bool)
    ensures ok <==> "models" in d && "scalers" in d && "user_id" in d && "saved_at" in d
                    && d["models"].DictValue? && d["scalers"].DictValue?
  {
    var missing := FirstMissing(d, RequiredKeys);
    assert missing.None? <==> "models" in d && "scalers" in d && "user_id" in d && "saved_at" in d by {
      assert RequiredKeys[0] == "models" && RequiredKeys[1] == "scalers";
      assert RequiredKeys[2] == "user_id" && RequiredKeys[3] == "saved_at";
    }
    missing.None? && d["models"].DictValue? && d["scalers"].DictValue?
  }

  /** What `save_user_models` writes: both dictionaries, the user and the time. */
  function SavedModel(models: seq<string>, scalers: seq<string>, u: string, savedAt: string): (d: ModelData)
    ensures ValidateModel(d)
  {
    map["models" := DictValue(models), "scalers" := DictValue(scalers), "user_id" := OtherValue,
        "saved_at" := OtherValue, "version" := OtherValue]
  }

  /** The result of `load_user_models` and the cache after it. */
  datatype Loaded = Loaded(data: Option<ModelData>, cache: Dict<ModelData>)

  /** `load_user_models` with `files` the model files by user: a cached model is returned
      as it is; otherwise the file is read, validated and cached. A missing file or a
      model that fails validation gives `None` and leaves the cache alone. */
  function LoadUserModels(cache: Dict<ModelData>, files: map<string, ModelData>, u: string): (r: Loaded)
    requires Distinct(cache)
    ensures Distinct(r.cache)
    ensures Get(cache, u).Some? ==> r == Loaded(Get(cache, u), cache)
    ensures Get(cache, u).None? ==> (r.data.Some? <==> u in files && ValidateModel(files[u]))
    ensures Get(cache, u).None? && r.data.Some? ==> r.data.value == files[u]
    ensures r.data.None? ==> r.cache == cache
    ensures r.data.Some? ==> Get(r.cache, u) == r.data
  {
    var hit := Get(cache, u);
    if hit.Some? then Loaded(hit, cache)
    else if u !in files then Loaded(None, cache)
    else if !ValidateModel(files[u]) then Loaded(None, cache)
    else Loaded(Some(files[u]), UpdateCache(cache, u, files[u]))
  }

  /** A cached model is returned without being validated: even a model that would fail the
      check comes back. */
  lemma CacheHitSkipsValidation(cache: Dict<ModelData>, files: map<string, ModelData>, u: string)
    requires Distinct(cache)
    requires Get(cache, u).Some? && !ValidateModel(Get(cache, u).value)
    ensures LoadUserModels(cache, files, u).data.Some?
  {
  }

  /** Loading twice returns the same model, the second time from the cache. */
  lemma LoadTwice(cache: Dict<ModelData>, files: map<string, ModelData>, u: string)
    requires Distinct(cache)
    ensures var first := LoadUserModels(cache, files, u);
            var second := LoadUserModels(first.cache, files, u);
            second.data == first.data && (first.data.Some? ==> second.cache == first.cache)
  {
  }

  /** The result of `delete_user_models`: whether a file went, and what is left. */
  datatype Deleted = Deleted(ok: bool, cache: Dict<ModelData>, models: set<string>, metadata: set<string>)

  /** `delete_user_models` with the users owning a model file and a metadata file: both
      files are removed when present, the user leaves the cache, and the answer is whether
      any file was removed. */
  function DeleteUserModels(cache: Dict<ModelData>, models: set<string>, metadata: set<string>, u: string): (r: Deleted)
    requires Distinct(cache)
    ensures r.ok <==> u in models || u in metadata
    ensures u !in r.models && u !in r.metadata
    ensures forall v :: v != u ==> (v in r.models <==> v in models) && (v in r.metadata <==> v in metadata)
    ensures Distinct(r.cache) && Get(r.cache, u).None?
    ensures forall k :: k != u ==> Get(r.cache, k) == Get(cache, k)
  {
    var filesDeleted := (if u in models then 1 else 0) + (if u in metadata then 1 else 0);
    var c := if u in Grouping.PairKeys(cache) then Remove(cache, u) else cache;
    Deleted(filesDeleted > 0, c, models - {u}, metadata - {u})
  }

  /** After a deletion, loading the user finds neither the cache nor a file. */
  lemma LoadAfterDelete(cache: Dict<ModelData>, files: map<string, ModelData>, metadata: set<string>, u: string)
    requires Distinct(cache)
    ensures var d := DeleteUserModels(cache, files.Keys, metadata, u);
            LoadUserModels(d.cache, map v | v in files && v in d.models :: files[v], u).data.None?
  {
  }

  // ---------------------------------------------------------------- trained categories

  /** `key.split('_')[1]`: the second `_`-separated field of a key holding `_`, that is the
      longest `_`-free run after the first `_`. */
  function SecondField(key: string): (r: string)
    requires '_' in key
    ensures '_' !in r
    ensures var start := IndexOf(key, '_') + 1;
            start + |r| <= |key| && key[start..start + |r|] == r &&
            (start + |r| == |key| || key[start + |r|] == '_')
  {
    SecondPiece(key, '_');
    Split(key, '_')[1]
  }

  /** `categories_trained`: the second field of every model key holding `_`. */
  function CategoriesTrained(modelKeys: seq<string>): (r: set<string>)
    ensures forall c :: c in r ==> '_' !in c
    ensures forall i :: 0 <= i < |modelKeys| && '_' in modelKeys[i] ==> SecondField(modelKeys[i]) in r
    ensures forall c :: c in r ==>
              exists i :: 0 <= i < |modelKeys| && '_' in modelKeys[i] && SecondField(modelKeys[i]) == c
  {
    set i | 0 <= i < |modelKeys| && '_' in modelKeys[i] :: SecondField(modelKeys[i])
  }

  /** The keys the predictor builds, `f"{user_id}_{category}"`, give back their category
      when neither part holds `_`. */
  lemma CategoryOfModelKey(u: string, c: string)
    requires '_' !in u && '_' !in c
    ensures '_' in u + "_" + c
    ensures SecondField(u + "_" + c) == c
  {
    assert (u + "_" + c)[|u|] == '_';
    SplitJoined(u, c, '_');
  }

  // ---------------------------------------------------------------- backups

  /** A file of the backup directory with its modification time. */
  datatype FileEntry = FileEntry(name: string, mtime: real)

  /** The backups of user `u`: the files whose name starts with `{u}_model_backup_`. */
  function IsBackupOf(u: string): FileEntry -> bool {
    (f: FileEntry) => IsPrefix(u + "_model_backup_", f.name)
  }

  /** Sort key for newest first. */
  function Newest(f: FileEntry): real {
    -f.mtime
  }

  /** The user's backups, newest first; equal times keep their listing order. */
  function Ranked(files: seq<FileEntry>, u: string): (r: seq<FileEntry>)
    ensures |r| == |Filter(files, IsBackupOf(u))|
    ensures multiset(r) == multiset(Filter(files, IsBackupOf(u)))
    ensures forall f :: f in files && IsBackupOf(u)(f) ==> f in r
    ensures forall i :: 0 <= i < |r| ==> r[i] in files && IsBackupOf(u)(r[i])
    ensures forall i, j :: 0 <= i < j < |r| ==> r[i].mtime >= r[j].mtime
  {
    var mine := Filter(files, IsBackupOf(u));
    var r := Sorting.SortBy(mine, Newest);
    RankedFacts(files, u, mine, r);
    assert forall f :: f in files && IsBackupOf(u)(f) ==> f in multiset(mine);
    r
  }

  lemma RankedFacts(files: seq<FileEntry>, u: string, mine: seq<FileEntry>, r: seq<FileEntry>)
    requires forall i :: 0 <= i < |mine| ==> mine[i] in files && IsBackupOf(u)(mine[i])
    requires multiset(r) == multiset(mine) && Sorting.SortedBy(r, Newest)
    ensures forall i :: 0 <= i < |r| ==> r[i] in files && IsBackupOf(u)(r[i])
    ensures forall i, j :: 0 <= i < j < |r| ==> r[i].mtime >= r[j].mtime
  {
    forall i | 0 <= i < |r|
      ensures r[i] in files && IsBackupOf(u)(r[i])
    {
      assert r[i] in multiset(mine);
    }
    forall i, j | 0 <= i < j < |r|
      ensures r[i].mtime >= r[j].mtime
    {
      assert Newest(r[i]) <= Newest(r[j]);
    }
  }

  /** `user_backups[keep_count:]`: the backups `_cleanup_old_backups` removes. */
  function BackupsToRemove(files: seq<FileEntry>, u: string): (r: seq<FileEntry>)
    ensures forall i :: 0 <= i < |r| ==> r[i] in files && IsBackupOf(u)(r[i])
    ensures |r| == if |Filter(files, IsBackupOf(u))| > KeepBackups then |Filter(files, IsBackupOf(u))| - KeepBackups else 0
  {
    var ranked := Ranked(files, u);
    if |ranked| <= KeepBackups then [] else ranked[KeepBackups..]
  }

  /** The backups that stay: the first `keep_count` of the ranking. */
  function BackupsKept(files: seq<FileEntry>, u: string): (r: seq<FileEntry>)
    ensures forall i :: 0 <= i < |r| ==> r[i] in files && IsBackupOf(u)(r[i])
    ensures |r| == if |Filter(files, IsBackupOf(u))| < KeepBackups then |Filter(files, IsBackupOf(u))| else KeepBackups
    ensures forall f, i :: f in files && IsBackupOf(u)(f) && f !in r && 0 <= i < |r| ==> r[i].mtime >= f.mtime
  {
    var ranked := Ranked(files, u);
    TakeNewest(ranked, KeepBackups);
    Sorting.Take(ranked, KeepBackups)
  }

  /** The first `n` of a newest-first list are at least as recent as anything left out. */
  lemma TakeNewest(ranked: seq<FileEntry>, n: nat)
    requires forall i, j :: 0 <= i < j < |ranked| ==> ranked[i].mtime >= ranked[j].mtime
    ensures forall f, i :: f in ranked && f !in Sorting.Take(ranked, n) && 0 <= i < |Sorting.Take(ranked, n)| ==>
              Sorting.Take(ranked, n)[i].mtime >= f.mtime
  {
    var r := Sorting.Take(ranked, n);
    forall f, i | f in ranked && f !in r && 0 <= i < |r|
      ensures r[i].mtime >= f.mtime
    {
      var j :| 0 <= j < |ranked| && ranked[j] == f;
      assert r[i] == ranked[i];
    }
  }

  /** The kept and the removed backups together are the user's backups, and every kept one
      is at least as recent as every removed one. */
  lemma KeptAreNewest(files: seq<FileEntry>, u: string)
    ensures BackupsKept(files, u) + BackupsToRemove(files, u) == Ranked(files, u)
    ensures multiset(BackupsKept(files, u) + BackupsToRemove(files, u)) == multiset(Filter(files, IsBackupOf(u)))
    ensures forall k, d :: 0 <= k < |BackupsKept(files, u)| && 0 <= d < |BackupsToRemove(files, u)| ==>
              BackupsKept(files, u)[k].mtime >= BackupsToRemove(files, u)[d].mtime
  {
    var ranked := Ranked(files, u);
    var kept := BackupsKept(files, u);
    var removed := BackupsToRemove(files, u);
    assert kept + removed == ranked;
    SplitNewest(ranked, |kept|);
  }

  /** Cutting a newest-first list in two leaves nothing in the back newer than the front. */
  lemma SplitNewest(ranked: seq<FileEntry>, n: nat)
    requires n <= |ranked|
    requires forall i, j :: 0 <= i < j < |ranked| ==> ranked[i].mtime >= ranked[j].mtime
    ensures forall k, d :: 0 <= k < n && 0 <= d < |ranked| - n ==> ranked[..n][k].mtime >= ranked[n..][d].mtime
  {
    forall k, d | 0 <= k < n && 0 <= d < |ranked| - n
      ensures ranked[..n][k].mtime >= ranked[n..][d].mtime
    {
      assert ranked[..n][k] == ranked[k] && ranked[n..][d] == ranked[n + d];
    }
  }

  function NotIn(removed: seq<FileEntry>): FileEntry -> bool {
    (f: FileEntry) => f !in removed
  }

  /** The backup directory after `_cleanup_old_backups(u)`: the removed files are gone,
      everything else stays in its place, the other users' backups included. */
  function CleanupOldBackups(files: seq<FileEntry>, u: string): (r: seq<FileEntry>)
    ensures forall f :: f in r <==> f in files && f !in BackupsToRemove(files, u)
    ensures forall f :: f in files && !IsBackupOf(u)(f) ==> f in r
    ensures |Filter(files, IsBackupOf(u))| <= KeepBackups ==> r == files
  {
    var removed := BackupsToRemove(files, u);
    Filter(files, NotIn(removed))
  }
}

=== FILE: numeric.dfy ===
/** Real-valued money arithmetic shared by every aggregation: min/max clamps,
    sums and means over sequences, and the "parse or default to zero" coercions
    the front end applies to fields read from the backend. */
module Numeric {
  import opened Wrappers

  function Min(a: real, b: real): (r: real)
    ensures r <= a && r <= b && (r == a || r == b)
  {
    if a <= b then a else b
  }

  function Max(a: real, b: real): (r: real)
    ensures r >= a && r >= b && (r == a || r == b)
  {
    if a >= b then a else b
  }

  /** `Math.min(hi, Math.max(lo, x))`: the value forced into `[lo, hi]`. */
  function Clamp(x: real, lo: real, hi: real): (r: real)
    requires lo <= hi
    ensures lo <= r <= hi
    ensures lo <= x <= hi ==> r == x
    ensures x < lo ==> r == lo
    ensures x > hi ==> r == hi
  {
    Min(hi, Max(lo, x))
  }

  function Abs(x: real): (r: real)
    ensures r >= 0.0 && (r == x || r == -x)
  {
    if x < 0.0 then -x else x
  }

  /** `Number(x ?? 0)`: an absent field counts as zero. */
  function OrZero(x: Option<real>): (r: real)
    ensures x.None? ==> r == 0.0
    ensures x.Some? ==> r == x.value
  {
    x.GetOr(0.0)
  }

  /** A numeric field as JavaScript sees it: missing, a finite number, or the (falsy) number
      `NaN`. Non-numeric strings, which are truthy, are not represented. */
  datatype JsField = Missing | Num(v: real) | NaN

  /** `Number(x || 0)`: every falsy field (missing, zero, `NaN`) counts as zero. */
  function FalsyOrZero(x: JsField): (r: real)
    ensures x.Num? ==> r == x.v
    ensures !x.Num? ==> r == 0.0
  {
    match x
    case Num(v) => if v == 0.0 then 0.0 else v
    case _ => 0.0
  }

  /** Left-to-right sum, the `reduce((s, x) => s + x, 0)` of JavaScript and `sum()` of Python. */
  function Sum(xs: seq<real>): real
  {
    if |xs| == 0 then 0.0 else Sum(xs[..|xs| - 1]) + xs[|xs| - 1]
  }

  lemma {:induction false} SumAppend(a: seq<real>, b: seq<real>)
    ensures Sum(a + b) == Sum(a) + Sum(b)
    decreases |b|
  {
    if |b| > 0 {
      assert (a + b)[..|a + b| - 1] == a + b[..|b| - 1];
      SumAppend(a, b[..|b| - 1]);
    } else {
      assert a + b == a;
    }
  }

  lemma SumSnoc(xs: seq<real>, x: real)
    ensures Sum(xs + [x]) == Sum(xs) + x
  {
    assert (xs + [x])[..|xs|] == xs;
  }

  lemma {:induction false} SumNonNegative(xs: seq<real>)
    requires forall i :: 0 <= i < |xs| ==> xs[i] >= 0.0
    ensures Sum(xs) >= 0.0
  {
    if |xs| > 0 {
      SumNonNegative(xs[..|xs| - 1]);
    }
  }

  /** Sum of values each bounded by `lo` and `hi` lies between `n·lo` and `n·hi`. */
  lemma {:induction false} SumBounds(xs: seq<real>, lo: real, hi: real)
    requires forall i :: 0 <= i < |xs| ==> lo <= xs[i] <= hi
    ensures |xs| as real * lo <= Sum(xs) <= |xs| as real * hi
  {
    if |xs| > 0 {
      SumBounds(xs[..|xs| - 1], lo, hi);
    }
  }

  /** Arithmetic mean (`numpy.mean`, pandas `.mean()`), defined on non-empty sequences. */
  function Mean(xs: seq<real>): real
    requires |xs| > 0
  {
    Sum(xs) / |xs| as real
  }

  /** The mean of values lying in `[lo, hi]` lies in `[lo, hi]`. */
  lemma MeanBounds(xs: seq<real>, lo: real, hi: real)
    requires |xs| > 0
    requires forall i :: 0 <= i < |xs| ==> lo <= xs[i] <= hi
    ensures lo <= Mean(xs) <= hi
  {
    SumBounds(xs, lo, hi);
    var n := |xs| as real;
    assert n * lo <= Sum(xs) <= n * hi;
    DivBounds(Sum(xs), n, lo, hi);
  }

  /** A ratio `s / b` with a positive denominator is at most 1 exactly when `s <= b`. */
  lemma RatioVersusOne(s: real, b: real)
    requires b > 0.0
    ensures s <= b <==> s / b <= 1.0
    ensures s >= b <==> s / b >= 1.0
  {
    assert s / b * b == s;
  }

  /** Comparing a ratio `s / b` with a positive denominator against `f` is comparing `s`
      against `f * b`. */
  lemma RatioAgainst(s: real, b: real, f: real)
    requires b > 0.0
    ensures s / b > f <==> s > f * b
    ensures s / b < f <==> s < f * b
  {
    var q := s / b;
    assert q * b == s;
    if q > f {
      assert q * b > f * b;
    }
    if q < f {
      assert q * b < f * b;
    }
    if s > f * b {
      assert q * b > f * b;
    }
    if s < f * b {
      assert q * b < f * b;
    }
  }

  lemma DivBounds(s: real, n: real, lo: real, hi: real)
    requires n > 0.0
    requires n * lo <= s <= n * hi
    ensures lo <= s / n <= hi
  {
  }

  /** `n·x` as `n` repeated additions of `x`: counting arguments about means stated with it
      stay within linear arithmetic. */
  function Times(n: nat, x: real): real {
    if n == 0 then 0.0 else Times(n - 1, x) + x
  }

  lemma {:induction false} TimesIsProduct(n: nat, x: real)
    ensures Times(n, x) == n as real * x
  {
    if n > 0 {
      TimesIsProduct(n - 1, x);
    }
  }

  /** `n` copies of `s / n` add up to `s`. */
  lemma TimesQuotient(s: real, n: nat)
    requires n > 0
    ensures Times(n, s / n as real) == s
  {
    TimesIsProduct(n, s / n as real);
  }

  /** `n` copies of the mean of `n` values add up to their sum. */
  lemma MeanTimes(xs: seq<real>)
    requires |xs| > 0
    ensures Times(|xs|, Mean(xs)) == Sum(xs)
  {
    TimesQuotient(Sum(xs), |xs|);
  }

  /** `k·(3x) = (3k)·x`. */
  lemma {:induction false} TimesTriple(k: nat, x: real)
    ensures Times(k, 3.0 * x) == Times(3 * k, x)
  {
    if k > 0 {
      TimesTriple(k - 1, x);
      assert Times(3 * k, x) == Times(3 * k - 1, x) + x;
      assert Times(3 * k - 1, x) == Times(3 * k - 2, x) + x;
      assert Times(3 * k - 2, x) == Times(3 * (k - 1), x) + x;
    }
  }

  /** For a positive `x`, more copies add up to more. */
  lemma {:induction false} TimesMonotone(a: nat, b: nat, x: real)
    requires x > 0.0 && a >= b
    ensures Times(a, x) >= Times(b, x)
    decreases a
  {
    if a > b {
      TimesMonotone(a - 1, b, x);
    }
  }

  lemma {:induction false} SumAtLeast(xs: seq<real>, lo: real)
    requires forall i :: 0 <= i < |xs| ==> lo <= xs[i]
    ensures |xs| as real * lo <= Sum(xs)
  {
    if |xs| > 0 {
      SumAtLeast(xs[..|xs| - 1], lo);
    }
  }

  /** The mean of values no smaller than `lo` is no smaller than `lo`. */
  lemma MeanAtLeast(xs: seq<real>, lo: real)
    requires |xs| > 0
    requires forall i :: 0 <= i < |xs| ==> lo <= xs[i]
    ensures lo <= Mean(xs)
  {
    SumAtLeast(xs, lo);
    var n := |xs| as real;
    assert Sum(xs) / n * n == Sum(xs);
  }
}

=== FILE: predictor.dfy ===
/** The AI service's weekly expense forecast: a per-category estimate (a fitted model from
    five transactions on, a short trend below that, a conservative mean for a category seen
    once), an overall confidence, and a weekday adjustment. The regression fit, the slope of
    `polyfit` and the standard deviation come from the numeric library and are parameters;
    so is today's weekday. */
module Predictor {
  import opened Wrappers
  import opened Numeric
  import opened Seqs
  import opened DataProcessor
  import Grouping
  import Sorting
  import Text

  /** One category's forecast for the coming week and how far to trust it. */
  datatype Estimate = Estimate(amount: real, confidence: real)

  /** The seven daily predictions of the fitted model for the week after the last row. */
  type Week = s: seq<real> | |s| == 7 witness [0.0, 0.0, 0.0, 0.0, 0.0, 0.0, 0.0]

  /** What a linear regression fit hands back: its predictions for the coming week and its
      R² score on the rows it was fitted on. */
  datatype Fit = Fit(daily: Week, score: real)

  /** The numeric library the forecast leans on. `fit` is `None` when fitting raises. */
  datatype Library = Library(
    fit: seq<Row> -> Option<Fit>,
    slope: seq<real> -> real,
    std: seq<real> -> real)

  /** A standard deviation is never negative. */
  ghost predicate SaneStd(lib: Library) {
    forall xs :: lib.std(xs) >= 0.0
  }

  /** The dictionary `predict_weekly_expenses` returns; `byCategory` keeps insertion order. */
  datatype Prediction = Prediction(byCategory: seq<(string, real)>, total: real, confidence: real, modelType: string)

  /** `_default_prediction`: nothing forecast, no confidence. */
  const NoData := Prediction([], 0.0, 0.0, "no_data")

  function Values(ps: seq<(string, real)>): (r: seq<real>)
    ensures |r| == |ps| && forall i :: 0 <= i < |ps| ==> r[i] == ps[i].1
  {
    seq(|ps|, i requires 0 <= i < |ps| => ps[i].1)
  }

  /** The distinct expense categories, in order of first appearance (pandas `unique()`). */
  function Categories(expenses: seq<Row>): (r: seq<string>)
    ensures forall c :: c in r <==> c in Grouping.PairKeys(CategoryPairs(expenses))
  {
    Grouping.Unique(Grouping.PairKeys(CategoryPairs(expenses)))
  }

  /** The categories are exactly the categories of the expenses, each listed once. */
  lemma CategoriesOfExpenses(expenses: seq<Row>, c: string)
    ensures c in Categories(expenses) <==> exists i :: 0 <= i < |expenses| && expenses[i].category == c
    ensures forall i, j :: 0 <= i < j < |Categories(expenses)| ==> Categories(expenses)[i] != Categories(expenses)[j]
  {
    var ks := Grouping.PairKeys(CategoryPairs(expenses));
    if c in ks {
      var i :| 0 <= i < |ks| && ks[i] == c;
      assert expenses[i].category == c;
    }
    if exists i :: 0 <= i < |expenses| && expenses[i].category == c {
      var i :| 0 <= i < |expenses| && expenses[i].category == c;
      assert ks[i] == c;
    }
  }

  /** The categories come in the order in which the expenses first show them. */
  lemma CategoriesInFirstAppearance(expenses: seq<Row>)
    ensures var ks := seq(|expenses|, i requires 0 <= i < |expenses| => expenses[i].category);
            Grouping.FirstAppearanceOrder(Categories(expenses), ks)
  {
    var ks := seq(|expenses|, i requires 0 <= i < |expenses| => expenses[i].category);
    assert Grouping.PairKeys(CategoryPairs(expenses)) == ks;
    Grouping.UniqueFirstAppearance(ks);
  }

  // ---------------------------------------------------------------- one category

  /** `np.minimum(np.maximum(daily, 0), cap)`: each day forced into `[0, cap]`, or to `cap`
      itself when the cap is negative. */
  function CapDaily(daily: seq<real>, cap: real): (r: seq<real>)
    ensures |r| == |daily|
    ensures forall i :: 0 <= i < |r| ==> Min(0.0, cap) <= r[i] <= cap
    ensures forall i :: 0 <= i < |r| && 0.0 <= daily[i] <= cap ==> r[i] == daily[i]
  {
    seq(|daily|, i requires 0 <= i < |daily| => Min(Max(daily[i], 0.0), cap))
  }

  /** `_ml_prediction` after the fit: the mean of the seven daily predictions, each cut to
      between 0 and three times the category's historical mean, trusted as far as the R²
      score says but never below 0.3 or above 0.9. */
  function MlEstimate(f: Fit, historicalMean: real): (e: Estimate)
    ensures historicalMean >= 0.0 ==> 0.0 <= e.amount <= 3.0 * historicalMean
    ensures 0.3 <= e.confidence <= 0.9
    ensures 0.3 <= f.score <= 0.9 ==> e.confidence == f.score
  {
    var cap := 3.0 * historicalMean;
    var capped := CapDaily(f.daily, cap);
    MeanBounds(capped, Min(0.0, cap), cap);
    Estimate(Mean(capped), Max(0.3, Min(0.9, f.score)))
  }

  /** When every daily prediction already lies within the cap, the estimate is their mean. */
  lemma MlEstimateWithinCap(f: Fit, historicalMean: real)
    requires forall i :: 0 <= i < 7 ==> 0.0 <= f.daily[i] <= 3.0 * historicalMean
    ensures MlEstimate(f, historicalMean).amount == Mean(f.daily)
  {
    var capped := CapDaily(f.daily, 3.0 * historicalMean);
    assert capped == f.daily;
  }

  /** pandas `tail(n)`: the last `n` elements, or all of them when there are fewer. */
  function Tail<T>(s: seq<T>, n: nat): (r: seq<T>)
    ensures |r| == if |s| < n then |s| else n
    ensures r == s[|s| - |r|..]
  {
    if |s| <= n then s else s[|s| - n..]
  }

  /** `_statistical_prediction`: with at least three of the last five rows, their mean
      pushed two steps along the fitted slope (never below zero), trusted less the more the
      amounts vary; with fewer, the plain mean at confidence 0.3. A zero mean makes the
      variability infinite or undefined, which leaves the confidence at its floor. */
  function StatisticalEstimate(catRows: seq<Row>, lib: Library): (e: Estimate)
    ensures e.confidence >= 0.2
    ensures |catRows| < 3 ==> e == Estimate(AverageAmount(catRows), 0.3)
    ensures |catRows| >= 3 ==> e.amount >= 0.0
    ensures |catRows| >= 3 && lib.slope(Amounts(Tail(catRows, 5))) == 0.0 && AverageAmount(Tail(catRows, 5)) >= 0.0 ==>
              e.amount == AverageAmount(Tail(catRows, 5))
  {
    var recent := Tail(catRows, 5);
    if |recent| >= 3 then
      var amounts := Amounts(recent);
      var base := AverageAmount(recent);
      var predicted := Max(0.0, base + lib.slope(amounts) * 2.0);
      Estimate(predicted, TrendConfidence(lib.std(amounts), base))
    else
      Estimate(AverageAmount(catRows), 0.3)
  }

  /** `max(0.2, 0.7 - std / mean)`: the more the amounts vary, the less the trend is
      trusted. A zero mean makes the variability infinite or undefined, and either leaves
      the confidence at its floor. */
  function TrendConfidence(std: real, mean: real): (c: real)
    ensures c >= 0.2
    ensures mean > 0.0 && std >= 0.0 ==> c <= 0.7
    ensures mean > 0.0 && std <= 0.5 * mean ==> c == 0.7 - std / mean
  {
    if mean == 0.0 then 0.2
    else
      TrendRatio(std, mean);
      Max(0.2, 0.7 - std / mean)
  }

  lemma TrendRatio(std: real, mean: real)
    ensures mean > 0.0 && std >= 0.0 ==> std / mean >= 0.0
    ensures mean > 0.0 && std <= 0.5 * mean ==> std / mean <= 0.5
  {
    if mean > 0.0 {
      RatioAgainst(std, mean, 0.5);
    }
  }

  /** For positive amounts the trend estimate is never trusted above 0.7. */
  lemma StatisticalConfidenceAtMostSeventy(catRows: seq<Row>, lib: Library)
    requires SaneStd(lib)
    requires forall i :: 0 <= i < |catRows| ==> catRows[i].amount > 0.0
    ensures StatisticalEstimate(catRows, lib).confidence <= 0.7
  {
    var recent := Tail(catRows, 5);
    if |recent| >= 3 {
      assert forall i :: 0 <= i < |recent| ==> recent[i] == catRows[|catRows| - |recent| + i];
      PositiveMean(recent);
      assert lib.std(Amounts(recent)) >= 0.0;
    }
  }

  /** The sort key of `sort_values('date')`. */
  function ByDate(r: Row): real {
    r.date as real
  }

  /** `_predict_category_expense` on a category's rows sorted by date: the fitted model
      from five rows on, the trend estimate below that, and the trend estimate again when
      fitting raises. */
  function PredictCategory(sorted: seq<Row>, lib: Library): (e: Estimate)
    ensures e.confidence >= 0.2
    ensures |sorted| < 5 ==> e == StatisticalEstimate(sorted, lib)
    ensures |sorted| >= 5 && lib.fit(sorted).None? ==> e == StatisticalEstimate(sorted, lib)
    ensures |sorted| >= 5 && lib.fit(sorted).Some? ==> 0.3 <= e.confidence <= 0.9
    ensures |sorted| >= 5 && lib.fit(sorted).Some? && AverageAmount(sorted) >= 0.0 ==>
              0.0 <= e.amount <= 3.0 * AverageAmount(sorted)
  {
    if |sorted| >= 5 then
      match lib.fit(sorted)
      case Some(f) => MlEstimate(f, AverageAmount(sorted))
      case None => StatisticalEstimate(sorted, lib)
    else
      StatisticalEstimate(sorted, lib)
  }

  function InCategory(c: string): Row -> bool {
    (r: Row) => r.category == c
  }

  /** The mean of a single row is its amount. */
  lemma AverageOfOne(x: Row)
    ensures AverageAmount([x]) == x.amount
  {
    assert [x][..0] == [];
    assert TotalAmount([x]) == x.amount;
    assert Times(1, AverageAmount([x])) == AverageAmount([x]);
  }

  /** The loop body of `predict_weekly_expenses` for one category: a category with two or
      more expenses goes to the category predictor, one seen once predicts 70% of its mean
      at confidence 0.3. */
  function EstimateFor(catRows: seq<Row>, lib: Library): (e: Estimate)
    ensures e.confidence >= 0.2
    ensures |catRows| == 1 ==> e == Estimate(0.7 * catRows[0].amount, 0.3)
    ensures |catRows| >= 2 ==> e == PredictCategory(Sorting.SortBy(catRows, ByDate), lib)
  {
    if |catRows| >= 2 then
      PredictCategory(Sorting.SortBy(catRows, ByDate), lib)
    else
      if |catRows| == 1 then AverageOfOne(catRows[0]); assert catRows == [catRows[0]]; Estimate(AverageAmount(catRows) * 0.7, 0.3)
      else Estimate(AverageAmount(catRows) * 0.7, 0.3)
  }

  /** The estimate of every category, in order of first appearance. */
  function CategoryEstimates(expenses: seq<Row>, cats: seq<string>, lib: Library): (r: seq<(string, Estimate)>)
    ensures |r| == |cats|
    ensures forall i :: 0 <= i < |r| ==> r[i].0 == cats[i] && r[i].1.confidence >= 0.2
    ensures forall i :: 0 <= i < |r| ==> r[i].1 == EstimateFor(Filter(expenses, InCategory(cats[i])), lib)
  {
    seq(|cats|, i requires 0 <= i < |cats| => (cats[i], EstimateFor(Filter(expenses, InCategory(cats[i])), lib)))
  }

  function Confidences(es: seq<(string, Estimate)>): (r: seq<real>)
    ensures |r| == |es| && forall i :: 0 <= i < |es| ==> r[i] == es[i].1.confidence
  {
    seq(|es|, i requires 0 <= i < |es| => es[i].1.confidence)
  }

  function EstimatedAmounts(es: seq<(string, Estimate)>): (r: seq<(string, real)>)
    ensures |r| == |es| && forall i :: 0 <= i < |es| ==> r[i] == (es[i].0, es[i].1.amount)
  {
    seq(|es|, i requires 0 <= i < |es| => (es[i].0, es[i].1.amount))
  }

  // ---------------------------------------------------------------- weekday adjustment

  /** `daily_avg[current_day]`: the mean expense of today's weekday, when any expense
      fell on it. */
  function DayMean(expenses: seq<Row>, today: int): (r: Option<real>)
    ensures r.Some? ==> exists i :: 0 <= i < |expenses| && expenses[i].dayOfWeek == today
    ensures r.Some? && (forall i :: 0 <= i < |expenses| ==> expenses[i].amount >= 0.0) ==> r.value >= 0.0
  {
    var bs := Grouping.GroupBy(DayPairs(expenses));
    if today in Grouping.KeysOf(bs) then
      DayMeanSource(expenses, today);
      DayMeanNonNegative(expenses, today);
      Some(bs[Grouping.IndexOfKey(bs, today)].Mean())
    else
      None
  }

  /** Non-negative expenses give a non-negative weekday mean. */
  lemma DayMeanNonNegative(expenses: seq<Row>, today: int)
    requires today in Grouping.KeysOf(Grouping.GroupBy(DayPairs(expenses)))
    ensures var bs := Grouping.GroupBy(DayPairs(expenses));
            (forall i :: 0 <= i < |expenses| ==> expenses[i].amount >= 0.0) ==>
              bs[Grouping.IndexOfKey(bs, today)].Mean() >= 0.0
  {
    if forall i :: 0 <= i < |expenses| ==> expenses[i].amount >= 0.0 {
      Grouping.GroupMeansNonNegative(DayPairs(expenses));
    }
  }

  lemma RatioSign(a: real, b: real)
    requires b > 0.0
    ensures a >= 0.0 ==> a / b >= 0.0
  {
  }

  /** A weekday that has a group had an expense on it. */
  lemma DayMeanSource(expenses: seq<Row>, today: int)
    requires today in Grouping.KeysOf(Grouping.GroupBy(DayPairs(expenses)))
    ensures exists i :: 0 <= i < |expenses| && expenses[i].dayOfWeek == today
  {
    var ps := DayPairs(expenses);
    var bs := Grouping.GroupBy(ps);
    var k := Grouping.IndexOfKey(bs, today);
    assert today in Grouping.PairKeys(ps);
    var i :| 0 <= i < |ps| && Grouping.PairKeys(ps)[i] == today;
    assert expenses[i].dayOfWeek == today;
  }

  /** `1 + (day_factor - 1) * 0.3` with `day_factor` today's mean over the overall mean:
      the factor moved only 30% of the way from 1, so never below 0.7 for a non-negative
      mean. */
  function Soften(dayMean: real, overall: real): (m: real)
    requires overall > 0.0
    ensures dayMean >= 0.0 ==> m >= 0.7
    ensures dayMean == overall ==> m == 1.0
  {
    RatioSign(dayMean, overall);
    1.0 + (dayMean / overall - 1.0) * 0.3
  }

  /** The weekday factor of `_apply_seasonal_adjustment`; 1 when no expense fell on
      today's weekday or the overall mean is not positive. */
  function DayMultiplier(expenses: seq<Row>, today: int): (m: real)
    ensures (forall i :: 0 <= i < |expenses| ==> expenses[i].dayOfWeek != today) ==> m == 1.0
    ensures (forall i :: 0 <= i < |expenses| ==> expenses[i].amount >= 0.0) ==> m >= 0.7
  {
    var overall := AverageAmount(expenses);
    var day := DayMean(expenses, today);
    NoExpenseNoDayMean(expenses, today);
    if |expenses| > 0 && day.Some? && overall > 0.0 then Soften(day.value, overall) else 1.0
  }

  lemma NoExpenseNoDayMean(expenses: seq<Row>, today: int)
    ensures (forall i :: 0 <= i < |expenses| ==> expenses[i].dayOfWeek != today) ==> DayMean(expenses, today).None?
  {
    if DayMean(expenses, today).Some? {
      var i :| 0 <= i < |expenses| && expenses[i].dayOfWeek == today;
    }
  }

  /** One category's adjusted forecast: scaled by the factor, then floored at zero. */
  function Scale(v: real, m: real): (r: real)
    ensures r >= 0.0
    ensures m == 1.0 && v >= 0.0 ==> r == v
    ensures m > 0.0 && v > 0.0 ==> r > 0.0
  {
    ProductSign(v, m);
    Max(0.0, v * m)
  }

  lemma ProductSign(a: real, b: real)
    ensures a > 0.0 && b > 0.0 ==> a * b > 0.0
    ensures a >= 0.0 && b >= 0.0 ==> a * b >= 0.0
  {
  }

  /** Scaling by a non-negative factor keeps the order of two forecasts. */
  lemma ScaleMonotone(a: real, b: real, m: real)
    requires a <= b && m >= 0.0
    ensures Scale(a, m) <= Scale(b, m)
  {
    ProductSign(b - a, m);
    assert (b - a) * m == b * m - a * m;
  }

  /** `_apply_seasonal_adjustment`: every category scaled by the same weekday factor, then
      floored at zero. The categories and their order are kept. */
  function SeasonalAdjust(preds: seq<(string, real)>, expenses: seq<Row>, today: int): (r: seq<(string, real)>)
    ensures Grouping.PairKeys(r) == Grouping.PairKeys(preds)
    ensures forall i :: 0 <= i < |r| ==> r[i].1 >= 0.0
    ensures forall i :: 0 <= i < |r| ==> r[i] == (preds[i].0, Scale(preds[i].1, DayMultiplier(expenses, today)))
  {
    ScaleAll(preds, DayMultiplier(expenses, today))
  }

  /** Every forecast scaled by the same factor. */
  function ScaleAll(preds: seq<(string, real)>, m: real): (r: seq<(string, real)>)
    ensures |r| == |preds|
    ensures forall i :: 0 <= i < |r| ==> r[i] == (preds[i].0, Scale(preds[i].1, m))
  {
    seq(|preds|, i requires 0 <= i < |preds| => (preds[i].0, Scale(preds[i].1, m)))
  }

  /** With no expense on today's weekday, non-negative forecasts pass through unchanged. */
  lemma UnmatchedWeekdayKeepsForecast(preds: seq<(string, real)>, expenses: seq<Row>, today: int)
    requires forall i :: 0 <= i < |expenses| ==> expenses[i].dayOfWeek != today
    requires forall i :: 0 <= i < |preds| ==> preds[i].1 >= 0.0
    ensures SeasonalAdjust(preds, expenses, today) == preds
  {
  }

  /** Over non-negative expenses the adjustment keeps positive forecasts positive and keeps
      the ranking of the categories. */
  lemma AdjustmentKeepsSignAndRanking(preds: seq<(string, real)>, expenses: seq<Row>, today: int, i: nat, j: nat)
    requires forall k :: 0 <= k < |expenses| ==> expenses[k].amount >= 0.0
    requires i < |preds| && j < |preds|
    ensures preds[i].1 > 0.0 ==> SeasonalAdjust(preds, expenses, today)[i].1 > 0.0
    ensures preds[i].1 <= preds[j].1 ==>
              SeasonalAdjust(preds, expenses, today)[i].1 <= SeasonalAdjust(preds, expenses, today)[j].1
  {
    var m := DayMultiplier(expenses, today);
    if preds[i].1 <= preds[j].1 {
      ScaleMonotone(preds[i].1, preds[j].1, m);
    }
  }

  // ---------------------------------------------------------------- the forecast

  /** `_fallback_prediction`: 80% of each category's mean expense at confidence 0.4, or no
      forecast at all when there are no expenses. */
  function Fallback(expenses: seq<Row>): (r: Prediction)
    ensures |expenses| == 0 ==> r == NoData
    ensures r.total == Sum(Values(r.byCategory))
    ensures |expenses| > 0 ==> r.confidence == 0.4 && r.modelType == "fallback_estimation"
    ensures |expenses| > 0 ==> forall c :: c in Grouping.PairKeys(r.byCategory) <==> c in Categories(expenses)
    ensures forall i, j :: 0 <= i < j < |r.byCategory| ==> Text.StrLess(r.byCategory[i].0, r.byCategory[j].0)
  {
    if |expenses| == 0 then NoData
    else
      var bs := Grouping.GroupByText(CategoryPairs(expenses));
      var preds := FallbackEntries(bs);
      SameCategories(expenses, bs, preds);
      Prediction(preds, Sum(Values(preds)), 0.4, "fallback_estimation")
  }

  /** 80% of each group's mean, under the group's key. */
  function FallbackEntries(bs: seq<Grouping.Bucket<string>>): (preds: seq<(string, real)>)
    requires forall i :: 0 <= i < |bs| ==> bs[i].count > 0
    ensures |preds| == |bs|
    ensures forall i :: 0 <= i < |bs| ==> preds[i] == (bs[i].key, bs[i].Mean() * 0.8)
  {
    seq(|bs|, i requires 0 <= i < |bs| => (bs[i].key, bs[i].Mean() * 0.8))
  }

  /** Entries named after the sorted category groups name the categories, in Python's
      string order. */
  lemma SameCategories(expenses: seq<Row>, bs: seq<Grouping.Bucket<string>>, preds: seq<(string, real)>)
    requires bs == Grouping.GroupByText(CategoryPairs(expenses))
    requires |preds| == |bs| && forall i :: 0 <= i < |bs| ==> preds[i].0 == bs[i].key
    ensures forall c :: c in Grouping.PairKeys(preds) <==> c in Categories(expenses)
    ensures forall i, j :: 0 <= i < j < |preds| ==> Text.StrLess(preds[i].0, preds[j].0)
  {
    assert Grouping.PairKeys(preds) == Grouping.KeysOf(bs);
    Grouping.GroupingKeys(bs, CategoryPairs(expenses));
  }

  /** Each fallback entry is 80% of the mean of its category's expenses. */
  lemma FallbackIsEightyPercentOfMean(expenses: seq<Row>, i: nat)
    requires |expenses| > 0 && i < |Fallback(expenses).byCategory|
    ensures var ps := CategoryPairs(expenses);
            var e := Fallback(expenses).byCategory[i];
            Grouping.CountWhere(ps, e.0) > 0
            && e.1 == 0.8 * (Grouping.SumWhere(ps, e.0) / Grouping.CountWhere(ps, e.0) as real)
  {
  }

  /** The result assembled from the category estimates: their amounts adjusted for the
      weekday and summed into the total, with the mean of their confidences as the overall
      confidence (0.3 if there were none); model-based only above ten expenses. */
  function Combine(estimates: seq<(string, Estimate)>, expenses: seq<Row>, today: int): (r: Prediction)
    requires forall i :: 0 <= i < |estimates| ==> estimates[i].1.confidence >= 0.2
    ensures r.total == Sum(Values(r.byCategory))
    ensures Grouping.PairKeys(r.byCategory) == Grouping.PairKeys(estimates)
    ensures forall i :: 0 <= i < |r.byCategory| ==> r.byCategory[i].1 >= 0.0
    ensures r.confidence >= 0.2
    ensures |estimates| > 0 ==> r.confidence == Mean(Confidences(estimates))
    ensures |estimates| == 0 ==> r.confidence == 0.3
    ensures r.byCategory == SeasonalAdjust(EstimatedAmounts(estimates), expenses, today)
    ensures r.modelType == "ml_prediction" <==> |expenses| > 10
    ensures r.modelType == "ml_prediction" || r.modelType == "statistical_estimation"
  {
    var raw := EstimatedAmounts(estimates);
    var adjusted := SeasonalAdjust(raw, expenses, today);
    assert Grouping.PairKeys(raw) == Grouping.PairKeys(estimates);
    Prediction(adjusted, Sum(Values(adjusted)), OverallConfidence(estimates),
               if |expenses| > 10 then "ml_prediction" else "statistical_estimation")
  }

  /** `np.mean(confidence_scores) if confidence_scores else 0.3`. */
  function OverallConfidence(estimates: seq<(string, Estimate)>): (c: real)
    requires forall i :: 0 <= i < |estimates| ==> estimates[i].1.confidence >= 0.2
    ensures c >= 0.2
    ensures |estimates| > 0 ==> c == Mean(Confidences(estimates))
    ensures |estimates| == 0 ==> c == 0.3
  {
    if |estimates| == 0 then 0.3
    else
      MeanAtLeast(Confidences(estimates), 0.2);
      Mean(Confidences(estimates))
  }

  /** The forecast from three expenses on: one estimate per category, combined. */
  function Forecast(expenses: seq<Row>, lib: Library, today: int): (r: Prediction)
    ensures r.total == Sum(Values(r.byCategory))
    ensures Grouping.PairKeys(r.byCategory) == Categories(expenses)
    ensures forall i :: 0 <= i < |r.byCategory| ==> r.byCategory[i].1 >= 0.0
    ensures r.confidence >= 0.2
    ensures |Categories(expenses)| > 0 ==>
              r.confidence == Mean(Confidences(CategoryEstimates(expenses, Categories(expenses), lib)))
    ensures |Categories(expenses)| == 0 ==> r.confidence == 0.3
    ensures r.modelType == "ml_prediction" <==> |expenses| > 10
    ensures r.modelType == "ml_prediction" || r.modelType == "statistical_estimation"
  {
    var cats := Categories(expenses);
    var estimates := CategoryEstimates(expenses, cats, lib);
    assert Grouping.PairKeys(estimates) == cats;
    Combine(estimates, expenses, today)
  }

  /** Each forecast entry is its category's own estimate, scaled by the weekday multiplier. */
  lemma ForecastIsAdjustedEstimate(expenses: seq<Row>, lib: Library, today: int, i: nat)
    requires i < |Categories(expenses)|
    ensures var e := Forecast(expenses, lib, today).byCategory[i];
            e.0 == Categories(expenses)[i]
            && e.1 == Scale(EstimateFor(Filter(expenses, InCategory(e.0)), lib).amount, DayMultiplier(expenses, today))
  {
    var estimates := CategoryEstimates(expenses, Categories(expenses), lib);
    ForecastCombines(expenses, lib, today);
    CombineEntry(estimates, expenses, today, i);
  }

  /** Entry `i` of a combined prediction is estimate `i`'s amount, scaled. */
  lemma CombineEntry(estimates: seq<(string, Estimate)>, expenses: seq<Row>, today: int, i: nat)
    requires forall j :: 0 <= j < |estimates| ==> estimates[j].1.confidence >= 0.2
    requires i < |estimates|
    ensures Combine(estimates, expenses, today).byCategory[i]
              == (estimates[i].0, Scale(estimates[i].1.amount, DayMultiplier(expenses, today)))
  {
    var amounts := EstimatedAmounts(estimates);
    assert amounts[i] == (estimates[i].0, estimates[i].1.amount);
  }

  /** The forecast's entries are those of combining the per-category estimates. */
  lemma ForecastCombines(expenses: seq<Row>, lib: Library, today: int)
    ensures Forecast(expenses, lib, today).byCategory == Combine(CategoryEstimates(expenses, Categories(expenses), lib), expenses, today).byCategory
  {
  }

  /** A category's estimate is never trusted above 0.9 when its amounts are positive and
      the standard deviation is sane. */
  lemma EstimateConfidenceAtMostNine(catRows: seq<Row>, lib: Library)
    requires SaneStd(lib)
    requires forall i :: 0 <= i < |catRows| ==> catRows[i].amount > 0.0
    ensures EstimateFor(catRows, lib).confidence <= 0.9
  {
    if |catRows| >= 2 {
      var sorted := Sorting.SortBy(catRows, ByDate);
      forall i | 0 <= i < |sorted|
        ensures sorted[i].amount > 0.0
      {
        assert sorted[i] in multiset(catRows);
      }
      if |sorted| < 5 || lib.fit(sorted).None? {
        StatisticalConfidenceAtMostSeventy(sorted, lib);
      }
    }
  }

  /** Category confidences of at most 0.9 give an overall confidence of at most 0.9. */
  lemma CombineConfidenceAtMostNine(estimates: seq<(string, Estimate)>, expenses: seq<Row>, today: int)
    requires forall i :: 0 <= i < |estimates| ==> 0.2 <= estimates[i].1.confidence <= 0.9
    ensures Combine(estimates, expenses, today).confidence <= 0.9
  {
    var confidences := Confidences(estimates);
    if |confidences| > 0 {
      MeanBounds(confidences, 0.2, 0.9);
    }
  }

  /** With positive expenses and a sane standard deviation the overall confidence lies
      between 0.2 and 0.9. */
  lemma ForecastConfidenceBounds(expenses: seq<Row>, lib: Library, today: int)
    requires SaneStd(lib)
    requires forall i :: 0 <= i < |expenses| ==> expenses[i].amount > 0.0
    ensures 0.2 <= Forecast(expenses, lib, today).confidence <= 0.9
  {
    var cats := Categories(expenses);
    var estimates := CategoryEstimates(expenses, cats, lib);
    forall i | 0 <= i < |estimates|
      ensures estimates[i].1.confidence <= 0.9
    {
      EstimateConfidenceAtMostNine(Filter(expenses, InCategory(cats[i])), lib);
    }
    CombineConfidenceAtMostNine(estimates, expenses, today);
  }

  /** `predict_weekly_expenses`: no forecast without rows, the fallback below three
      expenses, the full forecast from three on. Whatever the path, the total is the sum
      of the category forecasts. */
  function PredictWeekly(rows: seq<Row>, lib: Library, today: int): (r: Prediction)
    ensures |rows| == 0 ==> r == NoData
    ensures |rows| > 0 && |Expenses(rows)| < 3 ==> r == Fallback(Expenses(rows))
    ensures |Expenses(rows)| >= 3 ==> r == Forecast(Expenses(rows), lib, today)
    ensures r.total == Sum(Values(r.byCategory))
  {
    if |rows| == 0 then NoData
    else
      var expenses := Expenses(rows);
      if |expenses| < 3 then Fallback(expenses) else Forecast(expenses, lib, today)
  }
}

=== FILE: recommender.dfy ===
/** The recommendation engine: the financial-health analysis of the cleaned transactions,
    the 1-10 health score, the five rule generators, the overall priority score and the
    ordering that keeps the eight most urgent recommendations. A recommendation is kept as
    its type, its priority, the category it concerns and the amount its action names; the
    Spanish texts are left aside. */
module Recommender {
  import opened Wrappers
  import opened Numeric
  import opened Seqs
  import Grouping
  import Sorting
  import opened DataProcessor

  /** The analysis `_analyze_financial_health` hands to the generators. */
  datatype Analysis = Analysis(
    totalIncome: real,
    totalExpenses: real,
    totalSavings: real,
    totalDebts: real,
    netIncome: real,
    savingsRate: real,
    debtToIncome: real,
    healthScore: real,
    categoryPercentages: map<string, real>,
    expenseTrend: Trend,
    hasBudget: bool,
    hasDebts: bool)

  /** The three-key dictionary returned for an empty frame, read through the generators'
      `.get` defaults: every amount and ratio 0, score 5, no budget, no debts, stable trend. */
  const Fallback: Analysis := Analysis(0.0, 0.0, 0.0, 0.0, 0.0, 0.0, 0.0, 5.0, map[], Stable, false, false)

  /** The unclamped health score: 5, plus 3/2/1 for a savings rate of at least 20/10/5 %,
      plus 2 or 1 for debts of at most 10 or 30 % of income and minus 2 above 50 %, plus 1
      for a positive net income and minus 1 for a deficit beyond 10 % of income. */
  function RawHealthScore(savingsRate: real, debtToIncome: real, netIncome: real, totalIncome: real): (s: real)
    ensures 2.0 <= s <= 11.0
    ensures savingsRate >= 0.2 && debtToIncome <= 0.1 && netIncome > 0.0 ==> s == 11.0
    ensures savingsRate < 0.05 && debtToIncome > 0.5 && netIncome <= 0.0 && netIncome < -totalIncome * 0.1 ==> s == 2.0
  {
    var savings := if savingsRate >= 0.2 then 3.0 else if savingsRate >= 0.1 then 2.0 else if savingsRate >= 0.05 then 1.0 else 0.0;
    var debt := if debtToIncome <= 0.1 then 2.0 else if debtToIncome <= 0.3 then 1.0 else if debtToIncome > 0.5 then -2.0 else 0.0;
    var balance := if netIncome > 0.0 then 1.0 else if netIncome < -totalIncome * 0.1 then -1.0 else 0.0;
    5.0 + savings + debt + balance
  }

  /** `_calculate_health_score`: the raw score clamped to [1, 10]. The raw score never falls
      below 2, so only the upper clamp ever acts. */
  function HealthScore(savingsRate: real, debtToIncome: real, netIncome: real, totalIncome: real): (r: real)
    ensures 1.0 <= r <= 10.0
    ensures RawHealthScore(savingsRate, debtToIncome, netIncome, totalIncome) <= 10.0 ==>
              r == RawHealthScore(savingsRate, debtToIncome, netIncome, totalIncome)
    ensures RawHealthScore(savingsRate, debtToIncome, netIncome, totalIncome) > 10.0 ==> r == 10.0
  {
    Max(1.0, Min(10.0, RawHealthScore(savingsRate, debtToIncome, netIncome, totalIncome)))
  }

  /** More savings, less debt or a better balance never lower the score. */
  lemma HealthScoreMonotone(s1: real, s2: real, d1: real, d2: real, n1: real, n2: real, income: real)
    requires s1 <= s2 && d1 >= d2 && n1 <= n2
    ensures HealthScore(s1, d1, n1, income) <= HealthScore(s2, d2, n2, income)
  {
    assert RawHealthScore(s1, d1, n1, income) <= RawHealthScore(s2, d2, n2, income);
  }

  /** `{cat: amount / total * 100}` over the grouped expense buckets. */
  function Percentages(bs: seq<Grouping.Bucket<string>>, total: real): (r: map<string, real>)
    requires total > 0.0
    ensures r.Keys == set i | 0 <= i < |bs| :: bs[i].key
    ensures Grouping.UniqueKeys(bs) ==> forall i :: 0 <= i < |bs| ==> r[bs[i].key] == bs[i].total / total * 100.0
  {
    if |bs| == 0 then map[]
    else
      var n := |bs|;
      var prev := Percentages(bs[..n - 1], total);
      PercentagesStep(bs, bs[..n - 1], total, prev);
      prev[bs[n - 1].key := bs[n - 1].total / total * 100.0]
  }

  /** One more bucket adds its key with its share, overriding nothing else. */
  lemma PercentagesStep(bs: seq<Grouping.Bucket<string>>, p: seq<Grouping.Bucket<string>>, total: real, prev: map<string, real>)
    requires |bs| > 0 && p == bs[..|bs| - 1] && total > 0.0
    requires prev.Keys == set i | 0 <= i < |p| :: p[i].key
    requires Grouping.UniqueKeys(p) ==> forall i :: 0 <= i < |p| ==> prev[p[i].key] == p[i].total / total * 100.0
    ensures var r := prev[bs[|bs| - 1].key := bs[|bs| - 1].total / total * 100.0];
            && r.Keys == (set i | 0 <= i < |bs| :: bs[i].key)
            && (Grouping.UniqueKeys(bs) ==> forall i :: 0 <= i < |bs| ==> r[bs[i].key] == bs[i].total / total * 100.0)
  {
    var n := |bs|;
    assert forall i :: 0 <= i < n - 1 ==> p[i] == bs[i];
    assert (set i | 0 <= i < n :: bs[i].key) == (set i | 0 <= i < n - 1 :: bs[i].key) + {bs[n - 1].key};
  }

  /** `x / income if income > 0 else 0`. */
  function Ratio(x: real, income: real): (r: real)
    ensures income <= 0.0 ==> r == 0.0
    ensures income > 0.0 ==> r * income == x
  {
    if income > 0.0 then x / income else 0.0
  }

  /** `category_percentages`: each expense category's share of `total` in percent, or no
      entry at all when `total` is not positive. */
  function CategoryShares(expenses: seq<Row>, total: real): (r: map<string, real>)
    ensures total <= 0.0 ==> r == map[]
  {
    if total > 0.0 then Percentages(Grouping.GroupBy(CategoryPairs(expenses)), total) else map[]
  }

  /** With a positive total, there is one share per expense category, the grouped sum of
      that category over the total. */
  lemma CategoryShareIsGroupedSum(expenses: seq<Row>, total: real, c: string)
    requires total > 0.0
    ensures var ps := CategoryPairs(expenses);
            var pct := CategoryShares(expenses, total);
            (c in pct <==> c in Grouping.PairKeys(ps))
            && (c in pct ==> pct[c] == Grouping.SumWhere(ps, c) / total * 100.0)
  {
    var ps := CategoryPairs(expenses);
    var bs := Grouping.GroupBy(ps);
    var pct := Percentages(bs, total);
    if c in pct {
      var i :| 0 <= i < |bs| && bs[i].key == c;
      assert bs[i].key in Grouping.PairKeys(ps);
    }
    if c in Grouping.PairKeys(ps) {
      var k :| 0 <= k < |ps| && Grouping.PairKeys(ps)[k] == c;
      assert ps[k].0 in Grouping.KeysOf(bs);
      var i :| 0 <= i < |bs| && Grouping.KeysOf(bs)[i] == c;
      assert bs[i].key == c;
    }
  }

  /** `df[df['type'] == kind]['amount'].sum()`. */
  function KindTotal(rows: seq<Row>, kind: string): real {
    TotalAmount(Filter(rows, OfKind(kind)))
  }

  /** `_analyze_financial_health` over the cleaned transactions, whether a budget exists,
      and the debt amounts. Savings rate and debt-to-income are 0 whenever there is no
      positive income; the category shares exist only when expenses total more than 0. */
  function Analyze(rows: seq<Row>, hasBudget: bool, debts: seq<real>, now: Stamp): (a: Analysis)
    ensures |rows| == 0 ==> a == Fallback
    ensures a.netIncome == a.totalIncome - a.totalExpenses
    ensures a.totalIncome <= 0.0 ==> a.savingsRate == 0.0 && a.debtToIncome == 0.0
    ensures a.savingsRate == Ratio(a.totalSavings, a.totalIncome)
    ensures a.debtToIncome == Ratio(a.totalDebts, a.totalIncome)
    ensures 1.0 <= a.healthScore <= 10.0
    ensures a.totalExpenses <= 0.0 ==> a.categoryPercentages == map[]
    ensures |rows| > 0 ==> a.hasBudget == hasBudget && a.hasDebts == (|debts| > 0) && a.totalDebts == Sum(debts)
    ensures |rows| > 0 ==> a.totalIncome == TotalAmount(Filter(rows, OfKind("income")))
    ensures |rows| > 0 ==> a.totalSavings == TotalAmount(Filter(rows, OfKind("saving")))
    ensures |rows| > 0 ==> a.totalExpenses == TotalAmount(Expenses(rows))
    ensures |rows| > 0 ==> a.healthScore == HealthScore(a.savingsRate, a.debtToIncome, a.netIncome, a.totalIncome)
    ensures |rows| > 0 ==> a.categoryPercentages == CategoryShares(Expenses(rows), a.totalExpenses)
    ensures |rows| > 0 ==> a.expenseTrend == ThirtyDayTrend(Expenses(rows), now)
  {
    if |rows| == 0 then Fallback
    else
      var expenses := Expenses(rows);
      var expense := TotalAmount(expenses);
      Assemble(KindTotal(rows, "income"), expense, KindTotal(rows, "saving"), Sum(debts),
               CategoryShares(expenses, expense), ThirtyDayTrend(expenses, now), hasBudget, |debts| > 0)
  }

  /** The analysis of measured totals: net income, the two ratios and the clamped score
      derived from them, next to the shares and trend computed elsewhere. */
  function Assemble(income: real, expense: real, savings: real, totalDebts: real,
                    shares: map<string, real>, trend: Trend, hasBudget: bool, hasDebts: bool): (a: Analysis)
    ensures a.totalIncome == income && a.totalExpenses == expense && a.totalSavings == savings
    ensures a.totalDebts == totalDebts && a.netIncome == income - expense
    ensures a.savingsRate == Ratio(savings, income) && a.debtToIncome == Ratio(totalDebts, income)
    ensures income <= 0.0 ==> a.savingsRate == 0.0 && a.debtToIncome == 0.0
    ensures a.healthScore == HealthScore(a.savingsRate, a.debtToIncome, a.netIncome, income)
    ensures 1.0 <= a.healthScore <= 10.0
    ensures a.categoryPercentages == shares && a.expenseTrend == trend
    ensures a.hasBudget == hasBudget && a.hasDebts == hasDebts
  {
    var savingsRate := Ratio(savings, income);
    var debtToIncome := Ratio(totalDebts, income);
    Analysis(income, expense, savings, totalDebts, income - expense, savingsRate, debtToIncome,
             HealthScore(savingsRate, debtToIncome, income - expense, income),
             shares, trend, hasBudget, hasDebts)
  }

  /** A recommendation's `type`. */
  datatype Kind =
    | SavingsIncrease | EmergencyFund | AutomaticSavings
    | ExpenseReduction | ExpenseTrend | SmallExpenses
    | DebtReduction | DebtStrategy | DebtConsolidation
    | BudgetCreation | BudgetRule | BudgetReview
    | InvestmentStart | Diversification

  /** A recommendation: its type and priority, the category an expense reduction is about
      ("" otherwise) and the amount its action names (0.0 when it names none). */
  datatype Rec = Rec(kind: Kind, priority: string, category: string, amount: real)

  const High: string := "high"
  const Medium: string := "medium"
  const Low: string := "low"

  /** The priority the service gives each type of recommendation. */
  function PriorityOf(k: Kind): string {
    match k
    case SavingsIncrease | EmergencyFund | ExpenseTrend | DebtReduction | BudgetCreation => High
    case AutomaticSavings | ExpenseReduction | DebtStrategy | DebtConsolidation | BudgetRule => Medium
    case SmallExpenses | BudgetReview | InvestmentStart | Diversification => Low
  }

  /** Every recommendation in `recs` carries its type's priority. */
  predicate Prioritised(recs: seq<Rec>) {
    forall i :: 0 <= i < |recs| ==> recs[i].priority == PriorityOf(recs[i].kind)
  }

  /** No type occurs twice in `recs`. */
  predicate OnceEach(recs: seq<Rec>) {
    forall i, j :: 0 <= i < j < |recs| ==> recs[i].kind != recs[j].kind
  }

  /** Up to three recommendations of three different types, each with its type's priority,
      keep those facts whichever of them are emitted. */
  lemma WhenThreeKinds(c1: bool, x1: Rec, c2: bool, x2: Rec, c3: bool, x3: Rec)
    requires x1.priority == PriorityOf(x1.kind) && x2.priority == PriorityOf(x2.kind) && x3.priority == PriorityOf(x3.kind)
    requires x1.kind != x2.kind && x1.kind != x3.kind && x2.kind != x3.kind
    ensures Prioritised(When(c1, x1) + When(c2, x2) + When(c3, x3))
    ensures OnceEach(When(c1, x1) + When(c2, x2) + When(c3, x3))
    ensures var r := When(c1, x1) + When(c2, x2) + When(c3, x3);
            forall i :: 0 <= i < |r| ==> (c1 && r[i] == x1) || (c2 && r[i] == x2) || (c3 && r[i] == x3)
  {
  }

  lemma WhenTwoKinds(c1: bool, x1: Rec, c2: bool, x2: Rec)
    requires x1.priority == PriorityOf(x1.kind) && x2.priority == PriorityOf(x2.kind)
    requires x1.kind != x2.kind
    ensures Prioritised(When(c1, x1) + When(c2, x2))
    ensures OnceEach(When(c1, x1) + When(c2, x2))
  {
  }

  /** A one-element list when `c` holds, the empty list otherwise. */
  function When(c: bool, x: Rec): (r: seq<Rec>)
    ensures c ==> r == [x]
    ensures !c ==> r == []
  {
    if c then [x] else []
  }

  /** Some recommendation of kind `k` is in `recs`. */
  predicate Emits(recs: seq<Rec>, k: Kind) {
    exists i :: 0 <= i < |recs| && recs[i].kind == k
  }

  lemma EmitsAppend(a: seq<Rec>, b: seq<Rec>, k: Kind)
    ensures Emits(a + b, k) <==> Emits(a, k) || Emits(b, k)
  {
    if Emits(a + b, k) {
      var i :| 0 <= i < |a + b| && (a + b)[i].kind == k;
      if i >= |a| {
        assert b[i - |a|].kind == k;
      }
    }
    if Emits(a, k) {
      var i :| 0 <= i < |a| && a[i].kind == k;
      assert (a + b)[i] == a[i];
    }
    if Emits(b, k) {
      var i :| 0 <= i < |b| && b[i].kind == k;
      assert (a + b)[|a| + i] == b[i];
    }
  }

  lemma EmitsThree(a: seq<Rec>, b: seq<Rec>, c: seq<Rec>, k: Kind)
    ensures Emits(a + b + c, k) <==> Emits(a, k) || Emits(b, k) || Emits(c, k)
  {
    EmitsAppend(a + b, c, k);
    EmitsAppend(a, b, k);
  }

  lemma EmitsWhen(c: bool, x: Rec, k: Kind)
    ensures Emits(When(c, x), k) <==> c && x.kind == k
  {
    if c {
      assert When(c, x)[0] == x;
    }
  }

  lemma EmitsWhenThree(c1: bool, x1: Rec, c2: bool, x2: Rec, c3: bool, x3: Rec, k: Kind)
    ensures Emits(When(c1, x1) + When(c2, x2) + When(c3, x3), k) <==>
              (c1 && x1.kind == k) || (c2 && x2.kind == k) || (c3 && x3.kind == k)
  {
    EmitsThree(When(c1, x1), When(c2, x2), When(c3, x3), k);
    EmitsWhen(c1, x1, k);
    EmitsWhen(c2, x2, k);
    EmitsWhen(c3, x3, k);
  }

  /** `_generate_savings_recommendations`. */
  function SavingsRecs(a: Analysis): (r: seq<Rec>)
    ensures |r| <= 3
    ensures Emits(r, SavingsIncrease) <==> a.savingsRate < 0.1 && a.netIncome > 0.0
    ensures Emits(r, EmergencyFund) <==> a.totalSavings < 3.0 * a.totalExpenses
    ensures Emits(r, AutomaticSavings) <==> a.savingsRate > 0.0 && a.netIncome > 0.0
    ensures forall i :: 0 <= i < |r| && r[i].kind == EmergencyFund ==>
              r[i].amount > 0.0 && r[i].amount + a.totalSavings == 3.0 * a.totalExpenses
    ensures forall i :: 0 <= i < |r| ==> r[i].kind in {SavingsIncrease, EmergencyFund, AutomaticSavings}
    ensures Prioritised(r) && OnceEach(r)
  {
    var target := a.totalExpenses * 3.0;
    var c1, x1 := a.savingsRate < 0.1 && a.netIncome > 0.0,
                  Rec(SavingsIncrease, High, "", a.totalIncome * 0.15 - a.totalIncome * a.savingsRate);
    var c2, x2 := a.totalSavings < target, Rec(EmergencyFund, High, "", target - a.totalSavings);
    var c3, x3 := a.savingsRate > 0.0 && a.netIncome > 0.0, Rec(AutomaticSavings, Medium, "", 0.0);
    EmitsWhenThree(c1, x1, c2, x2, c3, x3, SavingsIncrease);
    EmitsWhenThree(c1, x1, c2, x2, c3, x3, EmergencyFund);
    EmitsWhenThree(c1, x1, c2, x2, c3, x3, AutomaticSavings);
    WhenThreeKinds(c1, x1, c2, x2, c3, x3);
    When(c1, x1) + When(c2, x2) + When(c3, x3)
  }

  /** `category_limits`: the four watched categories and the largest share of the
      expenses each may take. */
  const CategoryLimits: seq<(string, real)> :=
    [("entertainment", 0.15), ("food", 0.25), ("transportation", 0.20), ("housing", 0.30)]

  /** Some expense-reduction recommendation concerns category `c`. */
  predicate Flags(recs: seq<Rec>, c: string) {
    exists i :: 0 <= i < |recs| && recs[i].kind == ExpenseReduction && recs[i].category == c
  }

  /** Category `c` is watched by one of `limits` and its share is above that limit. */
  predicate Exceeds(limits: seq<(string, real)>, pct: map<string, real>, c: string) {
    exists j :: 0 <= j < |limits| && limits[j].0 == c && c in pct && pct[c] / 100.0 > limits[j].1
  }

  /** The loop over `category_limits`: one medium-priority reduction for each watched
      category whose share is above its limit, naming the excess `total·(share − limit)`. */
  function LimitRecs(limits: seq<(string, real)>, pct: map<string, real>, total: real): (r: seq<Rec>)
    ensures |r| <= |limits|
    ensures forall i :: 0 <= i < |r| ==> r[i].kind == ExpenseReduction && r[i].priority == Medium
    ensures forall c :: Flags(r, c) <==> Exceeds(limits, pct, c)
  {
    if |limits| == 0 then []
    else
      var n := |limits|;
      var prev := LimitRecs(limits[..n - 1], pct, total);
      var (c, limit) := limits[n - 1];
      var over := c in pct && pct[c] / 100.0 > limit;
      var tail := When(over, Rec(ExpenseReduction, Medium, c, if over then total * (pct[c] / 100.0 - limit) else 0.0));
      LimitStep(limits, pct, prev, tail);
      prev + tail
  }

  lemma LimitStep(limits: seq<(string, real)>, pct: map<string, real>, prev: seq<Rec>, tail: seq<Rec>)
    requires |limits| > 0
    requires forall c :: Flags(prev, c) <==> Exceeds(limits[..|limits| - 1], pct, c)
    requires var (c, limit) := limits[|limits| - 1];
             var over := c in pct && pct[c] / 100.0 > limit;
             (over ==> |tail| == 1 && tail[0].kind == ExpenseReduction && tail[0].category == c) && (!over ==> tail == [])
    ensures forall c :: Flags(prev + tail, c) <==> Exceeds(limits, pct, c)
  {
    var n := |limits|;
    forall c
      ensures Flags(prev + tail, c) <==> Exceeds(limits, pct, c)
    {
      if Flags(prev + tail, c) {
        var i :| 0 <= i < |prev + tail| && (prev + tail)[i].kind == ExpenseReduction && (prev + tail)[i].category == c;
        if i < |prev| {
          assert prev[i] == (prev + tail)[i];
          assert Flags(prev, c);
          assert Exceeds(limits[..n - 1], pct, c);
          var j :| 0 <= j < n - 1 && limits[..n - 1][j].0 == c && c in pct && pct[c] / 100.0 > limits[..n - 1][j].1;
          assert limits[j] == limits[..n - 1][j];
        } else {
          assert tail[i - |prev|] == (prev + tail)[i];
          assert limits[n - 1].0 == c;
        }
      }
      if Exceeds(limits, pct, c) {
        var j :| 0 <= j < n && limits[j].0 == c && c in pct && pct[c] / 100.0 > limits[j].1;
        if j < n - 1 {
          assert limits[..n - 1][j] == limits[j];
          assert Flags(prev, c);
          var i :| 0 <= i < |prev| && prev[i].kind == ExpenseReduction && prev[i].category == c;
          assert (prev + tail)[i] == prev[i];
        } else {
          assert (prev + tail)[|prev|] == tail[0];
        }
      }
    }
  }

  /** `_generate_expense_reduction_recommendations`. */
  function ExpenseRecs(a: Analysis): (r: seq<Rec>)
    ensures |r| <= 6
    ensures forall c :: Flags(r, c) <==> Exceeds(CategoryLimits, a.categoryPercentages, c)
    ensures Emits(r, ExpenseTrend) <==> a.expenseTrend == Increasing
    ensures Emits(r, SmallExpenses) <==> a.totalExpenses > 0.0
    ensures forall i :: 0 <= i < |r| ==> r[i].kind in {ExpenseReduction, ExpenseTrend, SmallExpenses}
    ensures Prioritised(r)
    ensures forall i, j :: 0 <= i < j < |r| && r[i].kind != ExpenseReduction ==> r[i].kind != r[j].kind
  {
    var r1 := LimitRecs(CategoryLimits, a.categoryPercentages, a.totalExpenses);
    var r2 := When(a.expenseTrend == Increasing, Rec(ExpenseTrend, High, "", 0.0));
    var r3 := When(a.totalExpenses > 0.0, Rec(SmallExpenses, Low, "", 0.0));
    ExpenseKinds(a.expenseTrend == Increasing, a.totalExpenses > 0.0, r1, r2, r3);
    FlagsOnlyFromLimits(r1, r2, r3);
    ExpenseRecKinds(a.expenseTrend == Increasing, a.totalExpenses > 0.0, r1, r2, r3);
    r1 + r2 + r3
  }

  /** The trend and small-expense advice is emitted exactly under its own condition. */
  lemma ExpenseKinds(increasing: bool, spent: bool, r1: seq<Rec>, r2: seq<Rec>, r3: seq<Rec>)
    requires forall i :: 0 <= i < |r1| ==> r1[i].kind == ExpenseReduction
    requires r2 == When(increasing, Rec(ExpenseTrend, High, "", 0.0))
    requires r3 == When(spent, Rec(SmallExpenses, Low, "", 0.0))
    ensures Emits(r1 + r2 + r3, ExpenseTrend) <==> increasing
    ensures Emits(r1 + r2 + r3, SmallExpenses) <==> spent
  {
    EmitsThree(r1, r2, r3, ExpenseTrend);
    EmitsThree(r1, r2, r3, SmallExpenses);
    EmitsWhen(increasing, Rec(ExpenseTrend, High, "", 0.0), ExpenseTrend);
    EmitsWhen(increasing, Rec(ExpenseTrend, High, "", 0.0), SmallExpenses);
    EmitsWhen(spent, Rec(SmallExpenses, Low, "", 0.0), ExpenseTrend);
    EmitsWhen(spent, Rec(SmallExpenses, Low, "", 0.0), SmallExpenses);
  }

  /** Every expense recommendation carries its type's priority, and the trend and
      small-expense advice come at most once each, after the reductions. */
  lemma ExpenseRecKinds(increasing: bool, spent: bool, r1: seq<Rec>, r2: seq<Rec>, r3: seq<Rec>)
    requires forall i :: 0 <= i < |r1| ==> r1[i].kind == ExpenseReduction && r1[i].priority == Medium
    requires r2 == When(increasing, Rec(ExpenseTrend, High, "", 0.0))
    requires r3 == When(spent, Rec(SmallExpenses, Low, "", 0.0))
    ensures Prioritised(r1 + r2 + r3)
    ensures forall i, j :: 0 <= i < j < |r1 + r2 + r3| && (r1 + r2 + r3)[i].kind != ExpenseReduction ==>
              (r1 + r2 + r3)[i].kind != (r1 + r2 + r3)[j].kind
  {
  }

  /** Only the limit recommendations in front are expense reductions. */
  lemma FlagsOnlyFromLimits(r1: seq<Rec>, r2: seq<Rec>, r3: seq<Rec>)
    requires forall i :: 0 <= i < |r2| ==> r2[i].kind != ExpenseReduction
    requires forall i :: 0 <= i < |r3| ==> r3[i].kind != ExpenseReduction
    ensures forall c :: Flags(r1 + r2 + r3, c) <==> Flags(r1, c)
  {
    forall c
      ensures Flags(r1 + r2 + r3, c) <==> Flags(r1, c)
    {
      if Flags(r1 + r2 + r3, c) {
        var i :| 0 <= i < |r1 + r2 + r3| && (r1 + r2 + r3)[i].kind == ExpenseReduction && (r1 + r2 + r3)[i].category == c;
        assert i < |r1|;
        assert r1[i] == (r1 + r2 + r3)[i];
      }
      if Flags(r1, c) {
        var i :| 0 <= i < |r1| && r1[i].kind == ExpenseReduction && r1[i].category == c;
        assert (r1 + r2 + r3)[i] == r1[i];
      }
    }
  }

  /** A watched category is flagged exactly when its share of the expenses is above its
      limit: entertainment 15 %, food 25 %, transportation 20 %, housing 30 %. */
  lemma CategoryLimitRule(a: Analysis, c: string, limit: real)
    requires (c, limit) in CategoryLimits
    ensures Flags(ExpenseRecs(a), c) <==> c in a.categoryPercentages && a.categoryPercentages[c] > limit * 100.0
  {
    var j :| 0 <= j < |CategoryLimits| && CategoryLimits[j] == (c, limit);
    assert forall j1, j2 :: 0 <= j1 < |CategoryLimits| && 0 <= j2 < |CategoryLimits| && CategoryLimits[j1].0 == CategoryLimits[j2].0 ==> j1 == j2;
    if c in a.categoryPercentages {
      RatioAgainst(a.categoryPercentages[c], 100.0, limit);
    }
  }

  /** `_generate_debt_management_recommendations`: nothing without debts or when they
      total 0; otherwise a reduction above 40 % of income, the payment strategy (5 % of the
      debt a month) whenever the total is positive, and consolidation above 30 %. */
  function DebtRecs(a: Analysis): (r: seq<Rec>)
    ensures |r| <= 3
    ensures !a.hasDebts || a.totalDebts == 0.0 ==> r == []
    ensures a.hasDebts && a.totalDebts != 0.0 ==>
              (Emits(r, DebtReduction) <==> a.debtToIncome > 0.4)
              && (Emits(r, DebtStrategy) <==> a.totalDebts > 0.0)
              && (Emits(r, DebtConsolidation) <==> a.debtToIncome > 0.3)
    ensures forall i :: 0 <= i < |r| && r[i].kind == DebtStrategy ==> r[i].amount * 20.0 == a.totalDebts
    ensures forall i :: 0 <= i < |r| ==> r[i].kind in {DebtReduction, DebtStrategy, DebtConsolidation}
    ensures Prioritised(r) && OnceEach(r)
  {
    if !a.hasDebts || a.totalDebts == 0.0 then []
    else
      var c1, x1 := a.debtToIncome > 0.4, Rec(DebtReduction, High, "", 0.0);
      var c2, x2 := a.totalDebts > 0.0, Rec(DebtStrategy, Medium, "", a.totalDebts * 0.05);
      var c3, x3 := a.debtToIncome > 0.3, Rec(DebtConsolidation, Medium, "", 0.0);
      EmitsWhenThree(c1, x1, c2, x2, c3, x3, DebtReduction);
      EmitsWhenThree(c1, x1, c2, x2, c3, x3, DebtStrategy);
      EmitsWhenThree(c1, x1, c2, x2, c3, x3, DebtConsolidation);
      WhenThreeKinds(c1, x1, c2, x2, c3, x3);
      When(c1, x1) + When(c2, x2) + When(c3, x3)
  }

  /** A ratio above 40 % is also above 30 %: a debt reduction always comes with the
      consolidation advice. */
  lemma ReductionImpliesConsolidation(a: Analysis)
    requires Emits(DebtRecs(a), DebtReduction)
    ensures Emits(DebtRecs(a), DebtConsolidation)
  {
  }

  /** `_generate_budget_recommendations`. */
  function BudgetRecs(a: Analysis): (r: seq<Rec>)
    ensures |r| <= 3
    ensures Emits(r, BudgetCreation) <==> !a.hasBudget && a.totalIncome > 0.0
    ensures Emits(r, BudgetRule) <==> a.totalIncome > 0.0
    ensures Emits(r, BudgetReview) <==> a.hasBudget
    ensures forall i :: 0 <= i < |r| ==> r[i].kind in {BudgetCreation, BudgetRule, BudgetReview}
    ensures Prioritised(r) && OnceEach(r)
  {
    var c1, x1 := !a.hasBudget && a.totalIncome > 0.0, Rec(BudgetCreation, High, "", 0.0);
    var c2, x2 := a.totalIncome > 0.0, Rec(BudgetRule, Medium, "", 0.0);
    var c3, x3 := a.hasBudget, Rec(BudgetReview, Low, "", 0.0);
    EmitsWhenThree(c1, x1, c2, x2, c3, x3, BudgetCreation);
    EmitsWhenThree(c1, x1, c2, x2, c3, x3, BudgetRule);
    EmitsWhenThree(c1, x1, c2, x2, c3, x3, BudgetReview);
    WhenThreeKinds(c1, x1, c2, x2, c3, x3);
    When(c1, x1) + When(c2, x2) + When(c3, x3)
  }

  /** Creating a budget and reviewing one are never advised together. */
  lemma CreationExcludesReview(a: Analysis)
    ensures !(Emits(BudgetRecs(a), BudgetCreation) && Emits(BudgetRecs(a), BudgetReview))
  {
  }

  /** `_generate_investment_recommendations`. */
  function InvestmentRecs(a: Analysis): (r: seq<Rec>)
    ensures |r| <= 2
    ensures Emits(r, InvestmentStart) <==> a.healthScore >= 7.0 && a.debtToIncome < 0.3 && a.savingsRate > 0.15
    ensures Emits(r, Diversification) <==> a.savingsRate > 0.2
    ensures forall i :: 0 <= i < |r| ==> r[i].kind in {InvestmentStart, Diversification} && r[i].priority == Low
    ensures Prioritised(r) && OnceEach(r)
  {
    var r1 := When(a.healthScore >= 7.0 && a.debtToIncome < 0.3 && a.savingsRate > 0.15, Rec(InvestmentStart, Low, "", 0.0));
    var r2 := When(a.savingsRate > 0.2, Rec(Diversification, Low, "", 0.0));
    EmitsAppend(r1, r2, InvestmentStart);
    EmitsAppend(r1, r2, Diversification);
    EmitsWhen(a.healthScore >= 7.0 && a.debtToIncome < 0.3 && a.savingsRate > 0.15, Rec(InvestmentStart, Low, "", 0.0), InvestmentStart);
    EmitsWhen(a.healthScore >= 7.0 && a.debtToIncome < 0.3 && a.savingsRate > 0.15, Rec(InvestmentStart, Low, "", 0.0), Diversification);
    EmitsWhen(a.savingsRate > 0.2, Rec(Diversification, Low, "", 0.0), InvestmentStart);
    EmitsWhen(a.savingsRate > 0.2, Rec(Diversification, Low, "", 0.0), Diversification);
    WhenTwoKinds(a.healthScore >= 7.0 && a.debtToIncome < 0.3 && a.savingsRate > 0.15, Rec(InvestmentStart, Low, "", 0.0),
                 a.savingsRate > 0.2, Rec(Diversification, Low, "", 0.0));
    r1 + r2
  }

  /** The five generators in the order `generate_recommendations` runs them: at most 17
      recommendations in all. */
  function AllRecs(a: Analysis): (r: seq<Rec>)
    ensures |r| <= 17
    ensures Prioritised(r)
  {
    var r1, r2, r3, r4, r5 := SavingsRecs(a), ExpenseRecs(a), DebtRecs(a), BudgetRecs(a), InvestmentRecs(a);
    PrioritisedAppend(r1, r2);
    PrioritisedAppend(r1 + r2, r3);
    PrioritisedAppend(r1 + r2 + r3, r4);
    PrioritisedAppend(r1 + r2 + r3 + r4, r5);
    r1 + r2 + r3 + r4 + r5
  }

  lemma PrioritisedAppend(a: seq<Rec>, b: seq<Rec>)
    requires Prioritised(a) && Prioritised(b)
    ensures Prioritised(a + b)
  {
    forall i | 0 <= i < |a + b|
      ensures (a + b)[i].priority == PriorityOf((a + b)[i].kind)
    {
      if i >= |a| {
        assert (a + b)[i] == b[i - |a|];
      }
    }
  }

  /** The number of recommendations whose priority is `p`. */
  function CountPriority(recs: seq<Rec>, p: string): (n: nat)
    ensures n <= |recs|
  {
    if |recs| == 0 then 0
    else CountPriority(recs[..|recs| - 1], p) + (if recs[|recs| - 1].priority == p then 1 else 0)
  }

  lemma CountPrioritySnoc(recs: seq<Rec>, x: Rec, p: string)
    ensures CountPriority(recs + [x], p) == CountPriority(recs, p) + (if x.priority == p then 1 else 0)
  {
    assert (recs + [x])[..|recs|] == recs;
  }

  /** The weighted count `3·high + 2·medium + 1·low`. */
  function Weighted(recs: seq<Rec>): nat {
    3 * CountPriority(recs, High) + 2 * CountPriority(recs, Medium) + CountPriority(recs, Low)
  }

  /** `_calculate_priority_score`: the weighted count, raised by 5 for a health score below
      4, lowered by 2 (but not under 1) above 8, and capped at 10. */
  function PriorityScore(recs: seq<Rec>, health: real): (r: real)
    ensures 0.0 <= r <= 10.0
    ensures health < 4.0 ==> r >= 5.0
    ensures health > 8.0 ==> r >= 1.0
    ensures health < 4.0 ==> r == Min(10.0, Weighted(recs) as real + 5.0)
    ensures 4.0 <= health <= 8.0 ==> r == Min(10.0, Weighted(recs) as real)
    ensures health > 8.0 ==> r == Min(10.0, Max(1.0, Weighted(recs) as real - 2.0))
  {
    var s := Weighted(recs) as int;
    var adjusted := if health < 4.0 then s + 5 else if health > 8.0 then (if s - 2 > 1 then s - 2 else 1) else s;
    Min(10.0, adjusted as real)
  }

  /** One more recommendation never lowers the priority score. */
  lemma PriorityScoreMonotone(recs: seq<Rec>, x: Rec, health: real)
    ensures PriorityScore(recs, health) <= PriorityScore(recs + [x], health)
  {
    CountPrioritySnoc(recs, x, High);
    CountPrioritySnoc(recs, x, Medium);
    CountPrioritySnoc(recs, x, Low);
  }

  /** `priority_order.get(priority, 2)`: high 0, medium 1, anything else 2. */
  function RankOf(r: Rec): (k: real)
    ensures r.priority == High <==> k == 0.0
    ensures r.priority == Medium <==> k == 1.0
    ensures r.priority != High && r.priority != Medium <==> k == 2.0
  {
    if r.priority == High then 0.0 else if r.priority == Medium then 1.0 else 2.0
  }

  /** `_prioritize_recommendations`: a stable sort by rank, cut to the first eight. */
  function Prioritize(recs: seq<Rec>): (r: seq<Rec>)
    ensures |r| == if |recs| < 8 then |recs| else 8
    ensures Sorting.SortedBy(r, RankOf)
    ensures multiset(r) <= multiset(recs)
    ensures forall v :: Sorting.Where(r, RankOf, v) <= Sorting.Where(recs, RankOf, v)
  {
    var sorted := Sorting.SortBy(recs, RankOf);
    Sorting.TakeOfSorted(sorted, 8, RankOf);
    Sorting.Take(sorted, 8)
  }

  /** A recommendation is dropped only when eight at least as urgent are kept. */
  lemma DroppedAreLeastUrgent(recs: seq<Rec>, x: Rec)
    requires x in recs && x !in Prioritize(recs)
    ensures |Prioritize(recs)| == 8
    ensures forall i :: 0 <= i < 8 ==> RankOf(Prioritize(recs)[i]) <= RankOf(x)
  {
    var sorted := Sorting.SortBy(recs, RankOf);
    assert x in multiset(sorted);
    var j :| 0 <= j < |sorted| && sorted[j] == x;
    var r := Prioritize(recs);
    assert r == sorted[..|r|];
  }

  /** What `generate_recommendations` returns (the analysis date aside). */
  datatype Response = Response(recommendations: seq<Rec>, priorityScore: real, healthScore: real, total: nat)

  /** `generate_recommendations`: the priority score is taken over every generated
      recommendation, before the list is cut to eight. */
  function GenerateRecommendations(rows: seq<Row>, hasBudget: bool, debts: seq<real>, now: Stamp): (r: Response)
    ensures r.total == |r.recommendations| <= 8
    ensures 0.0 <= r.priorityScore <= 10.0
    ensures 1.0 <= r.healthScore <= 10.0
    ensures Sorting.SortedBy(r.recommendations, RankOf)
    ensures multiset(r.recommendations) <= multiset(AllRecs(Analyze(rows, hasBudget, debts, now)))
    ensures r.recommendations == Prioritize(AllRecs(Analyze(rows, hasBudget, debts, now)))
    ensures var a := Analyze(rows, hasBudget, debts, now);
            r.priorityScore == PriorityScore(AllRecs(a), a.healthScore) && r.healthScore == a.healthScore
  {
    var a := Analyze(rows, hasBudget, debts, now);
    var all := AllRecs(a);
    var kept := Prioritize(all);
    Response(kept, PriorityScore(all, a.healthScore), a.healthScore, |kept|)
  }

  /** A generated recommendation is left out of the response only when eight at least as
      urgent are returned. */
  lemma GeneratedDroppedAreLeastUrgent(rows: seq<Row>, hasBudget: bool, debts: seq<real>, now: Stamp, x: Rec)
    requires x in AllRecs(Analyze(rows, hasBudget, debts, now))
    requires x !in GenerateRecommendations(rows, hasBudget, debts, now).recommendations
    ensures var kept := GenerateRecommendations(rows, hasBudget, debts, now).recommendations;
            |kept| == 8 && forall i :: 0 <= i < 8 ==> RankOf(kept[i]) <= RankOf(x)
  {
    DroppedAreLeastUrgent(AllRecs(Analyze(rows, hasBudget, debts, now)), x);
  }

  /** The analysis and the financial summary agree on the income and expense totals. */
  lemma AnalysisAgreesWithSummary(rows: seq<Row>, hasBudget: bool, debts: seq<real>, now: Stamp)
    ensures var a := Analyze(rows, hasBudget, debts, now);
            var s := Summarize(rows, now);
            |rows| > 0 ==> a.totalIncome == s.totalIncome && a.totalExpenses == s.totalExpenses && a.netIncome == s.netBalance
  {
  }

  /** With no transactions nothing is advised: the score is 0 and the health score 5. */
  lemma NoTransactionsNoAdvice(hasBudget: bool, debts: seq<real>, now: Stamp)
    ensures GenerateRecommendations([], hasBudget, debts, now) == Response([], 0.0, 5.0, 0)
  {
    FallbackAdvisesNothing();
    EmptyAdviceResponse();
    assert Analyze([], hasBudget, debts, now) == Fallback;
  }

  /** No recommendations at a health score of 5 make the empty response. */
  lemma EmptyAdviceResponse()
    ensures Prioritize([]) == [] && PriorityScore([], 5.0) == 0.0
  {
    assert Weighted([]) == 0;
  }

  /** The neutral analysis triggers none of the five generators. */
  lemma FallbackAdvisesNothing()
    ensures AllRecs(Fallback) == []
  {
    FallbackSavings();
    FallbackExpenses();
    FallbackBudget();
    FallbackInvestment();
    assert DebtRecs(Fallback) == [];
  }

  lemma FallbackSavings()
    ensures SavingsRecs(Fallback) == []
  {
    NoKindNoRecs(SavingsRecs(Fallback), {SavingsIncrease, EmergencyFund, AutomaticSavings});
  }

  lemma FallbackExpenses()
    ensures ExpenseRecs(Fallback) == []
  {
    var e := ExpenseRecs(Fallback);
    if Emits(e, ExpenseReduction) {
      var i :| 0 <= i < |e| && e[i].kind == ExpenseReduction;
      assert Flags(e, e[i].category);
    }
    NoKindNoRecs(e, {ExpenseReduction, ExpenseTrend, SmallExpenses});
  }

  lemma FallbackBudget()
    ensures BudgetRecs(Fallback) == []
  {
    NoKindNoRecs(BudgetRecs(Fallback), {BudgetCreation, BudgetRule, BudgetReview});
  }

  lemma FallbackInvestment()
    ensures InvestmentRecs(Fallback) == []
  {
    NoKindNoRecs(InvestmentRecs(Fallback), {InvestmentStart, Diversification});
  }

  /** A list drawn from `kinds` that emits none of them is empty. */
  lemma NoKindNoRecs(r: seq<Rec>, kinds: set<Kind>)
    requires forall i :: 0 <= i < |r| ==> r[i].kind in kinds
    requires forall k :: k in kinds ==> !Emits(r, k)
    ensures r == []
  {
    if |r| > 0 {
      assert Emits(r, r[0].kind);
    }
  }
}

=== FILE: seqs.dfy ===
/** Order-preserving filtering and mapping: `Array.prototype.filter` / `map` and Python
    list comprehensions. */
module Seqs {

  /** The elements of `s` satisfying `p`, in their order in `s`. */
  function Filter<T>(s: seq<T>, p: T -> bool): (r: seq<T>)
    ensures |r| <= |s|
    ensures forall i :: 0 <= i < |r| ==> p(r[i])
    ensures forall i :: 0 <= i < |r| ==> r[i] in s
    ensures forall i :: 0 <= i < |s| && p(s[i]) ==> s[i] in r
    ensures (forall i :: 0 <= i < |s| ==> p(s[i])) ==> r == s
    ensures (forall i :: 0 <= i < |s| ==> !p(s[i])) ==> r == []
  {
    if |s| == 0 then []
    else
      var n := |s|;
      assert forall i :: 0 <= i < n - 1 ==> s[..n - 1][i] == s[i];
      assert s == s[..n - 1] + [s[n - 1]];
      Filter(s[..n - 1], p) + (if p(s[n - 1]) then [s[n - 1]] else [])
  }

  /** Filtering distributes over concatenation, so it keeps the relative order of the
      elements it retains. */
  lemma {:induction false} FilterAppend<T>(a: seq<T>, b: seq<T>, p: T -> bool)
    ensures Filter(a + b, p) == Filter(a, p) + Filter(b, p)
    decreases |b|
  {
    if |b| == 0 {
      assert a + b == a;
    } else {
      var n := |b|;
      assert (a + b)[..|a + b| - 1] == a + b[..n - 1];
      FilterAppend(a, b[..n - 1], p);
    }
  }

  /** Appending one element appends it to the result exactly when it passes. */
  lemma FilterSnoc<T>(s: seq<T>, x: T, p: T -> bool)
    ensures Filter(s + [x], p) == Filter(s, p) + (if p(x) then [x] else [])
  {
    assert (s + [x])[..|s|] == s;
  }

  /** `f` applied to every element of `s`, in order. */
  function Map<A, B>(s: seq<A>, f: A -> B): (r: seq<B>)
    ensures |r| == |s| && forall i :: 0 <= i < |s| ==> r[i] == f(s[i])
  {
    seq(|s|, i requires 0 <= i < |s| => f(s[i]))
  }

  /** Mapping distributes over concatenation. */
  lemma MapAppend<A, B>(a: seq<A>, b: seq<A>, f: A -> B)
    ensures Map(a + b, f) == Map(a, f) + Map(b, f)
  {
    var l, r := Map(a + b, f), Map(a, f) + Map(b, f);
    forall i | 0 <= i < |l|
      ensures l[i] == r[i]
    {
      if i < |a| {
        assert (a + b)[i] == a[i];
      } else {
        assert (a + b)[i] == b[i - |a|];
      }
    }
  }

  /** Selecting then mapping, one element at a time: the last element contributes its image
      exactly when it passes. */
  lemma MapFilterLast<A, B>(s: seq<A>, p: A -> bool, f: A -> B)
    requires |s| > 0
    ensures Map(Filter(s, p), f)
            == Map(Filter(s[..|s| - 1], p), f) + (if p(s[|s| - 1]) then [f(s[|s| - 1])] else [])
  {
    var x := s[|s| - 1];
    var kept := if p(x) then [x] else [];
    var before := Filter(s[..|s| - 1], p);
    assert Filter(s, p) == before + kept;
    MapAppend(before, kept, f);
    assert Map(kept, f) == if p(x) then [f(x)] else [];
  }
}

=== FILE: show_filter.dfy ===
/** The `[ {..., show: cond}, ... ].filter(i => i.show)` idiom of the insight panels: a
    fixed list of candidate cards, each paired with whether it shows. */
module ShowFilter {

  /** The shown candidates, in their original order. */
  function Shown<T>(cs: seq<(T, bool)>): (r: seq<T>)
    ensures |r| <= |cs|
    ensures forall x :: x in r ==> exists i :: 0 <= i < |cs| && cs[i].1 && cs[i].0 == x
  {
    if |cs| == 0 then []
    else
      var rest := Shown(cs[1..]);
      assert forall i :: 1 <= i < |cs| ==> cs[i] == cs[1..][i - 1];
      if cs[0].1 then [cs[0].0] + rest else rest
  }

  /** A three-candidate list keeps each candidate exactly when its flag is set. */
  lemma {:induction false} ShownOfThree<T>(a: (T, bool), b: (T, bool), c: (T, bool))
    ensures Shown([a, b, c]) == (if a.1 then [a.0] else []) + (if b.1 then [b.0] else []) + (if c.1 then [c.0] else [])
  {
    ShownCons(c, []);
    assert [c] == [c] + [];
    ShownCons(b, [c]);
    assert [b, c] == [b] + [c];
    ShownCons(a, [b, c]);
    assert [a, b, c] == [a] + [b, c];
  }

  lemma ShownCons<T>(x: (T, bool), s: seq<(T, bool)>)
    ensures Shown([x] + s) == (if x.1 then [x.0] else []) + Shown(s)
  {
    assert ([x] + s)[1..] == s;
  }
}

=== FILE: signin.dfy ===
/** The sign-in form: client-side validation that stops before any request, and the
    handling of the backend's answer (token stored and redirect, or a general error). */
module Signin {
  import opened Wrappers
  import opened Text
  import opened EmailPattern

  /** The page's `errors` object; an absent key is `None`. */
  datatype Errors = Errors(email: Option<string>, password: Option<string>, general: Option<string>)

  const NoErrors := Errors(None, None, None)

  const EmailRequired := "El correo electr\U{00F3}nico es requerido."
  const EmailInvalid := "Correo electr\U{00F3}nico no v\U{00E1}lido."
  const PasswordRequired := "La contrase\U{00F1}a es requerida."
  const BadCredentials := "Credenciales incorrectas."

  /** The client-side checks: a blank address is missing, otherwise one the pattern rejects
      is malformed; a blank password is missing. They never set the general error. */
  function ClientErrors(email: string, password: string): (r: Errors)
    ensures r.general.None?
    ensures r.email.Some? <==> IsBlank(email) || !IsValidEmail(email)
    ensures r.email == Some(EmailRequired) <==> IsBlank(email)
    ensures r.email == Some(EmailInvalid) <==> !IsBlank(email) && !IsValidEmail(email)
    ensures r.password.Some? <==> IsBlank(password)
    ensures r.password.Some? ==> r.password.value == PasswordRequired
  {
    var emailError :=
      if IsBlank(email) then Some(EmailRequired)
      else if !IsValidEmail(email) then Some(EmailInvalid)
      else None;
    Errors(emailError, if IsBlank(password) then Some(PasswordRequired) else None, None)
  }

  /** What `POST /FineWise/auth/login-user` answers: a token, or a failure whose body may
      carry a `message`. */
  datatype Reply = Authenticated(accessToken: string) | Rejected(message: Option<string>)

  /** The end of one submit: the errors on display, whether the request was made, the
      token written to local storage and whether the page moved to `/dashboard`. */
  datatype Outcome = Outcome(errors: Errors, requested: bool, storedToken: Option<string>, redirected: bool)

  /** `err.response?.data?.message || 'Credenciales incorrectas.'`: an absent or empty
      message gives the default text. */
  function GeneralMessage(message: Option<string>): (r: string)
    ensures r != ""
    ensures message.Some? && message.value != "" ==> r == message.value
    ensures message.None? || message.value == "" ==> r == BadCredentials
  {
    if message.Some? && message.value != "" then message.value else BadCredentials
  }

  /** `handleSubmit`. The errors are cleared first; any client-side error is shown and the
      handler returns before the request; otherwise `reply` is the backend's answer. */
  function HandleSubmit(email: string, password: string, reply: Reply): (o: Outcome)
    ensures o.requested <==> ClientErrors(email, password) == NoErrors
    ensures !o.requested ==> o.errors == ClientErrors(email, password) && o.storedToken.None? && !o.redirected
    ensures o.requested && reply.Authenticated? ==>
              o.errors == NoErrors && o.storedToken == Some(reply.accessToken) && o.redirected
    ensures o.requested && reply.Rejected? ==>
              o.errors == Errors(None, None, Some(GeneralMessage(reply.message))) && o.storedToken.None? && !o.redirected
  {
    var errors := ClientErrors(email, password);
    if errors != NoErrors then Outcome(errors, false, None, false)
    else
      match reply
      case Authenticated(token) => Outcome(NoErrors, true, Some(token), true)
      case Rejected(message) => Outcome(Errors(None, None, Some(GeneralMessage(message))), true, None, false)
  }

  /** The request is made exactly for a valid address and a non-blank password. */
  lemma RequestIffFieldsValid(email: string, password: string, reply: Reply)
    ensures HandleSubmit(email, password, reply).requested <==> IsValidEmail(email) && !IsBlank(password)
  {
    if IsValidEmail(email) {
      ValidIsNotBlank(email);
    }
  }

  /** An address the pattern accepts contains a non-space character. */
  lemma ValidIsNotBlank(email: string)
    requires IsValidEmail(email)
    ensures !IsBlank(email)
  {
    assert !IsJsSpace(email[0]);
  }

  /** A field error and the general error are never shown together, and a failed sign-in
      always has a message to show. */
  lemma GeneralExcludesFieldErrors(email: string, password: string, reply: Reply)
    ensures HandleSubmit(email, password, reply).errors.general.Some? ==>
              HandleSubmit(email, password, reply).errors.email.None? && HandleSubmit(email, password, reply).errors.password.None?
    ensures HandleSubmit(email, password, reply).requested && reply.Rejected? ==>
              HandleSubmit(email, password, reply).errors.general.Some? && HandleSubmit(email, password, reply).errors.general.value != ""
  {
  }
}

=== FILE: signup.dfy ===
/** The sign-up form: its four inputs, the error map `handleSubmit` builds, and the way
    `handleChange` writes one input and clears that input's error. */
module Signup {
  import opened Text
  import opened EmailPattern

  /** The inputs, by their `name` attribute. */
  datatype Field = Name | Email | Password | Accepted

  datatype Form = Form(name: string, email: string, password: string, accepted: bool)

  /** The initial form: empty texts and the terms box unchecked. */
  const EmptyForm := Form("", "", "", false)

  const NameRequired := "Nombre completo es requerido"
  const EmailRequired := "Correo electr\U{00F3}nico es requerido"
  const EmailInvalid := "Correo electr\U{00F3}nico no v\U{00E1}lido"
  const PasswordRequired := "Contrase\U{00F1}a es requerida"
  const TermsRequired := "Debes aceptar los t\U{00E9}rminos y condiciones"

  /** The message shown under an input: `errors[field] && ...` draws it only when it is a
      non-empty string. */
  predicate Shown(errors: map<Field, string>, f: Field) {
    f in errors && errors[f] != ""
  }

  /** `handleSubmit`'s `newErrors`: one entry per failing input. The e-mail is tested
      against the pattern untrimmed, and only when it is not blank. */
  function Validate(form: Form): (errors: map<Field, string>)
    ensures Name in errors <==> IsBlank(form.name)
    ensures Email in errors <==> IsBlank(form.email) || !IsValidEmail(form.email)
    ensures Password in errors <==> IsBlank(form.password)
    ensures Accepted in errors <==> !form.accepted
    ensures Name in errors ==> errors[Name] == NameRequired
    ensures Email in errors ==> (errors[Email] == EmailRequired <==> IsBlank(form.email))
    ensures Email in errors ==> (errors[Email] == EmailInvalid <==> !IsBlank(form.email))
    ensures Password in errors ==> errors[Password] == PasswordRequired
    ensures Accepted in errors ==> errors[Accepted] == TermsRequired
    ensures forall f :: f in errors ==> Shown(errors, f)
  {
    var e0: map<Field, string> := map[];
    var e1 := if IsBlank(form.name) then e0[Name := NameRequired] else e0;
    var e2 := if IsBlank(form.email) then e1[Email := EmailRequired]
              else if !IsValidEmail(form.email) then e1[Email := EmailInvalid]
              else e1;
    var e3 := if IsBlank(form.password) then e2[Password := PasswordRequired] else e2;
    if !form.accepted then e3[Accepted := TermsRequired] else e3
  }

  /** Every input filled in correctly: a non-blank name, an address the pattern accepts,
      a non-blank password and the terms accepted. */
  predicate Complete(form: Form) {
    !IsBlank(form.name) && IsValidEmail(form.email) && !IsBlank(form.password) && form.accepted
  }

  /** `handleSubmit`: the error map replaces the old one, and the registration goes ahead
      (the success alert) exactly when that map is empty. */
  function Submit(form: Form): (r: (map<Field, string>, bool))
    ensures r.0 == Validate(form)
    ensures r.1 <==> |r.0| == 0
  {
    var errors := Validate(form);
    (errors, |errors| == 0)
  }

  /** Submission goes through exactly for a complete form. */
  lemma SubmitIffComplete(form: Form)
    ensures Submit(form).1 <==> Complete(form)
  {
    var errors := Validate(form);
    if !Complete(form) {
      assert exists f :: f in errors;
    }
  }

  /** A padded address is not trimmed before the pattern test, so it is reported as
      malformed rather than missing. */
  lemma PaddedAddressIsMalformed(form: Form)
    requires form.email == " a@b.co"
    ensures Email in Validate(form) && Validate(form)[Email] == EmailInvalid
  {
    UntrimmedSpaceIsInvalid();
    assert !IsJsSpace(form.email[1]);
  }

  /** One change event: a text input carries its value, the checkbox its `checked` state. */
  datatype Change = NameTyped(name: string) | EmailTyped(email: string)
                  | PasswordTyped(password: string) | AcceptedToggled(checked: bool)

  function FieldOf(c: Change): Field {
    match c
    case NameTyped(_) => Name
    case EmailTyped(_) => Email
    case PasswordTyped(_) => Password
    case AcceptedToggled(_) => Accepted
  }

  /** `handleChange`: the changed input takes its new value and its error becomes `""`;
      every other input and every other error stays as it was. */
  function HandleChange(form: Form, errors: map<Field, string>, c: Change): (r: (Form, map<Field, string>))
    ensures r.1.Keys == errors.Keys + {FieldOf(c)}
    ensures r.1[FieldOf(c)] == ""
    ensures forall f :: f in errors && f != FieldOf(c) ==> r.1[f] == errors[f]
    ensures c.NameTyped? ==> r.0 == form.(name := c.name)
    ensures c.EmailTyped? ==> r.0 == form.(email := c.email)
    ensures c.PasswordTyped? ==> r.0 == form.(password := c.password)
    ensures c.AcceptedToggled? ==> r.0 == form.(accepted := c.checked)
  {
    var form' := match c
      case NameTyped(v) => form.(name := v)
      case EmailTyped(v) => form.(email := v)
      case PasswordTyped(v) => form.(password := v)
      case AcceptedToggled(v) => form.(accepted := v);
    (form', errors[FieldOf(c) := ""])
  }

  /** Editing an input hides that input's message and no other. */
  lemma ChangeHidesOnlyItsMessage(form: Form, errors: map<Field, string>, c: Change, f: Field)
    ensures !Shown(HandleChange(form, errors, c).1, FieldOf(c))
    ensures f != FieldOf(c) ==> (Shown(HandleChange(form, errors, c).1, f) <==> Shown(errors, f))
  {
  }
}

=== FILE: sorting.dfy ===
/** Stable sorting by a numeric key: JavaScript's `Array.prototype.sort` with a
    comparator `(a, b) => key(a) - key(b)` and Python's `sorted(xs, key=...)`, both of
    which are stable. */
module Sorting {

  predicate SortedBy<T>(s: seq<T>, key: T -> real) {
    forall i, j :: 0 <= i < j < |s| ==> key(s[i]) <= key(s[j])
  }

  /** The elements of `s` whose key is `v`, in their order in `s`. */
  function Where<T>(s: seq<T>, key: T -> real, v: real): (r: seq<T>)
    ensures |r| <= |s|
    ensures forall i :: 0 <= i < |r| ==> key(r[i]) == v
  {
    if |s| == 0 then []
    else (if key(s[0]) == v then [s[0]] else []) + Where(s[1..], key, v)
  }

  /** Inserts `x` in front of the first element whose key is not smaller than its own. */
  function Insert<T>(x: T, s: seq<T>, key: T -> real): (r: seq<T>)
    requires SortedBy(s, key)
    ensures |r| == |s| + 1
    ensures SortedBy(r, key)
    ensures multiset(r) == multiset(s) + multiset{x}
    ensures forall v :: Where(r, key, v) == if key(x) == v then [x] + Where(s, key, v) else Where(s, key, v)
  {
    if |s| == 0 || key(x) <= key(s[0]) then
      InsertFront(x, s, key);
      [x] + s
    else
      var t := Insert(x, s[1..], key);
      InsertBehind(x, s, key, t);
      [s[0]] + t
  }

  /** The elements of one key in `[a] + s`. */
  lemma WhereCons<T>(a: T, s: seq<T>, key: T -> real, v: real)
    ensures Where([a] + s, key, v) == (if key(a) == v then [a] else []) + Where(s, key, v)
  {
    assert ([a] + s)[1..] == s;
  }

  lemma InsertFront<T>(x: T, s: seq<T>, key: T -> real)
    requires SortedBy(s, key)
    requires |s| == 0 || key(x) <= key(s[0])
    ensures SortedBy([x] + s, key)
    ensures multiset([x] + s) == multiset(s) + multiset{x}
    ensures forall v :: Where([x] + s, key, v) == if key(x) == v then [x] + Where(s, key, v) else Where(s, key, v)
  {
    SortedFront(x, s, key);
    WhereFront(x, s, key);
  }

  lemma SortedFront<T>(x: T, s: seq<T>, key: T -> real)
    requires SortedBy(s, key)
    requires |s| == 0 || key(x) <= key(s[0])
    ensures SortedBy([x] + s, key)
  {
    var r := [x] + s;
    forall i, j | 0 <= i < j < |r|
      ensures key(r[i]) <= key(r[j])
    {
      assert r[j] == s[j - 1];
      if i == 0 {
        assert key(s[0]) <= key(s[j - 1]);
      } else {
        assert r[i] == s[i - 1];
      }
    }
  }

  lemma WhereFront<T>(x: T, s: seq<T>, key: T -> real)
    ensures forall v :: Where([x] + s, key, v) == if key(x) == v then [x] + Where(s, key, v) else Where(s, key, v)
  {
    forall v
      ensures Where([x] + s, key, v) == if key(x) == v then [x] + Where(s, key, v) else Where(s, key, v)
    {
      WhereCons(x, s, key, v);
    }
  }

  lemma InsertBehind<T>(x: T, s: seq<T>, key: T -> real, t: seq<T>)
    requires SortedBy(s, key) && |s| > 0 && key(x) > key(s[0])
    requires |t| == |s| && SortedBy(t, key)
    requires multiset(t) == multiset(s[1..]) + multiset{x}
    requires forall v :: Where(t, key, v) == if key(x) == v then [x] + Where(s[1..], key, v) else Where(s[1..], key, v)
    ensures SortedBy([s[0]] + t, key)
    ensures multiset([s[0]] + t) == multiset(s) + multiset{x}
    ensures forall v :: Where([s[0]] + t, key, v) == if key(x) == v then [x] + Where(s, key, v) else Where(s, key, v)
  {
    SortedBehind(x, s, key, t);
    WhereBehind(x, s, key, t);
    MultisetBehind(x, s, t);
  }

  lemma MultisetBehind<T>(x: T, s: seq<T>, t: seq<T>)
    requires |s| > 0
    requires multiset(t) == multiset(s[1..]) + multiset{x}
    ensures multiset([s[0]] + t) == multiset(s) + multiset{x}
  {
    assert s == [s[0]] + s[1..];
  }

  lemma SortedBehind<T>(x: T, s: seq<T>, key: T -> real, t: seq<T>)
    requires SortedBy(s, key) && |s| > 0 && key(x) > key(s[0])
    requires SortedBy(t, key)
    requires multiset(t) == multiset(s[1..]) + multiset{x}
    ensures SortedBy([s[0]] + t, key)
  {
    forall i | 0 <= i < |t|
      ensures key(s[0]) <= key(t[i])
    {
      assert t[i] in multiset(t);
      if t[i] != x {
        assert t[i] in multiset(s[1..]);
        var j :| 0 <= j < |s[1..]| && s[1..][j] == t[i];
        assert s[j + 1] == t[i];
      }
    }
  }

  lemma WhereBehind<T>(x: T, s: seq<T>, key: T -> real, t: seq<T>)
    requires |s| > 0 && key(x) > key(s[0])
    requires forall v :: Where(t, key, v) == if key(x) == v then [x] + Where(s[1..], key, v) else Where(s[1..], key, v)
    ensures forall v :: Where([s[0]] + t, key, v) == if key(x) == v then [x] + Where(s, key, v) else Where(s, key, v)
  {
    forall v
      ensures Where([s[0]] + t, key, v) == if key(x) == v then [x] + Where(s, key, v) else Where(s, key, v)
    {
      WhereBehindAt(x, s, key, t, v);
    }
  }

  lemma WhereBehindAt<T>(x: T, s: seq<T>, key: T -> real, t: seq<T>, v: real)
    requires |s| > 0 && key(x) > key(s[0])
    requires Where(t, key, v) == if key(x) == v then [x] + Where(s[1..], key, v) else Where(s[1..], key, v)
    ensures Where([s[0]] + t, key, v) == if key(x) == v then [x] + Where(s, key, v) else Where(s, key, v)
  {
    WhereCons(s[0], t, key, v);
    WhereCons(s[0], s[1..], key, v);
    assert [s[0]] + s[1..] == s;
  }

  /** The stable sort of `s` by ascending key: a sorted permutation of `s` in which the
      elements sharing a key keep their original relative order. */
  function SortBy<T>(s: seq<T>, key: T -> real): (r: seq<T>)
    ensures |r| == |s|
    ensures SortedBy(r, key)
    ensures multiset(r) == multiset(s)
    ensures forall v :: Where(r, key, v) == Where(s, key, v)
  {
    if |s| == 0 then []
    else
      assert s == [s[0]] + s[1..];
      Insert(s[0], SortBy(s[1..], key), key)
  }

  /** Python's `xs[:n]` and JavaScript's `xs.slice(0, n)`: at most the first `n` elements. */
  function Take<T>(s: seq<T>, n: nat): (r: seq<T>)
    ensures |r| == if |s| < n then |s| else n
    ensures r == s[..|r|]
    ensures |s| <= n ==> r == s
  {
    if |s| <= n then s else s[..n]
  }

  /** The elements of one key in a prefix are a prefix of that key's elements. */
  lemma {:induction false} WherePrefix<T>(s: seq<T>, k: nat, key: T -> real, v: real)
    requires k <= |s|
    ensures Where(s[..k], key, v) <= Where(s, key, v)
  {
    if k > 0 {
      assert s[..k][1..] == s[1..][..k - 1];
      WherePrefix(s[1..], k - 1, key, v);
    }
  }

  /** A prefix holds no element more often than the whole sequence. */
  lemma PrefixMultiset<T>(s: seq<T>, k: nat)
    requires k <= |s|
    ensures multiset(s[..k]) <= multiset(s)
  {
    assert s == s[..k] + s[k..];
  }

  /** The first `n` elements of a stable sort stay sorted, hold nothing the input does
      not, and take each key's elements from the front of that key's run. */
  lemma TakeOfSorted<T>(s: seq<T>, n: nat, key: T -> real)
    requires SortedBy(s, key)
    ensures SortedBy(Take(s, n), key)
    ensures multiset(Take(s, n)) <= multiset(s)
    ensures forall v :: Where(Take(s, n), key, v) <= Where(s, key, v)
  {
    var r := Take(s, n);
    PrefixMultiset(s, |r|);
    forall v
      ensures Where(r, key, v) <= Where(s, key, v)
    {
      WherePrefix(s, |r|, key, v);
    }
  }

  /** Appending an element whose key bounds every key keeps a sequence sorted. */
  lemma SortedSnoc<T>(s: seq<T>, x: T, key: T -> real)
    requires SortedBy(s, key)
    requires forall i :: 0 <= i < |s| ==> key(s[i]) <= key(x)
    ensures SortedBy(s + [x], key)
  {
  }
}

=== FILE: text.dfy ===
/** Character classes and string operations shared by the JavaScript front end
    and the Python service: whitespace, case mapping, trimming, substring search. */
module Text {

  /** Characters matched by `\s` in a JavaScript regular expression; they are also
      exactly the characters `String.prototype.trim` removes. */
  predicate IsJsSpace(c: char) {
    || c == ' ' || c == '\t' || c == '\n' || c == '\U{000B}' || c == '\U{000C}' || c == '\r'
    || c == '\U{00A0}' || c == '\U{1680}' || ('\U{2000}' <= c <= '\U{200A}')
    || c == '\U{2028}' || c == '\U{2029}' || c == '\U{202F}' || c == '\U{205F}'
    || c == '\U{3000}' || c == '\U{FEFF}'
  }

  /** Characters for which Python's `str.isspace` holds; `str.strip()` removes them. */
  predicate IsPySpace(c: char) {
    || c == ' ' || ('\t' <= c <= '\r') || ('\U{001C}' <= c <= '\U{001F}')
    || c == '\U{0085}' || c == '\U{00A0}' || c == '\U{1680}' || ('\U{2000}' <= c <= '\U{200A}')
    || c == '\U{2028}' || c == '\U{2029}' || c == '\U{202F}' || c == '\U{205F}' || c == '\U{3000}'
  }

  /** `!s.trim()` in JavaScript: the trimmed string is empty, i.e. every character is whitespace. */
  predicate IsBlank(s: string) {
    forall i :: 0 <= i < |s| ==> IsJsSpace(s[i])
  }

  /** Lower-case mapping of one character, on the Basic Latin and Latin-1 letters
      (the range in which JavaScript `toLowerCase` and Python `lower` agree letter by letter). */
  function LowerChar(c: char): (r: char)
    ensures 'A' <= c <= 'Z' ==> 'a' <= r <= 'z'
    ensures !('A' <= c <= 'Z') && !('\U{00C0}' <= c <= '\U{00DE}') ==> r == c
  {
    if 'A' <= c <= 'Z' || ('\U{00C0}' <= c <= '\U{00DE}' && c != '\U{00D7}')
    then (c as int + 32) as char
    else c
  }

  function Lower(s: string): (r: string)
    ensures |r| == |s|
    ensures forall i :: 0 <= i < |s| ==> r[i] == LowerChar(s[i])
  {
    if |s| == 0 then "" else [LowerChar(s[0])] + Lower(s[1..])
  }

  /** Python `str.strip()` with no argument: leading and trailing whitespace removed. */
  function Strip(s: string): (r: string)
    ensures |r| <= |s|
    ensures |r| > 0 ==> !IsPySpace(r[0]) && !IsPySpace(r[|r| - 1])
    ensures (forall i :: 0 <= i < |s| ==> IsPySpace(s[i])) <==> r == ""
  {
    StripEnd(StripStart(s))
  }

  function StripStart(s: string): (r: string)
    ensures |r| <= |s| && r == s[|s| - |r|..]
    ensures |r| > 0 ==> !IsPySpace(r[0])
    ensures r == "" <==> forall i :: 0 <= i < |s| ==> IsPySpace(s[i])
  {
    if |s| > 0 && IsPySpace(s[0]) then StripStart(s[1..]) else s
  }

  function StripEnd(s: string): (r: string)
    ensures |r| <= |s| && r == s[..|r|]
    ensures |r| > 0 ==> !IsPySpace(r[|r| - 1])
    ensures r == "" <==> forall i :: 0 <= i < |s| ==> IsPySpace(s[i])
  {
    if |s| > 0 && IsPySpace(s[|s| - 1]) then StripEnd(s[..|s| - 1]) else s
  }

  predicate IsPrefix(p: string, s: string) {
    |p| <= |s| && s[..|p|] == p
  }

  /** `s.includes(sub)` in JavaScript, `sub in s` in Python. */
  predicate Contains(s: string, sub: string)
    decreases |s|
  {
    IsPrefix(sub, s) || (|s| > 0 && Contains(s[1..], sub))
  }

  /** `sub` occurs in `s` starting at offset `k`. */
  predicate OccursAt(s: string, sub: string, k: int) {
    0 <= k <= |s| - |sub| && s[k..k + |sub|] == sub
  }

  /** The search agrees with the declarative reading: `sub` occurs at some offset of `s`. */
  lemma {:induction false} ContainsIffOccurs(s: string, sub: string)
    ensures Contains(s, sub) <==> exists k :: OccursAt(s, sub, k)
    decreases |s|
  {
    if IsPrefix(sub, s) {
      assert OccursAt(s, sub, 0);
    } else if |s| > 0 {
      ContainsIffOccurs(s[1..], sub);
      if exists k :: OccursAt(s, sub, k) {
        var k :| OccursAt(s, sub, k);
        assert k > 0;
        assert s[1..][k - 1..k - 1 + |sub|] == s[k..k + |sub|];
        assert OccursAt(s[1..], sub, k - 1);
      }
      if Contains(s[1..], sub) {
        var k :| OccursAt(s[1..], sub, k);
        assert s[k + 1..k + 1 + |sub|] == s[1..][k..k + |sub|];
        assert OccursAt(s, sub, k + 1);
      }
    } else {
      assert forall k :: !OccursAt(s, sub, k);
    }
  }

  /** Python `s.split(sep)`: the pieces between occurrences of the one-character separator. */
  function Split(s: string, sep: char): (r: seq<string>)
    ensures |r| >= 1
    ensures forall i :: 0 <= i < |r| ==> sep !in r[i]
    ensures sep !in s ==> r == [s]
    ensures sep in s ==> |r| >= 2
    ensures IsPrefix(r[0], s) && (|r[0]| == |s| || s[|r[0]|] == sep)
    decreases |s|
  {
    if sep !in s then [s]
    else
      var i := IndexOf(s, sep);
      [s[..i]] + Split(s[i + 1..], sep)
  }

  /** Position of the first occurrence of `c` in `s`. */
  function IndexOf(s: string, c: char): (i: nat)
    requires c in s
    ensures i < |s| && s[i] == c && c !in s[..i]
  {
    if s[0] == c then 0 else 1 + IndexOf(s[1..], c)
  }

  /** The second piece of a split is the first piece of what follows the first separator. */
  lemma SecondPiece(s: string, sep: char)
    requires sep in s
    ensures var rest := s[IndexOf(s, sep) + 1..];
            Split(s, sep)[1] == Split(rest, sep)[0] && IsPrefix(Split(s, sep)[1], rest)
            && (|Split(s, sep)[1]| == |rest| || rest[|Split(s, sep)[1]|] == sep)
  {
  }

  /** Python's `sep.join(parts)` and JavaScript's `parts.join(sep)`. */
  function Join(parts: seq<string>, sep: char): (r: string)
    requires |parts| >= 1
    ensures |parts| == 1 ==> r == parts[0]
    ensures IsPrefix(parts[0], r)
  {
    if |parts| == 1 then parts[0] else parts[0] + [sep] + Join(parts[1..], sep)
  }

  /** Joining the fields of a split with the same separator gives the text back, so the
      fields are the maximal separator-free runs of `s`, in order. */
  lemma {:induction false} JoinSplit(s: string, sep: char)
    ensures Join(Split(s, sep), sep) == s
    decreases |s|
  {
    if sep in s {
      var i := IndexOf(s, sep);
      JoinSplit(s[i + 1..], sep);
      assert Split(s, sep)[1..] == Split(s[i + 1..], sep);
      assert s == s[..i] + [sep] + s[i + 1..];
    }
  }

  /** Splitting two separator-free pieces joined by the separator gives the pieces back. */
  lemma SplitJoined(a: string, b: string, sep: char)
    requires sep !in a && sep !in b
    ensures Split(a + [sep] + b, sep) == [a, b]
  {
    var s := a + [sep] + b;
    assert s[|a|] == sep;
    var i := IndexOf(s, sep);
    assert i == |a|;
    assert s[..i] == a;
    assert s[i + 1..] == b;
  }

  /** Python's `<` on strings: lexicographic by code point, a proper prefix first. */
  predicate StrLess(a: string, b: string) {
    |b| > 0 && (|a| == 0 || a[0] < b[0] || (a[0] == b[0] && StrLess(a[1..], b[1..])))
  }

  lemma {:induction false} StrLessIrreflexive(a: string)
    ensures !StrLess(a, a)
  {
    if |a| > 0 {
      StrLessIrreflexive(a[1..]);
    }
  }

  lemma {:induction false} StrLessTransitive(a: string, b: string, c: string)
    requires StrLess(a, b) && StrLess(b, c)
    ensures StrLess(a, c)
  {
    if |a| > 0 && a[0] == b[0] && b[0] == c[0] {
      StrLessTransitive(a[1..], b[1..], c[1..]);
    }
  }

  lemma {:induction false} StrLessTotal(a: string, b: string)
    requires a != b
    ensures StrLess(a, b) || StrLess(b, a)
  {
    if |a| > 0 && |b| > 0 && a[0] == b[0] {
      assert a == [a[0]] + a[1..] && b == [b[0]] + b[1..];
      StrLessTotal(a[1..], b[1..]);
    }
  }

  /** A string without surrounding whitespace is its own strip. */
  lemma StripFixed(x: string)
    requires |x| > 0 ==> !IsPySpace(x[0]) && !IsPySpace(x[|x| - 1])
    ensures Strip(x) == x
  {
  }

  /** `s.lower().strip()` is idempotent: normalising a normalised string changes nothing. */
  lemma StripLowerIdempotent(s: string)
    ensures Strip(Lower(Strip(Lower(s)))) == Strip(Lower(s))
  {
    var l := Lower(s);
    var y := StripStart(l);
    var x := StripEnd(y);
    forall i | 0 <= i < |x|
      ensures LowerChar(x[i]) == x[i]
    {
      assert x[i] == y[i] == l[|l| - |y| + i];
    }
    assert Lower(x) == x;
    StripFixed(x);
  }
}

=== FILE: transactions_view.dfy ===
/** The transactions table: the search / type / account filter, the signed-amount totals
    of the filtered rows and the row-selection state with its header checkbox. Here the
    sign of `amount` carries the direction: positive is income, negative is expense. */
module TransactionsView {
  import opened Numeric
  import opened Text
  import opened Seqs

  datatype Row = Row(id: int, description: string, category: string, amount: real, account: string, kind: string)

  /** Case-insensitive search over the description and the category. */
  predicate MatchesSearch(t: Row, query: string) {
    Contains(Lower(t.description), Lower(query)) || Contains(Lower(t.category), Lower(query))
  }

  /** The type filter compares exactly; the account filter compares the lower-cased account. */
  predicate Matches(t: Row, query: string, typeFilter: string, accountFilter: string) {
    && MatchesSearch(t, query)
    && (typeFilter == "all" || t.kind == typeFilter)
    && (accountFilter == "all" || Lower(t.account) == accountFilter)
  }

  /** `filteredTransactions`: the rows that pass all three filters, in table order. */
  function FilteredTransactions(rows: seq<Row>, query: string, typeFilter: string, accountFilter: string): (r: seq<Row>)
    ensures |r| <= |rows|
    ensures forall i :: 0 <= i < |r| ==> r[i] in rows
    ensures forall i :: 0 <= i < |r| ==>
      && (Contains(Lower(r[i].description), Lower(query)) || Contains(Lower(r[i].category), Lower(query)))
      && (typeFilter == "all" || r[i].kind == typeFilter)
      && (accountFilter == "all" || Lower(r[i].account) == accountFilter)
    ensures forall i :: 0 <= i < |rows| && Matches(rows[i], query, typeFilter, accountFilter) ==> rows[i] in r
  {
    Filter(rows, t => Matches(t, query, typeFilter, accountFilter))
  }

  /** With an empty query and both filters at "all" every row is shown. */
  lemma EmptyQueryKeepsEveryRow(rows: seq<Row>)
    ensures FilteredTransactions(rows, "", "all", "all") == rows
  {
    forall i | 0 <= i < |rows|
      ensures Matches(rows[i], "", "all", "all")
    {
      assert IsPrefix("", Lower(rows[i].description));
    }
  }

  /** Filtering a table split in two filters each part, so the shown rows keep their order. */
  lemma FilterKeepsOrder(a: seq<Row>, b: seq<Row>, query: string, typeFilter: string, accountFilter: string)
    ensures FilteredTransactions(a + b, query, typeFilter, accountFilter)
         == FilteredTransactions(a, query, typeFilter, accountFilter) + FilteredTransactions(b, query, typeFilter, accountFilter)
  {
    FilterAppend(a, b, t => Matches(t, query, typeFilter, accountFilter));
  }

  function Ids(rows: seq<Row>): (r: seq<int>)
    ensures |r| == |rows| && forall i :: 0 <= i < |rows| ==> r[i] == rows[i].id
  {
    seq(|rows|, i requires 0 <= i < |rows| => rows[i].id)
  }

  /** `handleSelectAll`: checking selects exactly the filtered ids in order, unchecking clears. */
  function SelectAll(checked: bool, filtered: seq<Row>): (r: seq<int>)
    ensures checked ==> |r| == |filtered| && forall i :: 0 <= i < |r| ==> r[i] == filtered[i].id
    ensures !checked ==> r == []
  {
    if checked then Ids(filtered) else []
  }

  /** `handleSelectTransaction`: checking appends the id even when it is already selected;
      unchecking removes every occurrence of it and keeps the other ids in order. */
  function SelectTransaction(selected: seq<int>, id: int, checked: bool): (r: seq<int>)
    ensures checked ==> |r| == |selected| + 1 && r[..|selected|] == selected && r[|selected|] == id
    ensures !checked ==> id !in r
    ensures !checked ==> forall i :: 0 <= i < |selected| && selected[i] != id ==> selected[i] in r
    ensures !checked ==> forall i :: 0 <= i < |r| ==> r[i] in selected
    ensures !checked && id !in selected ==> r == selected
  {
    if checked then selected + [id] else Filter(selected, t => t != id)
  }

  /** Deselecting keeps the order of the remaining ids: it commutes with splitting the list. */
  lemma DeselectKeepsOrder(a: seq<int>, b: seq<int>, id: int)
    ensures SelectTransaction(a + b, id, false) == SelectTransaction(a, id, false) + SelectTransaction(b, id, false)
  {
    FilterAppend(a, b, t => t != id);
  }

  /** The header checkbox: as many selected ids as filtered rows, and at least one row. */
  predicate HeaderChecked(selected: seq<int>, filtered: seq<Row>) {
    |selected| == |filtered| && |filtered| > 0
  }

  /** Checking the header box checks it, unless no row is shown; unchecking unchecks it. */
  lemma SelectAllChecksHeader(checked: bool, filtered: seq<Row>)
    ensures HeaderChecked(SelectAll(checked, filtered), filtered) <==> checked && |filtered| > 0
  {
  }

  function Amounts(rows: seq<Row>): (r: seq<real>)
    ensures |r| == |rows| && forall i :: 0 <= i < |rows| ==> r[i] == rows[i].amount
  {
    seq(|rows|, i requires 0 <= i < |rows| => rows[i].amount)
  }

  function AbsAmounts(rows: seq<Row>): (r: seq<real>)
    ensures |r| == |rows| && forall i :: 0 <= i < |rows| ==> r[i] == Abs(rows[i].amount)
  {
    seq(|rows|, i requires 0 <= i < |rows| => Abs(rows[i].amount))
  }

  predicate IsIncome(t: Row) { t.amount > 0.0 }

  predicate IsExpense(t: Row) { t.amount < 0.0 }

  /** Sum of the positive amounts. */
  function TotalIncome(filtered: seq<Row>): (r: real)
    ensures r >= 0.0
  {
    var incomes := Filter(filtered, IsIncome);
    SumNonNegative(Amounts(incomes));
    Sum(Amounts(incomes))
  }

  /** Sum of the magnitudes of the negative amounts. */
  function TotalExpenses(filtered: seq<Row>): (r: real)
    ensures r >= 0.0
  {
    var expenses := Filter(filtered, IsExpense);
    SumNonNegative(AbsAmounts(expenses));
    Sum(AbsAmounts(expenses))
  }

  function NetAmount(filtered: seq<Row>): real {
    TotalIncome(filtered) - TotalExpenses(filtered)
  }

  /** The net amount is the plain sum of the signed amounts; zero amounts count in neither total. */
  lemma {:induction false} NetIsSignedSum(rows: seq<Row>)
    ensures NetAmount(rows) == Sum(Amounts(rows))
    decreases |rows|
  {
    if |rows| > 0 {
      var n := |rows|;
      var init, last := rows[..n - 1], rows[n - 1];
      assert rows == init + [last];
      NetIsSignedSum(init);
      IncomeStep(init, last);
      ExpenseStep(init, last);
      AmountsSnoc(init, last);
      SumSnoc(Amounts(init), last.amount);
    }
  }

  /** One more row adds its amount to the income total exactly when the amount is positive. */
  lemma IncomeStep(rows: seq<Row>, t: Row)
    ensures TotalIncome(rows + [t]) == TotalIncome(rows) + (if t.amount > 0.0 then t.amount else 0.0)
  {
    FilterSnoc(rows, t, IsIncome);
    var a := Filter(rows, IsIncome);
    if t.amount > 0.0 {
      assert Filter(rows + [t], IsIncome) == a + [t];
      AmountsSnoc(a, t);
      SumSnoc(Amounts(a), t.amount);
    } else {
      assert Filter(rows + [t], IsIncome) == a;
    }
  }

  /** One more row adds its magnitude to the expense total exactly when the amount is negative. */
  lemma ExpenseStep(rows: seq<Row>, t: Row)
    ensures TotalExpenses(rows + [t]) == TotalExpenses(rows) + (if t.amount < 0.0 then -t.amount else 0.0)
  {
    FilterSnoc(rows, t, IsExpense);
    var a := Filter(rows, IsExpense);
    if t.amount < 0.0 {
      assert Filter(rows + [t], IsExpense) == a + [t];
      AbsAmountsSnoc(a, t);
      SumSnoc(AbsAmounts(a), Abs(t.amount));
    } else {
      assert Filter(rows + [t], IsExpense) == a;
    }
  }

  lemma AmountsSnoc(rows: seq<Row>, t: Row)
    ensures Amounts(rows + [t]) == Amounts(rows) + [t.amount]
  {
  }

  lemma AbsAmountsSnoc(rows: seq<Row>, t: Row)
    ensures AbsAmounts(rows + [t]) == AbsAmounts(rows) + [Abs(t.amount)]
  {
  }
}

=== FILE: wrappers.dfy ===
/** Optional values: the absent field of a JavaScript object (`undefined`/`null`)
    or a Python `None`. */
module Wrappers {

  datatype Option<+T> = None | Some(value: T) {

    /** The wrapped value, or `default` when absent: the `x ?? default` of JavaScript. */
    function GetOr(default: T): T {
      match this
      case Some(v) => v
      case None => default
    }
  }
}
